=== FILE: README.md ===
# A verified model of the linuiz kernel's bit-exact core

linuiz is a hobby x86-64 kernel written in Rust. Most of its core is small,
deterministic logic, and this project models that logic in Dafny and proves
what the code promises about it. The logic covered is:

- address arithmetic and frame/page alignment;
- the frame-state tables and frame allocators (the packed bit-value array,
  the counter-keeping frame allocator, the ref-counting frame manager and
  the byte-per-frame physical memory manager);
- page-table entries and paging depths;
- GDT, TSS and IDT descriptors and selector error codes;
- the local APIC, I/O APIC and 8259 register encodings;
- the UART, PCI, NVMe and AHCI register decoders;
- the small containers: ring deque, raw vec and vec, the two slab
  allocators, the round-robin scheduler queue, and the address space's
  first-fit `mmap`.

Each source file gets its own module (or two, where a file holds both a
word encoding and the state machine over it: `pmm.dfy` holds `PmmFrameData`
and `Pmm`). Three helper modules sit beside
them. `Wrappers` holds `Option` and `Result`. `Words` holds the unsigned
integer widths and powers of two. `Layouts` holds the allocation layout
arithmetic (`pad_to_align`) that the containers and slab allocators
share.

Register images are bit-vectors, read and written through named field
getters and setters. Addresses, indices and counts are bounded integer
subtypes, and any wrap-around is written out. Hardware is not modelled
directly:

- a port, MMIO or MSR access becomes a parameter, or a pure device state;
- a panic in the source becomes a precondition;
- a recoverable error becomes a `Result` or `Option`.

Where the code as written defeats its own evident purpose, the model keeps
both versions. The as-written definition comes with a concrete lemma that
exhibits the problem. The corrected definition carries the intended
property, and the rest of the model builds on it (listed under Findings below).

## Model

| member | source | states |
|---|---|---|
| Addr.PhysNew | src/shared/libcommon/src/addr.rs:56-69 | a physical address is accepted exactly when bits 52..63 are clear, and is then kept as given |
| Addr.PhysNewTruncate | src/shared/libcommon/src/addr.rs:71-74 | truncation yields a canonical physical address congruent to the input modulo 2^52 |
| Addr.PhysTruncateAgrees | src/shared/libcommon/src/addr.rs:56-74 | `new` accepts every truncated address, and truncation is the identity on canonical addresses |
| Addr.VirtNewTruncate | src/shared/libcommon/src/addr.rs:97-100 | the sign-extending shift yields a canonical 48-bit address that agrees with the input in its low 48 bits |
| Addr.VirtNew | src/shared/libcommon/src/addr.rs:88-95 | accepted exactly below 2^48 or at/above 0xFFFF_8000_0000_0000; canonical inputs are unchanged, bit-47 lower-half inputs are sign-extended, every result is canonical |
| Addr.VirtTruncateIdempotent | src/shared/libcommon/src/addr.rs:88-100 | truncation is idempotent, and `new` accepts its result unchanged |
| Addr.VirtPageIndexAsWritten | src/shared/libcommon/src/addr.rs:117-120 | as written, the shift `((depth-1)*9) >> 12` is zero for every depth up to 455, so the address comes back unchanged |
| Addr.VirtPageIndex | src/shared/libcommon/src/addr.rs:117-120 | corrected: the page number among 4 KiB / 2 MiB / 1 GiB pages for depths 1..3; None once the shift leaves the word |
| Addr.VirtPageIndexAsWrittenIgnoresDepth | src/shared/libcommon/src/addr.rs:117-120 | address 0x20_0000 at depth 2 yields 0x20_0000 as written where page number 1 is meant |
| Addr.FrameNew | src/shared/libcommon/src/addr.rs:124-131 | a physical address becomes a frame exactly when it is 4 KiB aligned, unchanged |
| Addr.FrameNewTruncate | src/shared/libcommon/src/addr.rs:133-136 | the result is the 4 KiB boundary at or below the address |
| Addr.FrameFromU64 | src/shared/libcommon/src/addr.rs:138-141 | Some exactly for canonical 4 KiB aligned values, unchanged |
| Addr.FrameFromU64Truncate | src/shared/libcommon/src/addr.rs:143-146 | the result is a valid frame whose number is that of the low 52 bits of the input |
| Addr.FrameIndexRoundTrip | src/shared/libcommon/src/addr.rs:148-151 | index × 0x1000 gives back the frame address, and the index fits in 40 bits |
| Addr.AlignMask | src/shared/libcommon/src/addr.rs:211-214 | the mask is the alignment size minus one |
| Addr.AlignFromU64 | src/shared/libcommon/src/addr.rs:162-173 | a decoded alignment has exactly the given size; None only for values other than 4 KiB, 2 MiB and 1 GiB |
| Addr.AlignRoundTrip | src/shared/libcommon/src/addr.rs:162-204 | `from_u64` inverts `as_u64`; each size is a power of two and a multiple of 4 KiB |
| Addr.Tagged | src/shared/libcommon/src/addr.rs:224 | the tagged value decodes to the given alignment and to the address rounded down to it |
| Addr.PageNew | src/shared/libcommon/src/addr.rs:220-231 | None exactly for a misaligned address with an alignment; otherwise `align()` returns the given alignment and `address()` the input (tag bits cleared when untagged) |
| Addr.PageNewTruncate | src/shared/libcommon/src/addr.rs:233-240 | the result carries the given alignment and the address rounded down to it (or with the 2 tag bits cleared) |
| Addr.PageFromU64 | src/shared/libcommon/src/addr.rs:242-245 | None exactly when the raw value is not a valid virtual address or is not aligned to the requested alignment; otherwise the page carries that alignment and the validated canonical address, rounded down to 4 when no alignment is given |
| Addr.PageIndex | src/shared/libcommon/src/addr.rs:281-284 | Some exactly for tagged pages, and then the page number is the address divided by the page size, rounded down |
| Addr.PageDepth | src/shared/libcommon/src/addr.rs:286-293 | Some exactly for tagged pages, and the depth equals the tag |
| Addr.PageNewRoundTrip | src/shared/libcommon/src/addr.rs:220-298 | an aligned address survives `new` then `address()`, its index is address / size, and the page is null only for address 0 |
| Addr.CheckedAddVirt | src/shared/libcommon/src/addr.rs:304-305 | Some exactly when the u64 sum does not overflow and is a valid virtual address; results are canonical |
| Addr.CheckedSubVirt | src/shared/libcommon/src/addr.rs:314-315 | Some exactly when the subtraction does not underflow and the difference is a valid virtual address |
| Addr.PageForwardChecked | src/shared/libcommon/src/addr.rs:300-308 | None for an untagged page; otherwise Some exactly when address + count × size is a valid address, and then the page of the same alignment at that sum rounded down to the page size |
| Addr.PageBackwardChecked | src/shared/libcommon/src/addr.rs:310-318 | None for an untagged page; otherwise Some exactly when address − count × size is a valid address, and then the page of the same alignment at that difference rounded down to the page size |
| Addr.ForwardBackwardRoundTrip | src/shared/libcommon/src/addr.rs:300-318 | stepping a lower-half page forward and back by the same count gives back the original page |
| Addr.StepStaysAligned | src/shared/libcommon/src/addr.rs:304 | adding whole pages keeps an address aligned to the page size |
| LibStd.U64BitMasks | libstd/src/lib.rs:68-134 | the mask table has 64 entries |
| LibStd.U64BitMasksAreLowBitMasks | libstd/src/lib.rs:68-134 | entry n is 2^(n+1) − 1: entry 0 is 1, each entry is twice the previous plus one, and entry 63 is u64::MAX |
| LibStd.AlignUp | libstd/src/lib.rs:208-215 | for a power-of-two alignment the result is a multiple of it, at least the value and less than value + alignment, and equal to the value exactly when the value is aligned |
| LibStd.AlignUpIsLeast | libstd/src/lib.rs:208-215 | no aligned value at or above the input is smaller than `align_up`'s result |
| LibStd.AlignUpDiv | libstd/src/lib.rs:217-219 | the result is the ceiling of value / alignment |
| LibStd.AlignDown | libstd/src/lib.rs:221-223 | the result is aligned, at most the value and within one alignment of it, and equal to it exactly when the value is aligned |
| LibStd.AlignDownIsGreatest | libstd/src/lib.rs:221-223 | no aligned value at or below the input is larger than `align_down`'s result |
| LibStd.AlignDownDiv | libstd/src/lib.rs:225-227 | for a power-of-two alignment the result is floor(value / alignment) |
| LibStd.RingNew | libstd/src/lib.rs:268-271 | a new ring starts at index 0 and is in range whenever max > 0 |
| LibStd.RingNextIndex | libstd/src/lib.rs:281-283 | the next index is below max and is current + 1, wrapping to 0 at max |
| LibStd.RingIncrement | libstd/src/lib.rs:277-279 | increment moves to the next index and keeps the ring in range |
| LibStd.RingAdvance | libstd/src/lib.rs:277-279 | any number of increments keeps the ring in range with the same max |
| LibStd.RingAdvanceCounts | libstd/src/lib.rs:277-283 | n increments move the index to (current + n) mod max, and max increments return to the start |
| BvArray.IndexAndOffset | libstd/src/bv_array.rs:43-52 | the section index and bit offset locate element `index`: the offset is a whole element inside the word |
| BvArray.SectionLengthHintTooShort | libstd/src/bv_array.rs:25-27 | for 33 two-bit elements the hint gives one 64-bit section, too few to hold them |
| BvArray.SectionLengthHintCeil | libstd/src/bv_array.rs:25-27 | corrected: the least number of sections that holds `count` elements |
| BvArray.FromSlice | libstd/src/bv_array.rs:29-37 | the array keeps the slice's sections, records the element count, and every slot reads zero |
| BvArray.Get | libstd/src/bv_array.rs:54-66 | `get` returns the element stored in the slot's bits of its section |
| BvArray.SetSlot | libstd/src/bv_array.rs:68-85 | writing a slot changes that element to the new value and every other element not at all |
| BvArray.Elements | libstd/src/bv_array.rs:39-66 | the decoded view lists exactly `len` elements, each the value `get` returns |
| BvArray.ElementsAfterSet | libstd/src/bv_array.rs:68-85 | in the decoded view a write inside the length is a single-element update, and one past it changes nothing |
| BvArray.Insert | libstd/src/bv_array.rs:68-85 | `insert` returns the previous element, and afterwards only that element differs and holds the new value |
| BvArray.InsertEq | libstd/src/bv_array.rs:87-111 | writes and returns true exactly when the current element equals `eq`; otherwise the array is unchanged |
| BvArray.SetEqNext | libstd/src/bv_array.rs:113-127 | sets the lowest slot holding `eq` and returns its index; None (array unchanged) when no slot holds it |
| BvArray.IterNew | libstd/src/bv_array.rs:129-139 | a new iterator starts at element 0 with the array's length as its bound |
| BvArray.IterNextAsWritten | libstd/src/bv_array.rs:164-189 | as written, `next` yields a value exactly while elements remain |
| BvArray.IterNextAsWrittenMisreadsBoundary | libstd/src/bv_array.rs:174-184 | on a two-section array, element 31 reads 0 through `get` but the iterator yields 1 from the next section |
| BvArray.IterNext | libstd/src/bv_array.rs:164-189 | corrected: `next` yields `get(cur)` and advances while elements remain, then None with the iterator unchanged |
| BvArray.Remaining | libstd/src/bv_array.rs:164-189 | the values still to come number max − cur |
| BvArray.IterYieldsElements | libstd/src/bv_array.rs:129-189 | a fresh iterator yields exactly `len` values, the i-th being `get(i)` |
| BvArray.RemainingAreElements | libstd/src/bv_array.rs:164-189 | from any position the iterator yields the remaining elements in order |
| Falloc.StateOfCode | libstd/src/memory/falloc.rs:46-53 | decoding a 2-bit code gives the state whose code it is |
| Falloc.StateCodeRoundTrip | libstd/src/memory/falloc.rs:33-58 | every state's code is below 3 and decodes back to the state |
| Falloc.States | libstd/src/memory/falloc.rs:86-90 | the decoded frame-state view has one entry per frame, each the state stored in the bit array |
| Falloc.TableStatesAfterSet | libstd/src/memory/falloc.rs:86-90 | writing one frame's code updates exactly that frame in the decoded view |
| Falloc.SetState | libstd/src/memory/falloc.rs:86-90 | setting a frame's state changes that frame only and touches neither counters nor the out-of-range set |
| Falloc.Move | libstd/src/memory/falloc.rs:162-164 | moving a frame between two states shifts 0x1000 bytes from one counter to the other and leaves the total alone |
| Falloc.CountAfterUpdate | libstd/src/memory/falloc.rs:86-90 | changing one entry changes each state's frame count by at most the obvious one |
| Falloc.MoveKeepsTrack | libstd/src/memory/falloc.rs:157-174 | a state change paired with the matching counter move keeps every counter equal to 0x1000 × its frame count |
| Falloc.FrameCountHint | libstd/src/memory/falloc.rs:95-109 | the hint is the least number of frames whose bytes cover 2 bits per frame of memory |
| Falloc.New | libstd/src/memory/falloc.rs:111-137 | corrected: a fresh allocator has one Free frame per 4 KiB, Free and total counters equal to the memory size, the others zero, and no out-of-range frames |
| Falloc.NewTracks | libstd/src/memory/falloc.rs:123-126 | the initial counters agree with the frame table |
| Falloc.AllOneState | libstd/src/memory/falloc.rs:123-126 | a table holding one state counts all frames for it and none for any other |
| Falloc.FreeFrame | libstd/src/memory/falloc.rs:157-174 | succeeds exactly for a Locked frame, making it Free and moving 0x1000 from Locked to Free; otherwise unchanged with `ExpectedFrameState(index, Locked, actual)` |
| Falloc.AcquireOutOfRange | libstd/src/memory/falloc.rs:183-195 | past the table, Reserved records the index once and a repeat gives `OutOfBoundsExists`; any other state gives `OutOfBoundsLock` |
| Falloc.AcquireLocked | libstd/src/memory/falloc.rs:199-215 | locking succeeds exactly for a Free frame and moves its 0x1000 from Free to Locked; otherwise nothing changes and `ExpectedFrameState` is returned |
| Falloc.AcquireFrameAsWritten | libstd/src/memory/falloc.rs:176-226 | as written, out-of-range, Free and Locked requests behave as in the corrected version; reserving an in-range frame never fails, writes Reserved and lowers the old state's counter by 0x1000 (unless it was already Reserved), but the Reserved counter and the out-of-range set stay as they were |
| Falloc.UnreserveUnderflowsAsWritten | libstd/src/memory/falloc.rs:216-245 | reserving frame 1 of a fresh two-frame allocator and unreserving it drives the Reserved counter to −0x1000 |
| Falloc.AcquireFrame | libstd/src/memory/falloc.rs:176-226 | corrected: out of range as above, Free always `FreeWithAcquire`, Locked as `AcquireLocked`, and Reserved always succeeds moving the old state's 0x1000 to Reserved |
| Falloc.UnreserveFrame | libstd/src/memory/falloc.rs:228-245 | succeeds exactly for a Reserved frame, making it Free and moving 0x1000 from Reserved to Free; otherwise unchanged with an error |
| Falloc.FreeKeepsTrack | libstd/src/memory/falloc.rs:157-174 | `free_frame` keeps the counters in step with the frame table |
| Falloc.UnreserveKeepsTrack | libstd/src/memory/falloc.rs:228-245 | `unreserve_frame` keeps the counters in step with the frame table |
| Falloc.AcquireKeepsTrack | libstd/src/memory/falloc.rs:176-226 | the corrected `acquire_frame` keeps the counters in step with the frame table |
| Falloc.FreeFrames | libstd/src/memory/falloc.rs:250-261 | on success every listed frame is Free and the others are unchanged; an error names a listed frame that was not Locked; counters stay in step |
| Falloc.AcquireFrames | libstd/src/memory/falloc.rs:263-279 | acquires index, index + 1, … up to the first frame `acquire_frame` refuses, with no rollback: the accepted prefix takes the requested state (or is recorded past the table) and nothing else changes; it returns the range index..index+count exactly when the whole run is accepted, else the first refusal's error |
| Falloc.AcquireFrameAccepts | libstd/src/memory/falloc.rs:176-226 | `acquire_frame` succeeds exactly for an acquirable frame (any in-range frame for Reserved, a Free one for Locked, an unrecorded index past the table for Reserved) and then gives it the requested state or records it; a refusal changes nothing and names the matching error |
| Falloc.AcquiredPrefixIsLongest | libstd/src/memory/falloc.rs:263-279 | the accepted prefix is the longest run of acquirable frames from index: every frame in it is acquirable and the next one, if the run stops early, is not |
| Falloc.AcquireFramesKeepTrack | libstd/src/memory/falloc.rs:263-279 | with the corrected `acquire_frame`, acquiring a run keeps the counters in step with the frame table, whether it succeeds or not |
| Falloc.AcquireFramesReserved | libstd/src/memory/falloc.rs:263-279 | reserving a run inside the table always succeeds, marks exactly that run Reserved and records no out-of-range index |
| Falloc.AcquireFramesLocked | libstd/src/memory/falloc.rs:263-279 | locking a run succeeds exactly when the run is empty or lies in the table with every frame Free; the run then becomes Locked, every other frame keeps its state and nothing is recorded |
| Falloc.AcquireFramesFree | libstd/src/memory/falloc.rs:263-279 | a nonempty Free request fails at its first frame and leaves the allocator unchanged: `FreeWithAcquire` inside the table, `OutOfBoundsLock` past it |
| Falloc.FromPtr | libstd/src/memory/falloc.rs:111-153 | corrected: after construction frame 0 and the table's own frames are Reserved and every other frame is Free |
| Falloc.FromPtrTracks | libstd/src/memory/falloc.rs:111-153 | the constructed allocator's counters agree with its frame table |
| Falloc.Autolock | libstd/src/memory/falloc.rs:281-299 | locks the lowest Free frame and moves 0x1000 from Free to Locked; None, with nothing changed, only when no frame is Free |
| Falloc.AutolockInRange | libstd/src/memory/falloc.rs:281-299 | when some frame is Free the chosen frame is in range, and locking it keeps the counters in step |
| Falloc.LockRunAsWritten | libstd/src/memory/falloc.rs:319-323 | as written, `autolock_many` marks the run Locked without touching any counter |
| Falloc.LockRunAsWrittenLosesTrack | libstd/src/memory/falloc.rs:301-326 | on a one-frame allocator, after `autolock_many(1)` no frame is Free yet the Free counter still reads 0x1000 |
| Falloc.LockRun | libstd/src/memory/falloc.rs:319-323 | corrected: the run becomes Locked and count × 0x1000 moves from Free to Locked |
| Falloc.CountLockRange | libstd/src/memory/falloc.rs:319-323 | locking a run of Free frames lowers the Free count and raises the Locked count by the run length |
| Falloc.LockRunTracks | libstd/src/memory/falloc.rs:319-323 | the corrected run lock keeps the counters in step |
| Falloc.FindRun | libstd/src/memory/falloc.rs:305-317 | the scan ends just past the first run of `count` Free frames and no run of that length starts earlier; None when there is none (count 0 scans while frames are Free) |
| Falloc.AutolockMany | libstd/src/memory/falloc.rs:301-326 | corrected: locks the lowest run of `count` Free frames and returns its range; None, with nothing changed, only when no such run exists |
| Falloc.TotalMemory | libstd/src/memory/falloc.rs:330-336 | the counter of the given state, or the total with no state; while the counters track the frame table, 0x1000 bytes per frame in that state, or per frame of the table |
| FrameWord.TypeOfCode | liblz/src/memory/frame_manager.rs:12-24 | decoding a 3-bit type code yields the frame type with that discriminant |
| FrameWord.TypeCodeRoundTrip | liblz/src/memory/frame_manager.rs:12-24 | `try_from(ty as u32)` gives back every frame type |
| FrameWord.Decode | liblz/src/memory/frame_manager.rs:78-87 | `data()` reads the reference count from bits 0..16, the peek flag from bit 16, the lock flag from bit 17 and the frame type from bits 26..32; words that decode alike differ only in the unused bits 18..26 |
| FrameWord.DecodeDetermines | liblz/src/memory/frame_manager.rs:78-87 | two words that decode to the same count, flags and type agree on every bit the word defines |
| FrameWord.LockWord | liblz/src/memory/frame_manager.rs:49-53 | `lock` sets bit 17 and keeps every other bit |
| FrameWord.FreeWord | liblz/src/memory/frame_manager.rs:55-59 | `free` clears bit 17 and keeps every other bit |
| FrameWord.LockWordLocks | liblz/src/memory/frame_manager.rs:49-53 | in decoded terms `lock` sets the locked flag and nothing else |
| FrameWord.FreeWordFrees | liblz/src/memory/frame_manager.rs:55-59 | in decoded terms `free` clears the locked flag and nothing else |
| FrameWord.LockFreeRoundTrip | liblz/src/memory/frame_manager.rs:49-59 | freeing a word just locked gives back the unlocked word |
| FrameWord.BorrowWord | liblz/src/memory/frame_manager.rs:35-41 | below 0xFFFF references, `borrow` adds one to the count and keeps bits 16..32 |
| FrameWord.DropWord | liblz/src/memory/frame_manager.rs:43-47 | with references outstanding, `drop` subtracts one and keeps bits 16..32 |
| FrameWord.BorrowWordCounts | liblz/src/memory/frame_manager.rs:35-41 | in decoded terms `borrow` increments the reference count only |
| FrameWord.BorrowWordOverflows | liblz/src/memory/frame_manager.rs:37-41 | a 65536th borrow carries into bit 16: the count reads 0 and the peek bit is set |
| FrameWord.DropWordCounts | liblz/src/memory/frame_manager.rs:43-47 | in decoded terms `drop` decrements the reference count only |
| FrameWord.BorrowDropRoundTrip | liblz/src/memory/frame_manager.rs:35-47 | a drop undoes a borrow on every word |
| FrameWord.SetTypeWord | liblz/src/memory/frame_manager.rs:101-105 | the store puts the type code at shift 26 and keeps bits 0..26 |
| FrameWord.SetTypeWordRetypes | liblz/src/memory/frame_manager.rs:101-105 | in decoded terms the store changes the frame type only |
| FrameManager.ModifyType | liblz/src/memory/frame_manager.rs:90-119 | succeeds exactly for the same type, any change from Usable, Unusable/Reserved to MMIO, or BootReclaim/ACPIReclaim to Usable; the error names both types |
| FrameManager.ModifyTypeIdempotent | liblz/src/memory/frame_manager.rs:94-95 | applying a successful type change a second time changes nothing |
| FrameManager.ConversionsOneWay | liblz/src/memory/frame_manager.rs:96-102 | only the reclaimable types can become Usable, and an MMIO frame can change into nothing else |
| FrameManager.LockRefusal | liblz/src/memory/frame_manager.rs:264-271 | the refusal checks Unusable first, then borrowed, then locked |
| FrameManager.Lock | liblz/src/memory/frame_manager.rs:259-281 | out of range gives `OutOfRange`; otherwise succeeds exactly for a lockable frame, setting only its lock flag, and errors leave the table unchanged |
| FrameManager.Free | liblz/src/memory/frame_manager.rs:306-324 | out of range gives `OutOfRange`; an unlocked frame gives `FrameNotLocked`; otherwise only its lock flag is cleared |
| FrameManager.LockThenFree | liblz/src/memory/frame_manager.rs:259-324 | freeing a frame just locked restores the table |
| FrameManager.Borrow | liblz/src/memory/frame_manager.rs:326-341 | Unusable and locked frames are refused in that order; otherwise only the reference count rises by one |
| FrameManager.Drop | liblz/src/memory/frame_manager.rs:343-356 | an unborrowed frame gives `FrameNotBorrowed`; otherwise only its reference count falls by one |
| FrameManager.BorrowThenDrop | liblz/src/memory/frame_manager.rs:326-356 | a drop right after a successful borrow is accepted and gives back the whole table as it was |
| FrameManager.OwnershipExclusive | liblz/src/memory/frame_manager.rs:259-341 | a locked frame can be neither locked nor borrowed, and a borrowed frame cannot be locked |
| FrameManager.TryModifyType | liblz/src/memory/frame_manager.rs:413-423 | out of range gives `OutOfRange`; otherwise `modify_type` on that frame alone |
| FrameManager.LockMany | liblz/src/memory/frame_manager.rs:283-304 | frames from `index` are locked in order up to the first refused one, which fails the call with an error naming the base index; Ok exactly when every frame of the window (inside the table) was lockable |
| FrameManager.LockManyFrom | liblz/src/memory/frame_manager.rs:283-304 | the walk from any position locks the lockable prefix and stops at the first refusal |
| FrameManager.StopOf | liblz/src/memory/frame_manager.rs:290-302 | the walk stops at the first frame `lock` would refuse, or at the window's end |
| FrameManager.FirstEligible | liblz/src/memory/frame_manager.rs:358-380 | the lowest Usable, unborrowed, unlocked frame at or after a position, or None when there is none |
| FrameManager.LockNext | liblz/src/memory/frame_manager.rs:358-380 | locks the lowest eligible frame and returns its index; `NoFreeFrames` with nothing changed exactly when none is eligible |
| FrameManager.LockNextMany | liblz/src/memory/frame_manager.rs:382-411 | returns the start of the lowest run of `count` eligible frames and locks exactly that run; `NoFreeFrames`, nothing changed, when no such run exists |
| PmmFrameData.FromU8 | src/kernel/src/memory/pmm.rs:38-48 | `from_u8` on a code below 5 yields the type with that code |
| PmmFrameData.FrameTypeRoundTrip | src/kernel/src/memory/pmm.rs:38-58 | `from_u8(as_u8(t)) == t` for all five frame types |
| PmmFrameData.Data | src/kernel/src/memory/pmm.rs:112-118 | `data()` reports bit 7 as the lock flag and bits 0..4 as the type |
| PmmFrameData.LockByte | src/kernel/src/memory/pmm.rs:71-75 | `lock` sets bit 7 and keeps bits 0..7 |
| PmmFrameData.FreeByte | src/kernel/src/memory/pmm.rs:77-81 | `free` flips bit 7 (an xor) and keeps bits 0..7 |
| PmmFrameData.TryPeekByte | src/kernel/src/memory/pmm.rs:83-86 | `try_peek` sets bit 6, keeps the rest, and reports whether bit 6 was clear |
| PmmFrameData.UnpeekByte | src/kernel/src/memory/pmm.rs:95-99 | `unpeek` clears bit 6 and keeps the rest |
| PmmFrameData.SetTypeByte | src/kernel/src/memory/pmm.rs:101-110 | `set_type` writes the type into bits 0..4 and keeps bits 4..8 |
| PmmFrameData.LockByteLocks | src/kernel/src/memory/pmm.rs:71-75 | in decoded terms `lock` sets the locked flag and keeps type and peek bit |
| PmmFrameData.FreeByteFrees | src/kernel/src/memory/pmm.rs:77-81 | on a locked byte `free` clears the locked flag and keeps type and peek bit |
| PmmFrameData.FreeByteToggles | src/kernel/src/memory/pmm.rs:77-81 | `free` on an unlocked byte would lock it: the xor toggles the bit the debug assertion expects set |
| PmmFrameData.SetTypeByteRetypes | src/kernel/src/memory/pmm.rs:101-110 | in decoded terms `set_type` changes the type only |
| PmmFrameData.PeekKeepsData | src/kernel/src/memory/pmm.rs:83-99 | peeking and unpeeking change only bit 6 and never the decoded data |
| PmmFrameData.LockFreeRoundTrip | src/kernel/src/memory/pmm.rs:71-99 | free after lock, and unpeek after peek, each restore the byte |
| Pmm.TotalMemory | src/kernel/src/memory/pmm.rs:200-202 | the total is 4 KiB per table entry |
| Pmm.LockRange | src/kernel/src/memory/pmm.rs:263-268 | locking a window sets the lock flag on every frame in it, keeps types, and leaves frames outside it unchanged |
| Pmm.FirstFree | src/kernel/src/memory/pmm.rs:209-231 | the lowest unlocked Generic frame at or after a position, or None when there is none |
| Pmm.NextFrame | src/kernel/src/memory/pmm.rs:209-231 | locks the lowest unlocked Generic frame and returns its frame address; `NoneFree`, table unchanged, when no frame qualifies |
| Pmm.AlignFrames | src/kernel/src/memory/pmm.rs:238 | the alignment in frames is alignment / 0x1000, at least 1 |
| Pmm.Advance | src/kernel/src/memory/pmm.rs:257-259 | the corrected skip moves to the next multiple of the alignment strictly past the blocked frame |
| Pmm.CeilStep | src/kernel/src/memory/pmm.rs:257 | the rounded-up quotient times the alignment is the least multiple at or above the value |
| Pmm.LastBlocked | src/kernel/src/memory/pmm.rs:250-255 | `rfind` finds the last locked or non-Generic frame of the window, or None when the whole window is free |
| Pmm.FindWindow | src/kernel/src/memory/pmm.rs:240-276 | a window the search returns is a run of `count` free frames |
| Pmm.WrappingFrameAddress | src/kernel/src/memory/pmm.rs:270-272 | below 2^40 frames the wrapping multiplication is the exact frame address, and a valid frame |
| Pmm.NextFrames | src/kernel/src/memory/pmm.rs:233-276 | `InvalidAlignment` exactly for a non-power-of-two alignment; errors other than `Unknown` change nothing; on success the window is a free run and exactly it is locked; `Unknown` cannot happen in a table of at most 2^40 frames |
| Pmm.FindWindowAligned | src/kernel/src/memory/pmm.rs:240-276 | with the corrected skip the search returns the lowest aligned free run, or None when no aligned position has one |
| Pmm.NextFramesAligned | src/kernel/src/memory/pmm.rs:233-276 | corrected: the result is aligned, no aligned free run lies below it, and `NoneFree` only when no aligned run exists |
| Pmm.NextFramesMisaligned | src/kernel/src/memory/pmm.rs:257-258 | table [locked, free, free] with alignment 0x2000 yields 0x1000 as written and 0x2000 with the corrected skip |
| Pmm.LockFrame | src/kernel/src/memory/pmm.rs:280-297 | `OutOfBounds` exactly past the table, `NotFree` exactly for a locked frame; otherwise that frame alone becomes locked |
| Pmm.LockFrames | src/kernel/src/memory/pmm.rs:299-324 | `OutOfBounds` exactly when base + count exceeds the table, `NotFree` exactly when some frame of the window is locked (nothing changes); otherwise the whole window is locked |
| Pmm.FreeFrame | src/kernel/src/memory/pmm.rs:326-347 | `OutOfBounds` past the table, `NotLocked` exactly for an unlocked frame; otherwise that frame alone becomes unlocked |
| Pmm.LockThenFree | src/kernel/src/memory/pmm.rs:280-347 | freeing a frame just locked restores the table |
| Pmm.NextFrameThenFree | src/kernel/src/memory/pmm.rs:209-347 | freeing the frame `next_frame` handed out restores the table |
| Pmm.NextFramesIsLockFrames | src/kernel/src/memory/pmm.rs:233-324 | a successful `next_frames` has the effect of `lock_frames` on its window, after which each frame of it is refused by `lock_frame` |
| FrameIter.FrameFromAddr | libkernel/src/memory/frame.rs:29-37 | an aligned address becomes the frame whose index × 0x1000 is the address |
| FrameIter.FrameBaseAddr | libkernel/src/memory/frame.rs:43-45 | a frame's base address is 4 KiB aligned |
| FrameIter.FrameAddrRoundTrip | libkernel/src/memory/frame.rs:29-45 | `from_addr` and `base_addr` invert each other |
| FrameIter.NewIterator | libkernel/src/memory/frame.rs:97-115 | an included end is inclusive and an excluded end becomes end − 1 (an excluded start start + 1), with current at the start |
| FrameIter.NewIteratorRanges | libkernel/src/memory/frame.rs:97-161 | `a..=b` yields a, …, b and `a..b` yields a, …, b − 1 |
| FrameIter.TerminatingIndex | libkernel/src/memory/frame.rs:137-139 | the terminating index lies past the last frame |
| FrameIter.TotalLen | libkernel/src/memory/frame.rs:129-131 | `total_len` is end − start + 1 |
| FrameIter.Len | libkernel/src/memory/frame.rs:164-166 | `len` is at most `total_len`, equal to it exactly before the first step |
| FrameIter.Reset | libkernel/src/memory/frame.rs:133-135 | `reset` puts current back at the start, restoring the full length |
| FrameIter.Next | libkernel/src/memory/frame.rs:145-156 | yields the current frame and shortens `len` by one while frames remain; then None with the iterator unchanged |
| FrameIter.Drain | libkernel/src/memory/frame.rs:142-167 | the iterator yields exactly `len` consecutive frames from the current one, then None |
| FrameIter.ResetDrainsWholeRange | libkernel/src/memory/frame.rs:129-161 | after `reset` the iterator yields start..=end in ascending order |
| FrameIter.SingleFrame | libkernel/src/memory/frame.rs:47-49 | `Frame::into_iter` yields just that frame |
| FrameIter.SizeHintAsWritten | libkernel/src/memory/frame.rs:158-160 | as written, `size_hint` returns the current index and the terminating index rather than counts |
| FrameIter.SizeHint | libkernel/src/memory/frame.rs:158-160 | corrected: the hint brackets the number of frames still to come |
| FrameIter.SizeHintOverstates | libkernel/src/memory/frame.rs:158-160 | over 10..=12 the iterator yields 3 frames but the hint's lower bound is 10 |
| PagingDepth.MaxLevels | src/kernel/src/memory/paging/mod.rs:14-33 | the deepest level is 5 with LA57 and 4 without |
| PagingDepth.NewDepth | src/kernel/src/memory/paging/mod.rs:78-81 | a depth is accepted exactly between the minimum 0 and the maximum level |
| PagingDepth.Align | src/kernel/src/memory/paging/mod.rs:88-91 | the alignment of depth d is 2^(12 + 9d), each depth 512 times the one below |
| PagingDepth.IndexOf | src/kernel/src/memory/paging/mod.rs:113-118 | None at depth 0; otherwise the 9-bit table index of the address at that depth |
| PagingDepth.ReassembleIsLowBits | src/kernel/src/memory/paging/mod.rs:113-118 | the table indices of depths 1..d, weighted by their alignments, give back the address's offset within the depth-d region |
| PagingDepth.StepsBetween | src/kernel/src/memory/paging/mod.rs:122-124 | steps are counted downward: Some exactly when end ≤ start, and then end + steps = start |
| PagingDepth.ForwardChecked | src/kernel/src/memory/paging/mod.rs:126-128 | stepping forward lowers the depth by the count, None when that would go below 0 |
| PagingDepth.BackwardChecked | src/kernel/src/memory/paging/mod.rs:130-132 | stepping backward raises the depth by the count, None past the maximum |
| PagingDepth.StepLaws | src/kernel/src/memory/paging/mod.rs:121-133 | forward and backward steps agree with `steps_between` in both directions |
| PagingDepth.Next | src/kernel/src/memory/paging/mod.rs:93-96 | `next` is the depth one below |
| KernelPte.PermissionSets | src/kernel/src/memory/paging/mod.rs:157-176 | RO is PRESENT with NO_EXECUTE, RW adds WRITABLE to RO, RX is PRESENT alone, PTE is PRESENT, WRITABLE and USER, and MMIO adds UNCACHEABLE to RW; all are present |
| KernelPte.GetAttributes | src/kernel/src/memory/paging/mod.rs:251-254 | the attributes are the defined flag bits only |
| KernelPte.GetFrame | src/kernel/src/memory/paging/mod.rs:234-238 | the frame is a 4 KiB aligned address below 2^52 |
| KernelPte.NewEntry | src/kernel/src/memory/paging/mod.rs:227-232 | an entry built from a frame and attributes returns both through its getters |
| KernelPte.SetFrame | src/kernel/src/memory/paging/mod.rs:245-248 | `set_frame` replaces the frame and keeps the attributes |
| KernelPte.Modify | src/kernel/src/memory/paging/mod.rs:264-269 | each modify mode yields flag bits only |
| KernelPte.Union | src/kernel/src/memory/paging/mod.rs:266 | Insert keeps every old flag and adds every new one |
| KernelPte.Difference | src/kernel/src/memory/paging/mod.rs:267 | Remove clears the given flags and keeps the rest |
| KernelPte.SymmetricDifference | src/kernel/src/memory/paging/mod.rs:268 | Toggle is undone by toggling again |
| KernelPte.ClearNoExecute | src/kernel/src/memory/paging/mod.rs:271-275 | without NXE bit 63 is cleared and every other bit kept |
| KernelPte.SetAttributes | src/kernel/src/memory/paging/mod.rs:261-278 | `set_attributes` keeps the frame and applies the mode to the attributes, dropping NO_EXECUTE when NXE is off |
| KernelPte.NoExecuteNeedsNxe | src/kernel/src/memory/paging/mod.rs:271-275 | with NXE off no mode can leave NO_EXECUTE set |
| KernelPte.HighBitIsAttribute | src/kernel/src/memory/paging/mod.rs:168 | bit 63 of an entry is the NO_EXECUTE attribute |
| KernelPte.NormalRebuilds | src/kernel/src/memory/paging/mod.rs:227-254 | an entry with no bits outside frame and flags is rebuilt exactly from its frame and attributes |
| KernelPte.ToggleTwice | src/kernel/src/memory/paging/mod.rs:261-278 | toggling the same flags twice restores the entry |
| KernelPte.RebuildTwice | src/kernel/src/memory/paging/mod.rs:261-278 | two successive `set_attributes` calls compose on the attribute value alone |
| KernelPte.TwoToggles | src/kernel/src/memory/paging/mod.rs:268-275 | on attribute values, two toggles with the NX adjustment are the identity |
| KernelPte.XorTwice | src/kernel/src/memory/paging/mod.rs:268 | toggling twice is the identity on flag sets |
| KernelPte.InsertThenRemove | src/kernel/src/memory/paging/mod.rs:261-278 | inserting flags the entry lacks and removing them again restores the entry |
| KernelPte.InsertRemove | src/kernel/src/memory/paging/mod.rs:266-275 | on attribute values, insert then remove of absent flags is the identity |
| KernelPte.DisjointUnionUndone | src/kernel/src/memory/paging/mod.rs:266-267 | removing flags just inserted into a set that lacked them restores it |
| KernelPte.PresenceFollowsFlags | src/kernel/src/memory/paging/mod.rs:280-288 | `is_present` tests bit 0 and `is_huge` bit 7 of the attributes |
| LibPage.PageFromAddr | libkernel/src/memory/paging.rs:24-38 | a page is made only from a 4 KiB-aligned address, and its base address is that address again |
| LibPage.ContainingPage | libkernel/src/memory/paging.rs:40-42 | the page holding an address starts at or below it and ends above it; for an aligned address it is the page made from it |
| LibPage.PageBaseAddr | libkernel/src/memory/paging.rs:52-54 | the base address is aligned and lies in the page itself |
| LibPage.ForwardChecked | libkernel/src/memory/paging.rs:72-74 | stepping forward succeeds exactly when the new index fits in a `usize`, and adds the count |
| LibPage.BackwardChecked | libkernel/src/memory/paging.rs:76-78 | stepping backward succeeds exactly when the count is at most the index, and subtracts it |
| LibPage.StepsBetweenAsWritten | libkernel/src/memory/paging.rs:95-97 | as written the step count is always Some, and only for start ≤ end is it the distance |
| LibPage.StepsBetween | libkernel/src/memory/paging.rs:95-97 | the count is Some exactly when start ≤ end, and then start plus the count is end |
| LibPage.StepLaws | libkernel/src/memory/paging.rs:86-98 | n forward steps lead from a to b, and n backward steps from b to a, exactly when `steps_between(a, b)` is n |
| LibPage.StepsBetweenAsWrittenBreaksLaw | libkernel/src/memory/paging.rs:95-97 | as written, `steps_between(5, 3)` claims 2^64 − 2 steps although no forward step count leads from 5 to 3 |
| LibPage.NewIterator | libkernel/src/memory/paging.rs:113-115 | a new iterator starts its cursor at the start and keeps both ends |
| LibPage.PagesTo | libkernel/src/memory/paging.rs:68-70 | `to` fails exactly when the end index overflows, and otherwise yields the `count` pages from the index in order |
| LibPage.CapturedLen | libkernel/src/memory/paging.rs:129-131 | the start plus the captured length is the end |
| LibPage.Reset | libkernel/src/memory/paging.rs:133-135 | a reset puts the cursor back at the start and keeps both ends |
| LibPage.Next | libkernel/src/memory/paging.rs:141-149 | `next` yields a page exactly while the cursor is below the end, yields the cursor and advances it by one, and changes nothing once exhausted |
| LibPage.Drain | libkernel/src/memory/paging.rs:138-150 | iterating to the end yields the pages from the cursor to the end, in order, and leaves an exhausted iterator over the same range |
| LibPage.LenAsWritten | libkernel/src/memory/paging.rs:152-156 | as written, `len` is the captured length whatever has been yielded |
| LibPage.Len | libkernel/src/memory/paging.rs:152-156 | `len` counts the pages still to come, and agrees with the code as written before anything is yielded |
| LibPage.LenAsWrittenIgnoresProgress | libkernel/src/memory/paging.rs:152-156 | after one page of 0..3 is yielded two remain, but `len` as written still says three |
| LibPage.ResetYieldsCapturedRange | libkernel/src/memory/paging.rs:129-135 | after a reset the iterator yields every page of the captured range again, `captured_len` of them |
| LibPte.AttributeSets | libkernel/src/memory/paging.rs:158-182 | CODE is PRESENT, RODATA adds NO_EXECUTE, DATA adds WRITABLE, MMIO adds UNCACHEABLE, FRAMEBUFFER is DATA |
| LibPte.GetAttribs | libkernel/src/memory/paging.rs:227-229 | the attributes read from an entry are defined flag bits only |
| LibPte.FrameField | libkernel/src/memory/paging.rs:198 | the frame field is a 40-bit frame index |
| LibPte.SetEntry | libkernel/src/memory/paging.rs:204-206 | an entry set from a 40-bit frame index and attributes reports both back |
| LibPte.LargeIndexSetsNoExecute | libkernel/src/memory/paging.rs:204-206 | a frame index of 2^51 spills into bit 63, so an entry set with no attributes reads back as NO_EXECUTE |
| LibPte.GetFrameIndex | libkernel/src/memory/paging.rs:208-214 | the frame index is reported exactly when the entry is present |
| LibPte.SetThenGetFrameIndex | libkernel/src/memory/paging.rs:204-214 | an entry set with a frame reports that frame exactly when its attributes include PRESENT |
| LibPte.SetFrameIndex | libkernel/src/memory/paging.rs:216-219 | writing a 40-bit frame index keeps the attributes and changes the frame field to the index |
| LibPte.TakeFrameIndex | libkernel/src/memory/paging.rs:221-225 | taking the frame returns the frame field, clears it, and keeps every other bit |
| LibPte.TakeThenRestore | libkernel/src/memory/paging.rs:216-225 | taking the frame keeps the attributes, and writing it back restores an entry with no stray bits |
| LibPte.Modify | libkernel/src/memory/paging.rs:234-239 | each attribute update mode yields attribute bits only |
| LibPte.Union | libkernel/src/memory/paging.rs:236 | Insert keeps every old attribute and adds every new one |
| LibPte.Difference | libkernel/src/memory/paging.rs:237 | Remove clears the given attributes and keeps the others |
| LibPte.SymmetricDifference | libkernel/src/memory/paging.rs:238 | Toggle is undone by toggling the same attributes again |
| LibPte.Adjust | libkernel/src/memory/paging.rs:241-247 | without NXE support NO_EXECUTE is cleared, and bits 0 to 62 are kept |
| LibPte.SetAttributes | libkernel/src/memory/paging.rs:231-250 | `set_attributes` keeps the frame field and writes the updated, NXE-adjusted attributes |
| LibPte.WithAttributes | libkernel/src/memory/paging.rs:249 | replacing the attribute bits leaves every non-attribute bit, the frame included, unchanged |
| LibPte.SetAttributesKeepsFrame | libkernel/src/memory/paging.rs:208-250 | a present entry still maps the same frame after `set_attributes`, and without NXE support it is never marked no-execute |
| LibPte.HighBit | libkernel/src/memory/paging.rs:174-229 | bit 63 of an entry is bit 63 of its attributes |
| SegmentDescriptor.Limit | kernel/src/structures/gdt/segment_descriptor.rs:54-57 | the segment limit is a 20-bit field |
| SegmentDescriptor.SegmentType | kernel/src/structures/gdt/segment_descriptor.rs:25-35 | the type field is four bits wide |
| SegmentDescriptor.Dpl | kernel/src/structures/gdt/segment_descriptor.rs:38-41 | the descriptor privilege level is one of the four rings |
| SegmentDescriptor.DefaultSegmentFlags | kernel/src/structures/gdt/segment_descriptor.rs:74-105 | 64-bit code segments are long mode and not 32-bit; the 32-bit ones are the opposite; data is not executable; kernel segments are ring 0 and user segments ring 3, differing only in the privilege bits |
| SegmentDescriptor.DefaultSegmentsFlat | kernel/src/structures/gdt/segment_descriptor.rs:62-85 | every default segment is present, based at 0, has the full limit in 4 KiB units, and is already accessed and writable |
| SegmentDescriptor.DefaultSegmentValues | kernel/src/structures/gdt/segment_descriptor.rs:74-105 | the flat 64-bit descriptors have the standard values 0x00AF9B000000FFFF, 0x00CF93000000FFFF, 0x00AFFB000000FFFF and 0x00CFF3000000FFFF |
| SegmentDescriptor.KernelCodeSegment | kernel/src/structures/gdt/segment_descriptor.rs:111-113 | the kernel code segment is a ring-0, executable, long-mode user segment |
| SegmentDescriptor.KernelDataSegment | kernel/src/structures/gdt/segment_descriptor.rs:118-120 | the kernel data segment is a ring-0, non-executable user segment |
| SegmentDescriptor.UserDataSegment | kernel/src/structures/gdt/segment_descriptor.rs:125-127 | the user data segment is a ring-3, non-executable user segment |
| SegmentDescriptor.UserCodeSegment | kernel/src/structures/gdt/segment_descriptor.rs:132-134 | the user code segment is a ring-3, executable, long-mode user segment |
| SegmentDescriptor.TssSegment | kernel/src/structures/gdt/segment_descriptor.rs:138-157 | a TSS descriptor is a two-word system segment |
| SegmentDescriptor.TssLow | kernel/src/structures/gdt/segment_descriptor.rs:144-152 | the low word built field by field is the TSS descriptor's low word |
| SegmentDescriptor.TssSegmentFields | kernel/src/structures/gdt/segment_descriptor.rs:138-157 | the TSS descriptor is present, ring 0, of type "available 64-bit TSS", with limit size − 1, and its base reads back as the TSS address |
| SegmentDescriptor.TssLowFields | kernel/src/structures/gdt/segment_descriptor.rs:144-152 | the low word carries presence, ring 0, the TSS type and the limit, and is a system descriptor |
| SegmentDescriptor.TssBase | kernel/src/structures/gdt/segment_descriptor.rs:145-155 | the base fields of the low word and the high word reassemble the TSS address |
| KernelGdt.StaticDescriptors | src/kernel/src/arch/x86_64/structures/gdt.rs:43-86 | the static table is null, then kernel code, kernel data, user data and user code, each the flat default |
| KernelGdt.GdtLimit | src/kernel/src/arch/x86_64/structures/gdt.rs:100-103 | the limit given to `lgdt` is the table's size in bytes less one, 39 |
| KernelGdt.LevelValue | src/kernel/src/arch/x86_64/structures/gdt.rs:220-245 | a privilege level's value is below 4 |
| KernelGdt.LevelFromU16 | src/kernel/src/arch/x86_64/structures/gdt.rs:252-260 | `from_u16` accepts 0 to 3 and returns the level of that value |
| KernelGdt.LevelRoundTrip | src/kernel/src/arch/x86_64/structures/gdt.rs:220-260 | converting a level to its value and back gives the level |
| KernelGdt.GdtIndex | src/kernel/src/arch/x86_64/structures/gdt.rs:200-202 | the index is the selector's value divided by 8 |
| KernelGdt.Rpl | src/kernel/src/arch/x86_64/structures/gdt.rs:206-208 | the requested privilege level is the selector's low two bits |
| KernelGdt.NewSelector | src/kernel/src/arch/x86_64/structures/gdt.rs:184-192 | a selector is made exactly for slots 1 and 2 at ring 0 and slots 3 and 4 at ring 3, and reads back its index and level with the table-indicator bit clear |
| KernelGdt.SelectorsMatchDescriptors | src/kernel/src/arch/x86_64/structures/gdt.rs:80-192 | every accepted selector names a non-null descriptor inside the table's limit whose privilege level equals the selector's; slots 1 and 4 are the executable ones |
| KernelGdt.SelectorValues | src/kernel/src/arch/x86_64/structures/gdt.rs:88-91 | the selector constants are 8, 16, 27 and 35 |
| LibGdt.LibrarySegments | kernel/lib/src/structures/gdt.rs:47-74 | the library's kernel code and data are the flat 64-bit defaults without the accessed bit |
| LibGdt.TssEntryAsWritten | kernel/lib/src/structures/gdt.rs:81-94 | as written, the TSS entry is a two-word system entry |
| LibGdt.TssEntry | kernel/lib/src/structures/gdt.rs:81-94 | the TSS entry is present, of type "available 64-bit TSS", with limit size − 1, and its base is the TSS address |
| LibGdt.TssEntryAsWrittenCorrupts | kernel/lib/src/structures/gdt.rs:84-88 | as written, a TSS at 0x02000000 becomes a busy-TSS descriptor whose base reads as 0 |
| LibGdt.NewGdt | kernel/lib/src/structures/gdt.rs:120-125 | a new table is all zero with slot 0 reserved for the null descriptor |
| LibGdt.Push | kernel/lib/src/structures/gdt.rs:142-151 | `push` writes only the next free slot, returns its index and advances past it |
| LibGdt.AddEntry | kernel/lib/src/structures/gdt.rs:128-140 | `add_entry` writes one slot for a user entry or two for a system entry, and returns the byte offset of the first |
| LibGdt.PointerLimit | kernel/lib/src/structures/gdt.rs:158-163 | the pointer's limit covers every slot in use and no more |
| LibGdt.AddEntryKeepsEarlierSlots | kernel/lib/src/structures/gdt.rs:128-151 | adding an entry never changes a slot already in use |
| LibGdt.BuildGdt | kernel/lib/src/structures/gdt.rs:173-189 | corrected: the library's table holds kernel code, kernel data and the TSS at selectors 8, 16 and 24, five slots with limit 39 |
| IdtEntry.StackValue | src/kernel/src/arch/x86_64/structures/idt/mod.rs:16-21 | a stack table index is one of the four software IST slots 0 to 3 |
| IdtEntry.GateType | src/kernel/src/arch/x86_64/structures/idt/entry.rs:264-269 | the gate type is a four-bit field |
| IdtEntry.Dpl | src/kernel/src/arch/x86_64/structures/idt/entry.rs:308-311 | the gate's privilege level is one of the four rings |
| IdtEntry.Ist | src/kernel/src/arch/x86_64/structures/idt/entry.rs:326-331 | the hardware IST field is three bits wide |
| IdtEntry.Minimal | src/kernel/src/arch/x86_64/structures/idt/entry.rs:264-269 | the minimal options have the null selector and describe a 64-bit interrupt gate that is not present, ring 0, on the current stack |
| IdtEntry.SetCodeSelector | src/kernel/src/arch/x86_64/structures/idt/entry.rs:276-279 | only the code selector changes |
| IdtEntry.SetPresent | src/kernel/src/arch/x86_64/structures/idt/entry.rs:286-289 | the present flag becomes the argument and nothing else changes |
| IdtEntry.PresentBits | src/kernel/src/arch/x86_64/structures/idt/entry.rs:286-289 | bit 15 becomes the flag and bits 0 to 14 are kept |
| IdtEntry.SetDisableInterrupts | src/kernel/src/arch/x86_64/structures/idt/entry.rs:297-300 | the gate disables interrupts exactly when asked to |
| IdtEntry.InterruptBits | src/kernel/src/arch/x86_64/structures/idt/entry.rs:297-300 | bit 8 is the negation of the flag, every other bit is kept, and an interrupt gate becomes a trap gate exactly when interrupts stay enabled |
| IdtEntry.SetPrivilegeLevel | src/kernel/src/arch/x86_64/structures/idt/entry.rs:308-311 | the gate's privilege level becomes the given level |
| IdtEntry.DplBits | src/kernel/src/arch/x86_64/structures/idt/entry.rs:308-311 | bits 13 and 14 become the level and every other bit is kept |
| IdtEntry.SetStackIndex | src/kernel/src/arch/x86_64/structures/idt/entry.rs:326-331 | the hardware IST field becomes the software index plus one |
| IdtEntry.StackBits | src/kernel/src/arch/x86_64/structures/idt/entry.rs:326-331 | bits 0 to 2 become the IST value and every other bit is kept |
| IdtEntry.SettersCommute | src/kernel/src/arch/x86_64/structures/idt/entry.rs:308-331 | setting the stack index and the privilege level in either order gives the same options |
| IdtEntry.HandlerAddr | src/kernel/src/arch/x86_64/structures/idt/entry.rs:139-143 | the handler address read from an entry is canonical |
| IdtEntry.Missing | src/kernel/src/arch/x86_64/structures/idt/entry.rs:107-116 | a missing entry has no handler address and is not present |
| IdtEntry.SetHandlerAddr | src/kernel/src/arch/x86_64/structures/idt/entry.rs:122-137 | a canonical handler address reads back unchanged, and the options become a present gate in the kernel code segment |
| IdtEntry.SplitJoins | src/kernel/src/arch/x86_64/structures/idt/entry.rs:122-143 | the three address fields join back to the address, and `new_truncate` keeps a canonical address |
| IdtEntry.NewEntry | src/kernel/src/arch/x86_64/structures/idt/entry.rs:177-181 | a new entry is a present interrupt gate for its handler, in the kernel code segment, ring 0, on the current stack |
| IdtEntry.NewWithStack | src/kernel/src/arch/x86_64/structures/idt/entry.rs:199-210 | as a new entry, but switching to the given IST stack |
| IdtEntry.NewWithPrivilege | src/kernel/src/arch/x86_64/structures/idt/entry.rs:227-238 | as a new entry, but callable from the given ring |
| IdtErrorCodes.NewErrorCode | src/kernel/src/arch/x86_64/structures/idt/error_codes.rs:58-64 | a code is accepted exactly when bits 16 to 63 are clear, and keeps its value |
| IdtErrorCodes.TableKind | src/kernel/src/arch/x86_64/structures/idt/error_codes.rs:73-80 | bit 1 means the IDT; otherwise bit 2 chooses the LDT over the GDT |
| IdtErrorCodes.TableIndex | src/kernel/src/arch/x86_64/structures/idt/error_codes.rs:83-85 | the table index is a 13-bit value |
| IdtErrorCodes.Encode | src/kernel/src/arch/x86_64/structures/idt/error_codes.rs:54-90 | the error code a processor pushes fits in 16 bits |
| IdtErrorCodes.DecodeEncode | src/kernel/src/arch/x86_64/structures/idt/error_codes.rs:58-90 | every pushed error code is accepted, and its external flag, table kind and index read back; it is null exactly for an internal reference to GDT slot 0 |
| IdtErrorCodes.EncodeDecode | src/kernel/src/arch/x86_64/structures/idt/error_codes.rs:58-85 | every accepted code is the encoding of the fields read from it, up to the ignored bit 2 of an IDT reference |
| Idt.Index | src/kernel/src/arch/x86_64/structures/idt/mod.rs:441-446 | indexing yields the entry of an interrupt vector 32 to 255 |
| Idt.IndexMut | src/kernel/src/arch/x86_64/structures/idt/mod.rs:454-459 | writing an interrupt vector's entry changes that vector only |
| Idt.IndexMutThenIndex | src/kernel/src/arch/x86_64/structures/idt/mod.rs:441-459 | reading after writing the same vector yields the written entry |
| Idt.ExceptionGate | src/kernel/src/arch/x86_64/structures/idt/mod.rs:466-497 | the kernel installs a ring-0 gate for vectors 0 to 8, 10 to 14 and 16 to 20, each with its own stub, and leaves the others missing |
| Idt.InterruptStubAsWritten | src/kernel/src/arch/x86_64/structures/idt/mod.rs:498-724 | as written, each interrupt vector gets some interrupt stub from 32 to 255 |
| Idt.InterruptGateAsWritten | src/kernel/src/arch/x86_64/structures/idt/mod.rs:498-724 | as written, every interrupt vector gets a gate on the current stack, and vector 32 is the ring-3 one |
| Idt.InterruptGate | src/kernel/src/arch/x86_64/structures/idt/mod.rs:498-724 | each interrupt vector runs its own stub, and only vector 128 is open to ring 3 |
| Idt.InterruptStubsShifted | src/kernel/src/arch/x86_64/structures/idt/mod.rs:498-724 | as written, vector 32 runs the 128 stub from ring 3, vector 0x30 runs stub 0x2F, and vector 128 runs stub 127 |
| Idt.GateEntry | src/kernel/src/arch/x86_64/structures/idt/mod.rs:466-724 | an entry is present exactly when a gate is planned for it |
| Idt.Load | src/kernel/src/arch/x86_64/structures/idt/mod.rs:465-725 | the loaded table holds the planned gate's entry at every vector |
| Idt.LoadedTable | src/kernel/src/arch/x86_64/structures/idt/mod.rs:465-725 | every present vector runs its own stub in the kernel code segment; only vector 128 is open to ring 3; only vectors 1, 2, 8 and 18 switch stacks; all interrupt vectors are present |
| Apic.DeliveryCode | src/apic/src/lib.rs:10-18 | each delivery mode's code is a 3-bit number |
| Apic.DeliveryCodeInjective | src/apic/src/lib.rs:10-18 | distinct delivery modes have distinct codes, and code 3 names none |
| Apic.TimerModeCode | src/apic/src/lib.rs:23-27 | a timer mode's code is 0, 1 or 2 |
| Apic.TimerModeFrom | src/apic/src/lib.rs:29-42 | a value names a timer mode exactly when it is at most 2, the mode whose code it is; any other value comes back as the error |
| Apic.TimerModeRoundTrip | src/apic/src/lib.rs:23-42 | decoding a timer mode's code gives the mode back |
| Apic.DivisorCode | src/apic/src/lib.rs:45-54 | a divisor's code uses only bits 0, 1 and 3 of the divide-configuration register |
| Apic.DivideValue | src/apic/src/lib.rs:58-69 | every divide value is a power of two no greater than 128 |
| Apic.DivideValueInjective | src/apic/src/lib.rs:58-69 | distinct divisors divide by distinct amounts |
| Apic.HardwareDivisor | src/apic/src/lib.rs:45-54 | the timer divides by one of 1, 2, 4, …, 128 for any register image |
| Apic.DivisorCodeAgrees | src/apic/src/lib.rs:45-69 | the timer, given a divisor's code, divides by that divisor's value |
| Apic.TimerDivisorImageAsWritten | src/apic/src/lib.rs:312-314 | as written, the register receives the numeric divide value |
| Apic.TimerDivisorImage | src/apic/src/lib.rs:312-314 | the corrected register image makes the timer divide by the requested value |
| Apic.TimerDivisorAsWrittenMisconfigures | src/apic/src/lib.rs:312-314 | as written, asking for 2 divides by 8, asking for 1 divides by 4, and asking for 128 divides by 2 |
| Apic.CommandWord | src/apic/src/lib.rs:93-109 | the command word carries the vector, the delivery mode, the logical flag and the assert flag, each read back from its field, and nothing else |
| Apic.FlagBits | src/apic/src/lib.rs:100-105 | bits 8 to 15 hold the delivery mode at 8 to 10, the logical flag at 11 and the assert flag at 14, and nothing else |
| Apic.NewCommand | src/apic/src/lib.rs:93-109 | a new command keeps the APIC id and reads back each of its fields |
| Apic.NewInit | src/apic/src/lib.rs:111-114 | an INIT command is the word 0x4500 for the given APIC |
| Apic.NewSipi | src/apic/src/lib.rs:116-119 | a start-up command is 0x4600 with the vector in the low byte |
| Apic.XapicOffset | src/apic/src/lib.rs:184-186 | a register's xAPIC offset is a multiple of 16 inside the 1 KiB register page |
| Apic.X2apicMsr | src/apic/src/lib.rs:190-192 | a register's x2APIC MSR lies in 0x800 to 0x83F |
| Apic.RegisterNumberings | src/apic/src/lib.rs:134-192 | distinct registers have distinct offsets and MSRs, and the MSR is 0x800 plus the offset over 16 |
| Apic.RegisterAccess | src/apic/src/lib.rs:225-256 | in xAPIC mode a register access goes to the mapped base plus its offset, in x2APIC mode to its MSR |
| Apic.NewApic | src/apic/src/lib.rs:208-222 | an APIC is made exactly when it is hardware-enabled, in x2APIC mode when that mode is on, otherwise at the mapped xAPIC base |
| Apic.WithSoftwareEnable | src/apic/src/lib.rs:258-275 | enabling or disabling sets bit 8 accordingly and keeps every other bit |
| Apic.IdField | src/apic/src/lib.rs:277-280 | the id is the register's bits 24 to 31 |
| Apic.ErrorStatus | src/apic/src/lib.rs:293-296 | the error status keeps the eight defined flags of the low byte |
| Apic.WithMasked | src/apic/src/lib.rs:454-465 | the mask bit becomes the argument and every other bit is kept |
| Apic.GetVector | src/apic/src/lib.rs:467-472 | a vector is read exactly when the low byte is 32 or more, and it is that byte |
| Apic.WithVector | src/apic/src/lib.rs:479-492 | setting a vector of 32 or more writes the low byte and keeps the rest |
| Apic.SetThenGetVector | src/apic/src/lib.rs:467-492 | a vector that was set reads back, and the mask is unchanged |
| Apic.WithDeliveryMode | src/apic/src/lib.rs:508-518 | bits 8 to 10 become the mode's code and the rest is kept |
| Apic.TimerModeField | src/apic/src/lib.rs:523-530 | the timer-mode field is two bits wide |
| Apic.GetTimerMode | src/apic/src/lib.rs:523-530 | reading the timer mode gives the mode whose code is in the field |
| Apic.WithTimerMode | src/apic/src/lib.rs:537-560 | setting a supported timer mode writes its code into bits 17 and 18 and keeps the rest |
| Apic.SetThenGetTimerMode | src/apic/src/lib.rs:523-560 | a timer mode that was set reads back |
| Apic.Write | src/apic/src/lib.rs:243-256 | a written register reads back, and no other register changes |
| Apic.SetMasked | src/apic/src/lib.rs:454-465 | masking a local vector changes only its mask bit |
| Apic.SetVector | src/apic/src/lib.rs:479-492 | setting a local vector's vector changes only its low byte, and the vector reads back |
| Apic.SetSoftwareEnable | src/apic/src/lib.rs:258-275 | software enable and disable change only bit 8 of the spurious-vector register |
| Apic.WithSpuriousVector | src/apic/src/lib.rs:375-378 | the spurious-vector register gets the new vector in its low byte and keeps the rest |
| Apic.ResetSpurious | src/apic/src/lib.rs:371-380 | the first part of the reset leaves the task priority 0, the spurious vector set and the APIC enabled, and changes no other register |
| Apic.UnmaskWithVector | src/apic/src/lib.rs:384-385 | the local vector is unmasked with the given vector, and nothing else changes |
| Apic.SoftwareReset | src/apic/src/lib.rs:371-386 | after a reset the task priority is 0, the spurious vector is set and enabled, LINT0 and LINT1 are unmasked with their vectors, and every other register is unchanged |
| Apic.Dispatched | src/apic/src/lib.rs:301-304 | no more commands are sent than registers are written |
| Apic.SendCommandWritesAsWritten | src/apic/src/lib.rs:301-304 | as written, the APIC id goes to the low command register first and the command word to the high one |
| Apic.SendCommandWrites | src/apic/src/lib.rs:301-304 | the corrected order writes the destination to the high register first and the command word to the low register last |
| Apic.SendCommandDispatches | src/apic/src/lib.rs:301-304 | the corrected writes send exactly one interrupt command, carrying the intended word to the intended APIC |
| Apic.SendCommandAsWrittenMisroutes | src/apic/src/lib.rs:301-304 | as written, a start-up IPI with vector 8 for APIC 1 sends a fixed interrupt with vector 1 |
| IoApic.GetVector | src/kernel/src/arch/x86_64/structures/ioapic.rs:12-14 | the vector is the entry's low byte |
| IoApic.SetVector | src/kernel/src/arch/x86_64/structures/ioapic.rs:16-21 | setting a vector of 32 or more makes it read back and keeps every other bit |
| IoApic.DeliveryField | src/kernel/src/arch/x86_64/structures/ioapic.rs:23-26 | the delivery-mode field is three bits wide |
| IoApic.DeliveryModeFrom | src/kernel/src/arch/x86_64/structures/ioapic.rs:23-26 | a 3-bit code names a delivery mode exactly when it is not 3, the mode with that code |
| IoApic.DeliveryCode | src/kernel/src/arch/x86_64/structures/ioapic.rs:28-30 | a delivery mode's code is a 3-bit value other than 3 that decodes back to the mode |
| IoApic.GetDeliveryMode | src/kernel/src/arch/x86_64/structures/ioapic.rs:23-26 | reading the delivery mode gives the mode whose code is in the field |
| IoApic.SetDeliveryMode | src/kernel/src/arch/x86_64/structures/ioapic.rs:28-30 | bits 8 to 10 become the mode's code and the rest is kept |
| IoApic.SetThenGetDeliveryMode | src/kernel/src/arch/x86_64/structures/ioapic.rs:23-30 | a delivery mode that was set reads back |
| IoApic.WithBit | src/kernel/src/arch/x86_64/structures/ioapic.rs:36-84 | the masked bits are all set or all cleared, as asked, and the others are kept |
| IoApic.SetDestinationMode | src/kernel/src/arch/x86_64/structures/ioapic.rs:36-38 | bit 11 is set exactly for the logical mode, and every other bit is kept |
| IoApic.GetDestinationModeAsWritten | src/kernel/src/arch/x86_64/structures/ioapic.rs:32-34 | as written, a set bit 11 reads as physical |
| IoApic.GetDestinationMode | src/kernel/src/arch/x86_64/structures/ioapic.rs:32-38 | a set bit 11 reads as logical, as the setter writes it |
| IoApic.DestinationModeAsWrittenInverts | src/kernel/src/arch/x86_64/structures/ioapic.rs:32-38 | as written, either destination mode reads back as the other, while the corrected getter reads it back |
| IoApic.GetPolarity | src/kernel/src/arch/x86_64/structures/ioapic.rs:44-46 | a set bit 13 reads as active low and a clear one as active high |
| IoApic.SetPolarity | src/kernel/src/arch/x86_64/structures/ioapic.rs:48-56 | bit 13 is set exactly for active low, and every other bit is kept |
| IoApic.SetThenGetPolarity | src/kernel/src/arch/x86_64/structures/ioapic.rs:44-56 | a polarity that was set reads back, the bus default reading as active high |
| IoApic.SetTriggerMode | src/kernel/src/arch/x86_64/structures/ioapic.rs:62-70 | bit 15 is set exactly for level triggering, and every other bit is kept |
| IoApic.GetTriggerModeAsWritten | src/kernel/src/arch/x86_64/structures/ioapic.rs:58-60 | as written, a set bit 15 reads as edge |
| IoApic.GetTriggerMode | src/kernel/src/arch/x86_64/structures/ioapic.rs:58-70 | a set bit 15 reads as level, as the setter writes it |
| IoApic.TriggerModeRoundTrip | src/kernel/src/arch/x86_64/structures/ioapic.rs:58-70 | a trigger mode that was set reads back through the corrected getter, while the getter as written reads edge and level the wrong way round |
| IoApic.SetMasked | src/kernel/src/arch/x86_64/structures/ioapic.rs:72-78 | the mask bit becomes the argument and every other bit is kept |
| IoApic.GetDestinationId | src/kernel/src/arch/x86_64/structures/ioapic.rs:80-82 | the destination id is bits 56 to 63 |
| IoApic.SetDestinationId | src/kernel/src/arch/x86_64/structures/ioapic.rs:84-86 | setting the destination id makes it read back and keeps bits 0 to 55 |
| IoApic.RedirectionRegister | src/kernel/src/arch/x86_64/structures/ioapic.rs:122-141 | an interrupt's entry starts at register 0x10 + 2·irq |
| IoApic.RedirectionRegistersDisjoint | src/kernel/src/arch/x86_64/structures/ioapic.rs:119-150 | distinct interrupts use disjoint register pairs |
| IoApic.Join | src/kernel/src/arch/x86_64/structures/ioapic.rs:129-131 | the entry read back holds the low register in its low half and the high register in its high half |
| IoApic.Split | src/kernel/src/arch/x86_64/structures/ioapic.rs:138-140 | splitting an entry into its two halves and joining them gives it back |
| IoApic.GetRedirection | src/kernel/src/arch/x86_64/structures/ioapic.rs:119-132 | reading an interrupt's entry assembles it from its register pair |
| IoApic.SetRedirection | src/kernel/src/arch/x86_64/structures/ioapic.rs:134-150 | writing an interrupt's entry writes its two registers and no others |
| IoApic.SetThenGetRedirection | src/kernel/src/arch/x86_64/structures/ioapic.rs:119-150 | an entry that was written reads back, and other interrupts' entries are unchanged |
| Uart.ReadOffsetValue | src/shared/uart/src/lib.rs:157-165 | every readable register sits at offset 0 to 6 from the port base |
| Uart.WriteOffsetValue | src/shared/uart/src/lib.rs:168-174 | every writable register sits at offset 0 to 4 from the port base |
| Uart.RegisterTargetAsWritten | src/shared/uart/src/lib.rs:186-222 | as written, a port-mapped UART reads and writes the base port itself whatever the register, while a memory-mapped one adds the offset |
| Uart.RegisterTarget | src/shared/uart/src/lib.rs:186-222 | corrected: both kinds of UART reach the register at base plus offset, and the access stays port or memory as the address is |
| Uart.PortOffsetIgnored | src/shared/uart/src/lib.rs:186-222 | on COM1 the as-written line-control write lands on 0x3F8 (the data register) instead of 0x3FB, and every register collapses onto one port; the corrected target keeps distinct registers apart |
| Uart.DataBitsCode | src/shared/uart/src/lib.rs:56-61 | a data-bits setting is a 2-bit code |
| Uart.ParityCode | src/shared/uart/src/lib.rs:65-71 | a parity mode is a 3-bit code with bit 0 set or all clear (never 2, 4 or 6) |
| Uart.FifoSizeCode | src/shared/uart/src/lib.rs:48-52 | a FIFO trigger size is one of the codes 1 to 3 |
| Uart.LineControlByte | src/shared/uart/src/lib.rs:97-109 | the line-control byte carries the data-bits code in bits 0-1, the stop bit in bit 2, the parity code in bits 3-5, the break bit in bit 6, and leaves the divisor-latch bit clear |
| Uart.DataBitsFrom | src/shared/uart/src/lib.rs:249-255 | decoding bits 0-1 of a line-control byte gives the setting whose code they are |
| Uart.ParityFromAsWritten | src/shared/uart/src/lib.rs:256-263 | as written, decoding the parity field gives the mode whose code it is, except that code 7 (Low) decodes as High |
| Uart.ParityFrom | src/shared/uart/src/lib.rs:256-263 | corrected: decoding any valid parity field gives the mode whose code it is |
| Uart.DecodeLineControlAsWritten | src/shared/uart/src/lib.rs:245-267 | as written, reading line control assembles the decoded data bits, as-written parity, stop bit and break bit |
| Uart.DecodeLineControl | src/shared/uart/src/lib.rs:245-267 | re-encoding a decoded line-control byte reproduces the byte without its divisor-latch bit |
| Uart.LineControlFields | src/shared/uart/src/lib.rs:97-109 | two bytes that agree on every line-control field and differ only in bit 7 are the same byte once bit 7 is cleared |
| Uart.LineControlRoundTrip | src/shared/uart/src/lib.rs:97-267 | decoding an encoded line control gives it back; the as-written decoder gives it back except that Low parity comes back as High |
| Uart.FifoControlByte | src/shared/uart/src/lib.rs:231-242 | the FIFO-control byte has the enable bit set, the clear-receive, clear-transmit and DMA bits as asked, bits 4-5 clear and the trigger size in bits 6-7 |
| Uart.ModemControlFlags | src/shared/uart/src/lib.rs:274-277 | reading modem control keeps exactly the five defined low bits of the register |
| Uart.InterruptEnableFlags | src/shared/uart/src/lib.rs:346-349 | reading interrupt enable keeps exactly the six defined low bits of the register |
| Uart.BaudDivisor | src/shared/uart/src/lib.rs:76-87 | every baud rate's divisor is non-zero |
| Uart.BaudRate | src/shared/uart/src/lib.rs:74-87 | each rate times its divisor is the 115200 base clock |
| Uart.BaudFromDivisor | src/shared/uart/src/lib.rs:306-320 | a latch value names a baud rate exactly when it is one of the ten divisors, and then the rate whose divisor it is |
| Uart.DivisorBytes | src/shared/uart/src/lib.rs:301-304 | splitting a divisor into its low and high latch bytes and joining them again gives the divisor back |
| Uart.LatchRoundTrip | src/shared/uart/src/lib.rs:296-304 | splitting the value read from the two latch bytes gives the same two bytes back |
| Uart.Write | src/shared/uart/src/lib.rs:207-354 | a register write changes only the register it names; an offset-1 write reaches interrupt enable only while the divisor latch is closed |
| Uart.ConfigureMode | src/shared/uart/src/lib.rs:356-362 | switching to configure mode sets the divisor-latch bit, keeps the other line-control fields, and changes nothing else |
| Uart.DataMode | src/shared/uart/src/lib.rs:326-332 | corrected: switching to data mode clears the divisor-latch bit, keeps the other line-control fields, and changes nothing else |
| Uart.DataModeAsWritten | src/shared/uart/src/lib.rs:326-332 | as written, data mode rewrites line control from the decoded byte: the latch bit ends clear and nothing else changes, but the fields need not survive |
| Uart.ModeSwitchKeepsLineControl | src/shared/uart/src/lib.rs:326-362 | configure mode followed by the corrected data mode restores the device exactly; with Low parity the as-written data mode leaves High parity behind |
| Uart.SetBaud | src/shared/uart/src/lib.rs:301-324 | with the latch open, setting a rate stores its divisor in the latch, reading the rate back gives the same rate, and line control and interrupt enable are untouched |
| Uart.InitUart | src/shared/uart/src/lib.rs:365-406 | corrected: initialisation passes its loopback check and leaves 8 data bits with no parity, the chosen rate's divisor, FIFO control 0xC7, modem control 0x0F and only the transmit-empty interrupt enabled |
| Pic8259.Discriminant | src/shared/pic_8259/src/lib.rs:18-36 | the fifteen interrupt offsets are numbered 0 to 14 |
| Pic8259.FromU8 | src/shared/pic_8259/src/lib.rs:38-58 | a byte names an interrupt offset exactly when it is at most 14, the offset it numbers; any other byte comes back as the error |
| Pic8259.FromU8RoundTrip | src/shared/pic_8259/src/lib.rs:38-58 | decoding an offset's number gives the offset back |
| Pic8259.IrqLine | src/shared/pic_8259/src/lib.rs:61-80 | each interrupt's line bit lies in 0-15 and never on line 2, which the cascade uses |
| Pic8259.Low | src/shared/pic_8259/src/lib.rs:82-88 | the low byte of a line mask is its lines 0-7 |
| Pic8259.High | src/shared/pic_8259/src/lib.rs:90-95 | the high byte of a line mask, shifted back up, is its lines 8-15 |
| Pic8259.LowHighJoin | src/shared/pic_8259/src/lib.rs:82-95 | the high and low bytes put together give the line mask back |
| Pic8259.NewPics | src/shared/pic_8259/src/lib.rs:132-138 | the master is placed at the base vector and the slave 8 vectors above it |
| Pic8259.PicHandlesAsWritten | src/shared/pic_8259/src/lib.rs:114-117 | as written, a controller claims nothing once it sits at vector 15 or above, and at vector 0 it claims the lines below 8 together with the real-time clock on line 8 |
| Pic8259.HandlesAsWritten | src/shared/pic_8259/src/lib.rs:188-190 | as written, a pair with both controllers at vector 15 or above handles no interrupt at all |
| Pic8259.EndOfInterruptAsWritten | src/shared/pic_8259/src/lib.rs:111-209 | as written, an interrupt whose number lies in neither controller's 8-vector window is refused with nothing sent; otherwise the slave gets an end-of-interrupt exactly when its window holds the number, and the master always gets the last one |
| Pic8259.EndOfInterrupt | src/shared/pic_8259/src/lib.rs:192-209 | corrected: every interrupt is acknowledged, on the master last, and on the slave first exactly when its IRQ line is 8 or above |
| Pic8259.EndOfInterruptAsWrittenMisroutes | src/shared/pic_8259/src/lib.rs:18-209 | as written, the real-time clock (number 7, line 8) is acknowledged on the master alone with the pair at vector 0, and with the pair at vector 32 every interrupt is refused |
| Pic8259.MasterMask | src/shared/pic_8259/src/lib.rs:182 | the master's mask never masks the cascade line and masks every other line 0-7 that is not enabled |
| Pic8259.SlaveMask | src/shared/pic_8259/src/lib.rs:184 | the slave's mask is the complement of the enabled lines 8-15 |
| Pic8259.InitWrites | src/shared/pic_8259/src/lib.rs:146-185 | initialisation issues nineteen port writes |
| Pic8259.InitSequence | src/shared/pic_8259/src/lib.rs:146-185 | every odd write is an I/O wait; the two init commands go to the command ports first, then each controller's data port gets its offset, its cascade wiring (line 2 on the master, identity 2 on the slave), 8086 mode and its mask, master before slave |
| Pic8259.InitMasks | src/shared/pic_8259/src/lib.rs:182-184 | a line is unmasked after initialisation exactly when it is enabled, or it is the master's cascade line |
| PciClass.ParseIde | src/kernel/src/mem/io/pci/device/class.rs:20-110 | an IDE programming interface byte is recognised exactly when some IDE flavour carries it, and then it is that flavour's byte |
| PciClass.Parse | src/kernel/src/mem/io/pci/device/class.rs:12-75 | parsing is total and loses nothing: the class parsed from a triple stands for exactly that triple |
| PciClass.ParseMassStorage | src/kernel/src/mem/io/pci/device/class.rs:19-48 | a mass-storage subclass and interface parse to a class standing for class 1 with those bytes |
| PciClass.ParseBridge | src/kernel/src/mem/io/pci/device/class.rs:57-71 | a bridge subclass and interface parse to a class standing for class 6 with those bytes |
| PciClass.ParseCode | src/kernel/src/mem/io/pci/device/class.rs:12-75 | every named class parses back from its own triple, so no two named classes share a triple |
| PciClass.MassStorageCode | src/kernel/src/mem/io/pci/device/class.rs:19-48 | every mass-storage controller parses back from its own subclass and interface |
| PciClass.BridgeCode | src/kernel/src/mem/io/pci/device/class.rs:57-71 | every bridge parses back from its own subclass and interface |
| PciClass.ParseUnknownExactly | src/kernel/src/mem/io/pci/device/class.rs:12-75 | a triple parses to the unknown class exactly when the table names no class for it |
| PciClass.ParseInjective | src/kernel/src/mem/io/pci/device/class.rs:12-75 | two triples that parse alike are the same triple |
| PciClass.ParseNamedRows | src/kernel/src/mem/io/pci/device/class.rs:20-70 | (1,6,1) is an AHCI controller; bridge subclass 9 is InfiniBand for interface 0 and a semi-transparent PCI-to-PCI bridge for 0x40 and 0x80; IDE recognises exactly its eight interfaces |
| PciDevice.DevselTimingOf | src/kernel/src/mem/io/pci/device/mod.rs:61-98 | a status register with a valid timing field decodes to the timing whose code the field holds |
| PciDevice.WithDevsel | src/kernel/src/mem/io/pci/device/mod.rs:68-86 | a status image built with a timing holds its code in bits 9-10 and keeps every other bit |
| PciDevice.DevselRoundTrip | src/kernel/src/mem/io/pci/device/mod.rs:61-98 | decoding reads back the timing a status image was built with |
| PciDevice.HeaderByteSplits | src/kernel/src/mem/io/pci/device/mod.rs:201-207 | the header-type byte is exactly its 7-bit type plus the multi-function flag in bit 7 |
| PciDevice.NewDevice | src/kernel/src/mem/io/pci/device/mod.rs:100-143 | header type 0 gives a standard device, 1 a PCI-to-PCI bridge, 2 is refused as unsupported, anything above 2 is invalid, and each error carries the type |
| PciDevice.NewDeviceIgnoresMultiFunction | src/kernel/src/mem/io/pci/device/mod.rs:134-143 | the multi-function flag plays no part in choosing the device kind |
| PciDevice.Latch | src/kernel/src/mem/io/pci/device/mod.rs:148-154 | a header row keeps the written value in its writable bits and its fixed value in the others |
| PciDevice.LatchIdempotent | src/kernel/src/mem/io/pci/device/mod.rs:148-154 | writing back what a row reads changes nothing |
| PciDevice.WriteRow | src/kernel/src/mem/io/pci/device/mod.rs:152-154 | a row write changes what that row reads, to the latched value, and no other row |
| PciDevice.GetClass | src/kernel/src/mem/io/pci/device/mod.rs:180-191 | the class decoded from a header stands for bytes 3, 2 and 1 of its third row |
| PciDevice.Address64 | src/kernel/src/mem/io/pci/device/mod.rs:245-258 | a 64-bit BAR's base has its four flag bits clear |
| PciDevice.Memory32 | src/kernel/src/mem/io/pci/device/mod.rs:222-236 | a 32-bit memory BAR carries the probed size and is prefetchable exactly when bit 3 of the register is set |
| PciDevice.Memory64 | src/kernel/src/mem/io/pci/device/mod.rs:238-262 | a 64-bit memory BAR's base is the high row above the low row's address bits |
| PciDevice.Probe | src/kernel/src/mem/io/pci/device/mod.rs:224-229 | probing a row with all ones reads back the latched all-ones value and leaves the header reading as before |
| PciDevice.ProbePair | src/kernel/src/mem/io/pci/device/mod.rs:245-256 | probing a pair of rows reads back each row's latched all-ones value and leaves the header reading as before |
| PciDevice.ProbeSize32 | src/kernel/src/mem/io/pci/device/mod.rs:223-228 | a 32-bit BAR's size is the two's-complement negation of the read-back's address bits: the two sum to zero modulo 2^32, and the size has its four flag bits clear |
| PciDevice.ProbeSize64AsWritten | src/kernel/src/mem/io/pci/device/mod.rs:242-254 | as written, the 64-bit size is the joined read-back's address bits plus one, so its low four bits are always 0b0001 and it is never a size a BAR can decode |
| PciDevice.ProbeSize64Negates | src/kernel/src/mem/io/pci/device/mod.rs:242-254 | the corrected 64-bit size is the two's-complement negation of the joined read-back (high row above the low row's address bits), as the 32-bit probe computes |
| PciDevice.DecodeBar | src/kernel/src/mem/io/pci/device/mod.rs:213-266 | an I/O BAR is its register without the two low bits and size 0; memory type 0 gives a 32-bit BAR, type 2 a 64-bit one, and types 1 and 3 are an invalid-space error; the header reads as before afterwards |
| PciDevice.GetBar | src/kernel/src/mem/io/pci/device/mod.rs:209-266 | an index at or past the kind's register count (6 standard, 2 bridge) is an overflow error; any other index decodes the BAR in row 4 plus the index |
| PciDevice.IsUnused | src/kernel/src/mem/io/pci/device/mod.rs:292-298 | a memory BAR is unused exactly when its address is 0, an I/O BAR exactly when its address is below 4, that is when bits 2..32 are all clear |
| PciDevice.GetSize | src/kernel/src/mem/io/pci/device/mod.rs:300-306 | widening the size to a usize loses nothing: a 64-bit BAR's size as stored, a 32-bit or I/O BAR's size below 2^32 and equal to the stored size in its low 32 bits |
| PciDevice.GetAddress | src/kernel/src/mem/io/pci/device/mod.rs:308-314 | a memory BAR's address as stored; an I/O BAR's port widened, below 2^32 and equal to the port in its low 32 bits |
| PciDevice.Probe32Sizes | src/kernel/src/mem/io/pci/device/mod.rs:224-229 | on a 32-bit BAR decoding a power-of-two size, the probe's inverted read-back plus one is that size, and the address bits read back are aligned to it |
| PciDevice.Bar32Sized | src/kernel/src/mem/io/pci/device/mod.rs:209-315 | a 32-bit BAR reports the size its hardware decodes and the hardware's prefetch flag, and the corrected base is aligned to the size |
| PciDevice.Probe64Sizes | src/kernel/src/mem/io/pci/device/mod.rs:245-256 | on a 64-bit BAR the corrected probe yields the decoded size while the as-written one yields the size's complement plus two |
| PciDevice.Bar64Sized | src/kernel/src/mem/io/pci/device/mod.rs:209-315 | with the corrected decode, a 64-bit BAR reports the size its hardware decodes, a base aligned to it and the hardware's prefetch flag |
| PciDevice.UnusedMeansNoAddress | src/kernel/src/mem/io/pci/device/mod.rs:209-298 | with the corrected decode, a BAR is unused exactly when its register holds no address bits |
| PciDevice.Memory32AsWrittenKeepsFlags | src/kernel/src/mem/io/pci/device/mod.rs:230-298 | as written, a prefetchable 32-bit BAR at 0xFEB0_0000 is reported at 0xFEB0_0008 and an unassigned prefetchable BAR is not unused; the corrected decode gives 0xFEB0_0000 and unused |
| PciDevice.Memory64AsWrittenMissizes | src/kernel/src/mem/io/pci/device/mod.rs:250-260 | as written, a 64-bit BAR is never prefetchable and a 1 MiB BAR reports 0xFFFF_FFFF_FFF0_0001 bytes; the corrected decode reports the flag and 0x10_0000 bytes |
| NvmeCommand.FuseCode | kernel/src/drivers/nvme/command.rs:14-20 | a fuse operation is one of the codes 0 to 2 |
| NvmeCommand.SetOpcode | kernel/src/drivers/nvme/command.rs:84-90 | setting the opcode makes the opcode read back as given and leaves every other header bit and field unchanged |
| NvmeCommand.GetFuseInfo | kernel/src/drivers/nvme/command.rs:92-94 | a header whose fuse field holds a valid code decodes to the operation with that code |
| NvmeCommand.SetFuseInfo | kernel/src/drivers/nvme/command.rs:96-98 | setting the fuse operation stores its code in bits 8-9 and leaves every other header bit and field unchanged |
| NvmeCommand.FuseRoundTrip | kernel/src/drivers/nvme/command.rs:92-98 | reading the fuse operation back gives what was set |
| NvmeCommand.WithFuse | kernel/src/drivers/nvme/command.rs:96-98 | a header with a fuse code placed in it holds that code in bits 8-9 and keeps its other bits |
| NvmeCommand.SetCommandId | kernel/src/drivers/nvme/command.rs:100-106 | setting the command id makes it read back as given and leaves the low header half and every other field unchanged |
| NvmeCommand.SetMetadataPtr | kernel/src/drivers/nvme/command.rs:108-110 | setting the metadata pointer stores it and changes nothing else |
| NvmeCommand.SetDataPtr | kernel/src/drivers/nvme/command.rs:112-127 | PRP entries land in the two halves of the data pointer with PSDT 0, an SGL replaces the pointer with PSDT 1, and no other header bit or field changes |
| NvmeCommand.AbortConfigureAsWritten | kernel/src/drivers/nvme/command.rs:130-135 | as written, the abort command is cleared and its dword 10 holds the command id low and the queue id high |
| NvmeCommand.AbortConfigure | kernel/src/drivers/nvme/command.rs:130-135 | corrected: the abort command is cleared and the controller reads back the asked-for command id and queue id (queue low, command high, per the NVM Express Base Specification) |
| NvmeCommand.AbortAsWrittenSwapsIds | kernel/src/drivers/nvme/command.rs:130-135 | as written, asking to abort command 5 of queue 1 asks the controller to abort command 1 of queue 5 |
| NvmeCommand.CreateDword11 | kernel/src/drivers/nvme/command.rs:138-162 | dword 11 of a create command holds PC in bit 0, IEN in bit 1 and the vector in bits 16-31, and keeps bits 2-15 |
| NvmeCommand.VectorField | kernel/src/drivers/nvme/command.rs:142 | the vector placed in bits 16-31 leaves the low half clear |
| NvmeCommand.CreateFlags | kernel/src/drivers/nvme/command.rs:140-160 | setting PC and IEN keeps the other low bits and clears the vector half |
| NvmeCommand.PcBit | kernel/src/drivers/nvme/command.rs:140 | the PC flag is bit 0 alone |
| NvmeCommand.IenBit | kernel/src/drivers/nvme/command.rs:141 | the IEN flag is bit 1 alone |
| NvmeCommand.CompletionCreateConfigure | kernel/src/drivers/nvme/command.rs:138-162 | configuring a completion-queue create command makes its queue id, size, contiguity, interrupt flag and vector read back as given, puts the queue memory in the first PRP entry with the second zero, and touches no other field |
| NvmeCommand.GetStatusCode | kernel/src/drivers/nvme/command.rs:165-217 | a generic status with a named code decodes to that code |
| NvmeCommand.CompletionReadsBack | kernel/src/drivers/nvme/command.rs:200-254 | building dword 3 from the command id, phase tag, status code, status type, more and do-not-retry read from a completion gives dword 3 back, less the unread bits 28-29 |
| NvmeCommand.Dword3Reassembles | kernel/src/drivers/nvme/command.rs:200-254 | any 32-bit word is its command id, phase, status code, status type, more and do-not-retry fields put together, less bits 28-29 |
| NvmeController.CommandSetCode | src/kernel/src/drivers/nvme/mod.rs:140-146 | a command set's CC.CSS code fits in three bits |
| NvmeController.SupportedSets | src/kernel/src/drivers/nvme/mod.rs:29-72 | of CAP's eight command-set bits only NVM (bit 0), IO (bit 6) and ADMIN (bit 7) are kept |
| NvmeController.IntoCommandSet | src/kernel/src/drivers/nvme/mod.rs:38-50 | with at least one set advertised, the set chosen is advertised; it is Admin exactly when ADMIN is set, IO exactly when IO is set and ADMIN is not, NVM exactly when only NVM is set |
| NvmeController.IntoCommandSetIsHighest | src/kernel/src/drivers/nvme/mod.rs:38-50 | no advertised set ranks above the one chosen (Admin over IO over NVM) |
| NvmeController.VersionReassembles | src/kernel/src/drivers/nvme/mod.rs:116-130 | the major, minor and tertiary readers cover the whole version word and lose nothing |
| NvmeController.VersionReadsBack | src/kernel/src/drivers/nvme/mod.rs:116-130 | each version reader returns the part the word was built from |
| NvmeController.ArbitrationCode | src/kernel/src/drivers/nvme/mod.rs:148-154 | an arbitration mechanism's code fits in three bits |
| NvmeController.ShutdownCode | src/kernel/src/drivers/nvme/mod.rs:156-161 | a shutdown notification's code is 0, 1 or 2 |
| NvmeController.SetEnabled | src/kernel/src/drivers/nvme/mod.rs:171-172 | setting EN makes it read back as given and changes no other bit of CC |
| NvmeController.GetCss | src/kernel/src/drivers/nvme/mod.rs:174-176 | a CC whose CSS field holds one of the three valid codes decodes to the set with that code |
| NvmeController.SetCss | src/kernel/src/drivers/nvme/mod.rs:178-180 | setting the command set stores its code in bits 4-6 and changes no other bit |
| NvmeController.WithCss | src/kernel/src/drivers/nvme/mod.rs:178-180 | a CC with a code placed in bits 4-6 holds it there and keeps every other bit |
| NvmeController.CssRoundTrip | src/kernel/src/drivers/nvme/mod.rs:174-180 | reading the command set back gives what was set |
| NvmeController.SetMps | src/kernel/src/drivers/nvme/mod.rs:186-190 | on a disabled controller, setting the page size stores it in bits 7-10 and changes no other bit |
| NvmeController.GetAms | src/kernel/src/drivers/nvme/mod.rs:192-194 | a CC whose AMS field holds one of the three valid codes decodes to the mechanism with that code |
| NvmeController.SetAms | src/kernel/src/drivers/nvme/mod.rs:196-198 | setting the arbitration mechanism stores its code in bits 11-13 and changes no other bit |
| NvmeController.WithAms | src/kernel/src/drivers/nvme/mod.rs:196-198 | a CC with a code placed in bits 11-13 holds it there and keeps every other bit |
| NvmeController.AmsRoundTrip | src/kernel/src/drivers/nvme/mod.rs:192-198 | reading the arbitration mechanism back gives what was set |
| NvmeController.GetShn | src/kernel/src/drivers/nvme/mod.rs:200-202 | a CC whose SHN field is not the reserved 3 decodes to the notification with that code |
| NvmeController.SetShn | src/kernel/src/drivers/nvme/mod.rs:204-206 | setting the shutdown notification stores its code in bits 14-15 and changes no other bit |
| NvmeController.WithShn | src/kernel/src/drivers/nvme/mod.rs:204-206 | a CC with a code placed in bits 14-15 holds it there and keeps every other bit |
| NvmeController.ShnRoundTrip | src/kernel/src/drivers/nvme/mod.rs:200-206 | reading the shutdown notification back gives what was set |
| NvmeController.SetIosqes | src/kernel/src/drivers/nvme/mod.rs:208-214 | setting the submission entry size stores it in bits 16-19 and changes no other bit |
| NvmeController.SetIocqes | src/kernel/src/drivers/nvme/mod.rs:216-222 | setting the completion entry size stores it in bits 20-23 and changes no other bit |
| NvmeController.ConfigureCc | src/kernel/src/drivers/nvme/mod.rs:358-368 | after configuration the controller is still disabled and CSS reads back the command set chosen from CAP |
| NvmeController.ConfigureCcSets | src/kernel/src/drivers/nvme/mod.rs:358-368 | after configuration AMS is round robin, MPS is 0 (4 KiB pages), IOSQES 6 and IOCQES 4, and no other bit of CC has changed |
| NvmeController.ConfiguredWord | src/kernel/src/drivers/nvme/mod.rs:358-368 | the configured CC is the old word with the configured fields replaced by the chosen set, round robin, 4 KiB pages, 64-byte and 16-byte entries |
| NvmeController.GetShst | src/kernel/src/drivers/nvme/mod.rs:244-263 | a status whose SHST field is not the reserved 3 decodes to normal, occurring or complete for codes 0, 1 and 2 |
| NvmeController.SetVectorBit | src/kernel/src/drivers/nvme/mod.rs:292-300 | masking or unmasking a vector below 32 sets that vector's bit and keeps every other bit of the register |
| NvmeController.AdminQueueAttributesAsWritten | src/kernel/src/drivers/nvme/mod.rs:345 | as written, AQA holds the submission entry count low and the completion entry count high, both as given |
| NvmeController.AdminQueueAttributes | src/kernel/src/drivers/nvme/mod.rs:345 | corrected: the controller reads back exactly the requested submission and completion entry counts (AQA is zero-based, per the NVM Express Base Specification) |
| NvmeController.AdminQueueAttributesAsWrittenOversizes | src/kernel/src/drivers/nvme/mod.rs:333-346 | as written, four-entry admin queues are announced to the controller as five-entry queues |
| NvmeController.NextCommandId | src/kernel/src/drivers/nvme/mod.rs:442-457 | the id chosen is below 0xFFFF, held by no pending command, and the smallest such id |
| NvmeQueue.DoorbellStride | src/kernel/src/drivers/nvme/queue.rs:15-17 | doorbells are at least four bytes apart |
| NvmeQueue.DoorbellOffset | src/kernel/src/drivers/nvme/queue.rs:12-17 | a queue's doorbell lies at or above 0x1000, a whole number of strides in: twice the queue id, plus one for a completion queue |
| NvmeQueue.DoorbellOwner | src/kernel/src/drivers/nvme/queue.rs:12-17 | an offset that names a queue is that queue's doorbell offset |
| NvmeQueue.DoorbellRoundTrip | src/kernel/src/drivers/nvme/queue.rs:12-41 | every queue's doorbell offset leads back to that queue and type |
| NvmeQueue.DoorbellsDistinct | src/kernel/src/drivers/nvme/queue.rs:12-41 | two different queues' doorbells are at least a stride apart, so the registers never overlap |
| NvmeQueue.NewQueue | src/kernel/src/drivers/nvme/queue.rs:51-76 | a new queue has its index at 0 of a ring of the requested size, its phase tag set, and the given entries |
| NvmeQueue.SubmitCommand | src/kernel/src/drivers/nvme/queue.rs:141-147 | submitting writes the command at the current index, steps the index by one modulo the queue size, and changes no other slot |
| NvmeQueue.SubmitAll | src/kernel/src/drivers/nvme/queue.rs:141-147 | a run of submissions keeps the queue well formed and its size |
| NvmeQueue.SubmitAllIndex | src/kernel/src/drivers/nvme/queue.rs:141-147 | after n submissions the index is n slots on, wrapping at the end |
| NvmeQueue.SubmitAllKeeps | src/kernel/src/drivers/nvme/queue.rs:141-147 | submissions leave alone every slot more than their number of steps ahead of the index |
| NvmeQueue.SubmitAllPlaces | src/kernel/src/drivers/nvme/queue.rs:141-147 | up to a queue's worth of submissions land in consecutive slots from the current index on, in order, wrapping at the end |
| NvmeQueue.NextCmdResultAsWritten | src/kernel/src/drivers/nvme/queue.rs:89-111 | as written, an entry is returned exactly when its phase tag differs from the queue's; the index steps without ever inverting the phase tag, and the doorbell gets the index of the entry just taken |
| NvmeQueue.IncrementWithPhaseInversion | src/kernel/src/drivers/nvme/queue.rs:117-126 | the index steps by one and the phase tag inverts exactly when the index wraps to 0 |
| NvmeQueue.NewCompletionQueue | src/kernel/src/drivers/nvme/queue.rs:51-76 | corrected: a completion queue starts with its phase tag clear, matching zeroed memory |
| NvmeQueue.NextCompletion | src/kernel/src/drivers/nvme/queue.rs:89-126 | corrected: an entry is returned exactly when its phase tag differs from the queue's; the queue then steps with phase inversion and the doorbell gets the new head |
| NvmeQueue.NewCompletionQueueTracks | src/kernel/src/drivers/nvme/queue.rs:51-76 | a fresh corrected completion queue agrees with having consumed nothing |
| NvmeQueue.NextCompletionFollowsController | src/kernel/src/drivers/nvme/queue.rs:89-126 | with at most a queue's worth of completions outstanding, the corrected poll returns exactly the oldest unconsumed completion when there is one, tells the doorbell the slot after it, and changes nothing when there is none |
| NvmeQueue.StepTracks | src/kernel/src/drivers/nvme/queue.rs:117-126 | stepping with phase inversion keeps the queue in step with the controller, one entry further on |
| NvmeQueue.NextCmdResultAsWrittenReportsNothingPosted | src/kernel/src/drivers/nvme/queue.rs:51-111 | as written, a fresh queue over zeroed memory reports a completion before the controller has posted any |
| NvmeQueue.NextCmdResultAsWrittenMissesFirst | src/kernel/src/drivers/nvme/queue.rs:51-111 | as written, the controller's first completion goes unseen because its phase tag matches the queue's |
| NvmeQueue.NextCmdResultAsWrittenDoorbellLags | src/kernel/src/drivers/nvme/queue.rs:89-111 | as written, the head doorbell is given the slot just consumed rather than the slot after it |
| AhciPort.InterfacePowerManagement | kernel/src/drivers/ahci/hba/port/mod.rs:18-54 | a status whose bits 8-11 hold a defined power state decodes to the state with that code |
| AhciPort.InterfaceSpeed | kernel/src/drivers/ahci/hba/port/mod.rs:28-58 | a status whose bits 4-7 hold a defined speed decodes to the speed with that code |
| AhciPort.DeviceDetection | kernel/src/drivers/ahci/hba/port/mod.rs:37-62 | a status whose bits 0-3 hold a defined detection state decodes to the state with that code |
| AhciPort.StatusDecodes | kernel/src/drivers/ahci/hba/port/mod.rs:18-62 | the three decoders give back the power state, speed and detection state a status word was built from |
| AhciPort.StatusFields | kernel/src/drivers/ahci/hba/port/mod.rs:51-62 | the three 4-bit fields of a status word read back as they were placed |
| AhciPort.Signature | kernel/src/drivers/ahci/hba/port/mod.rs:152-160 | a recognised signature names a device class whose signature it is; any other word comes back as the error |
| AhciPort.SignatureRoundTrip | kernel/src/drivers/ahci/hba/port/mod.rs:152-160 | every device class's signature is recognised as that class |
| AhciPort.ClassDefined | kernel/src/drivers/ahci/hba/port/mod.rs:178-192 | `class` cannot panic on a port whose detection code is known but not "detected with PHY", nor on one that is detected with a known power state other than active, and always panics on an unknown detection code |
| AhciPort.Class | kernel/src/drivers/ahci/hba/port/mod.rs:178-192 | a port reports no device exactly when detection is not "detected with PHY" or power is not active; otherwise the class its signature names |
| AhciPort.GetCommandList | kernel/src/drivers/ahci/hba/port/mod.rs:194-200 | a port exposes no command list exactly while its base pointer is null, and otherwise the 32 headers at that base |
| AhciPort.SetCommandListBase | kernel/src/drivers/ahci/hba/port/mod.rs:162-164 | setting the command list base stores it and changes nothing else |
| AhciPort.SetFisBase | kernel/src/drivers/ahci/hba/port/mod.rs:166-168 | setting the FIS base stores it and changes nothing else |
| AhciPort.CommandListAfterSet | kernel/src/drivers/ahci/hba/port/mod.rs:162-200 | after a non-null base is set, the port exposes the 32 headers at that base |
| AhciPort.FlagBit | kernel/src/drivers/ahci/hba/port/mod.rs:117-126 | each command-header flag occupies a bit of its own |
| AhciPort.SetFisLength | kernel/src/drivers/ahci/hba/port/mod.rs:118 | setting a FIS length below 32 makes it read back and changes no other bit of the header word |
| AhciPort.SetPortMultiplier | kernel/src/drivers/ahci/hba/port/mod.rs:125 | setting a port multiplier below 16 makes it read back and changes no other bit of the header word |
| AhciPort.SetFlagSets | kernel/src/drivers/ahci/hba/port/mod.rs:119-124 | setting a flag makes it read back as set and changes no other bit |
| AhciPort.WithBit | kernel/src/drivers/ahci/hba/port/mod.rs:119-124 | a word with one bit set or cleared reads that bit back and keeps every other bit |
| AhciPort.SetFlagKeepsOthers | kernel/src/drivers/ahci/hba/port/mod.rs:119-124 | setting one flag leaves every other flag as it was |
| LzRawVec.NextCapacity | src/shared/lzalloc/src/lib.rs:24-27 | the next capacity is a power of two, at least 4, at least the requested capacity, and below twice the request unless it is the minimum 4 |
| LzRawVec.NextCapacityDoubles | src/shared/lzalloc/src/lib.rs:24-27 | growing a full power-of-two buffer of at least 4 by one element doubles it, and an empty one grows to 4 |
| LzRawVec.Capacity | src/shared/lzalloc/src/raw_vec.rs:76-83 | a zero-sized element type reports the largest usize as its capacity, any other the allocated capacity |
| LzRawVec.CurrentMemory | src/shared/lzalloc/src/raw_vec.rs:90-101 | a vector owns memory exactly when its elements have a size and its capacity is non-zero, and then capacity times element size bytes |
| LzRawVec.NewRawVec | src/shared/lzalloc/src/raw_vec.rs:35-37 | a new vector owns no memory and has capacity 0 |
| LzRawVec.AllocateIn | src/shared/lzalloc/src/raw_vec.rs:49-65 | a zero-sized type or a zero capacity gives an empty vector; otherwise allocation succeeds exactly when the layout fits and the allocator answers, with the requested capacity |
| LzRawVec.WrappingSub | src/shared/lzalloc/src/raw_vec.rs:151 | a wrapping subtraction is the plain difference when it does not go below zero, and the difference plus 2^64 when it does |
| LzRawVec.WrappingAdd | src/shared/lzalloc/src/deque.rs:90 | a wrapping addition is the plain sum when it fits a usize, and the sum less 2^64 when it does not |
| LzRawVec.WrappingRoundTrip | src/shared/lzalloc/src/deque.rs:75-103 | moving a counter back and then forward by the same amount, or forward and then back, gives the counter back |
| LzRawVec.NeedsToGrow | src/shared/lzalloc/src/raw_vec.rs:150-152 | with the length within the capacity the vector must grow exactly when length plus extra exceeds the capacity; with the length past it, only when the sum exceeds the capacity by more than 2^64 |
| LzRawVec.NeedsToGrowExactly | src/shared/lzalloc/src/raw_vec.rs:150-152 | with the length within the capacity, the vector must grow exactly when length plus the extra elements exceeds the capacity |
| LzRawVec.GrowAmortized | src/shared/lzalloc/src/raw_vec.rs:161-216 | amortised growth succeeds exactly for a sized type when length plus extra does not overflow, the next capacity's layout fits and the allocator answers; the new capacity is that next power of two, room for the extra and at least 4 |
| LzRawVec.GrowExact | src/shared/lzalloc/src/raw_vec.rs:179-216 | exact growth succeeds under the same conditions for exactly length plus extra, which becomes the capacity |
| LzRawVec.Reserve | src/shared/lzalloc/src/raw_vec.rs:119-135 | reserving leaves a vector with room alone and otherwise grows amortised; on success there is room for the extra elements after the length |
| LzRawVec.ReserveExact | src/shared/lzalloc/src/raw_vec.rs:137-143 | exact reserving leaves a vector with room alone and otherwise grows to exactly length plus extra |
| LzRawVec.ReserveOne | src/shared/lzalloc/src/raw_vec.rs:145-148 | reserving one always grows amortised, and on success the capacity exceeds the length and its layout fits |
| Layouts.PadToAlign | src/shared/slab/src/lib.rs:55 | the padded size is a multiple of the alignment, at least the size and less than one alignment above it |
| Layouts.PadToAlignLeast | src/shared/slab/src/lib.rs:55 | no smaller multiple of the alignment holds the size |
| LzVec.Elements | src/shared/lzalloc/src/vec.rs:172-176 | a vector's elements are exactly the written contents of its first len slots |
| LzVec.VecCapacity | src/shared/lzalloc/src/vec.rs:43-56 | the capacity is the buffer's and never below the length |
| LzVec.IsEmpty | src/shared/lzalloc/src/vec.rs:58-60 | a vector is empty exactly when it holds no elements |
| LzVec.NewVec | src/shared/lzalloc/src/vec.rs:33-36 | a new vector is well formed, holds nothing and has capacity 0 |
| LzVec.WithCapacity | src/shared/lzalloc/src/vec.rs:38-41 | creating with a capacity succeeds exactly when the capacity is 0 or its layout fits and the allocator answers, giving an empty vector of that capacity; otherwise an allocation error |
| LzVec.Regrown | src/shared/lzalloc/src/vec.rs:84-145 | moving a vector into a larger buffer keeps its elements and old slots and takes the new capacity |
| LzVec.Reserve | src/shared/lzalloc/src/vec.rs:84-86 | reserving keeps the elements and leaves room for the extra ones, changes nothing when there already was room, and fails only with an allocation error |
| LzVec.MakeRoom | src/shared/lzalloc/src/vec.rs:91-145 | making room for one fails exactly when the vector is full and the buffer cannot grow; otherwise the elements are kept and the capacity exceeds the length |
| LzVec.Push | src/shared/lzalloc/src/vec.rs:140-154 | pushing fails exactly when the vector is full and the buffer cannot grow; otherwise the element is appended after the others |
| LzVec.Insert | src/shared/lzalloc/src/vec.rs:88-115 | inserting fails with an allocation error exactly when growing fails, with an out-of-bounds error exactly when room was made but the index is past the length, and otherwise puts the element at the index with the tail after it; a failure leaves the elements as they were |
| LzVec.InsertShifts | src/shared/lzalloc/src/vec.rs:96-111 | shifting the tail up one slot and writing the element at the index gives the elements with the new one inserted there |
| LzVec.Remove | src/shared/lzalloc/src/vec.rs:117-137 | removing fails exactly for an index past the last element; otherwise it returns the element at the index, keeps the capacity and leaves the other elements in order |
| LzVec.RemoveShifts | src/shared/lzalloc/src/vec.rs:126-133 | shifting the tail down one slot over the removed element gives the elements without it |
| LzVec.ReadSlot | src/shared/lzalloc/src/vec.rs:157-170 | reading a slot is past the allocation exactly when the index is at or past the capacity, and a value read is what the slot holds |
| LzVec.PopAsWritten | src/shared/lzalloc/src/vec.rs:157-170 | as written, popping a non-empty vector drops its last element but returns whatever lies in the slot one past it; an empty vector gives nothing |
| LzVec.PopAsWrittenMissesElement | src/shared/lzalloc/src/vec.rs:140-170 | as written, pushing x onto an empty vector and popping reads a slot never written instead of x |
| LzVec.PopAsWrittenReadsAbove | src/shared/lzalloc/src/vec.rs:157-170 | as written, with nothing stale above the length, a pop never returns a value |
| LzVec.Pop | src/shared/lzalloc/src/vec.rs:157-170 | corrected: popping a non-empty vector returns its last element and leaves the others and the capacity; an empty vector gives nothing |
| LzVec.PushThenPop | src/shared/lzalloc/src/vec.rs:140-170 | popping right after a successful push gives the pushed element back and the elements as they were |
| LzVec.InsertThenRemove | src/shared/lzalloc/src/vec.rs:88-137 | removing at the index just inserted at succeeds, returns the inserted element and restores the elements |
| LzDeque.LenCountsFromHead | src/shared/lzalloc/src/deque.rs:46-48 | the length is the count that takes the head counter to the tail counter modulo 2^64, and the plain difference when the tail is not behind the head |
| LzDeque.SlotOf | src/shared/lzalloc/src/deque.rs:62-66 | a counter's slot lies inside the buffer |
| LzDeque.Contents | src/shared/lzalloc/src/deque.rs:4-66 | the elements front to back are exactly what the slots of the counters from head up to the length hold |
| LzDeque.IsEmpty | src/shared/lzalloc/src/deque.rs:51-54 | a deque is empty exactly when it holds no elements |
| LzDeque.IsFull | src/shared/lzalloc/src/deque.rs:56-60 | a deque is full exactly when it holds as many elements as it has slots |
| LzDeque.NewDeque | src/shared/lzalloc/src/deque.rs:21-23 | a new deque is well formed, holds nothing and has no slots |
| LzDeque.ValidFacts | src/shared/lzalloc/src/deque.rs:44-66 | a well-formed deque's capacity divides 2^64, and the tail counter's slot is the slot the length places after the head |
| LzDeque.PushBack | src/shared/lzalloc/src/deque.rs:83-96 | corrected: pushing at the back fails exactly when the deque is full and the buffer cannot grow; otherwise the element joins the back |
| LzDeque.PushBackAppends | src/shared/lzalloc/src/deque.rs:89-95 | writing at the tail's slot and advancing the tail appends the element |
| LzDeque.PopFront | src/shared/lzalloc/src/deque.rs:98-109 | popping the front gives nothing exactly when the deque is empty; otherwise the front element, with the rest left in order and the capacity kept |
| LzDeque.PopFrontRemoves | src/shared/lzalloc/src/deque.rs:102-106 | advancing the head removes the front element and keeps the rest |
| LzDeque.PushFrontAsWritten | src/shared/lzalloc/src/deque.rs:68-81 | as written, pushing at the front fails exactly when the deque is full and cannot grow; otherwise the length grows by one |
| LzDeque.PushFrontAsWrittenOverwrites | src/shared/lzalloc/src/deque.rs:68-81 | as written, pushing 8 in front of a deque holding just 7 overwrites the 7 and leaves the new front slot unwritten, so the deque is no longer well formed |
| LzDeque.PushFront | src/shared/lzalloc/src/deque.rs:68-81 | corrected: pushing at the front fails exactly when the deque is full and cannot grow; otherwise the element joins the front |
| LzDeque.PushFrontPrepends | src/shared/lzalloc/src/deque.rs:68-81 | moving the head back first and writing at its slot prepends the element |
| LzDeque.CopiedUp | src/shared/lzalloc/src/deque.rs:126-150 | the grown buffer keeps the slots below the old head in place, leaves the new middle slots unwritten and moves the slots from the old head up to the top |
| LzDeque.GrowBuffer | src/shared/lzalloc/src/deque.rs:113-124 | growing reserves a power-of-two buffer above the old capacity, next_capacity of one more element, whose layout fits |
| LzDeque.GrowOneAsWritten | src/shared/lzalloc/src/deque.rs:113-150 | as written, growing a full deque fails exactly when reserving fails; otherwise it keeps the length and takes the new capacity |
| LzDeque.GrowOneAsWrittenLosesElement | src/shared/lzalloc/src/deque.rs:113-150 | as written, growing a full four-slot deque whose head counter is 5 moves the counters to 9 and 13 without copying the fourth element, which becomes unreadable |
| LzDeque.GrowOne | src/shared/lzalloc/src/deque.rs:113-150 | corrected: growing a full deque fails exactly when reserving fails; otherwise it keeps the elements in order and takes next_capacity of one more element |
| LzDeque.GrowRelocates | src/shared/lzalloc/src/deque.rs:126-150 | after the copy up, with the head brought to its slot, the grown deque is well formed and holds the same elements |
| LzDeque.GrowSlot | src/shared/lzalloc/src/deque.rs:126-150 | element i of the full deque sits, after the copy, in the slot of element i of the grown one |
| LzDeque.CapacityMask | src/shared/lzalloc/src/deque.rs:62-66 | as written, a counter's masked slot is at most the counter and, for a non-zero capacity, at most the last slot index |
| LzDeque.WithCapacityAsWritten | src/shared/lzalloc/src/deque.rs:25-28 | as written, creation with any capacity succeeds exactly when allocation does, with that capacity and no elements |
| LzDeque.WithCapacityAsWrittenCollides | src/shared/lzalloc/src/deque.rs:25-66 | as written, a capacity of 3 is accepted, its mask sends counters 0 and 1 to the same slot, and the deque is not well formed |
| LzDeque.WithCapacity | src/shared/lzalloc/src/deque.rs:25-66 | corrected: the capacity is rounded up to a power of two, at least the request and below twice it, and the deque is well formed and empty |
| LzDeque.PushAll | src/shared/lzalloc/src/deque.rs:83-96 | pushing a run of elements at the back, when it succeeds, appends them all in order |
| LzDeque.Drain | src/shared/lzalloc/src/deque.rs:98-109 | popping the front until empty yields the elements front to back |
| LzDeque.FirstInFirstOut | src/shared/lzalloc/src/deque.rs:168-199 | whatever is pushed at the back of a new deque comes out of the front in the same order, however the buffer grew in between |
| Scheduler.NewPriority | src/kernel/src/local_state/scheduler.rs:10-21 | a priority exists exactly for values 1 to 16, and is the value given |
| Scheduler.NewScheduler | src/kernel/src/local_state/scheduler.rs:108-110 | a new scheduler has an empty queue, no current task, a zero total, and the given enabled flag and idle task |
| Scheduler.Enable | src/kernel/src/local_state/scheduler.rs:112-116 | enabling sets the flag and changes nothing else |
| Scheduler.Disable | src/kernel/src/local_state/scheduler.rs:118-124 | disabling clears the flag and changes nothing else |
| Scheduler.PushTask | src/kernel/src/local_state/scheduler.rs:132-136 | pushing appends the task to the queue, keeps the total equal to the sum of the queued priorities, and leaves the rest alone |
| Scheduler.PopTask | src/kernel/src/local_state/scheduler.rs:138-149 | popping yields a task exactly when enabled with a non-empty queue, then the front one with the rest left in order and the total kept equal to the queue's sum; otherwise nothing changes |
| Scheduler.PrioritySumBounds | src/kernel/src/local_state/scheduler.rs:10-149 | the summed priorities of n tasks lie between n and 16n |
| Scheduler.AveragePriority | src/kernel/src/local_state/scheduler.rs:151-153 | the average is the total divided by the queue length rounded down, 0 for an empty queue, and on a consistent scheduler lies between 1 and 16 |
| Scheduler.NextTask | src/kernel/src/local_state/scheduler.rs:160-216 | after a switch the scheduler stays consistent and the context resumed is the new current task's, with a slice of ten milliseconds per priority point, or the idle task's with ten milliseconds when none runs |
| Scheduler.NextTaskRotates | src/kernel/src/local_state/scheduler.rs:171-208 | a switch lines up the queue, the arrival and the interrupted task in that order; an enabled scheduler runs the front of that line and keeps the rest queued, a disabled one queues the whole line and runs nothing |
| Scheduler.SwitchRotatesCycle | src/kernel/src/local_state/scheduler.rs:160-216 | one switch without an arrival moves the running task to the back of the cycle and runs the next one |
| Scheduler.RoundRobin | src/kernel/src/local_state/scheduler.rs:160-216 | k switches without arrivals rotate the cycle of tasks by k |
| Scheduler.EveryTaskRuns | src/kernel/src/local_state/scheduler.rs:160-216 | within one pass every task of the cycle runs, in queue order |
| Scheduler.SwitchKeepsTotal | src/kernel/src/local_state/scheduler.rs:132-186 | without an arrival a switch conserves the total priority over the running task and the queue |
| Scheduler.Switches | src/kernel/src/local_state/scheduler.rs:160-216 | repeated switches without arrivals keep the scheduler switchable and conserve the total priority |
| Task.StackLayout | src/kernel/src/task/mod.rs:16-20 | the user stack is a whole number of pages, starts after the null page and ends exactly at the lowest load address, one mebibyte |
| Task.SegmentPermissions | src/kernel/src/task/mod.rs:22-33 | a word whose write bit (bit 1) and execute bit (bit 0) are not both set maps read-write exactly when the write bit is set, read-execute exactly when the execute bit is set, and read-only exactly when neither is |
| Task.PermissionFlags | src/kernel/src/task/address_space.rs:53-61 | every permission maps present pages, writable exactly for read-write and executable exactly for read-execute |
| Task.SegmentPagesFollowFlags | src/kernel/src/task/mod.rs:22-33 | the attributes chosen for a word are writable exactly when its write bit is set, executable exactly when its execute bit is set, and never both |
| Task.DemandMapAttributesAsWritten | src/kernel/src/task/mod.rs:182-281 | as written, a demand-mapped page of a loadable segment gets PRESENT, USER and the read-execute attributes, whatever the segment's flag word |
| Task.DemandMapAttributes | src/kernel/src/task/mod.rs:182-281 | corrected: a demand-mapped page is present and user-accessible, writable exactly when the segment's `p_flags` has its write bit and executable exactly when it has its execute bit |
| Task.DemandMapAsWrittenIgnoresFlags | src/kernel/src/task/mod.rs:182-281 | as written, a loadable read-write data segment is demand-mapped non-writable and executable |
| Words.NextPowerOfTwoLeast | src/kernel/src/memory/alloc/slab.rs:31 | `next_power_of_two` gives a power of two at least its argument, and the least one: half of it is below the argument |
| Words.NextPowerOfTwoFixed | src/shared/lzalloc/src/lib.rs:26 | a power of two is its own next power of two, so the capacity rounding keeps a power-of-two capacity either way |
| Words.PowerOfTwoBound | src/shared/lzalloc/src/lib.rs:26 | up to 2^63 the next power of two is below twice its positive argument and fits a usize |
| Words.TrailingZerosOfPowerOfTwo | src/kernel/src/memory/alloc/slab.rs:84 | a power of two is 2 to its trailing-zero count, which is 0 exactly for 1 |
| KernelSlab.BlockSize | src/kernel/src/memory/alloc/slab.rs:23-37 | a layout's block is a power of two no smaller than its padded size |
| KernelSlab.SlabsCanHandle | src/kernel/src/memory/alloc/slab.rs:23-26 | a span can serve a layout exactly when it holds at least eight of its blocks |
| KernelSlab.Len | src/kernel/src/memory/alloc/slab.rs:40-42 | a slab's length is the number of whole blocks that fit in its page: that many fit and one more does not |
| KernelSlab.ShapedFacts | src/kernel/src/memory/alloc/slab.rs:29-87 | in a slab the blocks tile the page, the ledger has one bit per block and ends on a block boundary inside the page, and at least one block fits after it |
| KernelSlab.FirstFreeFrom | src/kernel/src/memory/alloc/slab.rs:79 | the search finds the first clear ledger bit at or after the start, and finds none exactly when every bit from there on is set |
| KernelSlab.FirstFree | src/kernel/src/memory/alloc/slab.rs:79 | the first clear ledger bit, and none exactly when every bit is set |
| KernelSlab.CountFreeSet | src/kernel/src/memory/alloc/slab.rs:80-104 | writing one ledger bit changes the free count by that bit alone |
| KernelSlab.CountReserved | src/kernel/src/memory/alloc/slab.rs:29-37 | a ledger with exactly its first u bits clear counts u free blocks |
| KernelSlab.NewSlabAsWritten | src/kernel/src/memory/alloc/slab.rs:29-37 | as written, a new slab counts every block of the page as free, including the blocks the ledger occupies |
| KernelSlab.NewSlab | src/kernel/src/memory/alloc/slab.rs:29-37 | corrected: a new slab is well formed and counts free exactly the blocks after the ledger, at least one |
| KernelSlab.NextItem | src/kernel/src/memory/alloc/slab.rs:78-90 | taking an item finds nothing exactly when every ledger bit is set; otherwise it marks the first clear bit, decrements the count and hands out that block |
| KernelSlab.NextItemValid | src/kernel/src/memory/alloc/slab.rs:78-90 | on a well-formed slab an item is found exactly when the count is non-zero, and the block handed out lies inside the page after the ledger, was not live and now is |
| KernelSlab.BlockFacts | src/kernel/src/memory/alloc/slab.rs:85-88 | block i after the ledger starts on a block boundary inside the page and maps back to index i |
| KernelSlab.AlignBits | src/kernel/src/memory/alloc/slab.rs:84 | a block's alignment bits exist exactly when the block is bigger than one byte, and then they are its exponent |
| KernelSlab.NextItemAsWritten | src/kernel/src/memory/alloc/slab.rs:78-90 | as written, for blocks bigger than one byte, taking an item behaves as the corrected one |
| KernelSlab.OneByteLayoutPanics | src/kernel/src/memory/alloc/slab.rs:23-84 | as written, a one-byte layout is routed to a slab whose blocks have no alignment bits, so the first item taken panics |
| KernelSlab.OneByteSlabServes | src/kernel/src/memory/alloc/slab.rs:78-90 | corrected: a slab of one-byte blocks hands out an item |
| KernelSlab.NextItemTakesFirst | src/kernel/src/memory/alloc/slab.rs:79-81 | taking an item sets exactly the first clear ledger bit |
| KernelSlab.TakesInOrder | src/kernel/src/memory/alloc/slab.rs:79-81 | from an empty ledger, blocks are handed out in index order |
| KernelSlab.NewSlabAsWrittenOverruns | src/kernel/src/memory/alloc/slab.rs:29-90 | as written, once all but one of a new slab's counted blocks are taken, the next item is the last block, which runs past the end of the page |
| KernelSlab.ReturnItemAsWritten | src/kernel/src/memory/alloc/slab.rs:92-107 | as written, returning clears the ledger bit of the block counted from the page start and increments the count, leaving the other bits |
| KernelSlab.ReturnItemAsWrittenMissesBlock | src/kernel/src/memory/alloc/slab.rs:78-107 | as written, a block handed out and returned stays marked in use, and another block's bit is cleared instead |
| KernelSlab.ReturnItem | src/kernel/src/memory/alloc/slab.rs:92-107 | corrected: returning a live block clears its own ledger bit, increments the count and keeps the slab well formed |
| KernelSlab.LiveIndex | src/kernel/src/memory/alloc/slab.rs:85-101 | a live block is one of the usable blocks, at its own index |
| KernelSlab.NextThenReturn | src/kernel/src/memory/alloc/slab.rs:78-107 | taking a block and returning it restores the slab exactly |
| KernelSlab.CheckFitsLayoutAsWritten | src/kernel/src/memory/alloc/slab.rs:69-71 | as written, a slab that fits a layout has power-of-two blocks at least the layout's size and alignment |
| KernelSlab.CheckFitsLayout | src/kernel/src/memory/alloc/slab.rs:68-71 | corrected: a slab fits a layout only if its blocks are at least the layout's size and alignment |
| KernelSlab.OverAlignedNeverFits | src/kernel/src/memory/alloc/slab.rs:29-71 | as written, a size-4 layout aligned to 16 gets a slab of 16-byte blocks that the fit check never accepts for that layout |
| KernelSlab.NewSlabFits | src/kernel/src/memory/alloc/slab.rs:29-71 | with the corrected check, every slab made for a layout fits that layout |
| KernelSlab.NewSlabAllocator | src/kernel/src/memory/alloc/slab.rs:130-135 | a new allocator has no slabs and is well formed |
| KernelSlab.FindAccepting | src/kernel/src/memory/alloc/slab.rs:147-154 | the search finds the first non-empty slab of the layout's block from the start on, and none exactly when no such slab exists |
| KernelSlab.ServeFrom | src/kernel/src/memory/alloc/slab.rs:147-154 | serving from an accepting slab marks its first free block used and hands out that block, aligned as the layout asks, keeping the allocator well formed |
| KernelSlab.WithNewSlab | src/kernel/src/memory/alloc/slab.rs:156-162 | appending a new slab on a fresh page keeps the allocator well formed, and the new slab accepts the layout |
| KernelSlab.Allocate | src/kernel/src/memory/alloc/slab.rs:138-171 | corrected: a layout too large for eight blocks goes to the backing allocator and changes nothing; any other is served a newly live block of an existing or new slab |
| KernelSlab.ServedAligned | src/kernel/src/memory/alloc/slab.rs:29-87 | a block of a slab for a layout is aligned as the layout asks |
| KernelSlab.FindOwner | src/kernel/src/memory/alloc/slab.rs:178-182 | the search finds the first slab that fits the layout and owns the pointer, and none exactly when no such slab exists |
| KernelSlab.Deallocate | src/kernel/src/memory/alloc/slab.rs:173-186 | corrected: a large layout goes back to the backing allocator; a slab-sized block goes back to the slab that owns it, which gains one free block while the others are untouched |
| KernelSlab.ServeThenReturn | src/kernel/src/memory/alloc/slab.rs:138-186 | returning the block just served from a slab gives back the slabs as they were |
| KernelSlab.ServedOwnerFound | src/kernel/src/memory/alloc/slab.rs:147-182 | the block just served from a slab is found in that slab and no earlier one |
| KernelSlab.AllocateThenDeallocate | src/kernel/src/memory/alloc/slab.rs:138-186 | freeing a block right after allocating it gives back the slabs as they were, with any slab the allocation opened left in place |
| KernelSlab.LiveBlocksDisjoint | src/kernel/src/memory/alloc/slab.rs:78-171 | two different live blocks of the allocator never overlap |
| SharedSlab.NewSlab | src/shared/slab/src/lib.rs:52-67 | a new slab exists exactly when the allocator answers; it is well formed, cut into as many padded items as fit in the span, all free and listed in address order |
| SharedSlab.CarvedFacts | src/shared/slab/src/lib.rs:55-64 | a carved item starts a whole number of padded sizes into the span, is aligned as the layout asks and lies inside the span |
| SharedSlab.CarvedDisjoint | src/shared/slab/src/lib.rs:55-64 | two different carved items of a slab never overlap |
| SharedSlab.TakeItem | src/shared/slab/src/lib.rs:86-89 | taking an item finds nothing exactly when the free list is empty; otherwise it removes one listed item and changes nothing else |
| SharedSlab.TakeItemValid | src/shared/slab/src/lib.rs:86-89 | from a well-formed slab with free items, the item taken is one the slab was cut into, is no longer listed, and the slab stays well formed |
| SharedSlab.NextMultipleExact | src/shared/slab/src/lib.rs:93 | an address is its own next multiple of the alignment exactly when it is aligned |
| SharedSlab.ReturnItem | src/shared/slab/src/lib.rs:91-100 | returning succeeds exactly for an aligned address inside the span while the free list has room or can grow, and then lists an item of the layout's size at that address after the others |
| SharedSlab.ReturnItemValid | src/shared/slab/src/lib.rs:91-100 | returning an item that was handed out keeps the slab well formed |
| SharedSlab.TakeThenReturn | src/shared/slab/src/lib.rs:86-100 | taking an item and returning its address restores the slab exactly |
| SharedSlab.HandedLeavesRoom | src/shared/slab/src/lib.rs:55-100 | while any carved item is handed out, the free list holds fewer items than the slab's capacity |
| SharedSlab.NewSlabAllocator | src/shared/slab/src/lib.rs:125-130 | a new allocator has no slabs, and its largest slab size is 2 to the given shift |
| SharedSlab.FindReusable | src/shared/slab/src/lib.rs:141 | the search finds the first slab with a free item and the very same layout, and none exactly when no such slab exists |
| SharedSlab.TakeFrom | src/shared/slab/src/lib.rs:141-149 | taking from a slab with free items hands out one of its carved items, removes it from that slab's list and keeps every span well formed |
| SharedSlab.RouteAsWritten | src/shared/slab/src/lib.rs:133-139 | as written, a zero padded size is refused and a padded size above the largest slab size goes to the backing allocator |
| SharedSlab.RouteOf | src/shared/slab/src/lib.rs:133-139 | corrected: a padded size above the largest slab size or above the span also goes to the backing allocator, so any slab made holds an item |
| SharedSlab.SlabPath | src/shared/slab/src/lib.rs:140-149 | the slab path fails exactly when no slab is reusable and the allocator cannot grant a new span; otherwise it serves an item from the first reusable slab or a new one |
| SharedSlab.WithNewSlab | src/shared/slab/src/lib.rs:143-146 | appending a new slab on a fresh span keeps the slabs well formed, and the new slab has a free item of the layout |
| SharedSlab.AllocateAsWritten | src/shared/slab/src/lib.rs:133-151 | as written, allocation fails exactly for a zero size, for a large layout the backing allocator refuses, or when a new slab is needed and cannot be had; large layouts are delegated exactly when the backing allocator answers, and the rest are served an item |
| SharedSlab.LargeSlabLayoutPanics | src/shared/slab/src/lib.rs:133-151 | as written, with a largest slab size of 2^15 a 32 KiB layout is routed to the slabs, but its slab holds no item, so the final take panics |
| SharedSlab.Allocate | src/shared/slab/src/lib.rs:133-151 | corrected: allocation fails exactly for a zero size, for a layout routed to the backing allocator that refuses it, or when a new slab is needed and cannot be had; the allocation is delegated exactly when the layout is routed to the backing allocator and it answers, and the rest are served an item |
| SharedSlab.FindAccepting | src/shared/slab/src/lib.rs:159-162 | the search finds a slab with room, the very same layout and a span holding the aligned address, and none exactly when no slab accepts it |
| SharedSlab.Deallocate | src/shared/slab/src/lib.rs:153-165 | a large layout goes back to the backing allocator; any other item goes back on the free list of the slab that handed it out, and the other slabs are untouched |
| SharedSlab.HandedOutIsAccepted | src/shared/slab/src/lib.rs:159-162 | an item handed out by a slab is found in that slab by the search |
| SharedSlab.TakeThenGiveBack | src/shared/slab/src/lib.rs:141-165 | giving back the item just taken from a slab restores the slabs |
| SharedSlab.AllocateThenDeallocate | src/shared/slab/src/lib.rs:133-165 | freeing an item right after allocating it gives back the slabs as they were, with any slab the allocation opened left in place |
| SharedSlab.IndexDetermines | src/shared/slab/src/lib.rs:55-97 | two carved items at the same index of a slab are the same item, so an address names at most one item |
| SharedSlab.PadToAlignZero | src/shared/slab/src/lib.rs:134-136 | the padded size is zero exactly when the layout's size is zero, which is the case allocation refuses |
| SharedSlab.FindAcceptingUnique | src/shared/slab/src/lib.rs:158-163 | when only one slab's span holds the address, the search finds that slab |
| AddressSpaces.ToAttributes | src/kernel/src/memory/address_space/mod.rs:18-38 | a page is present exactly for an eager mapping and on demand otherwise; it is writable exactly for read-write, executable exactly for read-execute without read-write, and carries no other attribute |
| AddressSpaces.WriteXorExecute | src/kernel/src/memory/address_space/mod.rs:22-29 | no flags make a page both writable and executable |
| AddressSpaces.Demand | src/kernel/src/memory/address_space/mod.rs:171-188 | demand paging refuses exactly the pages without the demand bit; otherwise the page becomes present, loses the demand bit and keeps every other attribute |
| AddressSpaces.DemandCompletesMapping | src/kernel/src/memory/address_space/mod.rs:18-188 | demand paging a lazily mapped page gives exactly the attributes the eager mapping with the same flags has |
| AddressSpaces.RegionEqAsymmetric | src/kernel/src/memory/address_space/mod.rs:48-53 | region equality is not symmetric: a region equals one it encloses, but not the reverse |
| AddressSpaces.Compare | src/kernel/src/memory/address_space/mod.rs:55-63 | a region compares Less exactly when both its ends lie above the other's, and Greater exactly when both lie below |
| AddressSpaces.CompareFacts | src/kernel/src/memory/address_space/mod.rs:55-63 | the ordering is antisymmetric, and two regions compare Equal exactly when one encloses the other |
| AddressSpaces.DisjointNotEqual | src/kernel/src/memory/address_space/mod.rs:55-63 | disjoint nonempty regions never compare Equal |
| AddressSpaces.SearchFrom | src/kernel/src/memory/address_space/mod.rs:139 | the binary search passes over regions that compare Less, reports Found exactly at a region that compares Equal, and a vacant slot sits before one that compares Greater |
| AddressSpaces.NewAsWritten | src/kernel/src/memory/address_space/mod.rs:100-111 | as written, a space exists exactly when the allocations succeed, with one free region from address 0 to the size and nothing used |
| AddressSpaces.New | src/kernel/src/memory/address_space/mod.rs:100-111 | corrected: the same, except the free region starts past the null page, so every free region starts above address 0 |
| AddressSpaces.FirstFit | src/kernel/src/memory/address_space/mod.rs:122-127 | the search gives the first free region holding the size, and none exactly when no free region holds it |
| AddressSpaces.PageFloor | src/kernel/src/memory/address_space/mod.rs:76-82 | truncating an address gives the page-aligned address of the page holding it |
| AddressSpaces.MmapAsWritten | src/kernel/src/memory/address_space/mod.rs:113-143 | as written, a failed mapping leaves the used regions unchanged |
| AddressSpaces.MmapAsWrittenPanics | src/kernel/src/memory/address_space/mod.rs:139 | on a valid space a region cut from a free region that starts above address 0 is never found by the search, so the expect panics every time |
| AddressSpaces.NewRegionFree | src/kernel/src/memory/address_space/mod.rs:129-131 | the region cut from a free region is nonempty and overlaps no used region |
| AddressSpaces.NewRegionVacant | src/kernel/src/memory/address_space/mod.rs:139 | a nonempty region overlapping no used region is not found by the search |
| AddressSpaces.FreshSpaceNeverMaps | src/kernel/src/memory/address_space/mod.rs:100-167 | as written, the first mapping of a fresh space starts at address 0, so its pointer is null and the mapping fails with the space unchanged |
| AddressSpaces.Mmap | src/kernel/src/memory/address_space/mod.rs:113-143 | corrected: the space stays valid; it succeeds exactly when some free region is big enough, the first such starts above address 0, and the mapping and the insertion both succeed; with no free region big enough, or a failed mapping, it fails unchanged; a success gives the page-aligned front of the first free region that fits, of exactly the asked size, above address 0, added to the used regions |
| AddressSpaces.Carve | src/kernel/src/memory/address_space/mod.rs:129-140 | cutting from a free region shrinks it from the front; the insert fails exactly when the list cannot grow; on success the used regions gain exactly the cut region, which overlaps none of them |
| AddressSpaces.FreshSpaceMaps | src/kernel/src/memory/address_space/mod.rs:100-143 | corrected: the first mapping of a fresh space big enough succeeds when mapping and inserting do |
| AddressSpaces.ShrunkValid | src/kernel/src/memory/address_space/mod.rs:137 | shrinking a free region from the front keeps the space valid and the rest disjoint from the cut region |
| AddressSpaces.InsertValid | src/kernel/src/memory/address_space/mod.rs:139-140 | inserting a fresh region at the search's vacant index keeps the space valid |
| AddressSpaces.SearchPlaces | src/kernel/src/memory/address_space/mod.rs:139 | the vacant index splits the used regions into those above the new region and those below it |
| AddressSpaces.InsertDescending | src/kernel/src/memory/address_space/mod.rs:140 | inserting at that split keeps the used regions in descending order |

## Left out

Left out everywhere:

- Concurrency: the kernel's spin locks, read-write locks and atomic
  read-modify-write updates. Every operation is modelled as one
  uninterrupted step. The frame manager's and the physical memory
  manager's peek bit is a spin lock and is only carried along.
- Hardware access: MSRs, MMIO, port I/O, `cpuid` and the clock become
  parameters or pure device states. Busy-wait loops are left out,
  including the NVMe `set_enable_and_wait` and the AHCI command start.
- Code this model cannot see: `libsys` is not part of this model. Its
  `page_size()` is taken as 4 KiB, and its `Address<Page>` is taken as
  accepting any page-aligned value.
- Allocator answers: `TryVec` growth and the global or backing
  allocator's success or failure are boolean parameters (`allocates`,
  `backingGrants`, `inserts`, `maps`).
- Debug-build integer overflow: an unchecked `+` or `*` that would
  overflow a `u64` or `usize` is excluded by a precondition, like any
  other panic, with two exceptions where the model follows the wrapping
  of a release build instead. One is the deque's head and tail counters
  (see LzDeque below). The other is the 32-bit BAR size probe
  (PciDevice.ProbeSize32): on a read-back with no address bits, `!0 + 1`
  wraps to 0, where a debug build would panic.

Left out per file:

- AddressSpaces: the page mapper (`mmap_exact_impl`, `auto_map`,
  `is_mmapped`, `swap_into`) walks page tables in memory. Its success is
  the `maps` parameter, and only the attribute computation is modelled.
- AddressSpaces.SearchFrom: Rust's `binary_search` may return any index
  whose element compares Equal. The model returns the first element that
  does not compare Less, which is one of the answers Rust allows.
- FrameManager.Borrow: requires fewer than 0xFFFF references. At 0xFFFF
  the atomic increment would carry into the peek bit, and the model does
  not follow that carry.
- Falloc.FromPtr: requires that the frame table fits inside the memory it
  describes. The source writes the table through a raw pointer without
  checking this.
- Addr.PageForwardChecked, Addr.PageBackwardChecked: the `count * size` product is an unchecked
  multiplication, so a step that overflows is excluded by `StepFits`
  rather than answered with None.
- LibStd.AlignUp, LibStd.AlignDown, LibStd.AlignDownDiv: require a
  power-of-two alignment. The source accepts any nonzero alignment, but
  its mask arithmetic only means rounding for powers of two, and every
  caller passes one. Other alignments are not modelled.
- Words.NextPowerOfTwo: above 2^63 Rust's `next_power_of_two` panics in
  debug builds and wraps to 0 in release builds. `PowerOfTwoFits` excludes
  that range wherever capacities are rounded up (LzRawVec.NextCapacity,
  LzDeque.WithCapacity).
- LzDeque: head and tail counters are modelled as wrapping `usize`
  arithmetic, as a release build computes them. In `len`, and in `+=`
  when the capacity grows, the plain operators panic on overflow in a
  debug build. The validity invariant bounds only the wrapping
  difference `tail - head`, so it does not exclude those states. For
  example, `push_front` on a deque whose head counter is 0 leaves the
  head at `usize::MAX` above the tail, and a debug build then panics in
  the next `len`.
- LzRawVec, LzVec and LzDeque: zero-sized element types are left out of
  the Vec and Deque validity invariants. `RawVec` itself models them:
  `capacity` is `usize::MAX` and nothing is allocated.
- LibPte.SetEntry: requires a frame index below 2^52, because
  `frame * 0x1000` is an unchecked multiplication.
- Pmm: the `Allocator` implementation for `&PMM` and `from_memory_map`
  (construction from the boot memory map through raw pointers) are left
  out. `NextFrames` requires a table of at most 2^40 frames, where the
  wrapping address multiplication is exact.
- KernelSlab: the slab's page is taken as aligned to its own size, as
  the page allocator hands it out. Only the block addresses are modelled,
  not the memory they point into.
- KernelSlab.Allocate: requires a nonzero size, and so do the other
  allocator-level members. A zero-size layout pads to one-byte blocks.
  As written, that is the panic OneByteLayoutPanics shows. The corrected
  one-byte slab serves (OneByteSlabServes), but zero-size requests are not
  carried through the allocator-level lemmas.
- SharedSlab: `memory.len()` is taken as `SLAB_LENGTH`, the span the
  allocator asks for.
- SharedSlab.Deallocate: modelled with the corrected routing only. With
  the routing as written, the allocation it would undo has already
  panicked (LargeSlabLayoutPanics).
- Scheduler: `get_task_count` and `is_enabled` are plain field reads. The
  `u64` priority total is kept from overflowing by preconditions (CanPush,
  CanSwitch), and the pop underflow by CanPop. The context switch proper
  (saving registers and CR3) is a parameter: a context value and the
  VMEM register it reads.
- Task: `Task::new` and the rest of `demand_map` (the segment lookup, the
  page allocation and the copy of the segment's bytes) work on an address
  space and are left out. The permission mapping, the attributes
  `demand_map` gives the faulting page and the stack constants are
  modelled.
- Apic: `get_version`, `end_of_interrupt`, the timer count registers and
  the error status register are plain register accesses. The hardware's
  automatic LVT masking when software-disabled is not modelled.
- IoApic: the model assumes the `DestinationMode` discriminants Physical =
  0 and Logical = 1, as in the 82093AA datasheet, section 3.2.4.
- Uart: reading and writing data, the line status and the modem status
  are plain register reads and writes through the device model.
- PciDevice: the vendor id, device id and other plain header getters are
  register reads. For the bridge header kinds, only the number of BARs is
  modelled.
- NvmeController: `set_enable_and_wait` (a clock and a busy-wait),
  `get_phys_addr`, `submit_admin_command` and `run` are left out.
- NvmeQueue: `invert_phase` is a single flag negation, which
  IncrementWithPhaseInversion already covers.
- NvmeQueue.NewQueue: requires a non-zero entry count. `Queue::new`
  (src/kernel/src/drivers/nvme/queue.rs:57-76) accepts 0 and builds an
  empty ring, whose first `next_index` would divide by zero; an empty
  queue is not modelled.
- AhciPort: `command_status` and the port's command start and read paths
  are MMIO and polling I/O. The decoders and the command-list and FIS base
  stores are modelled.

## Findings

Each row below names two members. The as-written member models the code as it stands and exhibits the problem on a concrete input. The corrected member carries the intended property, and the rest of the model uses the corrected one.

| source | as written | input that shows it | evidently intended | confidence | as-written member | corrected member |
|---|---|---|---|---|---|---|
| src/shared/libcommon/src/addr.rs:117-120 | `get_page_index` shifts by `((depth - 1) * 9) >> 12`, which is 0 for every small depth | address 0x20_0000 at depth 2 comes back as 0x20_0000 | shift by `(depth - 1) * 9 + 12`, giving page number 1 | high, not executed | Addr.VirtPageIndexAsWrittenIgnoresDepth | Addr.VirtPageIndex |
| libstd/src/bv_array.rs:25-27 | `section_length_hint` divides `count * 2` by 64, rounding down | 33 two-bit elements get one 64-bit section | round up, giving two sections | high, not executed | BvArray.SectionLengthHintTooShort | BvArray.SectionLengthHintCeil |
| libstd/src/bv_array.rs:164-189 | the iterator loads the next section before extracting the last element of the current one | on a two-section array, element 31 reads 0 through `get` but the iterator yields 1 | yield `get(i)` for each i below `len` | medium, not executed | BvArray.IterNextAsWrittenMisreadsBoundary | BvArray.IterYieldsElements |
| libstd/src/memory/falloc.rs:216-224 | reserving a frame lowers the old state's counter but never raises the Reserved counter | reserve frame 1 of a fresh two-frame allocator, then unreserve it: the Reserved counter reaches −0x1000 | move 0x1000 into the Reserved counter | high, not executed | Falloc.UnreserveUnderflowsAsWritten | Falloc.AcquireKeepsTrack |
| libstd/src/memory/falloc.rs:319-323 | `autolock_many` locks the run without moving any counter | after `autolock_many(1)` on one frame, no frame is Free but the Free counter still reads 0x1000 | move count × 0x1000 from Free to Locked | high, not executed | Falloc.LockRunAsWrittenLosesTrack | Falloc.LockRunTracks |
| src/kernel/src/memory/pmm.rs:257-258 | `aligned_index` is a rounded-up quotient, used as a frame index | table [locked, free, free], one frame aligned to 0x2000, gives 0x1000 | multiply the quotient by the alignment, giving 0x2000 | high, not executed | Pmm.NextFramesMisaligned | Pmm.NextFramesAligned |
| libkernel/src/memory/frame.rs:158-160 | `size_hint` returns the current index and the end index | over frames 10 through 12 the lower bound is 10, but 3 frames come | return the number of frames still to come | high, not executed | FrameIter.SizeHintOverstates | FrameIter.SizeHint |
| libkernel/src/memory/paging.rs:95-97 | `steps_between` subtracts the indices without checking their order, and never answers None | `steps_between(5, 3)` gives 2^64 − 2 | None when start > end, as the `Step` law requires | high, not executed | LibPage.StepsBetweenAsWrittenBreaksLaw | LibPage.StepsBetween |
| libkernel/src/memory/paging.rs:152-156 | the iterator's `len` measures from the start page, not the current one | after one page of 0..3 is yielded, `len` still says 3 | count the pages still to come, here 2 | high, not executed | LibPage.LenAsWrittenIgnoresProgress | LibPage.Len |
| kernel/lib/src/structures/gdt.rs:84-88 | `Entry::tss` shifts all 32 low base bits up to bit 16, so base bits 24 to 31 land on the type field instead of bits 56 to 63 | a TSS at 0x0200_0000 gets type 0b1011 (busy TSS) and base 0 | an available 64-bit TSS (type 0b1001) whose base is the TSS address | medium, not executed | LibGdt.TssEntryAsWrittenCorrupts | LibGdt.TssEntry |
| src/kernel/src/arch/x86_64/structures/idt/mod.rs:498-724 | the interrupt vectors are given stubs shifted by one, with the ring-3 gate at vector 32 | vector 32 runs the 128 stub from ring 3, and vector 0x30 runs stub 0x2F | each vector runs its own stub, and only vector 128 is open to ring 3 | medium, not executed | Idt.InterruptStubsShifted | Idt.InterruptGate |
| src/apic/src/lib.rs:312-314 | `set_timer_divisor` writes the numeric divide value, not the divide configuration code | asking for a divisor of 2 makes the timer divide by 8 | write the code from section 10.5.4 of the Intel SDM, volume 3A | high, not executed | Apic.TimerDivisorAsWrittenMisconfigures | Apic.TimerDivisorImage |
| src/apic/src/lib.rs:301-304 | `send_int_cmd` writes the APIC id to the low command register, which sends, and the command to the high one | a start-up IPI with vector 8 for APIC 1 is sent as a fixed interrupt with vector 1 | destination to the high register first, command word to the low register last | high, not executed | Apic.SendCommandAsWrittenMisroutes | Apic.SendCommandDispatches |
| src/kernel/src/arch/x86_64/structures/ioapic.rs:32-38 | `get_destination_mode` reads a set bit 11 as physical | setting logical mode reads back physical | a set bit 11 is logical, as the setter writes it | high, not executed | IoApic.DestinationModeAsWrittenInverts | IoApic.GetDestinationMode |
| src/kernel/src/arch/x86_64/structures/ioapic.rs:58-70 | `get_trigger_mode` reads a set bit 15 as edge | setting level mode reads back edge | a set bit 15 is level, as the setter writes it | high, not executed | IoApic.GetTriggerModeAsWritten | IoApic.TriggerModeRoundTrip |
| src/shared/uart/src/lib.rs:186-222 | port I/O reads and writes ignore the register offset | on COM1 the line-control write lands on 0x3F8 (data) rather than 0x3FB | access base plus offset, as the MMIO path does | high, not executed | Uart.PortOffsetIgnored | Uart.RegisterTarget |
| src/shared/uart/src/lib.rs:256-263 | parity code 0b111 (Low) decodes as High | writing Low parity and reading the line control back gives High | decode code 7 as Low | high, not executed | Uart.ParityFromAsWritten | Uart.ParityFrom |
| src/shared/pic_8259/src/lib.rs:187-209 | `handles_interrupt` compares the raw `InterruptOffset` discriminant with the vector offset, and the discriminants skip the cascade line | with the pair at vector 32 every end of interrupt is refused; at vector 0 the RTC (line 8) is acknowledged on the master alone | route by IRQ line: the slave first for lines 8 and above, then the master | medium, not executed | Pic8259.EndOfInterruptAsWrittenMisroutes | Pic8259.EndOfInterrupt |
| src/kernel/src/mem/io/pci/device/mod.rs:230-235 | a 32-bit memory BAR's address keeps the type and prefetch bits | a prefetchable BAR at 0xFEB0_0000 is reported at 0xFEB0_0008, and an unassigned prefetchable BAR is not unused | clear the low four bits (section 6.2.5.1 of the PCI Local Bus Specification 3.0) | high, not executed | PciDevice.Memory32AsWrittenKeepsFlags | PciDevice.Bar32Sized |
| src/kernel/src/mem/io/pci/device/mod.rs:250-260 | a 64-bit BAR's size is not inverted, and prefetch is read from the already-masked address | a 1 MiB prefetchable BAR reports 0xFFFF_FFFF_FFF0_0001 bytes and no prefetch | size = inverted read-back plus one, prefetch = bit 3 of the register | high, not executed | PciDevice.Memory64AsWrittenMissizes | PciDevice.Bar64Sized |
| kernel/src/drivers/nvme/command.rs:130-135 | Abort puts the command id in the low half of dword 10 and the queue id in the high half | aborting command 5 of queue 1 aborts command 1 of queue 5 | queue id low, command id high (NVM Express Base Specification, Abort command) | medium, not executed | NvmeCommand.AbortAsWrittenSwapsIds | NvmeCommand.AbortConfigure |
| src/kernel/src/drivers/nvme/mod.rs:345 | AQA is written with the entry counts themselves | four-entry admin queues are announced as five-entry queues | AQA sizes are zero-based: write count − 1 | high, not executed | NvmeController.AdminQueueAttributesAsWrittenOversizes | NvmeController.AdminQueueAttributes |
| src/kernel/src/task/mod.rs:182-281 | `demand_map` hands the segment's `p_type` to `segment_to_mmap_permissions`, and after the `PT_LOAD` filter that word is always 1 | a loadable read-write data segment is demand-mapped non-writable and executable | pass `p_flags`, as the kernel's own image mapping does | high, not executed | Task.DemandMapAsWrittenIgnoresFlags | Task.DemandMapAttributes |
| src/kernel/src/drivers/nvme/queue.rs:51-111 | a completion queue starts with its phase tag set, and `next_cmd_result` never inverts it | over zeroed memory a fresh queue reports a completion before any is posted, and the controller's first real completion goes unseen | start with the phase tag clear and step with `increment_with_phase_inversion` | high, not executed | NvmeQueue.NextCmdResultAsWrittenReportsNothingPosted | NvmeQueue.NextCompletionFollowsController |
| src/kernel/src/drivers/nvme/queue.rs:89-111 | the head doorbell is written with the index of the entry just consumed | after taking slot 0 the doorbell says 0, so that entry still reads as unconsumed | write the new head, the slot after it | high, not executed | NvmeQueue.NextCmdResultAsWrittenDoorbellLags | NvmeQueue.NextCompletion |
| src/shared/lzalloc/src/vec.rs:157-170 | `pop` reads the slot at the old length, one past the last element | push x onto an empty vector, then pop: a never-written slot is read instead of x | read the slot at length − 1 | high, not executed | LzVec.PopAsWrittenMissesElement | LzVec.Pop |
| src/shared/lzalloc/src/deque.rs:68-81 | `push_front` writes at the current head and only then moves the head back | pushing 8 in front of a deque holding 7 overwrites the 7 | move the head back first, then write | high, not executed | LzDeque.PushFrontAsWrittenOverwrites | LzDeque.PushFrontPrepends |
| src/shared/lzalloc/src/deque.rs:113-150 | `grow_one` moves the counters by the old capacity without copying the wrapped elements | a full four-slot deque with head counter 5 loses its fourth element | keep the elements in order across the new capacity | high, not executed | LzDeque.GrowOneAsWrittenLosesElement | LzDeque.GrowOne |
| src/shared/lzalloc/src/deque.rs:25-28 | `with_capacity` accepts any capacity, but the slot mask needs a power of two | with capacity 3, counters 0 and 1 map to the same slot in a release build; a debug build panics first, in the `debug_assert` of `capacity_index` (deque.rs:64), on the first push | round the capacity up to a power of two | high, not executed | LzDeque.WithCapacityAsWrittenCollides | LzDeque.WithCapacity |
| src/kernel/src/memory/alloc/slab.rs:29-37 | `new_in` counts every block of the page as free, including those the ledger occupies | once all but one block are taken, the next item runs past the end of the page | count only the blocks after the ledger | medium, not executed | KernelSlab.NewSlabAsWrittenOverruns | KernelSlab.NewSlab |
| src/kernel/src/memory/alloc/slab.rs:84 | `next_item` unwraps `NonZeroU32::new(block_size.trailing_zeros())`, which is None for one-byte blocks | a one-byte layout is routed to a slab, and its first item panics | serve one-byte blocks too | high, not executed | KernelSlab.OneByteLayoutPanics | KernelSlab.OneByteSlabServes |
| src/kernel/src/memory/alloc/slab.rs:92-107 | `return_item` computes the ledger index without the ledger's offset | a block handed out and returned stays marked in use, and another block's bit is cleared | clear the returned block's own bit | high, not executed | KernelSlab.ReturnItemAsWrittenMissesBlock | KernelSlab.ReturnItem |
| src/kernel/src/memory/alloc/slab.rs:68-71 | `check_fits_layout` compares the block with the unpadded size | a size-4 layout aligned to 16 gets 16-byte blocks that the check then never accepts | compare with the padded size the slab was made for | high, not executed | KernelSlab.OverAlignedNeverFits | KernelSlab.NewSlabFits |
| src/shared/slab/src/lib.rs:133-151 | layouts up to `max_size` go to slabs even when one item exceeds the 16 KiB slab | with a largest slab size of 2^15, a 32 KiB layout gets a slab with no items, and `take_item().unwrap()` panics | route layouts larger than the slab to the backing allocator | high, not executed | SharedSlab.LargeSlabLayoutPanics | SharedSlab.Allocate |
| src/kernel/src/memory/address_space/mod.rs:139 | `binary_search(..).expect(..)` panics on Err, which is the normal case of no overlap | on every valid space, each successful mapping at a nonzero address panics | insert at the index the Err carries | high, not executed | AddressSpaces.MmapAsWrittenPanics | AddressSpaces.Mmap |
| src/kernel/src/memory/address_space/mod.rs:100-111 | `new` frees 0..size, so the first mapping starts at address 0 and `NonNull::new` fails | the first `mmap` of a fresh space always fails | keep the null page out of the free list | low, not executed | AddressSpaces.FreshSpaceNeverMaps | AddressSpaces.FreshSpaceMaps |

=== FILE: addr.dfy ===
/** Typed addresses: physical (52-bit), virtual (48-bit canonical), 4 KiB
    frames, and pages that carry their alignment in a 2-bit tag. Every
    address is a u64; the source's masks are written as the equivalent
    divisions and remainders by powers of two. */
module Addr {
  import opened Wrappers
  import opened Words

  /** Whether `a` is a multiple of a (power-of-two) alignment. */
  predicate IsAlignedTo(a: u64, alignment: int)
    requires alignment > 0
  {
    a % alignment == 0
  }

  // ----- Physical -------------------------------------------------------

  /** Bits 52..63 of a physical address must be zero. */
  predicate PhysIsCanonical(a: u64)
  {
    a / 0x10_0000_0000_0000 == 0
  }

  /** `Address<Physical>::new`. */
  function PhysNew(a: u64): (r: Option<u64>)
    ensures r.Some? <==> a < 0x10_0000_0000_0000
    ensures r.Some? ==> r.value == a
  {
    if PhysIsCanonical(a) then Some(a) else None
  }

  /** `Address<Physical>::new_truncate`: keep the low 52 bits. */
  function PhysNewTruncate(a: u64): (r: u64)
    ensures PhysIsCanonical(r)
    ensures (a - r) % 0x10_0000_0000_0000 == 0
  {
    a % 0x10_0000_0000_0000
  }

  /** Truncating is the identity on canonical addresses, and whatever it
      returns is accepted by `new`. */
  lemma PhysTruncateAgrees(a: u64)
    ensures PhysNew(PhysNewTruncate(a)) == Some(PhysNewTruncate(a))
    ensures PhysIsCanonical(a) ==> PhysNewTruncate(a) == a
  {
  }

  /** `Address<Physical>::is_frame_aligned`. */
  predicate IsFrameAligned(a: u64)
  {
    a % 0x1000 == 0
  }

  // ----- Virtual --------------------------------------------------------

  /** A canonical 48-bit virtual address: bits 47..63 all equal, i.e. the
      address lies in the lower or the upper half. */
  predicate VirtIsCanonical(a: u64)
  {
    a / 0x8000_0000_0000 == 0 || a / 0x8000_0000_0000 == 0x1FFFF
  }

  /** `Address<Virtual>::new_truncate`: `((a << 16) as i64 >> 16) as u64`,
      which keeps the low 48 bits and copies bit 47 into bits 48..63. */
  function VirtNewTruncate(a: u64): (r: u64)
    ensures VirtIsCanonical(r)
    ensures r % 0x1_0000_0000_0000 == a % 0x1_0000_0000_0000
  {
    var low := a % 0x1_0000_0000_0000;
    if low < 0x8000_0000_0000 then low else low + 0xFFFF_0000_0000_0000
  }

  /** `Address<Virtual>::new`: canonical addresses unchanged, addresses
      whose bits 47..63 read 1 sign-extended, anything else rejected. */
  function VirtNew(a: u64): (r: Option<u64>)
    ensures r.Some? <==> a < 0x1_0000_0000_0000 || a >= 0xFFFF_8000_0000_0000
    ensures VirtIsCanonical(a) ==> r == Some(a)
    ensures 0x8000_0000_0000 <= a < 0x1_0000_0000_0000 ==> r == Some(a + 0xFFFF_0000_0000_0000)
    ensures r.Some? ==> VirtIsCanonical(r.value)
  {
    var high := a / 0x8000_0000_0000;
    if high == 0 || high == 0x1FFFF then Some(a)
    else if high == 1 then Some(VirtNewTruncate(a))
    else None
  }

  /** A truncated address is canonical: truncating it again, or validating
      it, leaves it unchanged. */
  lemma VirtTruncateIdempotent(a: u64)
    ensures VirtNewTruncate(VirtNewTruncate(a)) == VirtNewTruncate(a)
    ensures VirtNew(VirtNewTruncate(a)) == Some(VirtNewTruncate(a))
  {
  }

  /** `Address<Virtual>::get_page_index` as written: the shift amount is
      `((depth - 1) * 9) >> 12`, which is 0 for every depth below 456, so
      the address comes back undivided. (`depth - 1` is a u32 subtraction
      that panics at depth 0; `checked_shr` fails for shifts of 64 or
      more.) The source takes `depth` as a usize and truncates it with
      `depth as u32`; taking `depth: u32` here leaves that truncation out,
      so depths of 2^32 and above, whose low 32 bits the source would use,
      are not modelled. */
  function VirtPageIndexAsWritten(a: u64, depth: u32): (r: Option<u64>)
    requires depth >= 1
    ensures depth <= 455 ==> r == Some(a)
  {
    var shift := ((depth - 1) * 9) % 0x1_0000_0000 / 0x1000;
    WrittenShiftVanishes(depth);
    if shift < 64 then Some(ShiftRight(a, shift)) else None
  }

  /** `a >> s` for a shift inside the word. */
  function ShiftRight(a: u64, s: nat): (r: nat)
    requires s < 64
    ensures r <= a
    ensures s == 0 ==> r == a
  {
    if s == 0 then a
    else
      var d := Pow2(s);
      assert a / d <= a by { DivShrinks(a, d); }
      a / d
  }


  lemma DivShrinks(a: nat, d: nat)
    requires d >= 1
    ensures a / d <= a
  {
    if a / d > a {
      MulAwayFromZero(d, a / d);
    }
  }

  lemma WrittenShiftVanishes(depth: u32)
    requires depth >= 1
    ensures depth <= 455 ==> ((depth - 1) * 9) % 0x1_0000_0000 / 0x1000 == 0
  {
    if depth <= 455 {
      assert (depth - 1) * 9 <= 4086;
    }
  }

  /** The evidently intended `get_page_index`: the address shifted right by
      12 + 9·(depth − 1), the number of the page that holds it among pages
      of that depth's size. */
  function VirtPageIndex(a: u64, depth: u32): (r: Option<u64>)
    requires depth >= 1
    ensures r.Some? <==> depth <= 6
    ensures depth == 1 ==> r == Some(a / 0x1000)
    ensures depth == 2 ==> r == Some(a / 0x20_0000)
    ensures depth == 3 ==> r == Some(a / 0x4000_0000)
  {
    Pow2Facts();
    var shift := 12 + (depth - 1) * 9;
    if shift < 64 then Some(ShiftRight(a, shift)) else None
  }

  /** For an address inside the second 2 MiB page, the written code
      returns the address itself where the page number 1 was meant. */
  lemma VirtPageIndexAsWrittenIgnoresDepth()
    ensures VirtPageIndexAsWritten(0x20_0000, 2) == Some(0x20_0000)
    ensures VirtPageIndex(0x20_0000, 2) == Some(1)
  {
  }

  /** Powers of two the page arithmetic uses. */
  lemma Pow2Facts()
    ensures Pow2(12) == 0x1000 && Pow2(21) == 0x20_0000 && Pow2(30) == 0x4000_0000
  {
    assert Pow2(4) == 16;
    assert Pow2(8) == 256;
    assert Pow2(12) == 0x1000;
    assert Pow2(16) == 0x1_0000;
    assert Pow2(21) == 0x20_0000;
    assert Pow2(26) == 0x400_0000;
    assert Pow2(30) == 0x4000_0000;
  }

  // ----- Frame ----------------------------------------------------------

  /** `Address<Frame>::new`: a physical address that is 4 KiB aligned. */
  function FrameNew(p: u64): (r: Option<u64>)
    ensures r.Some? <==> p % 0x1000 == 0
    ensures r.Some? ==> r.value == p
  {
    if IsFrameAligned(p) then Some(p) else None
  }

  /** `Address<Frame>::new_truncate`: round down to the frame boundary. */
  function FrameNewTruncate(p: u64): (r: u64)
    ensures r % 0x1000 == 0
    ensures r <= p < r + 0x1000
  {
    p - p % 0x1000
  }

  /** `Address<Frame>::from_u64`. */
  function FrameFromU64(a: u64): (r: Option<u64>)
    ensures r.Some? <==> a < 0x10_0000_0000_0000 && a % 0x1000 == 0
    ensures r.Some? ==> r.value == a
  {
    match PhysNew(a)
    case None => None
    case Some(p) => FrameNew(p)
  }

  /** `Address<Frame>::from_u64_truncate`. */
  function FrameFromU64Truncate(a: u64): (r: u64)
    ensures FrameFromU64(r) == Some(r)
    ensures r / 0x1000 == (a % 0x10_0000_0000_0000) / 0x1000
  {
    FrameNewTruncate(PhysNewTruncate(a))
  }

  /** `Address<Frame>::index`. */
  function FrameIndex(f: u64): u64
  {
    f / 0x1000
  }

  /** Frame indices count 4 KiB frames: index × 0x1000 is the frame's own
      address, and a canonical frame's index fits in 40 bits. */
  lemma FrameIndexRoundTrip(f: u64)
    requires FrameFromU64(f).Some?
    ensures FrameIndex(f) * 0x1000 == f
    ensures FrameIndex(f) < 0x100_0000_0000
  {
  }

  // ----- PageAlign ------------------------------------------------------

  datatype PageAlign = Align4KiB | Align2MiB | Align1GiB

  /** `PageAlign::as_u64`. */
  function AlignSize(al: PageAlign): u64
  {
    match al
    case Align4KiB => 0x1000
    case Align2MiB => 0x20_0000
    case Align1GiB => 0x4000_0000
  }

  /** `PageAlign::depth`; also the tag a page of this alignment carries. */
  function AlignDepth(al: PageAlign): u64
  {
    match al
    case Align4KiB => 1
    case Align2MiB => 2
    case Align1GiB => 3
  }

  /** `PageAlign::mask`. */
  function AlignMask(al: PageAlign): (r: u64)
    ensures r + 1 == AlignSize(al)
  {
    AlignSize(al) - 1
  }

  /** `PageAlign::from_u64`. */
  function AlignFromU64(v: u64): (r: Option<PageAlign>)
    ensures r.Some? ==> AlignSize(r.value) == v
    ensures r.None? ==> v != 0x1000 && v != 0x20_0000 && v != 0x4000_0000
  {
    if v == AlignSize(Align4KiB) then Some(Align4KiB)
    else if v == AlignSize(Align2MiB) then Some(Align2MiB)
    else if v == AlignSize(Align1GiB) then Some(Align1GiB)
    else None
  }

  /** `from_u64` inverts `as_u64`, and every size is a power of two whose
      multiples are spaced a whole number of 4 KiB frames apart. */
  lemma AlignRoundTrip(al: PageAlign)
    ensures AlignFromU64(AlignSize(al)) == Some(al)
    ensures IsPowerOfTwo(AlignSize(al))
    ensures AlignSize(al) % 0x1000 == 0
  {
    Pow2Facts();
    match al
    case Align4KiB => Pow2IsPowerOfTwo(12);
    case Align2MiB => Pow2IsPowerOfTwo(21);
    case Align1GiB => Pow2IsPowerOfTwo(30);
  }

  // ----- Page -----------------------------------------------------------

  /** `Address<Page>::address`: the value with its 2-bit tag cleared. */
  function PageAddress(p: u64): u64
  {
    p - p % 4
  }

  /** `Address<Page>::align`: decodes the 2-bit tag (0 means untagged). */
  function PageAlignOf(p: u64): Option<PageAlign>
  {
    var tag := p % 4;
    if tag == 0 then None
    else if tag == 1 then Some(Align4KiB)
    else if tag == 2 then Some(Align2MiB)
    else Some(Align1GiB)
  }

  /** The raw page value: the address rounded down to the alignment
      (`& !mask`), with the alignment's depth or-ed into the clear low
      bits. */
  function Tagged(v: u64, al: PageAlign): (r: u64)
    ensures PageAlignOf(r) == Some(al)
    ensures PageAddress(r) == v - v % AlignSize(al)
  {
    v - v % AlignSize(al) + AlignDepth(al)
  }

  /** `Address<Page>::new`: None exactly when an alignment is given and the
      address is not aligned to it; otherwise the page decodes back to the
      address and the alignment. */
  function PageNew(v: u64, align: Option<PageAlign>): (r: Option<u64>)
    ensures align.None? ==> r.Some?
    ensures align.Some? ==> (r.Some? <==> v % AlignSize(align.value) == 0)
    ensures r.Some? ==> PageAlignOf(r.value) == align
    ensures r.Some? && align.Some? ==> PageAddress(r.value) == v
    ensures r.Some? && align.None? ==> PageAddress(r.value) == v - v % 4
  {
    match align
    case None => Some(v - v % 4)
    case Some(al) =>
      if IsAlignedTo(v, AlignSize(al)) then Some(Tagged(v, al)) else None
  }

  /** `Address<Page>::new_truncate`: round down to the alignment and tag. */
  function PageNewTruncate(v: u64, align: Option<PageAlign>): (r: u64)
    ensures PageAlignOf(r) == align
    ensures align.Some? ==> PageAddress(r) == v - v % AlignSize(align.value)
    ensures align.None? ==> PageAddress(r) == v - v % 4
  {
    match align
    case None => v - v % 4
    case Some(al) => Tagged(v, al)
  }

  /** `Address<Page>::from_u64`: validate as a virtual address first, then
      build the page as `PageNew` does. */
  function PageFromU64(a: u64, align: Option<PageAlign>): (r: Option<u64>)
    ensures r.Some? <==> VirtNew(a).Some? && (align.None? || VirtNew(a).value % AlignSize(align.value) == 0)
    ensures r.Some? ==> PageAlignOf(r.value) == align
    ensures r.Some? && align.Some? ==> PageAddress(r.value) == VirtNew(a).value
    ensures r.Some? && align.None? ==> PageAddress(r.value) == VirtNew(a).value - VirtNew(a).value % 4
    ensures r.Some? && align.Some? ==> VirtIsCanonical(PageAddress(r.value))
  {
    match VirtNew(a)
    case None => None
    case Some(v) => PageNew(v, align)
  }

  /** `Address<Page>::index`: the page number among pages of its size. */
  function PageIndex(p: u64): (r: Option<u64>)
    ensures r.Some? <==> PageAlignOf(p).Some?
    ensures r.Some? ==> r.value * AlignSize(PageAlignOf(p).value) <= PageAddress(p)
                          < (r.value + 1) * AlignSize(PageAlignOf(p).value)
  {
    match PageAlignOf(p)
    case None => None
    case Some(al) => Some(PageAddress(p) / AlignSize(al))
  }

  /** `Address<Page>::depth`. */
  function PageDepth(p: u64): (r: Option<nat>)
    ensures r.Some? <==> PageAlignOf(p).Some?
    ensures r.Some? ==> r.value == AlignDepth(PageAlignOf(p).value) == p % 4
  {
    match PageAlignOf(p)
    case None => None
    case Some(Align4KiB) => Some(1)
    case Some(Align2MiB) => Some(2)
    case Some(Align1GiB) => Some(3)
  }

  /** `Address<Page>::is_null`. */
  predicate PageIsNull(p: u64)
  {
    PageAddress(p) == 0
  }

  /** A page built by `new` from an aligned address hands back that
      address, its alignment, and the page number address / size. */
  lemma PageNewRoundTrip(v: u64, al: PageAlign)
    requires v % AlignSize(al) == 0
    ensures PageNew(v, Some(al)).Some?
    ensures PageAddress(PageNew(v, Some(al)).value) == v
    ensures PageIndex(PageNew(v, Some(al)).value) == Some(v / AlignSize(al))
    ensures PageIsNull(PageNew(v, Some(al)).value) <==> v == 0
  {
  }

  /** `checked_add` on u64 followed by `Address<Virtual>::new`. */
  function CheckedAddVirt(a: u64, delta: u64): (r: Option<u64>)
    ensures r.Some? <==> a + delta <= U64_MAX && VirtNew(a + delta).Some?
    ensures r.Some? ==> VirtIsCanonical(r.value)
  {
    if a + delta > U64_MAX then None else VirtNew(a + delta)
  }

  /** `checked_sub` on u64 followed by `Address<Virtual>::new`. */
  function CheckedSubVirt(a: u64, delta: u64): (r: Option<u64>)
    ensures r.Some? <==> delta <= a && VirtNew(a - delta).Some?
    ensures r.Some? ==> VirtIsCanonical(r.value)
  {
    if delta > a then None else VirtNew(a - delta)
  }

  /** `(count as u64) * align.as_u64()`: an unchecked multiplication in
      the source, which panics on overflow in a debug build. */
  predicate StepFits(p: u64, count: usize)
  {
    PageAlignOf(p).Some? ==> count * AlignSize(PageAlignOf(p).value) <= U64_MAX
  }

  /** `Address<Page>::forward_checked`: None without a tag, when the u64
      addition overflows, or when the sum is not a valid virtual address;
      otherwise the page of the same alignment at the sum. */
  function PageForwardChecked(p: u64, count: usize): (r: Option<u64>)
    requires StepFits(p, count)
    ensures PageAlignOf(p).None? ==> r.None?
    ensures PageAlignOf(p).Some? ==>
      (r.Some? <==> CheckedAddVirt(PageAddress(p), count * AlignSize(PageAlignOf(p).value)).Some?)
    ensures r.Some? ==> PageAlignOf(r.value) == PageAlignOf(p)
    ensures r.Some? ==>
      var size := AlignSize(PageAlignOf(p).value);
      var sum := CheckedAddVirt(PageAddress(p), count * size).value;
      PageAddress(r.value) == sum - sum % size
  {
    match PageAlignOf(p)
    case None => None
    case Some(al) =>
      match CheckedAddVirt(PageAddress(p), count * AlignSize(al))
      case None => None
      case Some(v) => Some(PageNewTruncate(v, Some(al)))
  }

  /** `Address<Page>::backward_checked`: the subtraction is checked. */
  function PageBackwardChecked(p: u64, count: usize): (r: Option<u64>)
    requires StepFits(p, count)
    ensures PageAlignOf(p).None? ==> r.None?
    ensures PageAlignOf(p).Some? ==>
      (r.Some? <==> CheckedSubVirt(PageAddress(p), count * AlignSize(PageAlignOf(p).value)).Some?)
    ensures r.Some? ==> PageAlignOf(r.value) == PageAlignOf(p)
    ensures r.Some? ==>
      var size := AlignSize(PageAlignOf(p).value);
      var diff := CheckedSubVirt(PageAddress(p), count * size).value;
      PageAddress(r.value) == diff - diff % size
  {
    match PageAlignOf(p)
    case None => None
    case Some(al) =>
      match CheckedSubVirt(PageAddress(p), count * AlignSize(al))
      case None => None
      case Some(v) => Some(PageNewTruncate(v, Some(al)))
  }

  /** Stepping a lower-half page forward by `count` and back by the same
      count returns the original page, whatever its alignment. */
  lemma ForwardBackwardRoundTrip(v: u64, al: PageAlign, count: usize)
    requires v % AlignSize(al) == 0
    requires v + count * AlignSize(al) < 0x8000_0000_0000
    ensures PageNew(v, Some(al)).Some?
    ensures StepFits(PageNew(v, Some(al)).value, count)
    ensures PageForwardChecked(PageNew(v, Some(al)).value, count).Some?
    ensures StepFits(PageForwardChecked(PageNew(v, Some(al)).value, count).value, count)
    ensures PageBackwardChecked(PageForwardChecked(PageNew(v, Some(al)).value, count).value, count)
            == PageNew(v, Some(al))
  {
    var size := AlignSize(al);
    var step := count * size;
    var p := Tagged(v, al);
    assert PageAddress(p) == v;
    StepStaysAligned(v, count, al);
    var q := Tagged(v + step, al);
    assert PageForwardChecked(p, count) == Some(q);
    assert PageAddress(q) == v + step;
    assert PageBackwardChecked(q, count) == Some(Tagged(v, al));
  }

  /** Adding whole pages keeps an address aligned to the page size. */
  lemma StepStaysAligned(v: int, count: nat, al: PageAlign)
    requires v % AlignSize(al) == 0
    ensures (v + count * AlignSize(al)) % AlignSize(al) == 0
  {
    match al
    case Align4KiB =>
      assert v + count * 0x1000 == (v / 0x1000 + count) * 0x1000;
    case Align2MiB =>
      assert v + count * 0x20_0000 == (v / 0x20_0000 + count) * 0x20_0000;
    case Align1GiB =>
      assert v + count * 0x4000_0000 == (v / 0x4000_0000 + count) * 0x4000_0000;
  }
}

=== FILE: address_space.dfy ===
/** The kernel's `AddressSpace`: `mmap` flags and the page attributes they
    become, and the first-fit bookkeeping of free and used regions.
    Mapping the pages themselves goes through the page-table mapper, which
    is not part of this model: whether it succeeds is a parameter. */
module AddressSpaces {
  import opened Wrappers
  import opened Words
  import opened KernelPte

  const PAGE_SIZE: nat := 0x1000

  // ----- MmapFlags --------------------------------------------------------

  type MmapFlags = bv16

  const READ_EXECUTE: MmapFlags := 0x2
  const READ_WRITE: MmapFlags := 0x4
  const NOT_DEMAND: MmapFlags := 0x100

  /** `flags.contains(flag)`. */
  predicate Has(flags: MmapFlags, flag: MmapFlags)
  {
    flags & flag == flag
  }

  /** `From<MmapFlags> for PageAttributes`: read-write wins over
      read-execute, read-only otherwise; unless the mapping is eager
      (`NOT_DEMAND`), the page is left not present and marked for demand
      paging. */
  function ToAttributes(flags: MmapFlags): (r: bv64)
    ensures r & PRESENT != 0 <==> Has(flags, NOT_DEMAND)
    ensures r & DEMAND != 0 <==> !Has(flags, NOT_DEMAND)
    ensures r & WRITABLE != 0 <==> Has(flags, READ_WRITE)
    ensures r & NO_EXECUTE == 0 <==> !Has(flags, READ_WRITE) && Has(flags, READ_EXECUTE)
    ensures r & !(PRESENT | WRITABLE | DEMAND | NO_EXECUTE) == 0
  {
    var permissions := if Has(flags, READ_WRITE) then RW
                       else if Has(flags, READ_EXECUTE) then RX
                       else RO;
    if Has(flags, NOT_DEMAND) then permissions else (permissions & !PRESENT) | DEMAND
  }

  /** No flags give a page that is both writable and executable. */
  lemma WriteXorExecute(flags: MmapFlags)
    ensures ToAttributes(flags) & WRITABLE == 0 || ToAttributes(flags) & NO_EXECUTE != 0
  {
  }

  /** The attribute change of `try_demand`: a demand page becomes present
      with its other attributes kept; any other page is an error. */
  function Demand(attributes: bv64): (r: Option<bv64>)
    ensures r.None? <==> attributes & DEMAND == 0
    ensures r.Some? ==> r.value & DEMAND == 0 && r.value & PRESENT != 0
    ensures r.Some? ==> r.value & !(DEMAND | PRESENT) == attributes & !(DEMAND | PRESENT)
  {
    if attributes & DEMAND != 0 then Some((attributes & !DEMAND) | PRESENT) else None
  }

  /** Demand paging a lazily mapped page gives exactly the attributes an
      eager mapping with the same flags would have had. */
  lemma DemandCompletesMapping(flags: MmapFlags)
    requires !Has(flags, NOT_DEMAND)
    ensures Demand(ToAttributes(flags)) == Some(ToAttributes(flags | NOT_DEMAND))
  {
  }

  // ----- Region -----------------------------------------------------------

  /** `Region(Range<usize>)`: the addresses from `start` up to `end`. */
  datatype Region = Region(start: nat, end: nat)

  /** `size`: `Range::len`, zero for an empty or reversed range. */
  function Size(r: Region): nat
  {
    if r.start < r.end then r.end - r.start else 0
  }

  predicate Contains(r: Region, address: nat)
  {
    r.start <= address < r.end
  }

  /** `PartialEq for Region`: this region holds the other's start or end. */
  predicate RegionEq(a: Region, b: Region)
  {
    Contains(a, b.start) || Contains(a, b.end)
  }

  /** The equality is not symmetric: a region equals one it encloses, but
      not the other way round. */
  lemma RegionEqAsymmetric()
    ensures RegionEq(Region(0, 10), Region(2, 5)) && !RegionEq(Region(2, 5), Region(0, 10))
  {
  }

  datatype Ordering = Less | Equal | Greater

  /** `Ord for Region`: a region lying wholly above another (both ends
      greater) compares Less, wholly below compares Greater, and anything
      else Equal, so the used list is kept in descending order. */
  function Compare(a: Region, b: Region): (r: Ordering)
    ensures r == Less <==> a.start > b.start && a.end > b.end
    ensures r == Greater <==> a.start < b.start && a.end < b.end
  {
    if a.start > b.start && a.end > b.end then Less
    else if a.start < b.start && a.end < b.end then Greater
    else Equal
  }

  /** Comparing the other way round swaps Less and Greater, and Equal
      holds exactly when one region encloses the other. */
  lemma CompareFacts(a: Region, b: Region)
    ensures Compare(a, b) == Less <==> Compare(b, a) == Greater
    ensures Compare(a, b) == Equal <==>
              (a.start <= b.start && b.end <= a.end) || (b.start <= a.start && a.end <= b.end)
  {
  }

  /** Two regions share no address. */
  predicate Disjoint(a: Region, b: Region)
  {
    a.end <= b.start || b.end <= a.start
  }

  /** Disjoint nonempty regions never compare Equal. */
  lemma DisjointNotEqual(a: Region, b: Region)
    requires a.start < a.end && b.start < b.end && Disjoint(a, b)
    ensures Compare(a, b) != Equal
  {
  }

  // ----- Binary search ----------------------------------------------------

  /** `binary_search`'s answer: an index whose element compares Equal, or
      the index the element would be inserted at. */
  datatype Search = Found(index: nat) | Vacant(index: nat)

  /** `used.binary_search(&r)` on a list sorted by `Compare`: the first
      element that does not compare Less decides. */
  function SearchFrom(used: seq<Region>, r: Region, i: nat): (s: Search)
    requires i <= |used|
    ensures i <= s.index <= |used|
    ensures forall k :: i <= k < s.index ==> Compare(used[k], r) == Less
    ensures s.Found? <==> s.index < |used| && Compare(used[s.index], r) == Equal
    ensures s.Vacant? && s.index < |used| ==> Compare(used[s.index], r) == Greater
    decreases |used| - i
  {
    if i == |used| then Vacant(i)
    else match Compare(used[i], r)
      case Less => SearchFrom(used, r, i + 1)
      case Equal => Found(i)
      case Greater => Vacant(i)
  }

  // ----- AddressSpace -----------------------------------------------------

  /** The free regions and the used ones. */
  datatype AddressSpace = AddressSpace(free: seq<Region>, used: seq<Region>)

  /** Used regions are nonempty and page-aligned, kept in descending
      order, and no two regions of either list overlap. */
  predicate Valid(s: AddressSpace)
  {
    (forall i :: 0 <= i < |s.free| ==> s.free[i].start % PAGE_SIZE == 0 && s.free[i].start <= s.free[i].end)
    && (forall i :: 0 <= i < |s.used| ==> s.used[i].start < s.used[i].end)
    && (forall i, j :: 0 <= i < j < |s.free| ==> Disjoint(s.free[i], s.free[j]))
    && (forall i, j :: 0 <= i < |s.free| && 0 <= j < |s.used| ==> Disjoint(s.free[i], s.used[j]))
    && Descending(s.used)
  }

  /** `AddressSpace::new` as written: one free region from address 0 to
      `size`. The page tables come from the mapper, whose success is
      `allocates`. */
  function NewAsWritten(size: nat, allocates: bool): (r: Result<AddressSpace, ()>)
    requires size > 0
    ensures r.Ok? <==> allocates
    ensures r.Ok? ==> Valid(r.value) && r.value.free == [Region(0, size)] && r.value.used == []
  {
    if allocates then Ok(AddressSpace([Region(0, size)], [])) else Err(())
  }

  /** `AddressSpace::new`, corrected: the null page is never free, so no
      region handed out starts at address 0. */
  function New(size: nat, allocates: bool): (r: Result<AddressSpace, ()>)
    requires size > 0
    ensures r.Ok? <==> allocates
    ensures r.Ok? ==> Valid(r.value) && r.value.used == []
    ensures r.Ok? ==> r.value.free == [Region(PAGE_SIZE, if size < PAGE_SIZE then PAGE_SIZE else size)]
    ensures r.Ok? ==> forall i :: 0 <= i < |r.value.free| ==> r.value.free[i].start > 0
  {
    if allocates then Ok(AddressSpace([Region(PAGE_SIZE, if size < PAGE_SIZE then PAGE_SIZE else size)], []))
    else Err(())
  }

  /** The first free region from i on that holds `size` bytes. */
  function FirstFit(free: seq<Region>, size: nat, i: nat): (r: Option<nat>)
    requires i <= |free|
    ensures r.Some? ==> i <= r.value < |free| && Size(free[r.value]) >= size
    ensures r.Some? ==> forall k :: i <= k < r.value ==> Size(free[k]) < size
    ensures r.None? <==> forall k :: i <= k < |free| ==> Size(free[k]) < size
    decreases |free| - i
  {
    if i == |free| then None
    else if Size(free[i]) >= size then Some(i)
    else FirstFit(free, size, i + 1)
  }

  /** `Address::<Page>::new_truncate`: the page an address lies in. */
  function PageFloor(address: nat): (r: nat)
    ensures r % PAGE_SIZE == 0 && r <= address < r + PAGE_SIZE
  {
    address - address % PAGE_SIZE
  }

  /** What `mmap` asks of its caller: at least one page, a byte size that
      does not overflow and is a power of two (the assertion). */
  predicate CanMmap(pages: nat)
  {
    pages > 0 && pages * PAGE_SIZE <= U64_MAX && IsPowerOfTwo(pages * PAGE_SIZE)
  }

  /** The outcome of `mmap`: the address space after it, and the region
      mapped or an error. */
  datatype Mmapped = Mmapped(space: AddressSpace, result: Result<Region, ()>)

  /** The two regions `mmap` cuts from a free region: the front `size`
      bytes become used, the rest stays free. */
  function Split(found: Region, size: nat): (r: (Region, Region))
  {
    (Region(found.start, found.start + size), Region(found.start + size, PageFloor(found.end)))
  }

  /** What the `expect` on the search needs in `mmap` as written: the new
      used region compares Equal to a used region already there. */
  predicate ExpectFound(s: AddressSpace, pages: nat, maps: bool)
  {
    var size := pages * PAGE_SIZE;
    match FirstFit(s.free, size, 0)
    case None => true
    case Some(i) =>
      !maps || s.free[i].start == 0 || SearchFrom(s.used, Split(s.free[i], size).0, 0).Found?
  }

  /** `mmap` as written: it inserts the new used region where the search
      found an overlapping one, and panics when it found none. */
  function MmapAsWritten(s: AddressSpace, pages: nat, maps: bool, inserts: bool): (r: Mmapped)
    requires Valid(s) && CanMmap(pages) && ExpectFound(s, pages, maps)
    ensures r.result.Err? ==> r.space.used == s.used
  {
    var size := pages * PAGE_SIZE;
    match FirstFit(s.free, size, 0)
    case None => Mmapped(s, Err(()))
    case Some(i) =>
      var (used, rest) := Split(s.free[i], size);
      if !maps || used.start == 0 then Mmapped(s, Err(()))
      else
        var free := s.free[i := rest];
        var at := SearchFrom(s.used, used, 0).index;
        if !inserts then Mmapped(AddressSpace(free, s.used), Err(()))
        else Mmapped(AddressSpace(free, s.used[..at] + [used] + s.used[at..]), Ok(used))
  }

  /** On a valid address space the new used region never overlaps a used
      one, so the search never finds one and `mmap` as written panics
      every time the mapping succeeds at a nonzero address. */
  lemma MmapAsWrittenPanics(s: AddressSpace, pages: nat)
    requires Valid(s) && CanMmap(pages)
    requires FirstFit(s.free, pages * PAGE_SIZE, 0).Some?
    requires s.free[FirstFit(s.free, pages * PAGE_SIZE, 0).value].start > 0
    ensures !ExpectFound(s, pages, true)
  {
    var size := pages * PAGE_SIZE;
    var i := FirstFit(s.free, size, 0).value;
    var used := Split(s.free[i], size).0;
    NewRegionFree(s, i, size);
    NewRegionVacant(s, used);
  }

  /** The region cut from free region i is nonempty and disjoint from
      every used region. */
  lemma NewRegionFree(s: AddressSpace, i: nat, size: nat)
    requires Valid(s) && i < |s.free| && size > 0 && Size(s.free[i]) >= size
    ensures var used := Split(s.free[i], size).0;
            used.start < used.end && forall j :: 0 <= j < |s.used| ==> Disjoint(used, s.used[j])
  {
    var used := Split(s.free[i], size).0;
    forall j | 0 <= j < |s.used|
      ensures Disjoint(used, s.used[j])
    {
      assert Disjoint(s.free[i], s.used[j]);
    }
  }

  /** A nonempty region disjoint from all used regions is not found. */
  lemma NewRegionVacant(s: AddressSpace, r: Region)
    requires Valid(s) && r.start < r.end
    requires forall j :: 0 <= j < |s.used| ==> Disjoint(r, s.used[j])
    ensures SearchFrom(s.used, r, 0).Vacant?
  {
    var k := SearchFrom(s.used, r, 0).index;
    if k < |s.used| {
      DisjointNotEqual(s.used[k], r);
    }
  }

  /** On a fresh address space as written, the first free region starts
      at address 0, so mapping it yields a null pointer: `mmap` fails and
      leaves the space unchanged, hence fails the same way every time. */
  lemma FreshSpaceNeverMaps(size: nat, pages: nat, maps: bool, inserts: bool)
    requires size > 0 && CanMmap(pages)
    ensures var s := NewAsWritten(size, true).value;
            ExpectFound(s, pages, maps)
            && MmapAsWritten(s, pages, maps, inserts) == Mmapped(s, Err(()))
  {
  }

  /** `mmap`, corrected: the first free region big enough gives up its
      front `size` bytes; once the pages are mapped the free region is
      shrunk and the new region is inserted where the search says it
      belongs, an overlap being the panic. Failing to map leaves the
      space as it was; failing to grow the used list (`inserts`) leaves
      the free region shrunk. */
  function Mmap(s: AddressSpace, pages: nat, maps: bool, inserts: bool): (r: Mmapped)
    requires Valid(s) && CanMmap(pages)
    ensures Valid(r.space)
    ensures FirstFit(s.free, pages * PAGE_SIZE, 0).None? ==> r == Mmapped(s, Err(()))
    ensures r.result.Ok? <==>
      var fit := FirstFit(s.free, pages * PAGE_SIZE, 0);
      fit.Some? && maps && inserts && s.free[fit.value].start > 0
    ensures FirstFit(s.free, pages * PAGE_SIZE, 0).Some? ==>
      var i := FirstFit(s.free, pages * PAGE_SIZE, 0).value;
      !maps || s.free[i].start == 0 ==> r == Mmapped(s, Err(()))
    ensures r.result.Err? ==> r.space.used == s.used
    ensures r.result.Ok? ==>
      var i := FirstFit(s.free, pages * PAGE_SIZE, 0).value;
      var m := r.result.value;
      maps && inserts && m.start > 0
      && m.start == s.free[i].start && Size(m) == pages * PAGE_SIZE && m.start % PAGE_SIZE == 0
      && m.end <= s.free[i].end
      && r.space.free == s.free[i := Region(m.end, PageFloor(s.free[i].end))]
      && multiset(r.space.used) == multiset(s.used) + multiset{m}
      && (forall j :: 0 <= j < |s.used| ==> Disjoint(m, s.used[j]))
  {
    var size := pages * PAGE_SIZE;
    match FirstFit(s.free, size, 0)
    case None => Mmapped(s, Err(()))
    case Some(i) =>
      if !maps || s.free[i].start == 0 then Mmapped(s, Err(()))
      else
        assert size == pages * PAGE_SIZE;
        ModAddMultiple(0, pages, PAGE_SIZE);
        Carve(s, i, size, inserts)
  }

  /** Cut `size` bytes from the front of free region i, once its pages
      are mapped. */
  function Carve(s: AddressSpace, i: nat, size: nat, inserts: bool): (r: Mmapped)
    requires Valid(s) && i < |s.free| && size > 0 && size % PAGE_SIZE == 0
    requires Size(s.free[i]) >= size && s.free[i].start > 0
    ensures Valid(r.space) && r.space.free == s.free[i := Split(s.free[i], size).1]
    ensures r.result.Err? <==> !inserts
    ensures r.result.Err? ==> r.space.used == s.used
    ensures r.result.Ok? ==>
      var m := r.result.value;
      m == Split(s.free[i], size).0 && m.start % PAGE_SIZE == 0 && Size(m) == size
      && m.end <= s.free[i].end
      && multiset(r.space.used) == multiset(s.used) + multiset{m}
      && (forall j :: 0 <= j < |s.used| ==> Disjoint(m, s.used[j]))
  {
    var (used, rest) := Split(s.free[i], size);
    var free := s.free[i := rest];
    NewRegionFree(s, i, size);
    NewRegionVacant(s, used);
    ShrunkValid(s, i, size);
    if !inserts then Mmapped(AddressSpace(free, s.used), Err(()))
    else
      var at := SearchFrom(s.used, used, 0).index;
      assert forall j :: 0 <= j < |free| ==> Disjoint(free[j], used) by {
        forall j | 0 <= j < |free|
          ensures Disjoint(free[j], used)
        {
          if j != i {
            assert Disjoint(s.free[j], s.free[i]) || Disjoint(s.free[i], s.free[j]);
          }
        }
      }
      InsertValid(AddressSpace(free, s.used), used, at);
      assert s.used == s.used[..at] + s.used[at..];
      Mmapped(AddressSpace(free, s.used[..at] + [used] + s.used[at..]), Ok(used))
  }

  /** With the null page kept out, the first `mmap` of a fresh space
      that is big enough succeeds when mapping and inserting do. */
  lemma FreshSpaceMaps(size: nat, pages: nat)
    requires CanMmap(pages) && size >= PAGE_SIZE + pages * PAGE_SIZE
    ensures Mmap(New(size, true).value, pages, true, true).result.Ok?
  {
    var s := New(size, true).value;
    assert FirstFit(s.free, pages * PAGE_SIZE, 0) == Some(0);
  }

  /** Shrinking free region i from the front keeps the space valid. */
  lemma ShrunkValid(s: AddressSpace, i: nat, size: nat)
    requires Valid(s) && i < |s.free| && size > 0 && size % PAGE_SIZE == 0 && Size(s.free[i]) >= size
    ensures var rest := Split(s.free[i], size).1;
            Valid(AddressSpace(s.free[i := rest], s.used))
            && Disjoint(rest, Split(s.free[i], size).0)
  {
    var found := s.free[i];
    var rest := Split(found, size).1;
    var free := s.free[i := rest];
    ModAddMultiple(found.start, size / PAGE_SIZE, PAGE_SIZE);
    assert found.start + size == found.start + size / PAGE_SIZE * PAGE_SIZE;
    assert rest.start % PAGE_SIZE == 0 && rest.start <= rest.end;
    forall a, b | 0 <= a < b < |free|
      ensures Disjoint(free[a], free[b])
    {
      assert Disjoint(s.free[a], s.free[b]);
    }
    forall a, b | 0 <= a < |free| && 0 <= b < |s.used|
      ensures Disjoint(free[a], s.used[b])
    {
      assert Disjoint(s.free[a], s.used[b]);
    }
  }

  /** Each used region lies wholly above the ones after it. */
  predicate Descending(used: seq<Region>)
  {
    forall i, j :: 0 <= i < j < |used| ==> used[j].end <= used[i].start
  }

  /** Inserting a nonempty region disjoint from everything at the index
      the search gives keeps the space valid. */
  lemma InsertValid(s: AddressSpace, r: Region, at: nat)
    requires Valid(s) && r.start < r.end
    requires forall j :: 0 <= j < |s.used| ==> Disjoint(r, s.used[j])
    requires forall j :: 0 <= j < |s.free| ==> Disjoint(s.free[j], r)
    requires SearchFrom(s.used, r, 0) == Vacant(at)
    ensures Valid(AddressSpace(s.free, s.used[..at] + [r] + s.used[at..]))
  {
    var used := s.used[..at] + [r] + s.used[at..];
    assert Descending(used) by {
      SearchPlaces(s.used, r, at);
      InsertDescending(s.used, r, at);
    }
    forall b | 0 <= b < |used|
      ensures used[b].start < used[b].end
      ensures forall a :: 0 <= a < |s.free| ==> Disjoint(s.free[a], used[b])
    {
      InsertedAt(s.used, r, at, b);
    }
  }

  /** Where each element of the list lands once r is inserted at `at`. */
  lemma InsertedAt(used: seq<Region>, r: Region, at: nat, b: nat)
    requires at <= |used| && b <= |used|
    ensures (used[..at] + [r] + used[at..])[b]
      == if b < at then used[b] else if b == at then r else used[b - 1]
  {
  }


  /** The search's vacant index splits a descending list of regions
      disjoint from r into those above r and those below it. */
  lemma SearchPlaces(used: seq<Region>, r: Region, at: nat)
    requires Descending(used) && (forall j :: 0 <= j < |used| ==> used[j].start < used[j].end)
    requires forall j :: 0 <= j < |used| ==> Disjoint(r, used[j])
    requires r.start < r.end && SearchFrom(used, r, 0) == Vacant(at)
    ensures forall k :: 0 <= k < at ==> r.end <= used[k].start
    ensures forall k :: at <= k < |used| ==> used[k].end <= r.start
  {
    forall k | 0 <= k < at
      ensures r.end <= used[k].start
    {
      assert Compare(used[k], r) == Less;
      assert Disjoint(r, used[k]);
    }
    forall k | at <= k < |used|
      ensures used[k].end <= r.start
    {
      assert Compare(used[at], r) == Greater;
      assert Disjoint(r, used[at]);
      if k > at {
        assert used[k].end <= used[at].start;
      }
    }
  }

  lemma InsertDescending(used: seq<Region>, r: Region, at: nat)
    requires Descending(used) && at <= |used| && r.start < r.end
    requires forall k :: 0 <= k < at ==> r.end <= used[k].start
    requires forall k :: at <= k < |used| ==> used[k].end <= r.start
    ensures Descending(used[..at] + [r] + used[at..])
  {
    var u := used[..at] + [r] + used[at..];
    forall a, b | 0 <= a < b < |u|
      ensures u[b].end <= u[a].start
    {
      if b < at {
        assert u[a] == used[a] && u[b] == used[b];
      } else if a > at {
        assert u[a] == used[a - 1] && u[b] == used[b - 1];
      } else if a < at && b > at {
        assert u[a] == used[a] && u[b] == used[b - 1];
      }
    }
  }
}

=== FILE: ahci.dfy ===
/** An AHCI host bus adapter port (Serial ATA AHCI 1.3.1, section 3.3):
    the SATA status fields, the signature that names the attached device,
    the port's class, the command list and the bit fields of a command
    header. */
module AhciPort {
  import opened Wrappers

  // ----- PxSSTS -----------------------------------------------------------

  datatype PowerManagement = IpmNonCommunicate | Active | Partial | Slumber | DevSleep
  datatype Speed = SpeedNonCommunicate | Gen1 | Gen2 | Gen3
  datatype Detection = DetNonCommunicate | DetectedNoPhy | DetectedAndPhy | PhyOffline

  function PowerManagementCode(p: PowerManagement): bv32
  {
    match p
    case IpmNonCommunicate => 0
    case Active => 1
    case Partial => 2
    case Slumber => 6
    case DevSleep => 8
  }

  function SpeedCode(s: Speed): bv32
  {
    match s
    case SpeedNonCommunicate => 0
    case Gen1 => 1
    case Gen2 => 2
    case Gen3 => 3
  }

  function DetectionCode(d: Detection): bv32
  {
    match d
    case DetNonCommunicate => 0
    case DetectedNoPhy => 1
    case DetectedAndPhy => 3
    case PhyOffline => 4
  }

  /** The three four-bit fields of the SATA status register. */
  function IpmField(status: bv32): bv32 { (status >> 8) & 0xF }
  function SpdField(status: bv32): bv32 { (status >> 4) & 0xF }
  function DetField(status: bv32): bv32 { status & 0xF }

  predicate IsPowerManagementCode(f: bv32) { f == 0 || f == 1 || f == 2 || f == 6 || f == 8 }
  predicate IsSpeedCode(f: bv32) { f <= 3 }
  predicate IsDetectionCode(f: bv32) { f == 0 || f == 1 || f == 3 || f == 4 }

  /** `interface_pwm`: an undefined code panics in the source. */
  function InterfacePowerManagement(status: bv32): (r: PowerManagement)
    requires IsPowerManagementCode(IpmField(status))
    ensures PowerManagementCode(r) == IpmField(status)
  {
    var f := IpmField(status);
    if f == 0 then IpmNonCommunicate else if f == 1 then Active
    else if f == 2 then Partial else if f == 6 then Slumber else DevSleep
  }

  /** `interface_speed`. */
  function InterfaceSpeed(status: bv32): (r: Speed)
    requires IsSpeedCode(SpdField(status))
    ensures SpeedCode(r) == SpdField(status)
  {
    var f := SpdField(status);
    if f == 0 then SpeedNonCommunicate else if f == 1 then Gen1 else if f == 2 then Gen2 else Gen3
  }

  /** `device_detection`. */
  function DeviceDetection(status: bv32): (r: Detection)
    requires IsDetectionCode(DetField(status))
    ensures DetectionCode(r) == DetField(status)
  {
    var f := DetField(status);
    if f == 0 then DetNonCommunicate else if f == 1 then DetectedNoPhy
    else if f == 3 then DetectedAndPhy else PhyOffline
  }

  /** The status word a port reports for the three fields. */
  function StatusWord(ipm: PowerManagement, spd: Speed, det: Detection): bv32
  {
    (PowerManagementCode(ipm) << 8) | (SpeedCode(spd) << 4) | DetectionCode(det)
  }

  /** Each decoder gives back the value the port encoded: the decoders
      invert the encoding. */
  lemma StatusDecodes(ipm: PowerManagement, spd: Speed, det: Detection)
    ensures IsPowerManagementCode(IpmField(StatusWord(ipm, spd, det)))
    ensures InterfacePowerManagement(StatusWord(ipm, spd, det)) == ipm
    ensures InterfaceSpeed(StatusWord(ipm, spd, det)) == spd
    ensures DeviceDetection(StatusWord(ipm, spd, det)) == det
  {
    var w := StatusWord(ipm, spd, det);
    StatusFields(PowerManagementCode(ipm), SpeedCode(spd), DetectionCode(det));
    assert PowerManagementCode(InterfacePowerManagement(w)) == PowerManagementCode(ipm);
    assert SpeedCode(InterfaceSpeed(w)) == SpeedCode(spd);
    assert DetectionCode(DeviceDetection(w)) == DetectionCode(det);
  }

  lemma StatusFields(ipm: bv32, spd: bv32, det: bv32)
    requires ipm < 16 && spd < 16 && det < 16
    ensures ((((ipm << 8) | (spd << 4) | det) >> 8) & 0xF) == ipm
    ensures ((((ipm << 8) | (spd << 4) | det) >> 4) & 0xF) == spd
    ensures (((ipm << 8) | (spd << 4) | det) & 0xF) == det
  {
  }

  // ----- Signature and class ----------------------------------------------

  datatype PortClass = NoDevice | Sata | Semb | PortMultiplier | Satapi

  /** The four signatures the kernel knows. */
  const SATA_SIGNATURE: bv32 := 0x0000_0101
  const SEMB_SIGNATURE: bv32 := 0xC33C_0101
  const PM_SIGNATURE: bv32 := 0x9669_0101
  const SATAPI_SIGNATURE: bv32 := 0xEB14_0101

  /** The signature of each attached-device class. */
  function SignatureOf(c: PortClass): bv32
    requires c != NoDevice
  {
    match c
    case Sata => SATA_SIGNATURE
    case Semb => SEMB_SIGNATURE
    case PortMultiplier => PM_SIGNATURE
    case Satapi => SATAPI_SIGNATURE
  }

  /** `signature`: the class of a known signature; any other word is
      returned as the error. */
  function Signature(signature: bv32): (r: Result<PortClass, bv32>)
    ensures r.Ok? ==> r.value != NoDevice && SignatureOf(r.value) == signature
    ensures r.Err? ==> r.error == signature
  {
    if signature == SATA_SIGNATURE then Ok(Sata)
    else if signature == SEMB_SIGNATURE then Ok(Semb)
    else if signature == PM_SIGNATURE then Ok(PortMultiplier)
    else if signature == SATAPI_SIGNATURE then Ok(Satapi)
    else Err(signature)
  }

  /** Every class's signature is recognised as that class. */
  lemma SignatureRoundTrip(c: PortClass)
    requires c != NoDevice
    ensures Signature(SignatureOf(c)) == Ok(c)
  {
  }

  /** The port registers the model reads. */
  datatype Port = Port(commandListBase: nat, fisBase: nat, signature: bv32, sataStatus: bv32)

  /** `class` reads IPM only when DET says a device with an established
      PHY is present (the `||` short-circuits), and expects a known
      signature only once IPM says the link is active. */
  function ClassDefined(p: Port): (r: bool)
    ensures !IsDetectionCode(DetField(p.sataStatus)) ==> !r
    ensures IsDetectionCode(DetField(p.sataStatus)) && DetField(p.sataStatus) != 3 ==> r
    ensures DetField(p.sataStatus) == 3 && IsPowerManagementCode(IpmField(p.sataStatus)) && IpmField(p.sataStatus) != 1 ==> r
  {
    IsDetectionCode(DetField(p.sataStatus)) &&
    (DetField(p.sataStatus) == 3 ==>
      IsPowerManagementCode(IpmField(p.sataStatus)) &&
      (IpmField(p.sataStatus) == 1 ==> Signature(p.signature).Ok?))
  }

  /** `class`: no device unless detected with PHY and active; otherwise the
      class the signature names. */
  function Class(p: Port): (r: PortClass)
    requires ClassDefined(p)
    ensures r == NoDevice <==> DetField(p.sataStatus) != 3 || IpmField(p.sataStatus) != 1
    ensures r != NoDevice ==> SignatureOf(r) == p.signature
  {
    if DeviceDetection(p.sataStatus) != DetectedAndPhy
       || InterfacePowerManagement(p.sataStatus) != Active then NoDevice
    else Signature(p.signature).value
  }

  // ----- Command list -----------------------------------------------------

  /** The command list a port exposes: 32 command headers from the base. */
  datatype CommandList = CommandList(base: nat, length: nat)

  const COMMAND_SLOTS: nat := 32

  /** `command_list`: nothing while the base pointer is null. */
  function GetCommandList(p: Port): (r: Option<CommandList>)
    ensures r.None? <==> p.commandListBase == 0
    ensures r.Some? ==> r.value == CommandList(p.commandListBase, COMMAND_SLOTS)
  {
    if p.commandListBase != 0 then Some(CommandList(p.commandListBase, COMMAND_SLOTS)) else None
  }

  /** `set_command_list_base` and `set_fis_base`. */
  function SetCommandListBase(p: Port, base: nat): (r: Port)
    ensures r.commandListBase == base && r == p.(commandListBase := base)
  {
    p.(commandListBase := base)
  }

  function SetFisBase(p: Port, base: nat): (r: Port)
    ensures r.fisBase == base && r == p.(fisBase := base)
  {
    p.(fisBase := base)
  }

  /** A non-null base set on a port is the command list it exposes. */
  lemma CommandListAfterSet(p: Port, base: nat)
    requires base != 0
    ensures GetCommandList(SetCommandListBase(p, base)) == Some(CommandList(base, COMMAND_SLOTS))
  {
  }

  // ----- Command header ---------------------------------------------------

  /** The flag bits of a command header's first half-word: ATAPI (5),
      write (6), prefetchable (7), reset (8), BIST (9) and clear busy
      upon R_OK (10). */
  datatype HeaderFlag = Atapi | Write | Prefetchable | Reset | Bist | ClearBusyOnOk

  function FlagBit(f: HeaderFlag): (r: bv16)
    ensures r != 0
  {
    match f
    case Atapi => 0x20
    case Write => 0x40
    case Prefetchable => 0x80
    case Reset => 0x100
    case Bist => 0x200
    case ClearBusyOnOk => 0x400
  }

  /** The FIS length in bits 0..5 and the port multiplier in 12..16. */
  function FisLength(misc: bv16): bv16 { misc & 0x1F }
  function PortMultiplierField(misc: bv16): bv16 { misc >> 12 }
  function GetFlag(misc: bv16, f: HeaderFlag): bool { misc & FlagBit(f) != 0 }

  /** The setters write their field and nothing else; a value wider than
      the field panics in the bit-field write. */
  function SetFisLength(misc: bv16, length: bv16): (r: bv16)
    requires length < 0x20
    ensures FisLength(r) == length
    ensures r & !0x1F == misc & !0x1F
  {
    (misc & !0x1F) | length
  }

  function SetPortMultiplier(misc: bv16, port: bv16): (r: bv16)
    requires port < 0x10
    ensures PortMultiplierField(r) == port
    ensures r & !0xF000 == misc & !0xF000
  {
    (misc & !0xF000) | (port << 12)
  }

  function SetFlag(misc: bv16, f: HeaderFlag, value: bool): bv16
  {
    WithBit(misc, FlagBit(f), value)
  }

  /** Setting a flag makes it read back as set, and changes no other bit. */
  lemma SetFlagSets(misc: bv16, f: HeaderFlag, value: bool)
    ensures GetFlag(SetFlag(misc, f, value), f) == value
    ensures SetFlag(misc, f, value) & !FlagBit(f) == misc & !FlagBit(f)
  {
  }

  function WithBit(misc: bv16, bit: bv16, value: bool): (r: bv16)
    requires bit != 0
    ensures (r & bit != 0) == value
    ensures r & !bit == misc & !bit
  {
    if value then misc | bit else misc & !bit
  }

  /** Setting one flag leaves every other flag as it was. */
  lemma SetFlagKeepsOthers(misc: bv16, f: HeaderFlag, g: HeaderFlag, value: bool)
    requires f != g
    ensures GetFlag(SetFlag(misc, f, value), g) == GetFlag(misc, g)
  {
  }
}

=== FILE: apic.dfy ===
/** The core-local APIC driver: its delivery modes, timer modes and
    divisors, interrupt commands, register numbering, and the
    read-modify-write updates it makes to the local vector table and the
    spurious-vector register. Register images are 32-bit bit-vectors;
    the registers themselves form a map from register index to image. */
module Apic {
  import opened Wrappers
  import opened Words

  // ----- delivery and timer modes ---------------------------------------------

  datatype DeliveryMode = Fixed | LowPriority | Smi | Nmi | Init | StartUp | ExtInt

  /** The 3-bit code of each delivery mode (Intel SDM vol. 3A, section 10.6.1). */
  function DeliveryCode(m: DeliveryMode): (r: bv32)
    ensures r < 8
  {
    match m
    case Fixed => 0 case LowPriority => 1 case Smi => 2 case Nmi => 4
    case Init => 5 case StartUp => 6 case ExtInt => 7
  }

  /** Distinct modes have distinct codes, and code 3 is never produced. */
  lemma DeliveryCodeInjective(a: DeliveryMode, b: DeliveryMode)
    ensures DeliveryCode(a) == DeliveryCode(b) ==> a == b
    ensures DeliveryCode(a) != 3
  {
  }

  datatype TimerMode = OneShot | Periodic | TscDeadline

  function TimerModeCode(m: TimerMode): (r: bv32)
    ensures r <= 2
  {
    match m
    case OneShot => 0 case Periodic => 1 case TscDeadline => 2
  }

  /** `TimerMode::try_from`: codes 0, 1 and 2 name a mode; any other value is
      handed back as the error. */
  function TimerModeFrom(v: bv32): (r: Result<TimerMode, bv32>)
    ensures r.Ok? <==> v <= 2
    ensures r.Ok? ==> TimerModeCode(r.value) == v
    ensures r.Err? ==> r.error == v
  {
    if v == 0 then Ok(OneShot)
    else if v == 1 then Ok(Periodic)
    else if v == 2 then Ok(TscDeadline)
    else Err(v)
  }

  /** Decoding a mode's code gives the mode back. */
  lemma TimerModeRoundTrip(m: TimerMode)
    ensures TimerModeFrom(TimerModeCode(m)) == Ok(m)
  {
  }

  // ----- timer divisor --------------------------------------------------------

  datatype TimerDivisor = Div2 | Div4 | Div8 | Div16 | Div32 | Div64 | Div128 | Div1

  /** The divide-configuration code of each divisor: bits 0, 1 and 3. */
  function DivisorCode(d: TimerDivisor): (r: bv32)
    ensures r & 0xFFFF_FFF4 == 0
  {
    match d
    case Div2 => 0x0 case Div4 => 0x1 case Div8 => 0x2 case Div16 => 0x3
    case Div32 => 0x8 case Div64 => 0x9 case Div128 => 0xA case Div1 => 0xB
  }

  /** `as_divide_value`: the number the timer's clock is divided by. */
  function DivideValue(d: TimerDivisor): (r: u8)
    ensures IsPowerOfTwo(r) && r <= 128
  {
    match d
    case Div2 => 2 case Div4 => 4 case Div8 => 8 case Div16 => 16
    case Div32 => 32 case Div64 => 64 case Div128 => 128 case Div1 => 1
  }

  /** Each divisor divides by a different amount. */
  lemma DivideValueInjective(a: TimerDivisor, b: TimerDivisor)
    ensures DivideValue(a) == DivideValue(b) ==> a == b
  {
  }

  /** The divisor the timer applies for a divide-configuration register
      image (Intel SDM vol. 3A, section 10.5.4): bits 0, 1 and 3 form a
      3-bit number n, and the clock is divided by 2^(n+1), or by 1 when n
      is 7. Bit 2 and the upper bits are ignored. */
  function HardwareDivisor(reg: bv32): (r: nat)
    ensures r in {1, 2, 4, 8, 16, 32, 64, 128}
  {
    var n := (reg & 3) | ((reg >> 1) & 4);
    if n == 0 then 2 else if n == 1 then 4 else if n == 2 then 8
    else if n == 3 then 16 else if n == 4 then 32 else if n == 5 then 64
    else if n == 6 then 128 else 1
  }

  /** Each divisor's code makes the timer divide by that divisor's value. */
  lemma DivisorCodeAgrees(d: TimerDivisor)
    ensures HardwareDivisor(DivisorCode(d)) == DivideValue(d)
  {
  }

  /** `set_timer_divisor` as written: it stores the numeric divide value,
      not the divisor's code, in the divide-configuration register. */
  function TimerDivisorImageAsWritten(d: TimerDivisor): (r: bv32)
    ensures r as int == DivideValue(d)
  {
    match d
    case Div2 => 2 case Div4 => 4 case Div8 => 8 case Div16 => 16
    case Div32 => 32 case Div64 => 64 case Div128 => 128 case Div1 => 1
  }

  /** The image `set_timer_divisor` should store: the divisor's code. */
  function TimerDivisorImage(d: TimerDivisor): (r: bv32)
    ensures HardwareDivisor(r) == DivideValue(d)
  {
    DivisorCodeAgrees(d);
    DivisorCode(d)
  }

  /** Asking for a divisor of 2 as written divides by 8, a divisor of 1
      divides by 4, and a divisor of 128 divides by 2; only the code
      divides by what was asked. */
  lemma TimerDivisorAsWrittenMisconfigures()
    ensures HardwareDivisor(TimerDivisorImageAsWritten(Div2)) == 8
    ensures HardwareDivisor(TimerDivisorImageAsWritten(Div1)) == 4
    ensures HardwareDivisor(TimerDivisorImageAsWritten(Div128)) == 2
    ensures forall d :: HardwareDivisor(TimerDivisorImage(d)) == DivideValue(d)
  {
  }

  // ----- interrupt commands ---------------------------------------------------

  /** An interrupt vector as an 8-bit value inside a 32-bit image. */
  type Vector = v: bv32 | v < 0x100

  /** `InterruptCommand { apic_id, cmd }`. */
  datatype InterruptCommand = InterruptCommand(apicId: bv32, cmd: bv32)

  function CommandVector(cmd: bv32): bv32 { cmd & 0xFF }
  function CommandMode(cmd: bv32): bv32 { (cmd >> 8) & 7 }
  function CommandLogical(cmd: bv32): bool { cmd & 0x800 != 0 }
  function CommandAssert(cmd: bv32): bool { cmd & 0x4000 != 0 }

  /** The command word: the vector in bits 0..8, the delivery mode in bits
      8..11, the logical-destination flag at bit 11 and the assert flag at
      bit 14; every other bit is clear. */
  function CommandWord(vector: Vector, mode: DeliveryMode, logical: bool, assert_: bool): (cmd: bv32)
    ensures CommandVector(cmd) == vector && CommandMode(cmd) == DeliveryCode(mode)
    ensures CommandLogical(cmd) == logical && CommandAssert(cmd) == assert_
    ensures cmd & 0xFFFF_B000 == 0
  {
    vector | FlagBits(mode, logical, assert_)
  }

  /** Bits 8..16 of the command word. */
  function FlagBits(mode: DeliveryMode, logical: bool, assert_: bool): (r: bv32)
    ensures r & 0xFFFF_B0FF == 0 && (r >> 8) & 7 == DeliveryCode(mode)
    ensures (r & 0x800 != 0) == logical && (r & 0x4000 != 0) == assert_
  {
    (DeliveryCode(mode) << 8) | (if logical then 0x800 else 0) | (if assert_ then 0x4000 else 0)
  }

  /** `InterruptCommand::new`. */
  function NewCommand(vector: Vector, apicId: bv32, mode: DeliveryMode, logical: bool, assert_: bool)
    : (c: InterruptCommand)
    ensures c.apicId == apicId
    ensures CommandVector(c.cmd) == vector && CommandMode(c.cmd) == DeliveryCode(mode)
    ensures CommandLogical(c.cmd) == logical && CommandAssert(c.cmd) == assert_
  {
    InterruptCommand(apicId, CommandWord(vector, mode, logical, assert_))
  }

  /** `new_init`: an asserted, physically addressed INIT with vector 0. */
  function NewInit(apicId: bv32): (c: InterruptCommand)
    ensures c.apicId == apicId && c.cmd == 0x4500
  {
    NewCommand(0, apicId, Init, false, true)
  }

  /** `new_sipi`: an asserted, physically addressed start-up IPI. */
  function NewSipi(vector: Vector, apicId: bv32): (c: InterruptCommand)
    ensures c.apicId == apicId && c.cmd == 0x4600 | vector
  {
    NewCommand(vector, apicId, StartUp, false, true)
  }

  // ----- registers ------------------------------------------------------------

  /** The register numbers of the `Register` enum. */
  predicate IsRegister(i: int)
  {
    || i == 0x02 || i == 0x03 || i == 0x08 || i == 0x0A || i == 0x0B || i == 0x0C || i == 0x0F
    || 0x10 <= i <= 0x28 || 0x30 <= i <= 0x39 || i == 0x3E || i == 0x3F
  }

  type Register = i: int | IsRegister(i) witness 0x02

  const ID: Register := 0x02
  const VERSION: Register := 0x03
  const TPR: Register := 0x08
  const EOI: Register := 0x0B
  const SPR: Register := 0x0F
  const ERR: Register := 0x28
  const ICRL: Register := 0x30
  const ICRH: Register := 0x31
  const LVT_TIMER: Register := 0x32
  const LVT_THERMAL: Register := 0x33
  const LVT_PERF: Register := 0x34
  const LVT_LINT0: Register := 0x35
  const LVT_LINT1: Register := 0x36
  const LVT_ERR: Register := 0x37
  const TIMER_INT_CNT: Register := 0x38
  const TIMER_CUR_CNT: Register := 0x39
  const TIMER_DIVISOR: Register := 0x3E
  const SELF_IPI: Register := 0x3F

  const XAPIC_BASE_ADDR: usize := 0xFEE0_0000
  const X2APIC_BASE_MSR_ADDR: u32 := 0x800

  /** `xapic_offset`: registers sit 16 bytes apart in the xAPIC page. */
  function XapicOffset(r: Register): (o: usize)
    ensures o % 0x10 == 0 && o < 0x400
  {
    assert IsRegister(r);
    r * 0x10
  }

  /** `x2apic_msr`: registers are consecutive MSRs from 0x800. */
  function X2apicMsr(r: Register): (m: u32)
    ensures 0x800 <= m < 0x840
  {
    assert IsRegister(r);
    X2APIC_BASE_MSR_ADDR + r
  }

  /** Distinct registers have distinct xAPIC offsets and distinct MSRs, and
      the two numberings agree: the MSR is 0x800 plus the offset divided by
      16 (Intel SDM vol. 3A, section 10.12.1.2). */
  lemma RegisterNumberings(a: Register, b: Register)
    ensures XapicOffset(a) == XapicOffset(b) ==> a == b
    ensures X2apicMsr(a) == X2apicMsr(b) ==> a == b
    ensures X2apicMsr(a) == 0x800 + XapicOffset(a) / 0x10
  {
  }

  /** The two ways the driver reaches the APIC. */
  datatype Mode = XApic(base: usize) | X2Apic

  /** How one register is reached: a memory-mapped word or an MSR. */
  datatype Access = Mmio(addr: int) | Msr(index: u32)

  /** `read_register` / `write_register`: the location a register access
      goes to. */
  function RegisterAccess(mode: Mode, r: Register): (a: Access)
    ensures mode.XApic? <==> a.Mmio?
    ensures a.Mmio? ==> a.addr == mode.base + XapicOffset(r)
    ensures a.Msr? ==> a.index - 0x800 == r
  {
    match mode
    case XApic(base) => Mmio(base + XapicOffset(r))
    case X2Apic => Msr(X2apicMsr(r))
  }

  /** `Apic::new`: x2APIC when the APIC is enabled in x2 mode, xAPIC at the
      mapping the caller's function produced when it is enabled in xAPIC
      mode, and nothing when it is disabled. The mapping function's result
      is a parameter; a missing function in xAPIC mode panics. */
  function NewApic(hwEnabled: bool, x2Mode: bool, mapped: Option<usize>): (r: Option<Mode>)
    requires hwEnabled && !x2Mode ==> mapped.Some?
    ensures r.Some? <==> hwEnabled
    ensures r.Some? ==> (r.value.X2Apic? <==> x2Mode)
    ensures r.Some? && r.value.XApic? ==> r.value.base == mapped.value
  {
    if hwEnabled && x2Mode then Some(X2Apic)
    else if hwEnabled then Some(XApic(mapped.value))
    else None
  }

  // ----- register images --------------------------------------------------------

  const SW_ENABLE: bv32 := 0x100
  const INTERRUPTED: bv32 := 0x1000
  const MASKED: bv32 := 0x1_0000
  const TIMER_MODE_MASK: bv32 := 0x6_0000

  /** `set_bit(8, enabled)` on the spurious-vector register. */
  function WithSoftwareEnable(reg: bv32, enabled: bool): (r: bv32)
    ensures (r & SW_ENABLE != 0) == enabled
    ensures r & !SW_ENABLE == reg & !SW_ENABLE
  {
    (reg & !SW_ENABLE) | (if enabled then SW_ENABLE else 0)
  }

  /** `get_id`: the APIC id in bits 24..32 of the ID register. */
  function IdField(reg: bv32): (r: bv32)
    ensures r < 0x100 && r << 24 == reg & 0xFF00_0000
  {
    reg >> 24
  }

  /** `get_error_status`: `from_bits_truncate` keeps the eight defined
      error flags. */
  function ErrorStatus(reg: bv32): (r: bv32)
    ensures r < 0x100 && r | (reg & 0xFFFF_FF00) == reg
  {
    reg & 0xFF
  }

  /** `get_masked`. */
  predicate IsMasked(reg: bv32) { reg & MASKED != 0 }

  /** `get_interrupted`: the delivery-status bit. */
  predicate IsInterrupted(reg: bv32) { reg & INTERRUPTED != 0 }

  /** `set_masked`: only bit 16 changes. */
  function WithMasked(reg: bv32, masked: bool): (r: bv32)
    ensures IsMasked(r) == masked
    ensures r & !MASKED == reg & !MASKED
  {
    (reg & !MASKED) | (if masked then MASKED else 0)
  }

  /** `get_vector`: the low byte, or `None` for the reserved vectors 0..32. */
  function GetVector(reg: bv32): (r: Option<Vector>)
    ensures r.Some? <==> reg & 0xFF >= 32
    ensures r.Some? ==> r.value == reg & 0xFF
  {
    var v := reg & 0xFF;
    if v < 32 then None else Some(v)
  }

  /** `set_vector`: a reserved vector panics; otherwise only bits 0..8
      change. */
  function WithVector(reg: bv32, vector: Vector): (r: bv32)
    requires vector >= 32
    ensures r & 0xFF == vector
    ensures r & 0xFFFF_FF00 == reg & 0xFFFF_FF00
  {
    (reg & 0xFFFF_FF00) | vector
  }

  /** A vector that was set reads back, whatever the register held. */
  lemma SetThenGetVector(reg: bv32, vector: Vector)
    requires vector >= 32
    ensures GetVector(WithVector(reg, vector)) == Some(vector)
    ensures IsMasked(WithVector(reg, vector)) == IsMasked(reg)
  {
  }

  /** `set_delivery_mode`: only bits 8..11 change. */
  function WithDeliveryMode(reg: bv32, mode: DeliveryMode): (r: bv32)
    ensures (r >> 8) & 7 == DeliveryCode(mode)
    ensures r & 0xFFFF_F8FF == reg & 0xFFFF_F8FF
  {
    (reg & 0xFFFF_F8FF) | (DeliveryCode(mode) << 8)
  }

  /** The timer-mode field, bits 17..19. */
  function TimerModeField(reg: bv32): (r: bv32)
    ensures r <= 3
  {
    (reg >> 17) & 3
  }

  /** `get_mode`: the field must name a mode (the `unwrap` panics on 3). */
  function GetTimerMode(reg: bv32): (m: TimerMode)
    requires TimerModeField(reg) != 3
    ensures TimerModeCode(m) == TimerModeField(reg)
  {
    TimerModeFrom(TimerModeField(reg)).value
  }

  /** `set_mode`: the TSC-deadline mode panics unless the processor
      supports it (`tscDeadline` is CPUID.01H:ECX bit 24); otherwise only
      bits 17..19 change. */
  function WithTimerMode(reg: bv32, mode: TimerMode, tscDeadline: bool): (r: bv32)
    requires mode.TscDeadline? ==> tscDeadline
    ensures TimerModeField(r) == TimerModeCode(mode)
    ensures r & !TIMER_MODE_MASK == reg & !TIMER_MODE_MASK
  {
    (reg & !TIMER_MODE_MASK) | (TimerModeCode(mode) << 17)
  }

  /** A mode that was set reads back. */
  lemma SetThenGetTimerMode(reg: bv32, mode: TimerMode, tscDeadline: bool)
    requires mode.TscDeadline? ==> tscDeadline
    ensures TimerModeField(WithTimerMode(reg, mode, tscDeadline)) != 3
    ensures GetTimerMode(WithTimerMode(reg, mode, tscDeadline)) == mode
  {
  }

  // ----- the register file ----------------------------------------------------

  /** The registers of one local APIC, as the driver reads and writes them. */
  datatype Registers = Registers(regs: map<Register, bv32>)
  {
    ghost predicate Valid() { forall r: Register :: r in regs }
  }

  function Read(a: Registers, r: Register): bv32
    requires a.Valid()
  {
    a.regs[r]
  }

  function Write(a: Registers, r: Register, v: bv32): (b: Registers)
    requires a.Valid()
    ensures b.Valid() && Read(b, r) == v
    ensures forall q: Register :: q != r ==> Read(b, q) == Read(a, q)
  {
    Registers(a.regs[r := v])
  }

  /** A local vector table register. */
  predicate IsLvt(r: Register) { LVT_TIMER <= r <= LVT_ERR }

  /** `LocalVector::set_masked`. */
  function SetMasked(a: Registers, lvt: Register, masked: bool): (b: Registers)
    requires a.Valid() && IsLvt(lvt)
    ensures b.Valid() && (Read(b, lvt) & MASKED != 0) == masked
    ensures Read(b, lvt) & !MASKED == Read(a, lvt) & !MASKED
    ensures forall q: Register :: q != lvt ==> Read(b, q) == Read(a, q)
  {
    Write(a, lvt, WithMasked(Read(a, lvt), masked))
  }

  /** `LocalVector::set_vector`. */
  function SetVector(a: Registers, lvt: Register, vector: Vector): (b: Registers)
    requires a.Valid() && IsLvt(lvt) && vector >= 32
    ensures b.Valid() && GetVector(Read(b, lvt)) == Some(vector)
    ensures Read(b, lvt) & 0xFFFF_FF00 == Read(a, lvt) & 0xFFFF_FF00
    ensures forall q: Register :: q != lvt ==> Read(b, q) == Read(a, q)
  {
    Write(a, lvt, WithVector(Read(a, lvt), vector))
  }

  /** `sw_enable` / `sw_disable`. */
  function SetSoftwareEnable(a: Registers, enabled: bool): (b: Registers)
    requires a.Valid()
    ensures b.Valid() && (Read(b, SPR) & SW_ENABLE != 0) == enabled
    ensures Read(b, SPR) & !SW_ENABLE == Read(a, SPR) & !SW_ENABLE
    ensures forall q: Register :: q != SPR ==> Read(b, q) == Read(a, q)
  {
    Write(a, SPR, WithSoftwareEnable(Read(a, SPR), enabled))
  }

  /** The spurious-vector register with its low byte replaced. */
  function WithSpuriousVector(reg: bv32, vector: Vector): (r: bv32)
    ensures r & 0xFF == vector && r & 0xFFFF_FF00 == reg & 0xFFFF_FF00
  {
    (reg & 0xFFFF_FF00) | vector
  }

  /** The first half of `software_reset`: disable, clear the task
      priority, set the spurious vector, enable. */
  function ResetSpurious(a: Registers, spr: Vector): (b: Registers)
    requires a.Valid()
    ensures b.Valid() && Read(b, TPR) == 0
    ensures Read(b, SPR) & 0xFF == spr && Read(b, SPR) & SW_ENABLE != 0
    ensures forall q: Register :: q != TPR && q != SPR ==> Read(b, q) == Read(a, q)
  {
    var a1 := SetSoftwareEnable(a, false);
    var a2 := Write(a1, TPR, 0);
    var a3 := Write(a2, SPR, WithSpuriousVector(Read(a2, SPR), spr));
    var a4 := SetSoftwareEnable(a3, true);
    MaskedLowByte(Read(a4, SPR), Read(a3, SPR));
    a4
  }

  /** `set_masked(false).set_vector(vector)` on one local vector. */
  function UnmaskWithVector(a: Registers, lvt: Register, vector: Vector): (b: Registers)
    requires a.Valid() && IsLvt(lvt) && vector >= 32
    ensures b.Valid() && Read(b, lvt) & MASKED == 0 && GetVector(Read(b, lvt)) == Some(vector)
    ensures forall q: Register :: q != lvt ==> Read(b, q) == Read(a, q)
  {
    var a1 := SetMasked(a, lvt, false);
    var a2 := SetVector(a1, lvt, vector);
    MaskKept(Read(a2, lvt), Read(a1, lvt));
    a2
  }

  /** `software_reset`: the spurious-vector steps, then LINT0 and LINT1
      unmasked with their vectors. The LINT vectors must not be reserved
      (`set_vector` panics). The masking of the other local vectors that the
      processor itself performs on a software disable is not part of this
      model. */
  function SoftwareReset(a: Registers, spr: Vector, lint0: Vector, lint1: Vector): (b: Registers)
    requires a.Valid() && lint0 >= 32 && lint1 >= 32
    ensures b.Valid() && Read(b, TPR) == 0
    ensures Read(b, SPR) & 0xFF == spr && Read(b, SPR) & SW_ENABLE != 0
    ensures Read(b, LVT_LINT0) & MASKED == 0 && GetVector(Read(b, LVT_LINT0)) == Some(lint0)
    ensures Read(b, LVT_LINT1) & MASKED == 0 && GetVector(Read(b, LVT_LINT1)) == Some(lint1)
    ensures forall q: Register ::
      q != TPR && q != SPR && q != LVT_LINT0 && q != LVT_LINT1 ==> Read(b, q) == Read(a, q)
  {
    UnmaskWithVector(UnmaskWithVector(ResetSpurious(a, spr), LVT_LINT0, lint0), LVT_LINT1, lint1)
  }

  /** Two images that agree outside bit 8 agree on their low byte. */
  lemma MaskedLowByte(x: bv32, y: bv32)
    requires x & !SW_ENABLE == y & !SW_ENABLE
    ensures x & 0xFF == y & 0xFF
  {
  }

  /** Two images that agree above the low byte agree on the mask bit. */
  lemma MaskKept(x: bv32, y: bv32)
    requires x & 0xFFFF_FF00 == y & 0xFFFF_FF00
    ensures x & MASKED == y & MASKED
  {
  }

  // ----- sending an interrupt command -----------------------------------------

  /** The interrupt commands the APIC dispatches while a sequence of
      register writes is applied: writing the low half of the interrupt
      command register sends the command formed by that low word and the
      high word the register then holds (Intel SDM vol. 3A, section
      10.6.1). Each dispatch is (high word, low word). */
  function Dispatched(a: Registers, writes: seq<(Register, bv32)>): (r: seq<(bv32, bv32)>)
    requires a.Valid()
    ensures |r| <= |writes|
    decreases |writes|
  {
    if writes == [] then []
    else
      var (reg, v) := writes[0];
      var sent := if reg == ICRL then [(Read(a, ICRH), v)] else [];
      sent + Dispatched(Write(a, reg, v), writes[1..])
  }

  /** `send_int_cmd` as written: the APIC id goes to the low half and the
      command word to the high half, in that order. */
  function SendCommandWritesAsWritten(c: InterruptCommand): (w: seq<(Register, bv32)>)
    ensures |w| == 2 && w[0] == (ICRL, c.apicId) && w[1].0 == ICRH
  {
    [(ICRL, c.apicId), (ICRH, c.cmd)]
  }

  /** The writes the SDM's xAPIC layout calls for: the destination in bits
      24..32 of the high half first, then the command word in the low half,
      which sends it. */
  function SendCommandWrites(c: InterruptCommand): (w: seq<(Register, bv32)>)
    ensures |w| == 2 && w[1] == (ICRL, c.cmd) && w[0].0 == ICRH
  {
    [(ICRH, c.apicId << 24), (ICRL, c.cmd)]
  }

  /** The corrected writes send exactly one command: the intended vector and
      delivery mode, addressed to the intended APIC id. */
  lemma SendCommandDispatches(a: Registers, c: InterruptCommand)
    requires a.Valid() && c.apicId < 0x100
    ensures var d := Dispatched(a, SendCommandWrites(c));
      |d| == 1 && d[0].1 == c.cmd && d[0].0 >> 24 == c.apicId
  {
    var w := SendCommandWrites(c);
    var a1 := Write(a, ICRH, c.apicId << 24);
    assert Dispatched(a, w) == Dispatched(a1, w[1..]);
    assert Dispatched(a1, w[1..]) == [(c.apicId << 24, c.cmd)] + Dispatched(Write(a1, ICRL, c.cmd), []);
  }

  /** As written, a start-up IPI with vector 8 for APIC 1 sends the APIC id
      as the command word: a fixed interrupt with vector 1. */
  lemma SendCommandAsWrittenMisroutes(a: Registers)
    requires a.Valid()
    ensures var d := Dispatched(a, SendCommandWritesAsWritten(NewSipi(8, 1)));
      |d| == 1 && CommandVector(d[0].1) == 1 && CommandMode(d[0].1) == DeliveryCode(Fixed)
      && CommandVector(NewSipi(8, 1).cmd) == 8
  {
    var c := NewSipi(8, 1);
    var w := SendCommandWritesAsWritten(c);
    var a1 := Write(a, ICRL, 1);
    assert Dispatched(a, w) == [(Read(a, ICRH), 1)] + Dispatched(a1, w[1..]);
    assert Dispatched(a1, w[1..]) == [] + Dispatched(Write(a1, ICRH, c.cmd), []);
  }
}

=== FILE: bv_array.dfy ===
/** `BitValueArray`: small values packed BIT_WIDTH bits at a time into
    u64 sections. The only element type in the kernel is the frame
    allocator's 2-bit `FrameState`, so BIT_WIDTH is 2 and each section
    holds 32 elements. A section is represented by its 32 two-bit slots,
    slot k being bits 2k..2k+1 of the u64 word; reading slot k is the
    source's `(section >> 2k) & MASK`. */
module BvArray {
  import opened Wrappers

  const BIT_WIDTH: int := 2
  const SECTION_LEN: int := 64
  const ELEMENTS_PER_SECTION: int := 32

  /** A BIT_WIDTH-bit value, i.e. at most `MASK` = 0b11. */
  type Code = x: int | 0 <= x < 4

  datatype BitValueArray = BitValueArray(sections: seq<seq<Code>>, len: nat)
  {
    /** Every section holds exactly 32 slots (one u64 word). */
    predicate Valid()
    {
      forall s | s in sections :: |s| == ELEMENTS_PER_SECTION
    }

    /** Number of slots the backing storage provides. */
    function Capacity(): nat
    {
      |sections| * ELEMENTS_PER_SECTION
    }
  }

  /** The slot with flat index i: section i / 32, slot i % 32. */
  function Slot(a: BitValueArray, i: int): Code
    requires a.Valid() && 0 <= i < a.Capacity()
  {
    a.sections[i / 32][i % 32]
  }

  /** Every element below `len` has storage behind it. */
  predicate Backed(a: BitValueArray)
  {
    a.Valid() && a.len <= a.Capacity()
  }

  /** `get_index_and_offset`: the section holding element `index`, and the
      bit offset of the element inside that section. */
  function IndexAndOffset(index: nat): (r: (nat, nat))
    ensures r.1 < SECTION_LEN && r.1 % BIT_WIDTH == 0
    ensures r.0 * ELEMENTS_PER_SECTION + r.1 / BIT_WIDTH == index
  {
    var bitIndex := index * BIT_WIDTH;
    (bitIndex / SECTION_LEN, bitIndex % SECTION_LEN)
  }

  /** `section_length_hint`: `element_count * BIT_WIDTH / SECTION_LEN`,
      rounded down as written. */
  function SectionLengthHint(count: nat): nat
  {
    count * BIT_WIDTH / SECTION_LEN
  }

  /** With 33 elements the hint allots a single section, leaving element
      32 without storage: the hint rounds down where it must round up. */
  lemma SectionLengthHintTooShort()
    ensures SectionLengthHint(33) * ELEMENTS_PER_SECTION < 33
  {
  }

  /** The hint rounded up, as a backing slice must be sized. */
  function SectionLengthHintCeil(count: nat): (r: nat)
    ensures r * ELEMENTS_PER_SECTION >= count
    ensures r == 0 || (r - 1) * ELEMENTS_PER_SECTION < count
  {
    (count * BIT_WIDTH + SECTION_LEN - 1) / SECTION_LEN
  }

  /** `from_slice`: zero the whole backing slice. */
  function FromSlice(slice: seq<seq<Code>>, count: nat): (r: BitValueArray)
    requires forall s | s in slice :: |s| == ELEMENTS_PER_SECTION
    ensures r.Valid() && r.len == count && |r.sections| == |slice|
    ensures forall i :: 0 <= i < r.Capacity() ==> Slot(r, i) == 0
  {
    BitValueArray(seq(|slice|, _ => seq(32, _ => 0)), count)
  }

  /** `get`: asserts `index < len`; indexing the slice panics when the
      element has no storage. */
  function Get(a: BitValueArray, index: nat): (r: Code)
    requires a.Valid() && index < a.len && index < a.Capacity()
    ensures r == Slot(a, index)
  {
    var (s, o) := IndexAndOffset(index);
    a.sections[s][o / BIT_WIDTH]
  }

  /** Overwrite slot i, leaving the other sections and slots alone. */
  function SetSlot(a: BitValueArray, i: nat, v: Code): (r: BitValueArray)
    requires a.Valid() && i < a.Capacity()
    ensures r.Valid() && r.len == a.len && |r.sections| == |a.sections|
    ensures Slot(r, i) == v
    ensures forall j :: 0 <= j < a.Capacity() && j != i ==> Slot(r, j) == Slot(a, j)
  {
    var s := i / 32;
    var section: seq<Code> := a.sections[s][i % 32 := v];
    a.(sections := a.sections[s := section])
  }

  /** The elements 0..len in order, as `get` reads them. */
  function Elements(a: BitValueArray): (r: seq<Code>)
    requires Backed(a)
    ensures |r| == a.len
    ensures forall i :: 0 <= i < a.len ==> r[i] == Slot(a, i)
  {
    seq(a.len, i requires 0 <= i < a.len => Slot(a, i))
  }

  /** Writing a slot updates exactly that element, or no element at all
      when the slot is padding past `len`. */
  lemma ElementsAfterSet(a: BitValueArray, i: nat, v: Code)
    requires Backed(a) && i < a.Capacity()
    ensures Backed(SetSlot(a, i, v))
    ensures i < a.len ==> Elements(SetSlot(a, i, v)) == Elements(a)[i := v]
    ensures i >= a.len ==> Elements(SetSlot(a, i, v)) == Elements(a)
  {
  }

  /** `insert`: store `v` at `index` and return the previous element. */
  function Insert(a: BitValueArray, index: nat, v: Code): (r: (BitValueArray, Code))
    requires a.Valid() && index < a.len && index < a.Capacity()
    ensures r.1 == Get(a, index)
    ensures r.0 == SetSlot(a, index, v)
    ensures Get(r.0, index) == v
    ensures forall j :: 0 <= j < a.Capacity() && j != index ==> Slot(r.0, j) == Slot(a, j)
  {
    var (s, o) := IndexAndOffset(index);
    var old_ := a.sections[s][o / BIT_WIDTH];
    (SetSlot(a, index, v), old_)
  }

  /** `insert_eq`: store `v` only when the element currently equals `eq`. */
  function InsertEq(a: BitValueArray, index: nat, v: Code, eq: Code): (r: (BitValueArray, bool))
    requires a.Valid() && index < a.len && index < a.Capacity()
    ensures r.1 <==> Get(a, index) == eq
    ensures r.1 ==> r.0 == SetSlot(a, index, v)
    ensures !r.1 ==> r.0 == a
  {
    if Get(a, index) != eq then (a, false) else (Insert(a, index, v).0, true)
  }

  /** `set_eq_next`: scan every slot of every section, in order, and
      overwrite the first one equal to `eq`. The scan covers the backing
      storage, so slots past `len` in the last section take part. */
  method SetEqNext(a: BitValueArray, v: Code, eq: Code) returns (b: BitValueArray, r: Option<nat>)
    requires a.Valid()
    ensures r.None? ==> b == a
    ensures r.None? ==> forall i :: 0 <= i < a.Capacity() ==> Slot(a, i) != eq
    ensures r.Some? ==> r.value < a.Capacity() && Slot(a, r.value) == eq
    ensures r.Some? ==> forall i :: 0 <= i < r.value ==> Slot(a, i) != eq
    ensures r.Some? ==> b == SetSlot(a, r.value, v)
  {
    var index := 0;
    while index < |a.sections|
      invariant 0 <= index <= |a.sections|
      invariant forall i :: 0 <= i < index * 32 ==> Slot(a, i) != eq
    {
      var offset := 0;
      while offset < SECTION_LEN
        invariant 0 <= offset <= SECTION_LEN && offset % BIT_WIDTH == 0
        invariant forall i :: 0 <= i < index * 32 + offset / 2 ==> Slot(a, i) != eq
      {
        if a.sections[index][offset / BIT_WIDTH] == eq {
          var i := index * ELEMENTS_PER_SECTION + offset / BIT_WIDTH;
          assert Slot(a, i) == eq;
          return SetSlot(a, i, v), Some(i);
        }
        offset := offset + BIT_WIDTH;
      }
      index := index + 1;
    }
    return a, None;
  }

  // ----- iterator -------------------------------------------------------

  /** `BitValueArrayIterator`: a cursor over the sections, caching the
      current section's word. */
  datatype Iter = Iter(sectionIndex: nat, sectionOffset: nat, sectionValue: seq<Code>,
                       curLen: nat, maxLen: nat)

  /** `iter`: reads section 0 eagerly, so the storage must not be empty. */
  function IterNew(a: BitValueArray): (r: Iter)
    requires a.Valid() && |a.sections| > 0
    ensures r.curLen == 0 && r.maxLen == a.len
  {
    Iter(0, 0, a.sections[0], 0, a.len)
  }

  /** The cursor sits on element `curLen`, and the cached word is that
      element's section while elements remain. */
  predicate IterInv(a: BitValueArray, it: Iter)
  {
    && Backed(a)
    && it.maxLen == a.len && it.curLen <= it.maxLen
    && it.sectionIndex == it.curLen / 32
    && it.sectionOffset == 2 * (it.curLen % 32)
    && |it.sectionValue| == 32
    && (it.curLen < it.maxLen ==> it.sectionIndex < |a.sections| && it.sectionValue == a.sections[it.sectionIndex])
  }

  /** `next` as written: when the offset runs past the section it reloads
      the cached word BEFORE extracting the element, so the last element
      of a section is read out of the following section. */
  function IterNextAsWritten(a: BitValueArray, it: Iter): (r: (Iter, Option<Code>))
    requires IterInv(a, it)
    ensures it.curLen < it.maxLen <==> r.1.Some?
  {
    if it.curLen < it.maxLen then
      var curOffset := it.sectionOffset;
      var offset := it.sectionOffset + BIT_WIDTH;
      var curLen := it.curLen + 1;
      var it' :=
        if offset >= SECTION_LEN then
          var value := if curLen < it.maxLen then a.sections[it.sectionIndex + 1] else it.sectionValue;
          Iter(it.sectionIndex + 1, 0, value, curLen, it.maxLen)
        else
          it.(sectionOffset := offset, curLen := curLen);
      (it', Some(it'.sectionValue[curOffset / BIT_WIDTH]))
    else
      (it, None)
  }

  /** Two full sections, element 31 is 0 but element 63 is 1: the written
      iterator yields 1 for element 31. */
  lemma IterNextAsWrittenMisreadsBoundary()
    ensures var a := BitValueArray([seq(32, _ => 0), seq(32, i => if i == 31 then 1 else 0)], 64);
            var it := Iter(0, 62, a.sections[0], 31, 64);
            IterInv(a, it) && Get(a, 31) == 0 && IterNextAsWritten(a, it).1 == Some(1)
  {
    var a := BitValueArray([seq(32, _ => 0), seq(32, i => if i == 31 then 1 else 0)], 64);
    assert a.sections[1][31] == 1;
    assert Get(a, 31) == a.sections[0][31] == 0;
  }

  /** `next` with the element extracted from the cached word before the
      cursor moves on. */
  function IterNext(a: BitValueArray, it: Iter): (r: (Iter, Option<Code>))
    requires IterInv(a, it)
    ensures IterInv(a, r.0)
    ensures it.curLen < it.maxLen ==> r.1 == Some(Get(a, it.curLen)) && r.0.curLen == it.curLen + 1
    ensures it.curLen >= it.maxLen ==> r.1.None? && r.0 == it
  {
    if it.curLen < it.maxLen then
      var item := it.sectionValue[it.sectionOffset / BIT_WIDTH];
      var offset := it.sectionOffset + BIT_WIDTH;
      var curLen := it.curLen + 1;
      var it' :=
        if offset >= SECTION_LEN then
          var value := if curLen < it.maxLen then a.sections[it.sectionIndex + 1] else it.sectionValue;
          Iter(it.sectionIndex + 1, 0, value, curLen, it.maxLen)
        else
          it.(sectionOffset := offset, curLen := curLen);
      (it', Some(item))
    else
      (it, None)
  }

  /** The elements an iterator yields from its position to the end. */
  function Remaining(a: BitValueArray, it: Iter): (r: seq<Code>)
    requires IterInv(a, it)
    ensures |r| == it.maxLen - it.curLen
    decreases it.maxLen - it.curLen
  {
    if it.curLen >= it.maxLen then []
    else
      var (it', item) := IterNext(a, it);
      [item.value] + Remaining(a, it')
  }

  /** A fresh iterator yields exactly `len` elements, element i being
      `get(i)`. */
  lemma IterYieldsElements(a: BitValueArray)
    requires Backed(a) && |a.sections| > 0
    ensures IterInv(a, IterNew(a))
    ensures |Remaining(a, IterNew(a))| == a.len
    ensures forall i :: 0 <= i < a.len ==> Remaining(a, IterNew(a))[i] == Get(a, i)
  {
    RemainingAreElements(a, IterNew(a));
  }

  /** From any position the iterator yields the remaining elements in
      order. */
  lemma RemainingAreElements(a: BitValueArray, it: Iter)
    requires IterInv(a, it)
    ensures forall i :: it.curLen <= i < a.len ==> Remaining(a, it)[i - it.curLen] == Get(a, i)
  {
    forall i | it.curLen <= i < a.len
      ensures Remaining(a, it)[i - it.curLen] == Get(a, i)
    {
      RemainingAt(a, it, i);
    }
  }

  /** Element i comes out after i − curLen further steps. */
  lemma {:induction false} RemainingAt(a: BitValueArray, it: Iter, i: nat)
    requires IterInv(a, it) && it.curLen <= i < a.len
    ensures Remaining(a, it)[i - it.curLen] == Get(a, i)
    decreases i - it.curLen
  {
    var (it', item) := IterNext(a, it);
    assert Remaining(a, it) == [item.value] + Remaining(a, it');
    if i > it.curLen {
      RemainingAt(a, it', i);
    }
  }

}

=== FILE: falloc.dfy ===
/** `FrameAllocator`: one 2-bit `FrameState` per 4 KiB frame, kept in a
    `BitValueArray`, plus byte counters per state and a set of
    out-of-range frames that have been reserved. */
module Falloc {
  import opened Wrappers
  import opened Words
  import opened BvArray
  import LibStd

  datatype FrameState = Free | Locked | Reserved

  /** `FrameState::as_usize`: the enum discriminant. */
  function StateCode(s: FrameState): Code
  {
    match s
    case Free => 0
    case Locked => 1
    case Reserved => 2
  }

  /** `FrameState::from_usize`; the code 3 panics. */
  function StateOfCode(c: Code): (s: FrameState)
    requires c < 3
    ensures StateCode(s) == c
  {
    if c == 0 then Free else if c == 1 then Locked else Reserved
  }

  /** Decoding inverts encoding for every state. */
  lemma StateCodeRoundTrip(s: FrameState)
    ensures StateCode(s) < 3 && StateOfCode(StateCode(s)) == s
  {
  }

  datatype FallocError =
    | FreeWithAcquire
    | ExpectedFrameState(index: nat, expected: FrameState, actual: FrameState)
    | OutOfBoundsExists(index: nat)
    | OutOfBoundsLock

  /** The counter slots: one per state code, and the last (`MASK`) holding
      the total. */
  const TOTAL_SLOT: int := 3

  datatype FrameAllocator = FrameAllocator(table: BitValueArray, memory: seq<int>, nonUsableOob: set<nat>)
  {
    /** Every frame has storage and every slot holds a valid state. */
    predicate Valid()
    {
      TableValid(table) && |memory| == 4
    }

    /** Number of frames managed. */
    function Len(): nat
    {
      table.len
    }
  }

  /** Every frame has storage and every slot, padding included, holds a
      valid state code. */
  predicate TableValid(t: BitValueArray)
  {
    Backed(t) && forall i :: 0 <= i < t.Capacity() ==> Slot(t, i) < 3
  }

  /** `get` decoded as a `FrameState`. */
  function StateAt(fa: FrameAllocator, index: nat): FrameState
    requires fa.Valid() && index < fa.Len()
  {
    StateOfCode(Get(fa.table, index))
  }

  /** The state of every frame of a table, in frame order. */
  function TableStates(t: BitValueArray): (r: seq<FrameState>)
    requires TableValid(t)
    ensures |r| == t.len
  {
    seq(t.len, i requires 0 <= i < t.len => StateOfCode(Slot(t, i)))
  }

  /** The state of every frame, in frame order. */
  function States(fa: FrameAllocator): (r: seq<FrameState>)
    requires fa.Valid()
    ensures |r| == fa.Len()
    ensures forall i :: 0 <= i < fa.Len() ==> r[i] == StateAt(fa, i)
  {
    TableStates(fa.table)
  }

  /** Writing one slot of a valid table writes one frame's state (or,
      past `len`, none). */
  lemma TableStatesAfterSet(t: BitValueArray, i: nat, s: FrameState)
    requires TableValid(t) && i < t.Capacity()
    ensures TableValid(SetSlot(t, i, StateCode(s)))
    ensures i < t.len ==> TableStates(SetSlot(t, i, StateCode(s))) == TableStates(t)[i := s]
    ensures i >= t.len ==> TableStates(SetSlot(t, i, StateCode(s))) == TableStates(t)
  {
    var t' := SetSlot(t, i, StateCode(s));
    assert forall j :: 0 <= j < t.len && j != i ==> TableStates(t')[j] == TableStates(t)[j];
  }

  /** Overwrite slot i with a state. */
  function SetState(fa: FrameAllocator, i: nat, s: FrameState): (r: FrameAllocator)
    requires fa.Valid() && i < fa.table.Capacity()
    ensures r.Valid() && r.Len() == fa.Len() && r.table.Capacity() == fa.table.Capacity()
    ensures r.memory == fa.memory && r.nonUsableOob == fa.nonUsableOob
    ensures i < fa.Len() ==> States(r) == States(fa)[i := s]
    ensures i >= fa.Len() ==> States(r) == States(fa)
  {
    TableStatesAfterSet(fa.table, i, s);
    fa.(table := SetSlot(fa.table, i, StateCode(s)))
  }

  /** Move 0x1000 bytes from one state's counter to another's. */
  function Move(memory: seq<int>, from: FrameState, to: FrameState): (r: seq<int>)
    requires |memory| == 4
    ensures |r| == 4 && r[TOTAL_SLOT] == memory[TOTAL_SLOT]
    ensures from != to ==> r[StateCode(from)] == memory[StateCode(from)] - 0x1000
    ensures from != to ==> r[StateCode(to)] == memory[StateCode(to)] + 0x1000
  {
    var m := memory[StateCode(from) := memory[StateCode(from)] - 0x1000];
    m[StateCode(to) := m[StateCode(to)] + 0x1000]
  }

  // ----- counting -------------------------------------------------------

  /** Number of frames in state `s`. */
  function Count(states: seq<FrameState>, s: FrameState): (r: nat)
    ensures r <= |states|
  {
    if |states| == 0 then 0
    else Count(states[..|states| - 1], s) + (if states[|states| - 1] == s then 1 else 0)
  }

  /** Changing one frame's state moves one frame between the counts. */
  lemma {:induction false} CountAfterUpdate(states: seq<FrameState>, i: nat, v: FrameState, s: FrameState)
    requires i < |states|
    ensures Count(states[i := v], s) ==
      Count(states, s) - (if states[i] == s then 1 else 0) + (if v == s then 1 else 0)
  {
    var n := |states| - 1;
    if i < n {
      assert states[i := v][..n] == states[..n][i := v];
      CountAfterUpdate(states[..n], i, v, s);
    } else {
      assert states[i := v][..n] == states[..n];
    }
  }

  /** Each state's counter holds 0x1000 bytes per frame in that state, and
      the total counter the size of memory. */
  predicate CountersTrack(fa: FrameAllocator)
    requires fa.Valid()
  {
    Tracks(fa.memory, TableStates(fa.table))
  }

  /** The counters hold 0x1000 bytes per frame of each state, and the total
      0x1000 bytes per frame. */
  predicate Tracks(memory: seq<int>, states: seq<FrameState>)
    requires |memory| == 4
  {
    && memory[StateCode(Free)] == 0x1000 * Count(states, Free)
    && memory[StateCode(Locked)] == 0x1000 * Count(states, Locked)
    && memory[StateCode(Reserved)] == 0x1000 * Count(states, Reserved)
    && memory[TOTAL_SLOT] == 0x1000 * |states|
  }

  /** Moving frame i from state `from` to `to` and moving 0x1000 bytes
      between their counters keeps the counters tracking. */
  lemma MoveKeepsTrack(fa: FrameAllocator, i: nat, from: FrameState, to: FrameState)
    requires fa.Valid() && CountersTrack(fa) && i < fa.Len() && StateAt(fa, i) == from && from != to
    ensures CountersTrack(SetState(fa, i, to).(memory := Move(fa.memory, from, to)))
  {
    var r := SetState(fa, i, to);
    CountAfterUpdate(States(fa), i, to, Free);
    CountAfterUpdate(States(fa), i, to, Locked);
    CountAfterUpdate(States(fa), i, to, Reserved);
  }

  // ----- construction ---------------------------------------------------

  /** `frame_count_hint`: how many frames the state table for
      `total_memory` bytes occupies (2 bits per frame, rounded up to whole
      frames). `total_memory` must be page-aligned. */
  function FrameCountHint(totalMemory: usize): (r: usize)
    requires totalMemory % 0x1000 == 0
    ensures r * 0x1000 >= (totalMemory / 0x1000) * 2 / 8
    ensures r == 0 || (r - 1) * 0x1000 < (totalMemory / 0x1000) * 2 / 8
  {
    LibStd.AlignUpDiv((totalMemory / 0x1000) * 2 / 8, 0x1000)
  }

  /** The state of `from_ptr` before it reserves anything: every frame
      Free, the Free and total counters at `total_memory`, the others 0.
      The table is sized by the rounded-up section hint. */
  function New(totalMemory: usize): (r: FrameAllocator)
    requires totalMemory % 0x1000 == 0
    ensures r.Valid() && r.Len() == totalMemory / 0x1000
    ensures forall i :: 0 <= i < r.Len() ==> StateAt(r, i) == Free
    ensures r.memory == [totalMemory, 0, 0, totalMemory] && r.nonUsableOob == {}
  {
    var frames := totalMemory / 0x1000;
    var slice := seq(SectionLengthHintCeil(frames), _ => seq(32, _ => 0));
    FrameAllocator(FromSlice(slice, frames), [totalMemory, 0, 0, totalMemory], {})
  }

  /** A fresh allocator's counters track its (all Free) frames. */
  lemma NewTracks(totalMemory: usize)
    requires totalMemory % 0x1000 == 0
    ensures CountersTrack(New(totalMemory))
  {
    var fa := New(totalMemory);
    AllOneState(States(fa), Free);
  }

  /** In a sequence of one state, that state counts every element and the
      others none. */
  lemma {:induction false} AllOneState(states: seq<FrameState>, s: FrameState)
    requires forall i :: 0 <= i < |states| ==> states[i] == s
    ensures Count(states, s) == |states|
    ensures forall t :: t != s ==> Count(states, t) == 0
  {
    if |states| > 0 {
      AllOneState(states[..|states| - 1], s);
    }
  }

  // ----- single-frame transitions ---------------------------------------

  /** `free_frame`: Locked → Free, moving 0x1000 bytes from the Locked
      counter to the Free counter; any other state is an
      `ExpectedFrameState` error and changes nothing. `insert_eq` panics on
      an index past the table. */
  function FreeFrame(fa: FrameAllocator, index: nat): (r: (FrameAllocator, Result<(), FallocError>))
    requires fa.Valid() && index < fa.Len()
    ensures r.0.Valid() && r.0.Len() == fa.Len() && r.0.nonUsableOob == fa.nonUsableOob
    ensures r.1.Ok? <==> StateAt(fa, index) == Locked
    ensures r.1.Ok? ==> States(r.0) == States(fa)[index := Free] && r.0.memory == Move(fa.memory, Locked, Free)
    ensures r.1.Err? ==> r.0 == fa && r.1.error == ExpectedFrameState(index, Locked, StateAt(fa, index))
  {
    var (m, ok) := InsertEq(fa.table, index, StateCode(Free), StateCode(Locked));
    if ok then
      (SetState(fa, index, Free).(memory := Move(fa.memory, Locked, Free)), Ok(()))
    else
      (fa, Err(ExpectedFrameState(index, Locked, StateAt(fa, index))))
  }

  /** The out-of-range arm of `acquire_frame`: a Reserved request records
      the index once (a repeat is `OutOfBoundsExists`); any other request
      is `OutOfBoundsLock`. */
  function AcquireOutOfRange(fa: FrameAllocator, index: nat, st: FrameState): (r: (FrameAllocator, Result<nat, FallocError>))
    requires fa.Valid() && index >= fa.Len()
    ensures r.0.table == fa.table && r.0.memory == fa.memory
    ensures st != Reserved ==> r == (fa, Err(OutOfBoundsLock))
    ensures st == Reserved && index !in fa.nonUsableOob ==>
      r.1 == Ok(index) && r.0.nonUsableOob == fa.nonUsableOob + {index}
    ensures st == Reserved && index in fa.nonUsableOob ==> r == (fa, Err(OutOfBoundsExists(index)))
  {
    if st != Reserved then (fa, Err(OutOfBoundsLock))
    else if index !in fa.nonUsableOob then (fa.(nonUsableOob := fa.nonUsableOob + {index}), Ok(index))
    else (fa, Err(OutOfBoundsExists(index)))
  }

  /** The Locked arm of `acquire_frame`: Free → Locked with the counters
      moved; otherwise an error that reports the actual state as Locked
      whatever it was. */
  function AcquireLocked(fa: FrameAllocator, index: nat): (r: (FrameAllocator, Result<nat, FallocError>))
    requires fa.Valid() && index < fa.Len()
    ensures r.0.Valid() && r.0.Len() == fa.Len() && r.0.nonUsableOob == fa.nonUsableOob
    ensures r.1.Ok? <==> StateAt(fa, index) == Free
    ensures r.1.Ok? ==> r.1.value == index
    ensures r.1.Ok? ==> States(r.0) == States(fa)[index := Locked] && r.0.memory == Move(fa.memory, Free, Locked)
    ensures r.1.Err? ==> r.0 == fa && r.1.error == ExpectedFrameState(index, Free, Locked)
  {
    var (m, ok) := InsertEq(fa.table, index, StateCode(Locked), StateCode(Free));
    if ok then (SetState(fa, index, Locked).(memory := Move(fa.memory, Free, Locked)), Ok(index))
    else (fa, Err(ExpectedFrameState(index, Free, Locked)))
  }

  /** `acquire_frame` as written: in range, Free is `FreeWithAcquire`,
      Locked needs a Free frame, and Reserved always succeeds, taking
      0x1000 off the old state's counter but adding nothing to the
      Reserved counter. */
  function AcquireFrameAsWritten(fa: FrameAllocator, index: nat, st: FrameState): (r: (FrameAllocator, Result<nat, FallocError>))
    requires fa.Valid()
    ensures r.0.Valid() && r.0.Len() == fa.Len()
    ensures index >= fa.Len() ==> r == AcquireOutOfRange(fa, index, st)
    ensures index < fa.Len() && st == Free ==> r == (fa, Err(FreeWithAcquire))
    ensures index < fa.Len() && st == Locked ==> r == AcquireLocked(fa, index)
    ensures index < fa.Len() && st == Reserved ==>
      && r.1 == Ok(index) && States(r.0) == States(fa)[index := Reserved]
      && r.0.nonUsableOob == fa.nonUsableOob
      && r.0.memory[StateCode(Reserved)] == fa.memory[StateCode(Reserved)]
      && r.0.memory == (if StateAt(fa, index) == Reserved then fa.memory
                        else fa.memory[StateCode(StateAt(fa, index)) := fa.memory[StateCode(StateAt(fa, index))] - 0x1000])
  {
    if index >= fa.Len() then AcquireOutOfRange(fa, index, st)
    else
      match st
      case Free => (fa, Err(FreeWithAcquire))
      case Locked => AcquireLocked(fa, index)
      case Reserved =>
        var (m, old_) := Insert(fa.table, index, StateCode(Reserved));
        var fa' := SetState(fa, index, Reserved);
        if old_ != StateCode(Reserved) then
          var o := StateCode(StateOfCode(old_));
          (fa'.(memory := fa.memory[o := fa.memory[o] - 0x1000]), Ok(index))
        else (fa', Ok(index))
  }

  /** `acquire_frame`, with the Reserved arm moving 0x1000 bytes to the
      Reserved counter instead of dropping them, so that every counter
      keeps tracking its state. */
  function AcquireFrame(fa: FrameAllocator, index: nat, st: FrameState): (r: (FrameAllocator, Result<nat, FallocError>))
    requires fa.Valid()
    ensures r.0.Valid() && r.0.Len() == fa.Len()
    ensures r.1.Ok? ==> r.1.value == index
    ensures index >= fa.Len() ==> r == AcquireOutOfRange(fa, index, st)
    ensures index < fa.Len() && st == Free ==> r == (fa, Err(FreeWithAcquire))
    ensures index < fa.Len() && st == Locked ==> r == AcquireLocked(fa, index)
    ensures index < fa.Len() && st == Reserved ==>
      && r.1 == Ok(index) && States(r.0) == States(fa)[index := Reserved]
      && r.0.nonUsableOob == fa.nonUsableOob
      && r.0.memory == (if StateAt(fa, index) == Reserved then fa.memory
                        else Move(fa.memory, StateAt(fa, index), Reserved))
  {
    if index >= fa.Len() then AcquireOutOfRange(fa, index, st)
    else
      match st
      case Free => (fa, Err(FreeWithAcquire))
      case Locked => AcquireLocked(fa, index)
      case Reserved =>
        var (m, old_) := Insert(fa.table, index, StateCode(Reserved));
        var fa' := SetState(fa, index, Reserved);
        if old_ != StateCode(Reserved) then
          (fa'.(memory := Move(fa.memory, StateOfCode(old_), Reserved)), Ok(index))
        else (fa', Ok(index))
  }

  /** `unreserve_frame`: Reserved → Free with the counters moved; any
      other state is an `ExpectedFrameState` error. */
  function UnreserveFrame(fa: FrameAllocator, index: nat): (r: (FrameAllocator, Result<(), FallocError>))
    requires fa.Valid() && index < fa.Len()
    ensures r.0.Valid() && r.0.Len() == fa.Len() && r.0.nonUsableOob == fa.nonUsableOob
    ensures r.1.Ok? <==> StateAt(fa, index) == Reserved
    ensures r.1.Ok? ==> States(r.0) == States(fa)[index := Free] && r.0.memory == Move(fa.memory, Reserved, Free)
    ensures r.1.Err? ==> r.0 == fa && r.1.error == ExpectedFrameState(index, Reserved, StateAt(fa, index))
  {
    var (m, ok) := InsertEq(fa.table, index, StateCode(Free), StateCode(Reserved));
    if ok then
      (SetState(fa, index, Free).(memory := Move(fa.memory, Reserved, Free)), Ok(()))
    else
      (fa, Err(ExpectedFrameState(index, Reserved, StateAt(fa, index))))
  }

  /** From a fresh two-frame allocator, reserving frame 1 and unreserving
      it again leaves the Reserved counter at −0x1000: the u64 counter
      underflows. */
  lemma UnreserveUnderflowsAsWritten()
    ensures var fa := AcquireFrameAsWritten(New(0x2000), 1, Reserved).0;
            fa.Valid() && 1 < fa.Len() && UnreserveFrame(fa, 1).0.memory[StateCode(Reserved)] == -0x1000
  {
    var fa := AcquireFrameAsWritten(New(0x2000), 1, Reserved).0;
    assert States(fa)[1] == Reserved;
  }

  /** `free_frame` keeps the counters tracking the states. */
  lemma FreeKeepsTrack(fa: FrameAllocator, index: nat)
    requires fa.Valid() && index < fa.Len()
    ensures CountersTrack(fa) ==> CountersTrack(FreeFrame(fa, index).0)
  {
    if CountersTrack(fa) && StateAt(fa, index) == Locked {
      MoveKeepsTrack(fa, index, Locked, Free);
    }
  }

  /** `unreserve_frame` keeps the counters tracking the states. */
  lemma UnreserveKeepsTrack(fa: FrameAllocator, index: nat)
    requires fa.Valid() && CountersTrack(fa) && index < fa.Len()
    ensures CountersTrack(UnreserveFrame(fa, index).0)
  {
    if StateAt(fa, index) == Reserved {
      MoveKeepsTrack(fa, index, Reserved, Free);
    }
  }

  /** `acquire_frame`, with the corrected Reserved arm, keeps the counters
      tracking the states. */
  lemma AcquireKeepsTrack(fa: FrameAllocator, index: nat, st: FrameState)
    requires fa.Valid()
    ensures CountersTrack(fa) ==> CountersTrack(AcquireFrame(fa, index, st).0)
  {
    if CountersTrack(fa) && index < fa.Len() {
      var s := StateAt(fa, index);
      if st == Locked && s == Free {
        MoveKeepsTrack(fa, index, Free, Locked);
      } else if st == Reserved && s != Reserved {
        MoveKeepsTrack(fa, index, s, Reserved);
      } else if st == Reserved {
        assert States(fa)[index := Reserved] == States(fa);
      }
    }
  }

  // ----- batches --------------------------------------------------------

  /** `free_frames`: free each frame in turn, stopping at the first error
      (frames freed before it stay freed). On success exactly the listed
      frames have become Free. */
  function FreeFrames(fa: FrameAllocator, frames: seq<nat>): (r: (FrameAllocator, Result<(), FallocError>))
    requires fa.Valid() && forall k :: 0 <= k < |frames| ==> frames[k] < fa.Len()
    ensures r.0.Valid() && r.0.Len() == fa.Len() && r.0.nonUsableOob == fa.nonUsableOob
    ensures r.1.Ok? ==> forall i :: 0 <= i < fa.Len() ==>
      States(r.0)[i] == (if i in frames then Free else States(fa)[i])
    ensures r.1.Err? ==> r.1.error.ExpectedFrameState? && r.1.error.index in frames && r.1.error.expected == Locked
    ensures CountersTrack(fa) ==> CountersTrack(r.0)
    decreases |frames|
  {
    if |frames| == 0 then (fa, Ok(()))
    else
      FreeKeepsTrack(fa, frames[0]);
      var (fa', res) := FreeFrame(fa, frames[0]);
      if res.Err? then (fa', Err(res.error))
      else
        var r := FreeFrames(fa', frames[1..]);
        FreedFirstThenRest(States(fa), States(fa'), States(r.0), frames, r.1.Ok?);
        r
  }

  /** Freeing the first listed frame and then the rest frees exactly the
      listed frames. */
  lemma FreedFirstThenRest(before: seq<FrameState>, mid: seq<FrameState>, after: seq<FrameState>, frames: seq<nat>, ok: bool)
    requires |frames| > 0 && frames[0] < |before| == |mid| == |after|
    requires mid == before[frames[0] := Free]
    requires ok ==> forall i :: 0 <= i < |after| ==> after[i] == (if i in frames[1..] then Free else mid[i])
    ensures ok ==> forall i :: 0 <= i < |after| ==> after[i] == (if i in frames then Free else before[i])
  {
    assert forall i :: i in frames <==> i == frames[0] || i in frames[1..];
  }

  /** Whether `acquire_frame` accepts frame i with the given request,
      judged on the frame states and the recorded out-of-range indices it
      starts from: any in-range frame may be reserved, only a Free one
      locked, and an out-of-range index only reserved, once. */
  predicate Acquirable(states: seq<FrameState>, oob: set<nat>, i: nat, st: FrameState)
  {
    if i < |states| then st == Reserved || (st == Locked && states[i] == Free)
    else st == Reserved && i !in oob
  }

  /** The error `acquire_frame` gives for a frame it refuses. */
  function AcquireRefusal(len: nat, i: nat, st: FrameState): FallocError
  {
    if i >= len then (if st == Reserved then OutOfBoundsExists(i) else OutOfBoundsLock)
    else if st == Free then FreeWithAcquire
    else ExpectedFrameState(i, Free, Locked)
  }

  /** How many of the frames index, index + 1, … (at most count of them)
      `acquire_frame` accepts before its first refusal. */
  function AcquiredPrefix(states: seq<FrameState>, oob: set<nat>, index: nat, count: nat, st: FrameState): (k: nat)
    ensures k <= count
    decreases count
  {
    if count == 0 || !Acquirable(states, oob, index, st) then 0
    else 1 + AcquiredPrefix(states, oob, index + 1, count - 1, st)
  }

  /** The prefix is the longest run of acquirable frames: every frame in
      it is acquirable, and the one just past it (if the run stops early)
      is not. */
  lemma {:induction false} AcquiredPrefixIsLongest(states: seq<FrameState>, oob: set<nat>, index: nat, count: nat, st: FrameState)
    ensures var k := AcquiredPrefix(states, oob, index, count, st);
      && (forall i :: index <= i < index + k ==> Acquirable(states, oob, i, st))
      && (k < count ==> !Acquirable(states, oob, index + k, st))
    decreases count
  {
    if count > 0 && Acquirable(states, oob, index, st) {
      AcquiredPrefixIsLongest(states, oob, index + 1, count - 1, st);
    }
  }

  /** The prefix from a position depends only on the states and recorded
      indices from that position on. */
  lemma {:induction false} AcquiredPrefixFrom(s1: seq<FrameState>, o1: set<nat>, s2: seq<FrameState>, o2: set<nat>,
                                              index: nat, count: nat, st: FrameState)
    requires |s1| == |s2|
    requires forall i :: index <= i < |s1| ==> s1[i] == s2[i]
    requires forall j :: j >= index ==> (j in o1 <==> j in o2)
    ensures AcquiredPrefix(s1, o1, index, count, st) == AcquiredPrefix(s2, o2, index, count, st)
    decreases count
  {
    if count > 0 {
      AcquiredPrefixFrom(s1, o1, s2, o2, index + 1, count - 1, st);
    }
  }

  /** `acquire_frame` succeeds exactly for an acquirable frame, and then
      gives that frame the requested state or records its index; a
      refusal changes nothing and reports `AcquireRefusal`. */
  lemma AcquireFrameAccepts(fa: FrameAllocator, index: nat, st: FrameState)
    requires fa.Valid()
    ensures var r := AcquireFrame(fa, index, st);
      && (r.1.Ok? <==> Acquirable(States(fa), fa.nonUsableOob, index, st))
      && (r.1.Err? ==> r.0 == fa && r.1.error == AcquireRefusal(fa.Len(), index, st))
      && (r.1.Ok? ==> States(r.0) == (if index < fa.Len() then States(fa)[index := st] else States(fa)))
      && (r.1.Ok? ==> r.0.nonUsableOob == fa.nonUsableOob + OobRun(index, 1, fa.Len()))
  {
    if index >= fa.Len() {
      assert States(AcquireFrame(fa, index, st).0) == TableStates(fa.table);
    }
  }

  /** The states with frames from, from + 1, … (k of them, those inside
      the table) set to st. */
  function Overwrite(s: seq<FrameState>, from: nat, k: nat, st: FrameState): (r: seq<FrameState>)
    ensures |r| == |s|
  {
    seq(|s|, i requires 0 <= i < |s| => if from <= i < from + k then st else s[i])
  }

  /** Acquiring no frames leaves the states and the recorded indices as
      they are. */
  lemma NothingAcquired(s: seq<FrameState>, oob: set<nat>, from: nat, len: nat, st: FrameState)
    ensures Overwrite(s, from, 0, st) == s
    ensures oob + OobRun(from, 0, len) == oob
  {
  }

  /** The indices among from, from + 1, … (k of them) that lie at or past
      the table's length len. */
  function OobRun(from: nat, k: nat, len: nat): (r: set<nat>)
    decreases k
  {
    if k == 0 then {}
    else (if from >= len then {from} else {}) + OobRun(from + 1, k - 1, len)
  }

  /** An accepted first frame adds one to the prefix that the states it
      leaves behind give from the next frame on. */
  lemma PrefixStep(s0: seq<FrameState>, o0: set<nat>, s1: seq<FrameState>, o1: set<nat>,
                   index: nat, count: nat, st: FrameState)
    requires count > 0 && Acquirable(s0, o0, index, st)
    requires s1 == (if index < |s0| then s0[index := st] else s0)
    requires o1 == o0 + OobRun(index, 1, |s0|)
    ensures AcquiredPrefix(s0, o0, index, count, st) == 1 + AcquiredPrefix(s1, o1, index + 1, count - 1, st)
  {
    assert forall j :: j >= index + 1 ==> (j in o1 <==> j in o0);
    AcquiredPrefixFrom(s1, o1, s0, o0, index + 1, count - 1, st);
  }

  /** One accepted frame followed by the rest of the run: the prefix grows
      by one and the frames it covers take the requested state. */
  lemma AcquiredStep(s0: seq<FrameState>, o0: set<nat>, s1: seq<FrameState>, o1: set<nat>,
                     s2: seq<FrameState>, o2: set<nat>, index: nat, count: nat, st: FrameState, k2: nat)
    requires count > 0 && Acquirable(s0, o0, index, st)
    requires s1 == (if index < |s0| then s0[index := st] else s0)
    requires o1 == o0 + OobRun(index, 1, |s0|)
    requires k2 == AcquiredPrefix(s1, o1, index + 1, count - 1, st)
    requires s2 == Overwrite(s1, index + 1, k2, st)
    requires o2 == o1 + OobRun(index + 1, k2, |s1|)
    ensures AcquiredPrefix(s0, o0, index, count, st) == k2 + 1
    ensures s2 == Overwrite(s0, index, k2 + 1, st)
    ensures o2 == o0 + OobRun(index, k2 + 1, |s0|)
  {
    PrefixStep(s0, o0, s1, o1, index, count, st);
  }

  /** `acquire_frames`: acquire index, index + 1, … in turn, stopping at
      the first error, with no rollback. On success the range
      `index..index + count` is returned. `index + count` must not
      overflow. The frames of the accepted prefix (`AcquiredPrefix`) take
      the requested state, or are recorded when past the table; nothing
      else changes, and the result is success exactly when the whole run
      was accepted, else the refusal of the first frame past the prefix. */
  function AcquireFrames(fa: FrameAllocator, index: nat, count: nat, st: FrameState): (r: (FrameAllocator, Result<(nat, nat), FallocError>))
    requires fa.Valid() && index + count <= U64_MAX
    ensures r.0.Valid() && r.0.Len() == fa.Len()
    ensures r.1.Ok? ==> r.1.value == (index, index + count)
    ensures count == 0 ==> r == (fa, Ok((index, index)))
    ensures var k := AcquiredPrefix(States(fa), fa.nonUsableOob, index, count, st);
      && r.1 == RunOutcome(fa.Len(), index, count, k, st)
      && States(r.0) == Overwrite(States(fa), index, k, st)
      && r.0.nonUsableOob == fa.nonUsableOob + OobRun(index, k, fa.Len())
    decreases count
  {
    if count == 0 then
      NothingAcquired(States(fa), fa.nonUsableOob, index, fa.Len(), st);
      (fa, Ok((index, index)))
    else
      AcquireFrameAccepts(fa, index, st);
      var (fa', res) := AcquireFrame(fa, index, st);
      if res.Err? then
        NothingAcquired(States(fa), fa.nonUsableOob, index, fa.Len(), st);
        assert AcquiredPrefix(States(fa), fa.nonUsableOob, index, count, st) == 0;
        (fa', Err(res.error))
      else
        var (fa'', rest) := AcquireFrames(fa', index + 1, count - 1, st);
        var outcome: Result<(nat, nat), FallocError> := if rest.Err? then Err(rest.error) else Ok((index, index + count));
        AcceptedThenRest(States(fa), fa.nonUsableOob, States(fa'), fa'.nonUsableOob, States(fa''), fa''.nonUsableOob,
                         fa.Len(), fa'.Len(), index, count, st, rest, outcome);
        (fa'', outcome)
  }

  /** One accepted frame followed by the rest of the run, in the terms
      of the contract of `AcquireFrames`: the outcome, states and
      recorded indices of the whole run follow from the rest's. */
  lemma AcceptedThenRest(s0: seq<FrameState>, o0: set<nat>, s1: seq<FrameState>, o1: set<nat>,
                         s2: seq<FrameState>, o2: set<nat>, len: nat, len1: nat, index: nat, count: nat, st: FrameState,
                         rest: Result<(nat, nat), FallocError>, r: Result<(nat, nat), FallocError>)
    requires count > 0 && Acquirable(s0, o0, index, st) && len == |s0| && len1 == len
    requires s1 == (if index < |s0| then s0[index := st] else s0)
    requires o1 == o0 + OobRun(index, 1, |s0|)
    requires var k2 := AcquiredPrefix(s1, o1, index + 1, count - 1, st);
      && rest == RunOutcome(len1, index + 1, count - 1, k2, st)
      && s2 == Overwrite(s1, index + 1, k2, st)
      && o2 == o1 + OobRun(index + 1, k2, len1)
    requires r == (if rest.Err? then Err(rest.error) else Ok((index, index + count)))
    ensures var k := AcquiredPrefix(s0, o0, index, count, st);
      && r == RunOutcome(len, index, count, k, st)
      && s2 == Overwrite(s0, index, k, st)
      && o2 == o0 + OobRun(index, k, len)
  {
    var k2 := AcquiredPrefix(s1, o1, index + 1, count - 1, st);
    AcquiredStep(s0, o0, s1, o1, s2, o2, index, count, st, k2);
    OutcomeAccepted(r, rest, len, index, count, k2 + 1, k2, st);
  }

  /** An accepted first frame passes the rest of the run's outcome on. */
  lemma OutcomeAccepted(r: Result<(nat, nat), FallocError>, rest: Result<(nat, nat), FallocError>,
                        len: nat, index: nat, count: nat, k: nat, k2: nat, st: FrameState)
    requires count > 0 && k == k2 + 1
    requires rest == RunOutcome(len, index + 1, count - 1, k2, st)
    requires r == (if rest.Ok? then Ok((index, index + count)) else Err(rest.error))
    ensures r == RunOutcome(len, index, count, k, st)
  {
  }

  /** The result of `acquire_frames` when its first k frames are accepted:
      success with the whole range, or the refusal of frame index + k. */
  function RunOutcome(len: nat, index: nat, count: nat, k: nat, st: FrameState): Result<(nat, nat), FallocError>
  {
    if k >= count then Ok((index, index + count)) else Err(AcquireRefusal(len, index + k, st))
  }

  /** `acquire_frames` with the corrected `acquire_frame` keeps the
      counters tracking the states, whether it succeeds or not. */
  lemma {:induction false} AcquireFramesKeepTrack(fa: FrameAllocator, index: nat, count: nat, st: FrameState)
    requires fa.Valid() && index + count <= U64_MAX && CountersTrack(fa)
    ensures CountersTrack(AcquireFrames(fa, index, count, st).0)
    decreases count, 1
  {
    if count == 0 {
      TrackCarries(fa, AcquireFrames(fa, index, count, st).0);
    } else {
      KeepTrackStep(fa, index, count, st);
    }
  }

  /** The induction step of `AcquireFramesKeepTrack`. */
  lemma {:induction false} KeepTrackStep(fa: FrameAllocator, index: nat, count: nat, st: FrameState)
    requires fa.Valid() && index + count <= U64_MAX && count > 0 && CountersTrack(fa)
    ensures CountersTrack(AcquireFrames(fa, index, count, st).0)
    decreases count, 0
  {
    AcquireKeepsTrack(fa, index, st);
    AcquireFramesStep(fa, index, count, st);
    var first := AcquireFrame(fa, index, st);
    if first.1.Ok? {
      AcquireFramesKeepTrack(first.0, index + 1, count - 1, st);
      TrackCarries(AcquireFrames(first.0, index + 1, count - 1, st).0, AcquireFrames(fa, index, count, st).0);
    } else {
      TrackCarries(first.0, AcquireFrames(fa, index, count, st).0);
    }
  }

  /** Counter tracking is a property of the allocator alone. */
  lemma TrackCarries(a: FrameAllocator, b: FrameAllocator)
    requires a.Valid() && CountersTrack(a) && a == b
    ensures b.Valid() && CountersTrack(b)
  {
  }

  /** Where one step of `acquire_frames` leaves the allocator: unchanged
      past a refused first frame, else wherever the rest of the run
      leaves it. */
  lemma AcquireFramesStep(fa: FrameAllocator, index: nat, count: nat, st: FrameState)
    requires fa.Valid() && index + count <= U64_MAX && count > 0
    ensures var first := AcquireFrame(fa, index, st);
      AcquireFrames(fa, index, count, st).0
        == if first.1.Err? then first.0 else AcquireFrames(first.0, index + 1, count - 1, st).0
  {
  }

  /** A Reserved request inside the table never fails and reserves
      exactly the range, recording no out-of-range index. */
  lemma AcquireFramesReserved(fa: FrameAllocator, index: nat, count: nat)
    requires fa.Valid() && index + count <= U64_MAX && index + count <= fa.Len()
    ensures var r := AcquireFrames(fa, index, count, Reserved);
      && r.1.Ok? && r.0.nonUsableOob == fa.nonUsableOob
      && forall i :: 0 <= i < fa.Len() ==>
           States(r.0)[i] == (if index <= i < index + count then Reserved else States(fa)[i])
  {
    ReservedRunAcquired(States(fa), fa.nonUsableOob, index, count);
  }

  /** Inside the table every frame is acquirable for a Reserved request,
      and none is recorded as out of range. */
  lemma {:induction false} ReservedRunAcquired(states: seq<FrameState>, oob: set<nat>, index: nat, count: nat)
    requires index + count <= |states|
    ensures AcquiredPrefix(states, oob, index, count, Reserved) == count
    ensures oob + OobRun(index, count, |states|) == oob
    decreases count
  {
    if count > 0 {
      ReservedRunAcquired(states, oob, index + 1, count - 1);
    }
  }

  /** A Free request is refused at its first frame, so `acquire_frames`
      changes nothing: `FreeWithAcquire` inside the table,
      `OutOfBoundsLock` past it. */
  lemma AcquireFramesFree(fa: FrameAllocator, index: nat, count: nat)
    requires fa.Valid() && index + count <= U64_MAX && count > 0
    ensures AcquireFrames(fa, index, count, Free)
      == (fa, Err(if index < fa.Len() then FreeWithAcquire else OutOfBoundsLock))
  {
  }

  /** A Locked request succeeds exactly when the run is empty or every
      frame of it is inside the table and Free; the run then becomes Locked, every other
      frame keeps its state and no index is recorded as out of range. */
  lemma AcquireFramesLocked(fa: FrameAllocator, index: nat, count: nat)
    requires fa.Valid() && index + count <= U64_MAX
    ensures var r := AcquireFrames(fa, index, count, Locked);
      && (r.1.Ok? <==> count == 0 || (index + count <= fa.Len() && forall i :: index <= i < index + count ==> States(fa)[i] == Free))
      && (r.1.Ok? ==> States(r.0) == Overwrite(States(fa), index, count, Locked) && r.0.nonUsableOob == fa.nonUsableOob)
  {
    LockedRunAcquired(States(fa), fa.nonUsableOob, index, count);
  }

  /** A nonempty run is wholly acquirable for a Locked request exactly
      when it lies inside the table and every frame of it is Free; it then
      records no out-of-range index. */
  lemma {:induction false} LockedRunAcquired(states: seq<FrameState>, oob: set<nat>, index: nat, count: nat)
    ensures AcquiredPrefix(states, oob, index, count, Locked) == count
      <==> count == 0 || (index + count <= |states| && forall i :: index <= i < index + count ==> states[i] == Free)
    ensures AcquiredPrefix(states, oob, index, count, Locked) == count ==> oob + OobRun(index, count, |states|) == oob
    decreases count
  {
    if count > 0 {
      LockedRunAcquired(states, oob, index + 1, count - 1);
      if index + count <= |states| && forall i :: index <= i < index + count ==> states[i] == Free {
        assert states[index] == Free;
      }
    }
  }



  /** `from_ptr`: a fresh allocator that reserves the frames holding its
      own table and frame 0. The source writes the table through a raw
      pointer without checking that it lies inside the memory it
      describes; the second requires states that assumption. A
      reservation past the table would not panic: `acquire_frame` records
      it as out of range. */
  function FromPtr(baseIndex: nat, totalMemory: usize): (r: FrameAllocator)
    requires totalMemory % 0x1000 == 0 && totalMemory > 0
    requires baseIndex + FrameCountHint(totalMemory) <= totalMemory / 0x1000
    ensures r.Valid() && r.Len() == totalMemory / 0x1000
    ensures forall i :: 0 <= i < r.Len() ==>
      States(r)[i] == (if i == 0 || baseIndex <= i < baseIndex + FrameCountHint(totalMemory) then Reserved else Free)
  {
    var fa0 := New(totalMemory);
    var hint := FrameCountHint(totalMemory);
    var fa1 := AcquireFrames(fa0, baseIndex, hint, Reserved).0;
    AcquireFramesReserved(fa0, baseIndex, hint);
    assert 0 < fa1.Len() == fa0.Len();
    var fa2 := AcquireFrame(fa1, 0, Reserved).0;
    assert States(fa2) == States(fa1)[0 := Reserved];
    fa2
  }

  /** The allocator `from_ptr` builds has counters that track its
      states. */
  lemma FromPtrTracks(baseIndex: nat, totalMemory: usize)
    requires totalMemory % 0x1000 == 0 && totalMemory > 0
    requires baseIndex + FrameCountHint(totalMemory) <= totalMemory / 0x1000
    ensures CountersTrack(FromPtr(baseIndex, totalMemory))
  {
    var fa0 := New(totalMemory);
    NewTracks(totalMemory);
    var hint := FrameCountHint(totalMemory);
    var fa1 := AcquireFrames(fa0, baseIndex, hint, Reserved).0;
    AcquireFramesKeepTrack(fa0, baseIndex, hint, Reserved);
    AcquireKeepsTrack(fa1, 0, Reserved);
  }

  // ----- automatic locking ----------------------------------------------

  /** `autolock`: lock the lowest Free slot and move 0x1000 bytes from the
      Free counter to the Locked counter. The scan covers the whole
      backing storage, so when no frame below `len` is Free it can pick a
      padding slot of the last section. */
  method Autolock(fa: FrameAllocator) returns (r: FrameAllocator, frame: Option<nat>)
    requires fa.Valid()
    ensures r.Valid() && r.Len() == fa.Len()
    ensures frame.None? ==> r == fa && forall i :: 0 <= i < fa.Len() ==> States(fa)[i] != Free
    ensures frame.Some? ==> frame.value < fa.table.Capacity() && Slot(fa.table, frame.value) == StateCode(Free)
    ensures frame.Some? ==> forall i :: 0 <= i < frame.value ==> Slot(fa.table, i) != StateCode(Free)
    ensures frame.Some? ==> r == SetState(fa, frame.value, Locked).(memory := Move(fa.memory, Free, Locked))
  {
    var m, idx := SetEqNext(fa.table, StateCode(Locked), StateCode(Free));
    if idx.None? {
      return fa, None;
    }
    r := SetState(fa, idx.value, Locked).(memory := Move(fa.memory, Free, Locked));
    frame := idx;
  }

  /** When some frame below `len` is Free, `autolock` picks the lowest such
      frame, and the counters keep tracking. */
  lemma AutolockInRange(fa: FrameAllocator, i: nat, picked: nat)
    requires fa.Valid() && i < fa.Len() && States(fa)[i] == Free
    requires picked < fa.table.Capacity() && Slot(fa.table, picked) == StateCode(Free)
    requires forall j :: 0 <= j < picked ==> Slot(fa.table, j) != StateCode(Free)
    ensures picked <= i < fa.Len() && States(fa)[picked] == Free
    ensures CountersTrack(fa) ==>
      CountersTrack(SetState(fa, picked, Locked).(memory := Move(fa.memory, Free, Locked)))
  {
    if CountersTrack(fa) {
      MoveKeepsTrack(fa, picked, Free, Locked);
    }
  }

  /** Frames lo..lo+n are all Free. */
  predicate FreeRun(states: seq<FrameState>, lo: nat, n: nat)
    requires lo + n <= |states|
  {
    forall i :: lo <= i < lo + n ==> states[i] == Free
  }

  /** The locking loop of `autolock_many` as written: every frame of the
      run is set to Locked, and no counter moves. */
  function LockRunAsWritten(fa: FrameAllocator, base: nat, count: nat): (r: FrameAllocator)
    requires fa.Valid() && base + count <= fa.Len()
    ensures r.Valid() && r.Len() == fa.Len() && r.memory == fa.memory
    ensures forall i :: 0 <= i < fa.Len() ==>
      States(r)[i] == (if base <= i < base + count then Locked else States(fa)[i])
    decreases count
  {
    if count == 0 then fa
    else LockRunAsWritten(SetState(fa, base, Locked), base + 1, count - 1)
  }

  /** On a fresh one-frame allocator, locking frame 0 the way
      `autolock_many` does leaves `total_memory(Some(Free))` at 0x1000
      although no frame is Free. */
  lemma LockRunAsWrittenLosesTrack()
    ensures CountersTrack(New(0x1000))
    ensures var r := LockRunAsWritten(New(0x1000), 0, 1);
            Count(States(r), Free) == 0 && TotalMemory(r, Some(Free)) == 0x1000
  {
    NewTracks(0x1000);
    var r := LockRunAsWritten(New(0x1000), 0, 1);
    assert States(r) == [Locked];
    assert States(r)[..0] == [];
  }

  /** The locking loop of `autolock_many`, moving 0x1000 bytes from the
      Free counter to the Locked counter per frame, as `autolock` does. */
  function LockRun(fa: FrameAllocator, base: nat, count: nat): (r: FrameAllocator)
    requires fa.Valid() && base + count <= fa.Len()
    ensures r.Valid() && r.Len() == fa.Len() && r.nonUsableOob == fa.nonUsableOob
    ensures forall i :: 0 <= i < fa.Len() ==>
      States(r)[i] == (if base <= i < base + count then Locked else States(fa)[i])
    ensures r.memory == fa.memory[StateCode(Free) := fa.memory[StateCode(Free)] - 0x1000 * count]
                                 [StateCode(Locked) := fa.memory[StateCode(Locked)] + 0x1000 * count]
    decreases count
  {
    if count == 0 then fa
    else
      var next := SetState(fa, base, Locked).(memory := Move(fa.memory, Free, Locked));
      assert States(next) == States(fa)[base := Locked];
      LockRun(next, base + 1, count - 1)
  }

  /** Turning a run of Free frames into Locked frames moves `count` frames
      from the Free count to the Locked count. */
  lemma {:induction false} CountLockRange(s: seq<FrameState>, t: seq<FrameState>, base: nat, count: nat)
    requires |s| == |t| && base + count <= |s|
    requires forall i :: 0 <= i < |s| ==> t[i] == (if base <= i < base + count then Locked else s[i])
    requires forall i :: base <= i < base + count ==> s[i] == Free
    ensures Count(t, Free) == Count(s, Free) - count
    ensures Count(t, Locked) == Count(s, Locked) + count
    ensures Count(t, Reserved) == Count(s, Reserved)
  {
    if count == 0 {
      assert t == s;
    } else {
      var n := |s| - 1;
      if base + count == |s| {
        CountLockRange(s[..n], t[..n], base, count - 1);
      } else {
        CountLockRange(s[..n], t[..n], base, count);
      }
    }
  }

  /** Locking a run of Free frames keeps the counters tracking. */
  lemma LockRunTracks(fa: FrameAllocator, base: nat, count: nat)
    requires fa.Valid() && CountersTrack(fa) && base + count <= fa.Len()
    requires FreeRun(States(fa), base, count)
    ensures CountersTrack(LockRun(fa, base, count))
  {
    CountLockRange(States(fa), States(LockRun(fa, base, count)), base, count);
  }

  /** The scan of `autolock_many`: walk the frames counting the current
      run of Free frames and stop when it reaches `count`; the result is
      the frame after the run. With count = 0 the scan stops at the first
      frame that is not Free, and a table of Free frames yields nothing. */
  method FindRun(states: seq<FrameState>, count: nat) returns (found: Option<nat>)
    ensures found.Some? ==> count <= found.value <= |states|
    ensures found.Some? ==> FreeRun(states, found.value - count, count)
    ensures count > 0 && found.Some? ==> forall b: nat :: b < found.value - count ==> b + count <= |states| ==> !FreeRun(states, b, count)
    ensures count > 0 && found.None? ==> forall b: nat :: b + count <= |states| ==> !FreeRun(states, b, count)
    ensures count == 0 ==> (found.None? <==> forall i :: 0 <= i < |states| ==> states[i] == Free)
    ensures count == 0 && found.Some? ==> 0 < found.value && states[found.value - 1] != Free && FreeRun(states, 0, found.value - 1)
  {
    var run := 0;
    var i := 0;
    while i < |states|
      invariant 0 <= i <= |states| && run <= i
      invariant count > 0 ==> run < count
      invariant count == 0 ==> run == i
      invariant FreeRun(states, i - run, run)
      invariant i - run == 0 || states[i - run - 1] != Free
      invariant count > 0 ==> forall b: nat :: b + count <= i ==> !FreeRun(states, b, count)
    {
      if states[i] == Free {
        run := run + 1;
      } else {
        run := 0;
      }
      i := i + 1;
      if run == count {
        return Some(i);
      }
      if count > 0 {
        NoEarlierRun(states, i, run, count);
      }
    }
    return None;
  }

  /** No window of `count` Free frames ends at or before i when the run
      ending at i is shorter than `count`. */
  lemma NoEarlierRun(states: seq<FrameState>, i: nat, run: nat, count: nat)
    requires i <= |states| && run <= i && run < count
    requires FreeRun(states, i - run, run)
    requires i - run == 0 || states[i - run - 1] != Free
    requires forall b: nat :: b + count <= i - 1 ==> !FreeRun(states, b, count)
    ensures forall b: nat :: b + count <= i ==> !FreeRun(states, b, count)
  {
    forall b: nat | b + count <= i
      ensures !FreeRun(states, b, count)
    {
      if b + count == i {
        assert b <= i - run - 1 < b + count;
      }
    }
  }

  /** `autolock_many`: find the first run of `count` Free frames and lock
      it, moving the counters (the corrected locking loop). */
  method AutolockMany(fa: FrameAllocator, count: nat) returns (r: FrameAllocator, range: Option<(nat, nat)>)
    requires fa.Valid()
    ensures r.Valid() && r.Len() == fa.Len()
    ensures range.None? ==> r == fa
    ensures count > 0 && range.None? ==> forall b: nat :: b + count <= fa.Len() ==> !FreeRun(States(fa), b, count)
    ensures range.Some? ==> range.value.1 == range.value.0 + count <= fa.Len()
    ensures range.Some? ==> FreeRun(States(fa), range.value.0, count)
    ensures count > 0 && range.Some? ==> forall b: nat :: b < range.value.0 ==> !FreeRun(States(fa), b, count)
    ensures range.Some? ==> r == LockRun(fa, range.value.0, count)
    ensures CountersTrack(fa) ==> CountersTrack(r)
  {
    var found := FindRun(States(fa), count);
    if found.None? {
      return fa, None;
    }
    var base := found.value - count;
    r := LockRun(fa, base, count);
    if CountersTrack(fa) {
      LockRunTracks(fa, base, count);
    }
    range := Some((base, base + count));
  }

  /** `total_memory`: the counter of one state, or the total; while the
      counters track the table, the bytes of the frames in that state, or
      of all frames. */
  function TotalMemory(fa: FrameAllocator, ofType: Option<FrameState>): (r: int)
    requires |fa.memory| == 4
    ensures ofType.None? ==> r == fa.memory[TOTAL_SLOT]
    ensures ofType.Some? ==> r == fa.memory[StateCode(ofType.value)]
    ensures fa.Valid() && CountersTrack(fa) ==>
      r == 0x1000 * (if ofType.Some? then Count(TableStates(fa.table), ofType.value) else |TableStates(fa.table)|)
  {
    match ofType
    case Some(t) => fa.memory[StateCode(t)]
    case None => fa.memory[TOTAL_SLOT]
  }
}

=== FILE: frame_iter.dfy ===
/** libkernel's `Frame` (a 4 KiB frame index) and `FrameIterator`, which
    walks an inclusive range of frame indices. */
module FrameIter {
  import opened Wrappers
  import opened Words

  // ----- Frame ----------------------------------------------------------------

  /** `Frame::from_addr`: the frame of a 4 KiB-aligned physical address;
      an unaligned address panics. */
  function FrameFromAddr(addr: u64): (index: usize)
    requires addr % 0x1000 == 0
    ensures index * 0x1000 == addr
  {
    addr / 0x1000
  }

  /** `Frame::base_addr`: `index * 0x1000`, a `usize` multiplication that
      must not overflow. */
  function FrameBaseAddr(index: usize): (addr: u64)
    requires index * 0x1000 <= U64_MAX
    ensures addr % 0x1000 == 0
  {
    DivModUnique(index * 0x1000, 0x1000, index, 0);
    index * 0x1000
  }

  /** A frame's base address gives the frame back, and an aligned address
      is its frame's base address. */
  lemma FrameAddrRoundTrip(index: usize, addr: u64)
    requires index * 0x1000 <= U64_MAX
    ensures FrameFromAddr(FrameBaseAddr(index)) == index
    ensures addr % 0x1000 == 0 ==> FrameBaseAddr(FrameFromAddr(addr)) == addr
  {
    DivModUnique(index * 0x1000, 0x1000, index, 0);
  }

  // ----- FrameIterator --------------------------------------------------------

  /** One end of a `RangeBounds<usize>`. */
  datatype Bound = Included(n: usize) | Excluded(n: usize) | Unbounded

  /** `FrameIterator { start, end, current }`: `end` is inclusive. */
  datatype FrameIterator = FrameIterator(start: usize, end: usize, current: usize)
  {
    /** The cursor lies between the start and one past the end, and one
        past the end is a `usize`. */
    predicate Valid()
    {
      start <= current <= end + 1 && end < U64_MAX
    }
  }

  /** `FrameIterator::new`. An unbounded end panics, as do an excluded
      start of `usize::MAX` and an excluded end of 0 (the `+ 1` and the
      `- 1` overflow). */
  function NewIterator(lo: Bound, hi: Bound): (it: FrameIterator)
    requires !lo.Unbounded? && !hi.Unbounded?
    requires lo.Excluded? ==> lo.n < U64_MAX
    requires hi.Excluded? ==> hi.n >= 1
    ensures it.current == it.start
    ensures it.start == (if lo.Included? then lo.n else lo.n + 1)
    ensures it.end == (if hi.Included? then hi.n else hi.n - 1)
  {
    var start := match lo
      case Included(n) => n
      case Excluded(n) => n + 1;
    var end := match hi
      case Included(n) => n
      case Excluded(n) => n - 1;
    FrameIterator(start, end, start)
  }

  /** An inclusive range covers its end, an exclusive one stops short of
      it: both iterators yield exactly the indices the range contains. */
  lemma NewIteratorRanges(a: usize, b: usize)
    requires a <= b && b < U64_MAX
    ensures var it := NewIterator(Included(a), Included(b));
      it.Valid() && Drain(it).0 == seq(b - a + 1, i requires 0 <= i <= b - a => a + i)
    ensures b >= 1 ==> var it := NewIterator(Included(a), Excluded(b));
      it.Valid() && Drain(it).0 == seq(b - a, i requires 0 <= i < b - a => a + i)
  {
    var it := NewIterator(Included(a), Included(b));
    assert Drain(it).0 == seq(b - a + 1, i requires 0 <= i <= b - a => a + i);
    if b >= 1 {
      var ex := NewIterator(Included(a), Excluded(b));
      assert Drain(ex).0 == seq(b - a, i requires 0 <= i < b - a => a + i);
    }
  }

  /** `terminating_index`: one past the end. */
  function TerminatingIndex(it: FrameIterator): (r: usize)
    requires it.end < U64_MAX
    ensures r > it.end
  {
    it.end + 1
  }

  /** `total_len`: the number of frames from the start through the end. */
  function TotalLen(it: FrameIterator): (r: usize)
    requires it.Valid()
    ensures r == it.end - it.start + 1
  {
    TerminatingIndex(it) - it.start
  }

  /** `ExactSizeIterator::len`: the frames not yet yielded. */
  function Len(it: FrameIterator): (r: usize)
    requires it.Valid()
    ensures r <= TotalLen(it)
    ensures r == TotalLen(it) <==> it.current == it.start
  {
    TerminatingIndex(it) - it.current
  }

  /** `reset`: back to the start. */
  function Reset(it: FrameIterator): (r: FrameIterator)
    ensures r.start == it.start && r.end == it.end && r.current == it.start
    ensures it.Valid() ==> r.Valid() && Len(r) == TotalLen(it)
  {
    it.(current := it.start)
  }

  /** `Iterator::next`: yield the cursor and advance it while it has not
      passed the end. */
  function Next(it: FrameIterator): (r: (Option<usize>, FrameIterator))
    requires it.Valid()
    ensures r.0.Some? <==> Len(it) > 0
    ensures r.1.Valid() && r.1.start == it.start && r.1.end == it.end
    ensures r.0.Some? ==> r.0.value == it.current && Len(r.1) == Len(it) - 1
    ensures r.0.None? ==> r.1 == it
  {
    if it.current <= it.end then (Some(it.current), it.(current := it.current + 1))
    else (None, it)
  }

  /** Calling `next` until it returns `None`: the frames yielded, and the
      exhausted iterator. */
  function Drain(it: FrameIterator): (r: (seq<usize>, FrameIterator))
    requires it.Valid()
    ensures |r.0| == Len(it)
    ensures forall i :: 0 <= i < |r.0| ==> r.0[i] == it.current + i
    ensures r.1.Valid() && r.1.start == it.start && r.1.end == it.end
    ensures Next(r.1).0.None?
    decreases Len(it)
  {
    match Next(it)
    case (None, _) => ([], it)
    case (Some(f), rest) =>
      var (more, done) := Drain(rest);
      ([f] + more, done)
  }

  /** After a reset the iterator yields start, start + 1, …, end in order
      and then `None`, `total_len` frames in all. */
  lemma ResetDrainsWholeRange(it: FrameIterator)
    requires it.Valid()
    ensures |Drain(Reset(it)).0| == TotalLen(it)
    ensures forall i :: 0 <= i < TotalLen(it) ==> Drain(Reset(it)).0[i] == it.start + i
    ensures |Drain(Reset(it)).0| > 0 ==> Drain(Reset(it)).0[|Drain(Reset(it)).0| - 1] == it.end
  {
  }

  /** `Frame::into_iter`: the iterator over one frame, which yields that
      frame alone. */
  function SingleFrame(index: usize): (it: FrameIterator)
    requires index < U64_MAX
    ensures it.Valid() && Drain(it).0 == [index]
  {
    var it := NewIterator(Included(index), Included(index));
    assert Drain(it).0 == [index];
    it
  }

  // ----- size_hint ------------------------------------------------------------

  /** `size_hint` as written: the cursor's index and the terminating index,
      which are positions, not counts of remaining frames. */
  function SizeHintAsWritten(it: FrameIterator): (r: (usize, Option<usize>))
    requires it.Valid()
    ensures r.0 == it.current && r.1 == Some(it.end + 1)
  {
    (it.current, Some(TerminatingIndex(it)))
  }

  /** The hint `Iterator::size_hint` calls for: the remaining count on both
      sides. */
  function SizeHint(it: FrameIterator): (r: (usize, Option<usize>))
    requires it.Valid()
    ensures r.1.Some?
    ensures r.0 <= |Drain(it).0| <= r.1.value
  {
    (Len(it), Some(Len(it)))
  }

  /** A fresh iterator over frames 10 through 12 yields three frames, while
      the hint as written promises at least ten. */
  lemma SizeHintOverstates()
    ensures var it := NewIterator(Included(10), Included(12));
      |Drain(it).0| == 3 && SizeHintAsWritten(it).0 == 10 && SizeHint(it) == (3, Some(3))
  {
  }
}

=== FILE: frame_manager.dfy ===
/** The liblz frame word: one 32-bit word per physical frame holding a
    reference count (bits 0..16), a peek bit (16), a lock bit (17) and the
    frame type (bits 26..32). Each atomic update of the word is shown to
    act on exactly one field of its decoded `FrameInfo`. */
module FrameWord {
  type Word = bv32

  datatype FrameType = Usable | Unusable | Reserved | MMIO | Kernel | FrameMap | BootReclaim | ACPIReclaim

  /** The `#[repr(u32)]` discriminant. */
  function TypeCodeOf(t: FrameType): (c: Word)
    ensures c < 8
  {
    match t
    case Usable => 0
    case Unusable => 1
    case Reserved => 2
    case MMIO => 3
    case Kernel => 4
    case FrameMap => 5
    case BootReclaim => 6
    case ACPIReclaim => 7
  }

  /** `FrameType::try_from(..).unwrap()`; codes above 7 panic. */
  function TypeOfCode(c: Word): (t: FrameType)
    requires c < 8
    ensures TypeCodeOf(t) == c
  {
    if c == 0 then Usable else if c == 1 then Unusable else if c == 2 then Reserved
    else if c == 3 then MMIO else if c == 4 then Kernel else if c == 5 then FrameMap
    else if c == 6 then BootReclaim else ACPIReclaim
  }

  /** The discriminant is injective: decoding it gives the type back. */
  lemma TypeCodeRoundTrip(t: FrameType)
    ensures TypeOfCode(TypeCodeOf(t)) == t
  {
  }

  // ----- fields of the word -------------------------------------------------

  /** `raw & REF_COUNT_MASK` (0xFFFF). */
  function RefCount(w: Word): Word
  {
    w & 0xFFFF
  }

  /** `PEEKED_BIT` (1 << 16). */
  predicate IsPeeked(w: Word)
  {
    w & 0x1_0000 != 0
  }

  /** `LOCKED_BIT` (1 << 17). */
  predicate IsLocked(w: Word)
  {
    w & 0x2_0000 != 0
  }

  /** `raw >> FRAME_TYPE_SHIFT` (26). */
  function TypeCode(w: Word): Word
  {
    w >> 26
  }

  /** What `Frame::data` and the peek bit read out of a word. */
  datatype FrameInfo = FrameInfo(refs: Word, peeked: bool, locked: bool, kind: FrameType)

  /** The fields of a word whose type code decodes (`data` panics on any
      other). */
  function Decode(w: Word): (f: FrameInfo)
    requires TypeCode(w) < 8
    ensures f.refs <= 0xFFFF && f.refs == w & 0xFFFF
    ensures f.peeked <==> (w >> 16) & 1 == 1
    ensures f.locked <==> (w >> 17) & 1 == 1
    ensures TypeCodeOf(f.kind) == w >> 26
  {
    FrameInfo(RefCount(w), IsPeeked(w), IsLocked(w), TypeOfCode(TypeCode(w)))
  }

  /** Two decodable words that decode alike agree on every bit the word
      defines: the count, the peek and lock bits and the type; only the
      unused bits 18..26 may differ. */
  lemma DecodeDetermines(a: Word, b: Word)
    requires TypeCode(a) < 8 && TypeCode(b) < 8
    requires Decode(a) == Decode(b)
    ensures a & 0xFC03_FFFF == b & 0xFC03_FFFF
  {
    TypeCodeRoundTrip(Decode(a).kind);
    assert a >> 26 == b >> 26;
    assert a & 0xFC03_FFFF == (a & 0xFFFF) | (a & 0x1_0000) | (a & 0x2_0000) | ((a >> 26) << 26);
    assert b & 0xFC03_FFFF == (b & 0xFFFF) | (b & 0x1_0000) | (b & 0x2_0000) | ((b >> 26) << 26);
  }

  /** Decodable words that differ only in the count decode alike up to
      the count. */
  lemma RebuildCount(a: Word, b: Word)
    requires TypeCode(b) < 8 && TypeCode(a) == TypeCode(b)
    requires IsLocked(a) == IsLocked(b) && IsPeeked(a) == IsPeeked(b)
    ensures Decode(a) == Decode(b).(refs := RefCount(a))
  {
  }

  /** Decodable words that differ only in the lock bit decode alike up to
      the lock flag. */
  lemma RebuildLock(a: Word, b: Word)
    requires TypeCode(b) < 8 && TypeCode(a) == TypeCode(b)
    requires RefCount(a) == RefCount(b) && IsPeeked(a) == IsPeeked(b)
    ensures Decode(a) == Decode(b).(locked := IsLocked(a))
  {
  }

  /** Decodable words that differ only in the type decode alike up to the
      type. */
  lemma RebuildKind(a: Word, b: Word)
    requires TypeCode(a) < 8 && TypeCode(b) < 8
    requires RefCount(a) == RefCount(b) && IsLocked(a) == IsLocked(b) && IsPeeked(a) == IsPeeked(b)
    ensures Decode(a) == Decode(b).(kind := TypeOfCode(TypeCode(a)))
  {
  }

  // ----- the atomic updates -------------------------------------------------

  /** `Frame::lock`: `fetch_or(LOCKED_BIT)`. */
  function LockWord(w: Word): (r: Word)
    ensures IsLocked(r)
    ensures r & 0xFFFD_FFFF == w & 0xFFFD_FFFF
  {
    w | 0x2_0000
  }

  /** `Frame::free`: `fetch_and(!LOCKED_BIT)`. */
  function FreeWord(w: Word): (r: Word)
    ensures !IsLocked(r)
    ensures r & 0xFFFD_FFFF == w & 0xFFFD_FFFF
  {
    w & 0xFFFD_FFFF
  }

  /** Words that differ at most in the lock bit agree on every other
      field. */
  lemma SameOutsideLockBit(a: Word, b: Word)
    requires a & 0xFFFD_FFFF == b & 0xFFFD_FFFF
    ensures RefCount(a) == RefCount(b) && IsPeeked(a) == IsPeeked(b) && TypeCode(a) == TypeCode(b)
  {
  }

  /** `lock` sets the decoded lock flag and nothing else. */
  lemma LockWordLocks(w: Word)
    requires TypeCode(w) < 8
    ensures TypeCode(LockWord(w)) < 8 && Decode(LockWord(w)) == Decode(w).(locked := true)
  {
    SameOutsideLockBit(LockWord(w), w);
    RebuildLock(LockWord(w), w);
  }

  /** `free` clears the decoded lock flag and nothing else. */
  lemma FreeWordFrees(w: Word)
    requires TypeCode(w) < 8
    ensures TypeCode(FreeWord(w)) < 8 && Decode(FreeWord(w)) == Decode(w).(locked := false)
  {
    SameOutsideLockBit(FreeWord(w), w);
    RebuildLock(FreeWord(w), w);
  }

  /** Freeing an unlocked word after locking it gives the word back. */
  lemma LockFreeRoundTrip(w: Word)
    requires !IsLocked(w)
    ensures FreeWord(LockWord(w)) == w
  {
  }

  /** `Frame::borrow`: `fetch_add(1)`, a wrapping increment of the whole
      word, which below 0xFFFF references only bumps the count. */
  function BorrowWord(w: Word): (r: Word)
    ensures RefCount(w) < 0xFFFF ==> RefCount(r) == RefCount(w) + 1
    ensures RefCount(w) < 0xFFFF ==> r & 0xFFFF_0000 == w & 0xFFFF_0000
  {
    w + 1
  }

  /** `Frame::drop`: `fetch_sub(1)`, a wrapping decrement of the whole word,
      which above zero references only lowers the count. */
  function DropWord(w: Word): (r: Word)
    ensures RefCount(w) > 0 ==> RefCount(r) == RefCount(w) - 1
    ensures RefCount(w) > 0 ==> r & 0xFFFF_0000 == w & 0xFFFF_0000
  {
    w - 1
  }

  /** Words that differ at most in the count agree on the peek bit, the
      lock bit and the type. */
  lemma SameOutsideCount(a: Word, b: Word)
    requires a & 0xFFFF_0000 == b & 0xFFFF_0000
    ensures IsLocked(a) == IsLocked(b) && IsPeeked(a) == IsPeeked(b) && TypeCode(a) == TypeCode(b)
  {
  }

  /** Below 0xFFFF references `borrow` adds one to the decoded count and
      changes nothing else. */
  lemma BorrowWordCounts(w: Word)
    requires TypeCode(w) < 8 && Decode(w).refs < 0xFFFF
    ensures TypeCode(BorrowWord(w)) < 8
    ensures Decode(BorrowWord(w)) == Decode(w).(refs := Decode(w).refs + 1)
  {
    SameOutsideCount(BorrowWord(w), w);
    RebuildCount(BorrowWord(w), w);
  }

  /** The borrow at 0xFFFF references carries into the peek bit: the count
      reads zero and the frame reads as peeked. */
  lemma BorrowWordOverflows(w: Word)
    requires RefCount(w) == 0xFFFF && !IsPeeked(w)
    ensures RefCount(BorrowWord(w)) == 0 && IsPeeked(BorrowWord(w))
  {
  }

  /** Above zero references `drop` takes one from the decoded count and
      changes nothing else. */
  lemma DropWordCounts(w: Word)
    requires TypeCode(w) < 8 && Decode(w).refs > 0
    ensures TypeCode(DropWord(w)) < 8
    ensures Decode(DropWord(w)) == Decode(w).(refs := Decode(w).refs - 1)
  {
    SameOutsideCount(DropWord(w), w);
    RebuildCount(DropWord(w), w);
  }

  /** Dropping a borrowed word undoes the borrow, whatever the count. */
  lemma BorrowDropRoundTrip(w: Word)
    ensures DropWord(BorrowWord(w)) == w
  {
  }

  /** The store of `modify_type`:
      `(new_type << 26) | (raw & ((1 << 26) - 1))`. */
  function SetTypeWord(w: Word, code: Word): (r: Word)
    requires code < 8
    ensures TypeCode(r) == code
    ensures r & 0x3FF_FFFF == w & 0x3FF_FFFF
  {
    (code << 26) | (w & 0x3FF_FFFF)
  }

  /** The low 26 bits hold the count, the peek bit and the lock bit. */
  lemma LowBitsHoldFields(a: Word, b: Word)
    requires a & 0x3FF_FFFF == b & 0x3FF_FFFF
    ensures RefCount(a) == RefCount(b) && IsLocked(a) == IsLocked(b) && IsPeeked(a) == IsPeeked(b)
  {
  }

  /** The store of `modify_type` sets the decoded type and nothing else. */
  lemma SetTypeWordRetypes(w: Word, t: FrameType)
    requires TypeCode(w) < 8
    ensures TypeCode(SetTypeWord(w, TypeCodeOf(t))) < 8
    ensures Decode(SetTypeWord(w, TypeCodeOf(t))) == Decode(w).(kind := t)
  {
    var r := SetTypeWord(w, TypeCodeOf(t));
    LowBitsHoldFields(r, w);
    RebuildKind(r, w);
    TypeCodeRoundTrip(t);
  }
}

/** The liblz `FrameManager`: a table of frame words, modelled through
    their decoded `FrameInfo`. The peek spin lock only serialises updates;
    single-threaded, no frame is peeked outside an operation. */
module FrameManager {
  import opened Wrappers
  import opened FrameWord

  datatype FrameError =
    | FrameUnusable(index: nat)
    | FrameBorrowed(index: nat)
    | FrameLocked(index: nat)
    | FrameNotBorrowed(index: nat)
    | FrameNotLocked(index: nat)
    | OutOfRange(index: nat)
    | TypeConversion(from: FrameType, to: FrameType)
    | NoFreeFrames

  /** The type changes `modify_type` permits besides keeping the type:
      anything from Usable, Unusable or Reserved to MMIO, and the
      reclaimable types back to Usable. */
  predicate CanConvert(from: FrameType, to: FrameType)
  {
    || from == Usable
    || (to == MMIO && (from == Unusable || from == Reserved))
    || (to == Usable && (from == BootReclaim || from == ACPIReclaim))
  }

  /** `Frame::modify_type`: keeping the type succeeds without a store; a
      permitted change stores the new type and keeps the count, peek and
      lock bits; any other change is `TypeConversion`. */
  function ModifyType(f: FrameInfo, t: FrameType): (r: Result<FrameInfo, FrameError>)
    ensures r.Ok? <==> f.kind == t || CanConvert(f.kind, t)
    ensures r.Ok? ==> r.value == f.(kind := t)
    ensures r.Err? ==> r.error == TypeConversion(f.kind, t)
  {
    if f.kind == t then Ok(f)
    else if CanConvert(f.kind, t) then Ok(f.(kind := t))
    else Err(TypeConversion(f.kind, t))
  }

  /** Changing a frame's type to the one it already has changes nothing, so
      `modify_type` is idempotent. */
  lemma ModifyTypeIdempotent(f: FrameInfo, t: FrameType)
    requires ModifyType(f, t).Ok?
    ensures ModifyType(ModifyType(f, t).value, t) == ModifyType(f, t)
  {
  }

  /** A changed type becomes Usable only from a reclaimable type, and an
      MMIO frame keeps its type for good. */
  lemma ConversionsOneWay(from: FrameType, to: FrameType)
    requires from != to && CanConvert(from, to)
    ensures to == Usable ==> from == BootReclaim || from == ACPIReclaim
    ensures from == MMIO ==> false
  {
  }

  // ----- the manager --------------------------------------------------------

  /** No frame is left peeked, and every count fits its 16-bit field. */
  predicate Valid(frames: seq<FrameInfo>)
  {
    forall i :: 0 <= i < |frames| ==> !frames[i].peeked && frames[i].refs <= 0xFFFF
  }

  /** A frame `lock` accepts: not Unusable, unborrowed and unlocked. */
  predicate Lockable(f: FrameInfo)
  {
    f.kind != Unusable && f.refs == 0 && !f.locked
  }

  /** The error `lock` reports for a frame it refuses, checking Unusable,
      then Borrowed, then Locked. */
  function LockRefusal(f: FrameInfo, index: nat): (e: FrameError)
    requires !Lockable(f)
    ensures e == FrameUnusable(index) || e == FrameBorrowed(index) || e == FrameLocked(index)
    ensures e.FrameUnusable? <==> f.kind == Unusable
    ensures e.FrameBorrowed? <==> f.kind != Unusable && f.refs > 0
    ensures e.FrameLocked? <==> f.kind != Unusable && f.refs == 0
  {
    if f.kind == Unusable then FrameUnusable(index)
    else if f.refs > 0 then FrameBorrowed(index)
    else FrameLocked(index)
  }

  /** `FrameManager::lock`. An index past the table is `OutOfRange`; a
      lockable frame gets its lock flag and nothing else changes. */
  function Lock(frames: seq<FrameInfo>, index: nat): (r: (seq<FrameInfo>, Result<nat, FrameError>))
    requires Valid(frames)
    ensures Valid(r.0) && |r.0| == |frames|
    ensures r.1.Ok? <==> index < |frames| && Lockable(frames[index])
    ensures r.1.Ok? ==> r.1.value == index && r.0 == frames[index := frames[index].(locked := true)]
    ensures r.1.Err? ==> r.0 == frames
    ensures index >= |frames| ==> r.1 == Err(OutOfRange(index))
    ensures index < |frames| && !Lockable(frames[index]) ==> r.1 == Err(LockRefusal(frames[index], index))
  {
    if index >= |frames| then (frames, Err(OutOfRange(index)))
    else if !Lockable(frames[index]) then (frames, Err(LockRefusal(frames[index], index)))
    else (frames[index := frames[index].(locked := true)], Ok(index))
  }

  /** `FrameManager::free`: clear the lock flag of a locked frame. */
  function Free(frames: seq<FrameInfo>, index: nat): (r: (seq<FrameInfo>, Result<(), FrameError>))
    requires Valid(frames)
    ensures Valid(r.0) && |r.0| == |frames|
    ensures r.1.Ok? <==> index < |frames| && frames[index].locked
    ensures r.1.Ok? ==> r.0 == frames[index := frames[index].(locked := false)]
    ensures r.1.Err? ==> r.0 == frames
    ensures index >= |frames| ==> r.1 == Err(OutOfRange(index))
    ensures index < |frames| && !frames[index].locked ==> r.1 == Err(FrameNotLocked(index))
  {
    if index >= |frames| then (frames, Err(OutOfRange(index)))
    else if !frames[index].locked then (frames, Err(FrameNotLocked(index)))
    else (frames[index := frames[index].(locked := false)], Ok(()))
  }

  /** Freeing a frame right after locking it restores the table. */
  lemma LockThenFree(frames: seq<FrameInfo>, index: nat)
    requires Valid(frames) && Lock(frames, index).1.Ok?
    ensures Free(Lock(frames, index).0, index) == (frames, Ok(()))
  {
    assert frames[index := frames[index].(locked := true)][index := frames[index]] == frames;
  }

  /** `FrameManager::borrow`: count one more reference to a frame that is
      neither Unusable nor locked. */
  function Borrow(frames: seq<FrameInfo>, index: nat): (r: (seq<FrameInfo>, Result<nat, FrameError>))
    requires Valid(frames)
    requires index < |frames| ==> frames[index].refs < 0xFFFF
    ensures Valid(r.0) && |r.0| == |frames|
    ensures r.1.Ok? <==> index < |frames| && frames[index].kind != Unusable && !frames[index].locked
    ensures r.1.Ok? ==> r.1.value == index && r.0 == frames[index := frames[index].(refs := frames[index].refs + 1)]
    ensures r.1.Err? ==> r.0 == frames
    ensures index >= |frames| ==> r.1 == Err(OutOfRange(index))
    ensures index < |frames| && frames[index].kind == Unusable ==> r.1 == Err(FrameUnusable(index))
    ensures index < |frames| && frames[index].kind != Unusable && frames[index].locked ==> r.1 == Err(FrameLocked(index))
  {
    if index >= |frames| then (frames, Err(OutOfRange(index)))
    else if frames[index].kind == Unusable then (frames, Err(FrameUnusable(index)))
    else if frames[index].locked then (frames, Err(FrameLocked(index)))
    else (frames[index := frames[index].(refs := frames[index].refs + 1)], Ok(index))
  }

  /** `FrameManager::drop`: count one reference fewer to a borrowed
      frame. */
  function Drop(frames: seq<FrameInfo>, index: nat): (r: (seq<FrameInfo>, Result<(), FrameError>))
    requires Valid(frames)
    ensures Valid(r.0) && |r.0| == |frames|
    ensures r.1.Ok? <==> index < |frames| && frames[index].refs > 0
    ensures r.1.Ok? ==> r.0 == frames[index := frames[index].(refs := frames[index].refs - 1)]
    ensures r.1.Err? ==> r.0 == frames
    ensures index >= |frames| ==> r.1 == Err(OutOfRange(index))
    ensures index < |frames| && frames[index].refs == 0 ==> r.1 == Err(FrameNotBorrowed(index))
  {
    if index >= |frames| then (frames, Err(OutOfRange(index)))
    else if frames[index].refs == 0 then (frames, Err(FrameNotBorrowed(index)))
    else (frames[index := frames[index].(refs := frames[index].refs - 1)], Ok(()))
  }

  /** Dropping a frame right after borrowing it is accepted and gives
      back the table as it was. */
  lemma BorrowThenDrop(frames: seq<FrameInfo>, index: nat)
    requires Valid(frames) && index < |frames| && frames[index].refs < 0xFFFF
    requires Borrow(frames, index).1.Ok?
    ensures Drop(Borrow(frames, index).0, index) == (frames, Ok(()))
  {
    CountBackDown(frames, index);
  }

  /** Raising one frame's count and lowering it again gives back the
      table. */
  lemma CountBackDown(frames: seq<FrameInfo>, index: nat)
    requires index < |frames| && frames[index].refs < 0xFFFF
    ensures var b := frames[index := frames[index].(refs := frames[index].refs + 1)];
      b[index := b[index].(refs := b[index].refs - 1)] == frames
  {
  }

  /** A locked frame can be neither locked again nor borrowed, and a
      borrowed frame cannot be locked. */
  lemma OwnershipExclusive(frames: seq<FrameInfo>, index: nat)
    requires Valid(frames) && index < |frames|
    ensures frames[index].locked ==> Lock(frames, index).1.Err?
    ensures frames[index].locked && frames[index].refs < 0xFFFF ==> Borrow(frames, index).1.Err?
    ensures frames[index].refs > 0 ==> Lock(frames, index).1.Err?
  {
  }

  /** `try_modify_type`: `OutOfRange` past the table, otherwise
      `modify_type` on the frame. */
  function TryModifyType(frames: seq<FrameInfo>, index: nat, t: FrameType): (r: (seq<FrameInfo>, Result<(), FrameError>))
    requires Valid(frames)
    ensures Valid(r.0) && |r.0| == |frames|
    ensures index >= |frames| ==> r == (frames, Err(OutOfRange(index)))
    ensures index < |frames| ==> (r.1.Ok? <==> frames[index].kind == t || CanConvert(frames[index].kind, t))
    ensures r.1.Ok? ==> r.0 == frames[index := frames[index].(kind := t)]
    ensures r.1.Err? ==> r.0 == frames
    ensures index < |frames| && r.1.Err? ==> r.1.error == TypeConversion(frames[index].kind, t)
  {
    if index >= |frames| then (frames, Err(OutOfRange(index)))
    else
      match ModifyType(frames[index], t)
      case Ok(f) => (frames[index := f], Ok(()))
      case Err(e) => (frames, Err(e))
  }

  // ----- lock_many ----------------------------------------------------------

  /** `lock_many`: walk frames index, index + 1, … (at most `count`, and
      none past the table), locking each lockable frame and stopping at the
      first refused one. The error names the base `index`, not the refused
      frame, and frames locked before it stay locked. */
  function LockMany(frames: seq<FrameInfo>, index: nat, count: nat): (r: (seq<FrameInfo>, Result<nat, FrameError>))
    requires Valid(frames)
    ensures Valid(r.0) && |r.0| == |frames|
    ensures r.1.Ok? ==> r.1.value == index
    ensures r.1.Err? ==> r.1.error in {FrameUnusable(index), FrameBorrowed(index), FrameLocked(index)}
    ensures r.1.Ok? <==> forall i :: index <= i < index + count && i < |frames| ==> Lockable(frames[i])
    ensures r.1.Ok? ==> forall i :: 0 <= i < |frames| ==>
      r.0[i] == (if index <= i < index + count then frames[i].(locked := true) else frames[i])
    ensures r.1.Err? <==> StopOf(frames, index, index + count) < index + count
    ensures forall i :: 0 <= i < |frames| ==>
      r.0[i] == (if index <= i < StopOf(frames, index, index + count) then frames[i].(locked := true) else frames[i])
  {
    LockManyFrom(frames, index, index, index + count)
  }

  /** Where the walk of `lock_many` from `i` stops: the first frame below
      `end`, inside the table, that `lock` would refuse, or `end` when the
      walk completes. */
  function StopOf(frames: seq<FrameInfo>, i: nat, end: nat): (r: nat)
    requires i <= end
    ensures i <= r <= end
    ensures forall j :: i <= j < r && j < |frames| ==> Lockable(frames[j])
    ensures r < end ==> r < |frames| && !Lockable(frames[r])
    decreases end - i
  {
    if i == end || i >= |frames| then end
    else if !Lockable(frames[i]) then i
    else StopOf(frames, i + 1, end)
  }

  /** The loop of `lock_many` from frame `i` up to `end`. */
  function LockManyFrom(frames: seq<FrameInfo>, base: nat, i: nat, end: nat): (r: (seq<FrameInfo>, Result<nat, FrameError>))
    requires Valid(frames) && i <= end
    ensures Valid(r.0) && |r.0| == |frames|
    ensures r.1.Ok? ==> r.1.value == base
    ensures r.1.Err? ==> r.1.error in {FrameUnusable(base), FrameBorrowed(base), FrameLocked(base)}
    ensures r.1.Ok? <==> forall j :: i <= j < end && j < |frames| ==> Lockable(frames[j])
    ensures r.1.Ok? ==> forall j :: 0 <= j < |frames| ==>
      r.0[j] == (if i <= j < end then frames[j].(locked := true) else frames[j])
    ensures r.1.Err? <==> StopOf(frames, i, end) < end
    ensures forall j :: 0 <= j < |frames| ==>
      r.0[j] == (if i <= j < StopOf(frames, i, end) then frames[j].(locked := true) else frames[j])
    decreases end - i
  {
    if i == end || i >= |frames| then (frames, Ok(base))
    else if !Lockable(frames[i]) then (frames, Err(LockRefusal(frames[i], base)))
    else
      var r := LockManyFrom(frames[i := frames[i].(locked := true)], base, i + 1, end);
      assert forall j :: i < j < |frames| ==> frames[i := frames[i].(locked := true)][j] == frames[j];
      r
  }

  // ----- lock_next / lock_next_many -----------------------------------------

  /** A frame the automatic lockers take: Usable, unborrowed, unlocked. */
  predicate Eligible(f: FrameInfo)
  {
    f.kind == Usable && f.refs == 0 && !f.locked
  }

  /** The lowest eligible frame at or after `from`. */
  function FirstEligible(frames: seq<FrameInfo>, from: nat): (r: Option<nat>)
    ensures r.Some? ==> from <= r.value < |frames| && Eligible(frames[r.value])
    ensures r.Some? ==> forall j :: from <= j < r.value ==> !Eligible(frames[j])
    ensures r.None? ==> forall j :: from <= j < |frames| ==> !Eligible(frames[j])
    decreases |frames| - from
  {
    if from >= |frames| then None
    else if Eligible(frames[from]) then Some(from)
    else FirstEligible(frames, from + 1)
  }

  /** `lock_next`: lock the lowest eligible frame, or `NoFreeFrames`. The
      peek bit each visited frame takes is released again. */
  function LockNext(frames: seq<FrameInfo>): (r: (seq<FrameInfo>, Result<nat, FrameError>))
    requires Valid(frames)
    ensures Valid(r.0) && |r.0| == |frames|
    ensures r.1.Err? <==> forall j :: 0 <= j < |frames| ==> !Eligible(frames[j])
    ensures r.1.Err? ==> r == (frames, Err(NoFreeFrames))
    ensures r.1.Ok? ==> r.1.value < |frames| && Eligible(frames[r.1.value])
    ensures r.1.Ok? ==> forall j :: 0 <= j < r.1.value ==> !Eligible(frames[j])
    ensures r.1.Ok? ==> r.0 == frames[r.1.value := frames[r.1.value].(locked := true)]
  {
    match FirstEligible(frames, 0)
    case None => (frames, Err(NoFreeFrames))
    case Some(i) => (frames[i := frames[i].(locked := true)], Ok(i))
  }

  /** Frames lo..lo+n are all eligible. */
  predicate EligibleRun(frames: seq<FrameInfo>, lo: nat, n: nat)
    requires lo + n <= |frames|
  {
    forall j :: lo <= j < lo + n ==> Eligible(frames[j])
  }

  /** `lock_next_many`: scan for a run of `count` eligible frames, restarting
      the run after every other frame, and lock the run found. With
      count = 0 the scan runs to the end and nothing is locked. */
  method LockNextMany(frames: seq<FrameInfo>, count: nat) returns (r: seq<FrameInfo>, res: Result<nat, FrameError>)
    requires Valid(frames)
    ensures Valid(r) && |r| == |frames|
    ensures res.Err? ==> res.error == NoFreeFrames && r == frames && count > 0
    ensures res.Err? ==> forall b: nat :: b + count <= |frames| ==> !EligibleRun(frames, b, count)
    ensures res.Ok? ==> res.value + count <= |frames| && EligibleRun(frames, res.value, count)
    ensures res.Ok? && count > 0 ==> forall b: nat :: b < res.value ==> !EligibleRun(frames, b, count)
    ensures res.Ok? ==> forall j :: 0 <= j < |frames| ==>
      r[j] == (if res.value <= j < res.value + count then frames[j].(locked := true) else frames[j])
  {
    var start := 0;
    var run := 0;
    var i := 0;
    while i < |frames|
      invariant 0 <= start <= i <= |frames| && run == i - start
      invariant EligibleRun(frames, start, run)
      invariant start == 0 || !Eligible(frames[start - 1])
      invariant count > 0 ==> run < count
      invariant count > 0 ==> forall b: nat :: b + count <= i ==> !EligibleRun(frames, b, count)
    {
      if Eligible(frames[i]) {
        run := run + 1;
        i := i + 1;
        if run == count {
          break;
        }
      } else {
        run := 0;
        i := i + 1;
        start := i;
      }
      if count > 0 {
        NoEarlierWindow(frames, i, start, count);
      }
    }
    if run < count {
      return frames, Err(NoFreeFrames);
    }
    r := frames;
    var k := start;
    while k < start + count
      invariant start <= k <= start + count && |r| == |frames|
      invariant forall j :: 0 <= j < |frames| ==> r[j] == (if start <= j < k then frames[j].(locked := true) else frames[j])
    {
      r := r[k := r[k].(locked := true)];
      k := k + 1;
    }
    res := Ok(start);
  }

  /** No window of `count` eligible frames ends at or before i when the run
      ending at i, which starts after a non-eligible frame, is shorter. */
  lemma NoEarlierWindow(frames: seq<FrameInfo>, i: nat, start: nat, count: nat)
    requires start <= i <= |frames| && i - start < count
    requires start == 0 || !Eligible(frames[start - 1])
    requires forall b: nat :: b + count <= i - 1 ==> !EligibleRun(frames, b, count)
    ensures forall b: nat :: b + count <= i ==> !EligibleRun(frames, b, count)
  {
    forall b: nat | b + count <= i
      ensures !EligibleRun(frames, b, count)
    {
      if b + count == i {
        assert b <= start - 1 < b + count;
      }
    }
  }
}

=== FILE: gdt.dfy ===
/** 64-bit segment descriptors as laid out in the Intel SDM, Volume 3A,
    section 3.4.5 (code and data segments) and section 7.2.3 (the TSS
    descriptor): the flag constants, the flat default segments and
    `tss_segment`. */
module SegmentDescriptor {
  const ACCESSED: bv64 := 1 << 40
  const WRITABLE: bv64 := 1 << 41
  const CONFORMING: bv64 := 1 << 42
  const EXECUTABLE: bv64 := 1 << 43
  const USER_SEGMENT: bv64 := 1 << 44
  const DPL_RING_1: bv64 := 1 << 45
  const DPL_RING_2: bv64 := 2 << 45
  const DPL_RING_3: bv64 := 3 << 45
  const PRESENT: bv64 := 1 << 47
  const AVAILABLE: bv64 := 1 << 52
  const LONG_MODE: bv64 := 1 << 53
  const DEFAULT_SIZE: bv64 := 1 << 54
  const GRANULARITY: bv64 := 1 << 55
  const LIMIT_0_15: bv64 := 0xFFFF
  const LIMIT_16_19: bv64 := 0xF << 48
  const BASE_0_23: bv64 := 0xFF_FFFF << 16
  const BASE_24_31: bv64 := 0xFF << 56

  /** The bits every flat default segment sets. */
  const COMMON: bv64 := USER_SEGMENT | PRESENT | WRITABLE | ACCESSED | LIMIT_0_15 | LIMIT_16_19 | GRANULARITY
  const KERNEL_DATA: bv64 := COMMON | DEFAULT_SIZE
  const KERNEL_CODE32: bv64 := COMMON | EXECUTABLE | DEFAULT_SIZE
  const KERNEL_CODE64: bv64 := COMMON | EXECUTABLE | LONG_MODE
  const USER_DATA: bv64 := KERNEL_DATA | DPL_RING_3
  const USER_CODE32: bv64 := KERNEL_CODE32 | DPL_RING_3
  const USER_CODE64: bv64 := KERNEL_CODE64 | DPL_RING_3

  // ----- Fields of a descriptor's low word ------------------------------------

  /** The 20-bit segment limit: bits 0..16 and 48..52. */
  function Limit(low: bv64): (r: bv64)
    ensures r < 0x10_0000
  {
    (low & 0xFFFF) | ((low >> 32) & 0xF_0000)
  }

  /** The four-bit type field, bits 40..44. */
  function SegmentType(low: bv64): (r: bv64)
    ensures r < 0x10
  {
    (low >> 40) & 0xF
  }

  /** The descriptor privilege level, bits 45..47. */
  function Dpl(low: bv64): (r: bv64)
    ensures r < 4
  {
    (low >> 45) & 0x3
  }

  /** The segment-present flag, bit 47. */
  predicate Present(low: bv64)
  {
    low & 0x8000_0000_0000 != 0
  }

  /** The base address of a system descriptor: bits 16..40 and 56..64 of
      the low word, and the high word's bits 0..32 above them. */
  function Base(low: bv64, high: bv64): bv64
  {
    ((low >> 16) & 0xFF_FFFF) | ((low >> 32) & 0xFF00_0000) | (high << 32)
  }

  // ----- Descriptors ----------------------------------------------------------

  datatype Descriptor = UserSegment(bits: bv64) | SystemSegment(low: bv64, high: bv64)

  /** The kernel and user constants differ exactly in the privilege level;
      the 64-bit code segments are long-mode and not 32-bit, the others
      32-bit and not long-mode; only the code segments are executable. */
  lemma DefaultSegmentFlags()
    ensures KERNEL_CODE64 & (EXECUTABLE | LONG_MODE) == EXECUTABLE | LONG_MODE
    ensures KERNEL_CODE64 & DEFAULT_SIZE == 0
    ensures KERNEL_CODE32 & (EXECUTABLE | DEFAULT_SIZE) == EXECUTABLE | DEFAULT_SIZE
    ensures KERNEL_CODE32 & LONG_MODE == 0
    ensures KERNEL_DATA & (EXECUTABLE | LONG_MODE) == 0
    ensures Dpl(KERNEL_DATA) == 0 && Dpl(KERNEL_CODE32) == 0 && Dpl(KERNEL_CODE64) == 0
    ensures Dpl(USER_DATA) == 3 && Dpl(USER_CODE32) == 3 && Dpl(USER_CODE64) == 3
    ensures USER_DATA & !DPL_RING_3 == KERNEL_DATA
    ensures USER_CODE64 & !DPL_RING_3 == KERNEL_CODE64
  {
  }

  /** The defaults are flat: present, base 0, the full 20-bit limit in
      4 KiB units, and accessed (type bit 0) and writable/readable (type
      bit 1) already set. */
  lemma DefaultSegmentsFlat(d: bv64)
    requires d in {KERNEL_DATA, KERNEL_CODE32, KERNEL_CODE64, USER_DATA, USER_CODE32, USER_CODE64}
    ensures Present(d) && Limit(d) == 0xF_FFFF && Base(d, 0) == 0 && d & GRANULARITY != 0
    ensures SegmentType(d) & 0x3 == 0x3
    ensures d & USER_SEGMENT != 0
  {
  }

  /** The descriptor words of the flat segments as numbers. */
  lemma DefaultSegmentValues()
    ensures KERNEL_CODE64 == 0x00AF_9B00_0000_FFFF
    ensures KERNEL_DATA == 0x00CF_9300_0000_FFFF
    ensures USER_CODE64 == 0x00AF_FB00_0000_FFFF
    ensures USER_DATA == 0x00CF_F300_0000_FFFF
  {
  }

  /** `kernel_code_segment`, `kernel_data_segment`, `user_data_segment`
      and `user_code_segment`: the flat constants as user segments. */
  function KernelCodeSegment(): (d: Descriptor)
    ensures d.UserSegment? && Dpl(d.bits) == 0 && d.bits & (EXECUTABLE | LONG_MODE) == EXECUTABLE | LONG_MODE
  {
    UserSegment(KERNEL_CODE64)
  }

  function KernelDataSegment(): (d: Descriptor)
    ensures d.UserSegment? && Dpl(d.bits) == 0 && d.bits & EXECUTABLE == 0
  {
    UserSegment(KERNEL_DATA)
  }

  function UserDataSegment(): (d: Descriptor)
    ensures d.UserSegment? && Dpl(d.bits) == 3 && d.bits & EXECUTABLE == 0
  {
    UserSegment(USER_DATA)
  }

  function UserCodeSegment(): (d: Descriptor)
    ensures d.UserSegment? && Dpl(d.bits) == 3 && d.bits & (EXECUTABLE | LONG_MODE) == EXECUTABLE | LONG_MODE
  {
    UserSegment(USER_CODE64)
  }

  // ----- The TSS descriptor ---------------------------------------------------

  /** The size of the 64-bit task-state segment, in bytes (Intel SDM,
      Volume 3A, section 7.7). */
  const TSS_SIZE: bv64 := 104

  /** Type 0b1001: an available 64-bit TSS. */
  const TSS_AVAILABLE: bv64 := 0x9

  /** `tss_segment`: start from PRESENT, then write the base's bits 0..24
      at 16..40, its bits 24..32 at 56..64, the limit `size - 1` at 0..16
      and the type at 40..44; the high word holds the base's bits 32..64. */
  function TssSegment(ptr: bv64): (d: Descriptor)
    ensures d.SystemSegment?
  {
    var low0 := PRESENT;
    var low1 := (low0 & !BASE_0_23) | ((ptr & 0xFF_FFFF) << 16);
    var low2 := (low1 & !BASE_24_31) | (((ptr >> 24) & 0xFF) << 56);
    var low3 := (low2 & !0xFFFF) | (TSS_SIZE - 1);
    var low4 := (low3 & !(0xF << 40)) | (TSS_AVAILABLE << 40);
    var high := (0 & !0xFFFF_FFFF) | ((ptr >> 32) & 0xFFFF_FFFF);
    SystemSegment(low4, high)
  }

  /** The TSS descriptor's low word, field by field. */
  function TssLow(ptr: bv64): (low: bv64)
    ensures low == TssSegment(ptr).low
  {
    0x8000_0000_0000 | ((ptr & 0xFF_FFFF) << 16) | (((ptr >> 24) & 0xFF) << 56) | 103 | (0x9 << 40)
  }

  /** The TSS descriptor is present at privilege level 0, of type
      "available 64-bit TSS", with limit `size - 1`, and its base is the
      TSS address. */
  lemma TssSegmentFields(ptr: bv64)
    ensures var d := TssSegment(ptr);
      Present(d.low) && Dpl(d.low) == 0 && SegmentType(d.low) == TSS_AVAILABLE &&
      Limit(d.low) == TSS_SIZE - 1 && d.low & USER_SEGMENT == 0
    ensures Base(TssSegment(ptr).low, TssSegment(ptr).high) == ptr
  {
    TssLowFields(ptr);
    TssBase(ptr);
  }

  lemma TssLowFields(ptr: bv64)
    ensures var low := TssLow(ptr);
      Present(low) && Dpl(low) == 0 && SegmentType(low) == TSS_AVAILABLE &&
      Limit(low) == TSS_SIZE - 1 && low & USER_SEGMENT == 0
  {
  }

  lemma TssBase(ptr: bv64)
    ensures Base(TssLow(ptr), TssSegment(ptr).high) == ptr
  {
  }
}

/** The kernel's static GDT, its segment selectors and privilege levels
    (Intel SDM, Volume 3A, section 3.4.2). */
module KernelGdt {
  import opened Wrappers
  import opened Words
  import SD = SegmentDescriptor

  const KCODE_SEGMENT: bv64 := SD.COMMON | SD.EXECUTABLE | SD.LONG_MODE
  const KDATA_SEGMENT: bv64 := SD.COMMON | SD.DEFAULT_SIZE
  const UDATA_SEGMENT: bv64 := SD.COMMON | SD.DEFAULT_SIZE | SD.DPL_RING_3
  const UCODE_SEGMENT: bv64 := SD.COMMON | SD.EXECUTABLE | SD.LONG_MODE | SD.DPL_RING_3

  /** The static table: the null descriptor, kernel code, kernel data, user
      data, user code. The order is the one `syscall`/`sysret` expect. */
  const GDT: seq<bv64> := [0, KCODE_SEGMENT, KDATA_SEGMENT, UDATA_SEGMENT, UCODE_SEGMENT]

  /** The static descriptors are the flat 64-bit defaults. */
  lemma StaticDescriptors()
    ensures GDT[0] == 0
    ensures GDT[1] == SD.KERNEL_CODE64 && GDT[2] == SD.KERNEL_DATA
    ensures GDT[3] == SD.USER_DATA && GDT[4] == SD.USER_CODE64
  {
  }

  /** The limit `load` gives `lgdt`: the table's size in bytes, less one. */
  function GdtLimit(): (limit: u16)
    ensures limit + 1 == |GDT| * 8
    ensures limit == 39
  {
    |GDT| * 8 - 1
  }

  datatype PrivilegeLevel = Ring0 | Ring1 | Ring2 | Ring3

  /** The level's discriminant. */
  function LevelValue(p: PrivilegeLevel): (v: u16)
    ensures v < 4
  {
    match p
    case Ring0 => 0
    case Ring1 => 1
    case Ring2 => 2
    case Ring3 => 3
  }

  /** `PrivilegeLevel::from_u16`; a value above 3 panics. */
  function LevelFromU16(v: u16): (p: PrivilegeLevel)
    requires v <= 3
    ensures LevelValue(p) == v
  {
    if v == 0 then Ring0 else if v == 1 then Ring1 else if v == 2 then Ring2 else Ring3
  }

  /** The discriminant identifies the level. */
  lemma LevelRoundTrip(p: PrivilegeLevel)
    ensures LevelFromU16(LevelValue(p)) == p
  {
  }

  /** `SegmentSelector::gdt_index`: the bits above the RPL and TI bits. */
  function GdtIndex(selector: u16): (index: u16)
    ensures index * 8 <= selector < index * 8 + 8
  {
    selector / 8
  }

  /** `SegmentSelector::rpl`: bits 0..2. */
  function Rpl(selector: u16): (p: PrivilegeLevel)
    ensures LevelValue(p) == selector % 4
  {
    LevelFromU16(selector % 4)
  }

  /** `SegmentSelector::new`: only the four slots of the static table, each
      with the privilege level of its descriptor. */
  function NewSelector(index: u16, rpl: PrivilegeLevel): (r: Option<u16>)
    ensures r.Some? <==> (index in {1, 2} && rpl == Ring0) || (index in {3, 4} && rpl == Ring3)
    ensures r.Some? ==> GdtIndex(r.value) == index && Rpl(r.value) == rpl
    ensures r.Some? ==> r.value % 8 < 4
  {
    if ((index == 1 || index == 2) && rpl == Ring0) || ((index == 3 || index == 4) && rpl == Ring3) then
      DivModUnique(index * 8 + LevelValue(rpl), 8, index, LevelValue(rpl));
      Some(index * 8 + LevelValue(rpl))
    else
      None
  }

  const KCODE_SELECTOR: u16 := NewSelector(1, Ring0).value
  const KDATA_SELECTOR: u16 := NewSelector(2, Ring0).value
  const UDATA_SELECTOR: u16 := NewSelector(3, Ring3).value
  const UCODE_SELECTOR: u16 := NewSelector(4, Ring3).value

  /** Every selector `new` accepts names a descriptor inside the table's
      limit whose privilege level is the selector's RPL; the code selectors
      name executable descriptors and the data selectors do not. */
  lemma SelectorsMatchDescriptors(index: u16, rpl: PrivilegeLevel)
    requires NewSelector(index, rpl).Some?
    ensures var s := NewSelector(index, rpl).value;
      0 < GdtIndex(s) < |GDT| && GdtIndex(s) * 8 + 7 <= GdtLimit() &&
      SD.Dpl(GDT[GdtIndex(s)]) as int == LevelValue(Rpl(s)) &&
      (GDT[GdtIndex(s)] & SD.EXECUTABLE != 0 <==> index in {1, 4})
  {
  }

  /** The selector constants as numbers. */
  lemma SelectorValues()
    ensures KCODE_SELECTOR == 8 && KDATA_SELECTOR == 16
    ensures UDATA_SELECTOR == 27 && UCODE_SELECTOR == 35
  {
  }
}

/** The kernel library's growable GDT: `GlobalDescriptorTable` with eight
    slots and `next_free`, its `Entry` kinds and `Entry::tss`. */
module LibGdt {
  import opened Words
  import SD = SegmentDescriptor

  /** Both limit fields. */
  const MAX_LIMIT: bv64 := SD.LIMIT_16_19 | SD.LIMIT_0_15

  /** The library's common bits: those of the flat defaults without
      ACCESSED. */
  const COMMON: bv64 := SD.USER_SEGMENT | SD.PRESENT | SD.WRITABLE | SD.GRANULARITY | MAX_LIMIT
  const KERNEL_CODE: bv64 := COMMON | SD.EXECUTABLE | SD.LONG_MODE
  const KERNEL_DATA: bv64 := COMMON | SD.DEFAULT_SIZE

  /** The library's kernel segments are the flat defaults with the accessed
      bit clear. */
  lemma LibrarySegments()
    ensures KERNEL_CODE == SD.KERNEL_CODE64 & !SD.ACCESSED
    ensures KERNEL_DATA == SD.KERNEL_DATA & !SD.ACCESSED
  {
  }

  datatype Entry = User(bits: bv64) | System(low: bv64, high: bv64)

  /** `Entry::tss` as written: the low 32 bits of the TSS address shifted
      up by 16 as one field, so the address's bits 24..32 land on bits
      40..48, over the type, DPL and present bits. */
  function TssEntryAsWritten(ptr: bv64): (e: Entry)
    ensures e.System?
  {
    var base := (ptr & 0xFFFF_FFFF) << 16;
    var limit := SD.TSS_SIZE - 1;
    var ty: bv64 := 0x9 << 40;
    var low := SD.PRESENT | base | limit | ty;
    var high := (ptr & 0xFFFF_FFFF_0000_0000) >> 32;
    System(low, high)
  }

  /** `Entry::tss` with the descriptor laid out as the architecture defines
      it, the layout `tss_segment` uses. */
  function TssEntry(ptr: bv64): (e: Entry)
    ensures e.System?
    ensures SD.Base(e.low, e.high) == ptr && SD.SegmentType(e.low) == SD.TSS_AVAILABLE
    ensures SD.Present(e.low) && SD.Limit(e.low) == SD.TSS_SIZE - 1
  {
    SD.TssSegmentFields(ptr);
    var d := SD.TssSegment(ptr);
    System(d.low, d.high)
  }

  /** A TSS at 0x0200_0000 gets the as-written descriptor type 0b1011, a
      busy TSS, and a base that has lost the address's bit 25. */
  lemma TssEntryAsWrittenCorrupts()
    ensures var e := TssEntryAsWritten(0x0200_0000);
      SD.SegmentType(e.low) == 0xB && SD.Base(e.low, e.high) == 0
    ensures var e := TssEntry(0x0200_0000);
      SD.SegmentType(e.low) == 0x9 && SD.Base(e.low, e.high) == 0x0200_0000
  {
  }

  /** The number of table slots an entry takes. */
  function Slots(e: Entry): nat
  {
    if e.User? then 1 else 2
  }

  /** `GlobalDescriptorTable { table: [u64; 8], next_free }`. */
  datatype Gdt = Gdt(table: seq<bv64>, nextFree: nat)
  {
    /** Eight slots, slot 0 the null descriptor, and `next_free` past it. */
    predicate Valid()
    {
      |table| == 8 && 1 <= nextFree <= 8 && table[0] == 0
    }
  }

  /** `GlobalDescriptorTable::new`. */
  function NewGdt(): (g: Gdt)
    ensures g.Valid() && g.nextFree == 1
    ensures forall i :: 0 <= i < |g.table| ==> g.table[i] == 0
  {
    Gdt(seq(8, _ => 0), 1)
  }

  /** `push`: write the next free slot and return its index; a full table
      panics. */
  function Push(g: Gdt, bits: bv64): (r: (Gdt, nat))
    requires g.Valid() && g.nextFree < 8
    ensures r.0.Valid() && r.1 == g.nextFree && r.0.nextFree == g.nextFree + 1
    ensures r.0.table == g.table[g.nextFree := bits]
  {
    (Gdt(g.table[g.nextFree := bits], g.nextFree + 1), g.nextFree)
  }

  /** `add_entry`: push the entry's words in order and return the byte
      offset of its first slot, the selector value. */
  function AddEntry(g: Gdt, e: Entry): (r: (Gdt, u16))
    requires g.Valid() && g.nextFree + Slots(e) <= 8
    ensures r.0.Valid() && r.0.nextFree == g.nextFree + Slots(e)
    ensures r.1 == g.nextFree * 8
    ensures e.User? ==> r.0.table == g.table[g.nextFree := e.bits]
    ensures e.System? ==> r.0.table == g.table[g.nextFree := e.low][g.nextFree + 1 := e.high]
  {
    match e
    case User(bits) =>
      var (g1, index) := Push(g, bits);
      (g1, index * 8)
    case System(low, high) =>
      var (g1, index) := Push(g, low);
      var (g2, _) := Push(g1, high);
      (g2, index * 8)
  }

  /** The limit of `pointer()`: the bytes in use, less one. */
  function PointerLimit(g: Gdt): (limit: u16)
    requires g.Valid()
    ensures forall i :: 0 <= i < g.nextFree ==> i * 8 + 7 <= limit
    ensures limit + 1 == g.nextFree * 8
  {
    g.nextFree * 8 - 1
  }

  /** Adding entries never touches slot 0 or a slot already in use. */
  lemma AddEntryKeepsEarlierSlots(g: Gdt, e: Entry, i: nat)
    requires g.Valid() && g.nextFree + Slots(e) <= 8 && i < g.nextFree
    ensures AddEntry(g, e).0.table[i] == g.table[i]
  {
  }

  /** The library's table: kernel code, kernel data and the TSS, whose
      selectors are 8, 16 and 24 and which fill five slots. */
  function BuildGdt(tss: bv64): (r: (Gdt, u16, u16, u16))
    ensures r.0.Valid() && r.0.nextFree == 5 && PointerLimit(r.0) == 39
    ensures r.1 == 8 && r.2 == 16 && r.3 == 24
    ensures r.0.table[1] == KERNEL_CODE && r.0.table[2] == KERNEL_DATA
    ensures r.0.table[3] == TssEntry(tss).low && r.0.table[4] == TssEntry(tss).high
  {
    var g := NewGdt();
    var (g1, code) := AddEntry(g, User(KERNEL_CODE));
    var (g2, data) := AddEntry(g1, User(KERNEL_DATA));
    var (g3, t) := AddEntry(g2, TssEntry(tss));
    (g3, code, data, t)
  }
}

=== FILE: idt.dfy ===
/** One 16-byte IDT gate descriptor (Intel SDM, Volume 3A, section 6.14.1):
    the handler address split over three fields, the code selector, and the
    option bits (IST index, gate type, DPL, present). */
module IdtEntry {
  import opened Words
  import Addr
  import KernelGdt

  /** `StackTableIndex`: the kernel's four interrupt stacks. */
  datatype StackTableIndex = Debug | NonMaskableInterrupt | DoubleFault | MachineCheck

  /** The index's discriminant. */
  function StackValue(i: StackTableIndex): (v: bv16)
    ensures v < 4
  {
    match i
    case Debug => 0
    case NonMaskableInterrupt => 1
    case DoubleFault => 2
    case MachineCheck => 3
  }

  /** `Options`: the code selector and the 16 option bits. */
  datatype Options = Options(cs: u16, bits: bv16)

  /** The gate is present: bit 15. */
  predicate IsPresent(o: Options)
  {
    o.bits & 0x8000 != 0
  }

  /** The gate type, bits 8..12: 0xE an interrupt gate, 0xF a trap gate. */
  function GateType(o: Options): (t: bv16)
    ensures t < 0x10
  {
    (o.bits >> 8) & 0xF
  }

  /** An interrupt gate clears IF on entry; bit 8 set makes it a trap gate. */
  predicate DisablesInterrupts(o: Options)
  {
    o.bits & 0x100 == 0
  }

  /** The descriptor privilege level, bits 13..15. */
  function Dpl(o: Options): (d: bv16)
    ensures d < 4
  {
    (o.bits >> 13) & 0x3
  }

  /** The hardware IST index, bits 0..3; 0 keeps the current stack. */
  function Ist(o: Options): (i: bv16)
    ensures i < 8
  {
    o.bits & 0x7
  }

  /** `Options::minimal`: a null selector and the bits of a 64-bit interrupt
      gate, not present, at privilege level 0, on the current stack. */
  function Minimal(): (o: Options)
    ensures o.cs == 0 && GateType(o) == 0xE && DisablesInterrupts(o)
    ensures !IsPresent(o) && Dpl(o) == 0 && Ist(o) == 0
  {
    Options(0, 0x0E00)
  }

  /** `set_code_selector`. */
  function SetCodeSelector(o: Options, cs: u16): (r: Options)
    ensures r.cs == cs && r.bits == o.bits
  {
    o.(cs := cs)
  }

  /** `set_present`: bit 15, nothing else. */
  function SetPresent(o: Options, present: bool): (r: Options)
    ensures r.cs == o.cs && r.bits == PresentBits(o.bits, present)
    ensures IsPresent(r) == present
  {
    Options(o.cs, PresentBits(o.bits, present))
  }

  /** Bit 15 set to `present`. */
  function PresentBits(b: bv16, present: bool): (r: bv16)
    ensures (r & 0x8000 != 0) == present
    ensures r & 0x7FFF == b & 0x7FFF
  {
    (b & 0x7FFF) | (if present then 0x8000 else 0)
  }

  /** `set_disable_interrupts`: bit 8 is the negation of `disable`, so an
      interrupt gate (0xE) stays one exactly when interrupts are to be
      disabled and becomes a trap gate (0xF) otherwise. */
  function SetDisableInterrupts(o: Options, disable: bool): (r: Options)
    ensures r.cs == o.cs && r.bits == InterruptBits(o.bits, disable)
    ensures DisablesInterrupts(r) == disable
  {
    Options(o.cs, InterruptBits(o.bits, disable))
  }

  /** Bit 8 set to `!disable`. */
  function InterruptBits(b: bv16, disable: bool): (r: bv16)
    ensures (r & 0x100 == 0) == disable
    ensures r & 0xFEFF == b & 0xFEFF
    ensures (b >> 8) & 0xF == 0xE ==> (r >> 8) & 0xF == (if disable then 0xE else 0xF)
  {
    (b & 0xFEFF) | (if disable then 0 else 0x0100)
  }

  /** `set_privilege_level`: bits 13..15, nothing else. */
  function SetPrivilegeLevel(o: Options, dpl: KernelGdt.PrivilegeLevel): (r: Options)
    ensures r.cs == o.cs && r.bits == DplBits(o.bits, KernelGdt.LevelValue(dpl) as bv16)
    ensures Dpl(r) as int == KernelGdt.LevelValue(dpl)
  {
    Options(o.cs, DplBits(o.bits, KernelGdt.LevelValue(dpl) as bv16))
  }

  /** Bits 13..15 set to `dpl`. */
  function DplBits(b: bv16, dpl: bv16): (r: bv16)
    requires dpl < 4
    ensures (r >> 13) & 0x3 == dpl
    ensures r & 0x9FFF == b & 0x9FFF
  {
    (b & 0x9FFF) | (dpl << 13)
  }

  /** `set_stack_index`: bits 0..3 hold the index plus one, since the
      hardware counts IST stacks from 1. */
  function SetStackIndex(o: Options, index: StackTableIndex): (r: Options)
    ensures r.cs == o.cs && r.bits == StackBits(o.bits, StackValue(index) + 1)
    ensures Ist(r) == StackValue(index) + 1
  {
    Options(o.cs, StackBits(o.bits, StackValue(index) + 1))
  }

  /** Bits 0..3 set to `ist`. */
  function StackBits(b: bv16, ist: bv16): (r: bv16)
    requires ist < 8
    ensures r & 0x7 == ist
    ensures r & 0xFFF8 == b & 0xFFF8
  {
    (b & 0xFFF8) | ist
  }

  /** The stack and privilege-level setters touch disjoint bits: setting
      both in either order gives the same bits. */
  lemma SettersCommute(b: bv16, ist: bv16, dpl: bv16)
    requires ist < 8 && dpl < 4
    ensures StackBits(DplBits(b, dpl), ist) == DplBits(StackBits(b, ist), dpl)
  {
  }

  /** `Entry<F>`: the handler address in `pointer_low`, `pointer_middle` and
      `pointer_high`, with the options between them. */
  datatype Entry = Entry(low: u16, options: Options, middle: u16, high: u32, reserved: u32)

  /** `handler_addr`: the three address fields joined and made canonical. */
  function HandlerAddr(e: Entry): (a: u64)
    ensures Addr.VirtIsCanonical(a)
  {
    Addr.VirtNewTruncate(e.high * 0x1_0000_0000 + e.middle * 0x1_0000 + e.low)
  }

  /** `Entry::missing`: no handler and not present. */
  function Missing(): (e: Entry)
    ensures HandlerAddr(e) == 0 && e.options == Minimal() && !IsPresent(e.options)
  {
    Entry(0, Minimal(), 0, 0, 0)
  }

  /** `set_handler_addr`: store the address's bits 0..16, 16..32 and 32..64,
      and reset the options to a present interrupt gate in the kernel code
      segment. */
  function SetHandlerAddr(e: Entry, a: u64): (r: Entry)
    requires Addr.VirtIsCanonical(a)
    ensures HandlerAddr(r) == a && r.reserved == e.reserved
    ensures r.options == SetPresent(SetCodeSelector(Minimal(), KernelGdt.KCODE_SELECTOR), true)
  {
    var low := a % 0x1_0000;
    var middle := (a / 0x1_0000) % 0x1_0000;
    var high := a / 0x1_0000_0000;
    SplitJoins(a);
    var options := SetPresent(SetCodeSelector(Minimal(), KernelGdt.KCODE_SELECTOR), true);
    Entry(low, options, middle, high, e.reserved)
  }

  /** The three fields join back to the address, and a canonical address
      survives `new_truncate`. */
  lemma SplitJoins(a: u64)
    requires Addr.VirtIsCanonical(a)
    ensures (a / 0x1_0000_0000) * 0x1_0000_0000 + ((a / 0x1_0000) % 0x1_0000) * 0x1_0000 + a % 0x1_0000 == a
    ensures Addr.VirtNewTruncate(a) == a
  {
  }

  /** `Entry::new`: a present 64-bit interrupt gate for the handler, in the
      kernel code segment, callable from ring 0 only, on the current
      stack. */
  function NewEntry(handler: u64): (e: Entry)
    requires Addr.VirtIsCanonical(handler)
    ensures HandlerAddr(e) == handler && e.options.cs == KernelGdt.KCODE_SELECTOR
    ensures IsPresent(e.options) && GateType(e.options) == 0xE && DisablesInterrupts(e.options)
    ensures Dpl(e.options) == 0 && Ist(e.options) == 0
  {
    SetHandlerAddr(Missing(), handler)
  }

  /** `Entry::new_with_stack`: as `new`, switching to the given IST stack. */
  function NewWithStack(handler: u64, index: StackTableIndex): (e: Entry)
    requires Addr.VirtIsCanonical(handler)
    ensures HandlerAddr(e) == handler && e.options.cs == KernelGdt.KCODE_SELECTOR
    ensures IsPresent(e.options) && GateType(e.options) == 0xE && Dpl(e.options) == 0
    ensures Ist(e.options) == StackValue(index) + 1
  {
    var e := NewEntry(handler);
    e.(options := SetStackIndex(e.options, index))
  }

  /** `Entry::new_with_privilege`: as `new`, callable from `dpl`. */
  function NewWithPrivilege(handler: u64, dpl: KernelGdt.PrivilegeLevel): (e: Entry)
    requires Addr.VirtIsCanonical(handler)
    ensures HandlerAddr(e) == handler && e.options.cs == KernelGdt.KCODE_SELECTOR
    ensures IsPresent(e.options) && GateType(e.options) == 0xE && Ist(e.options) == 0
    ensures Dpl(e.options) as int == KernelGdt.LevelValue(dpl)
  {
    var e := NewEntry(handler);
    e.(options := SetPrivilegeLevel(e.options, dpl))
  }
}

/** The selector error code pushed by #TS, #NP, #SS and #GP (Intel SDM,
    Volume 3A, section 6.13). */
module IdtErrorCodes {
  import opened Wrappers

  datatype DescriptorTableKind = Gdt | Idt | Ldt

  /** `SelectorErrorCode(u64)`. */
  datatype SelectorErrorCode = SelectorErrorCode(raw: bv64)

  /** `SelectorErrorCode::new`: rejects a value with any of bits 16..64
      set. */
  function NewErrorCode(flags: bv64): (r: Option<SelectorErrorCode>)
    ensures r.Some? <==> flags < 0x1_0000
    ensures r.Some? ==> r.value.raw == flags
  {
    if flags & 0xFFFF_FFFF_FFFF_0000 == 0 then Some(SelectorErrorCode(flags)) else None
  }

  /** `is_external`: bit 0. */
  predicate IsExternal(c: SelectorErrorCode)
  {
    c.raw & 0x1 != 0
  }

  /** `table_kind`: bits 1..3; bit 1 means the IDT whatever bit 2 says,
      otherwise bit 2 chooses the LDT over the GDT. */
  function TableKind(c: SelectorErrorCode): (k: DescriptorTableKind)
    ensures k == Idt <==> c.raw & 0x2 != 0
    ensures k == Ldt <==> c.raw & 0x6 == 0x4
  {
    var bits := (c.raw >> 1) & 0x3;
    if bits == 0 then Gdt else if bits == 2 then Ldt else Idt
  }

  /** `table_index`: bits 3..16. */
  function TableIndex(c: SelectorErrorCode): (index: bv64)
    ensures index < 0x2000
  {
    (c.raw >> 3) & 0x1FFF
  }

  /** `is_null`: the whole code is zero. */
  predicate IsNull(c: SelectorErrorCode)
  {
    c.raw == 0
  }

  /** The error code the processor pushes: EXT in bit 0, IDT in bit 1, TI
      (the LDT) in bit 2 and the selector index above them. */
  function Encode(external: bool, kind: DescriptorTableKind, index: bv64): (raw: bv64)
    requires index < 0x2000
    ensures raw < 0x1_0000
  {
    (if external then 0x1 else 0x0)
      | (match kind case Gdt => 0x0 case Idt => 0x2 case Ldt => 0x4)
      | (index << 3)
  }

  /** Every pushed error code is accepted by `new`, and the accessors read
      back what was encoded; the code is null exactly for an internal GDT
      reference to index 0. */
  lemma DecodeEncode(external: bool, kind: DescriptorTableKind, index: bv64)
    requires index < 0x2000
    ensures var r := NewErrorCode(Encode(external, kind, index));
      r.Some? && IsExternal(r.value) == external && TableKind(r.value) == kind &&
      TableIndex(r.value) == index
    ensures IsNull(SelectorErrorCode(Encode(external, kind, index))) <==> !external && kind == Gdt && index == 0
  {
  }

  /** Any code `new` accepts is the encoding of its fields, up to the
      don't-care TI bit of an IDT reference. */
  lemma EncodeDecode(c: SelectorErrorCode)
    requires c.raw < 0x1_0000
    ensures Encode(IsExternal(c), TableKind(c), TableIndex(c)) == c.raw & 0xFFFB || TableKind(c) != Idt
    ensures TableKind(c) != Idt ==> Encode(IsExternal(c), TableKind(c), TableIndex(c)) == c.raw
  {
  }
}

/** The kernel's IDT: 32 exception vectors, 224 interrupt vectors indexed
    from 32, and the table `load` installs. */
module Idt {
  import opened Wrappers
  import opened Words
  import Addr
  import KernelGdt
  import opened IdtEntry

  /** `InterruptDescriptorTable`: the exception entries (the named fields)
      and `interrupts`. */
  datatype Table = Table(exceptions: seq<Entry>, interrupts: seq<Entry>)
  {
    predicate Valid()
    {
      |exceptions| == 32 && |interrupts| == 224
    }
  }

  /** The entry the processor reads for vector `v`. */
  function Vector(t: Table, v: nat): Entry
    requires t.Valid() && v < 256
  {
    if v < 32 then t.exceptions[v] else t.interrupts[v - 32]
  }

  /** `Index<u8>`: interrupt vectors only; an exception vector panics and
      must be reached through its named field. */
  function Index(t: Table, i: nat): (e: Entry)
    requires t.Valid() && 32 <= i < 256
    ensures e == Vector(t, i)
  {
    t.interrupts[i - 32]
  }

  /** `IndexMut<u8>`: replace the entry of interrupt vector `i`. */
  function IndexMut(t: Table, i: nat, e: Entry): (r: Table)
    requires t.Valid() && 32 <= i < 256
    ensures r.Valid() && Vector(r, i) == e
    ensures forall v :: 0 <= v < 256 && v != i ==> Vector(r, v) == Vector(t, v)
  {
    t.(interrupts := t.interrupts[i - 32 := e])
  }

  /** `Index` and `IndexMut` select the same slot. */
  lemma IndexMutThenIndex(t: Table, i: nat, e: Entry)
    requires t.Valid() && 32 <= i < 256
    ensures Index(IndexMut(t, i, e), i) == e
  {
  }

  // ----- The table `load` installs --------------------------------------------

  /** What `load` puts at a vector: no handler, or the stub for some vector
      number with a privilege level and an optional IST stack. */
  datatype Gate = NoGate | Gate(stub: nat, dpl: KernelGdt.PrivilegeLevel, stack: Option<StackTableIndex>)

  /** The exception vectors: a stub for each vector the kernel handles
      (0..=8, 10..=14, 16..=20), with the debug, NMI, double-fault and
      machine-check vectors on their own stacks. */
  function ExceptionGate(v: nat): (g: Gate)
    requires v < 32
    ensures g.Gate? ==> g.stub == v && g.dpl == KernelGdt.Ring0
    ensures g.Gate? <==> v <= 8 || 10 <= v <= 14 || 16 <= v <= 20
  {
    if v == 1 then Gate(v, KernelGdt.Ring0, Some(Debug))
    else if v == 2 then Gate(v, KernelGdt.Ring0, Some(NonMaskableInterrupt))
    else if v == 8 then Gate(v, KernelGdt.Ring0, Some(DoubleFault))
    else if v == 18 then Gate(v, KernelGdt.Ring0, Some(MachineCheck))
    else if v <= 8 || 10 <= v <= 14 || 16 <= v <= 20 then Gate(v, KernelGdt.Ring0, None)
    else NoGate
  }

  /** The stub `load` installs at interrupt vector `v`, as written: the
      list starts with `irq_128`, then `irq_32`…`irq_37`, `irq_39`,
      `irq_38`, `irq_40`…`irq_127` and `irq_129`…`irq_255`. */
  function InterruptStubAsWritten(v: nat): (stub: nat)
    requires 32 <= v < 256
    ensures 32 <= stub < 256
  {
    if v == 32 then 128
    else if v <= 38 then v - 1
    else if v == 39 then 39
    else if v == 40 then 38
    else if v <= 128 then v - 1
    else v
  }

  /** The interrupt gates as written: the ring-3 entry is the first one,
      vector 32. */
  function InterruptGateAsWritten(v: nat): (g: Gate)
    requires 32 <= v < 256
    ensures g.Gate? && g.stub == InterruptStubAsWritten(v) && g.stack.None?
    ensures g.dpl == (if v == 32 then KernelGdt.Ring3 else KernelGdt.Ring0)
  {
    Gate(InterruptStubAsWritten(v), if v == 32 then KernelGdt.Ring3 else KernelGdt.Ring0, None)
  }

  /** Each interrupt vector dispatches its own stub, and the ring-3 entry is
      the one whose stub is `irq_128`. */
  function InterruptGate(v: nat): (g: Gate)
    requires 32 <= v < 256
    ensures g.Gate? && g.stub == v && g.stack.None?
    ensures g.dpl == (if v == 128 then KernelGdt.Ring3 else KernelGdt.Ring0)
  {
    Gate(v, if v == 128 then KernelGdt.Ring3 else KernelGdt.Ring0, None)
  }

  /** As written, vector 32 reports itself as 128 and is open to ring 3,
      the APIC timer vector 0x30 reports 0x2F, and vector 128 reports 127
      and is closed to ring 3; with each vector's own stub installed, every
      vector reports itself. */
  lemma InterruptStubsShifted()
    ensures InterruptGateAsWritten(32) == Gate(128, KernelGdt.Ring3, None)
    ensures InterruptStubAsWritten(0x30) == 0x2F
    ensures InterruptGateAsWritten(128) == Gate(127, KernelGdt.Ring0, None)
    ensures InterruptGate(32).stub == 32 && InterruptGate(0x30).stub == 0x30
    ensures InterruptGate(128) == Gate(128, KernelGdt.Ring3, None)
  {
  }

  /** The planned gate at any vector. */
  function PlannedGate(v: nat): (g: Gate)
    requires v < 256
  {
    if v < 32 then ExceptionGate(v) else InterruptGate(v)
  }

  /** The entry for a gate, given the address of each stub. */
  function GateEntry(g: Gate, stubs: seq<u64>): (e: Entry)
    requires |stubs| == 256 && forall s :: 0 <= s < 256 ==> Addr.VirtIsCanonical(stubs[s])
    requires g.Gate? ==> g.stub < 256
    ensures IsPresent(e.options) <==> g.Gate?
  {
    match g
    case NoGate => Missing()
    case Gate(stub, dpl, stack) =>
      match stack
      case Some(index) => NewWithStack(stubs[stub], index)
      case None => if dpl == KernelGdt.Ring0 then NewEntry(stubs[stub]) else NewWithPrivilege(stubs[stub], dpl)
  }

  /** `load`'s table, with each vector's own stub. */
  function Load(stubs: seq<u64>): (t: Table)
    requires |stubs| == 256 && forall s :: 0 <= s < 256 ==> Addr.VirtIsCanonical(stubs[s])
    ensures t.Valid()
    ensures forall v :: 0 <= v < 256 ==> Vector(t, v) == GateEntry(PlannedGate(v), stubs)
  {
    Table(seq(32, v requires 0 <= v < 32 => GateEntry(ExceptionGate(v), stubs)),
          seq(224, i requires 0 <= i < 224 => GateEntry(InterruptGate(i + 32), stubs)))
  }

  /** In the loaded table every present vector runs its own stub in the
      kernel code segment; exactly vector 128 is reachable from ring 3, and
      only the four designated exceptions switch stacks. */
  lemma LoadedTable(stubs: seq<u64>, v: nat)
    requires |stubs| == 256 && forall s :: 0 <= s < 256 ==> Addr.VirtIsCanonical(stubs[s])
    requires v < 256
    ensures var e := Vector(Load(stubs), v);
      IsPresent(e.options) ==> HandlerAddr(e) == stubs[v] && e.options.cs == KernelGdt.KCODE_SELECTOR
    ensures var e := Vector(Load(stubs), v);
      IsPresent(e.options) ==> (Dpl(e.options) == 3 <==> v == 128) && (Ist(e.options) != 0 <==> v in {1, 2, 8, 18})
    ensures v >= 32 ==> IsPresent(Vector(Load(stubs), v).options)
  {
  }
}

=== FILE: ioapic.dfy ===
/** The I/O APIC: the fields of a 64-bit redirection entry and the indirect
    register window through which the entry for one global interrupt is
    read and written (82093AA datasheet, section 3.2.4). Entries are
    64-bit bit-vectors; the window's 32-bit registers are held in the low
    half of 64-bit images so that no width conversion is needed. */
module IoApic {
  import opened Wrappers
  import opened Words
  import Apic

  /** An 8-bit value inside a 64-bit image. */
  type Byte = v: bv64 | v < 0x100

  /** A 32-bit register value inside a 64-bit image. */
  type Word = w: bv64 | w < 0x1_0000_0000

  const DESTINATION_MODE: bv64 := 0x800
  const AWAITING_DELIVERY: bv64 := 0x1000
  const POLARITY: bv64 := 0x2000
  const TRIGGER_MODE: bv64 := 0x8000
  const MASKED: bv64 := 0x1_0000

  // ----- vector and delivery mode ---------------------------------------------

  /** `get_vector`: bits 0..8. */
  function GetVector(e: bv64): (v: Byte)
    ensures v | (e & 0xFFFF_FFFF_FFFF_FF00) == e
  {
    e & 0xFF
  }

  /** `set_vector`: a vector below 32 panics; otherwise only bits 0..8
      change. */
  function SetVector(e: bv64, vector: Byte): (r: bv64)
    requires 32 <= vector
    ensures GetVector(r) == vector
    ensures r & 0xFFFF_FFFF_FFFF_FF00 == e & 0xFFFF_FFFF_FFFF_FF00
  {
    (e & 0xFFFF_FFFF_FFFF_FF00) | vector
  }

  /** The delivery-mode field, bits 8..11. */
  function DeliveryField(e: bv64): (r: bv64)
    ensures r < 8
  {
    (e >> 8) & 7
  }

  /** The mode a 3-bit code names (`TryFromPrimitive`); code 3 names none. */
  function DeliveryModeFrom(code: bv64): (r: Option<Apic.DeliveryMode>)
    requires code < 8
    ensures r.None? <==> code == 3
    ensures r.Some? ==> Apic.DeliveryCode(r.value) as bv64 == code
  {
    if code == 0 then Some(Apic.Fixed)
    else if code == 1 then Some(Apic.LowPriority)
    else if code == 2 then Some(Apic.Smi)
    else if code == 4 then Some(Apic.Nmi)
    else if code == 5 then Some(Apic.Init)
    else if code == 6 then Some(Apic.StartUp)
    else if code == 7 then Some(Apic.ExtInt)
    else None
  }

  /** The code of a delivery mode as a 64-bit image. */
  function DeliveryCode(m: Apic.DeliveryMode): (r: bv64)
    ensures r < 8 && r != 3 && DeliveryModeFrom(r) == Some(m)
  {
    match m
    case Fixed => 0 case LowPriority => 1 case Smi => 2 case Nmi => 4
    case Init => 5 case StartUp => 6 case ExtInt => 7
  }

  /** `get_delivery_mode`: the field must name a mode (the conversion's
      `expect` panics on code 3). */
  function GetDeliveryMode(e: bv64): (m: Apic.DeliveryMode)
    requires DeliveryField(e) != 3
    ensures DeliveryCode(m) == DeliveryField(e)
  {
    DeliveryModeFrom(DeliveryField(e)).value
  }

  /** `set_delivery_mode`: only bits 8..11 change. */
  function SetDeliveryMode(e: bv64, m: Apic.DeliveryMode): (r: bv64)
    ensures DeliveryField(r) == DeliveryCode(m)
    ensures r & 0xFFFF_FFFF_FFFF_F8FF == e & 0xFFFF_FFFF_FFFF_F8FF
  {
    (e & 0xFFFF_FFFF_FFFF_F8FF) | (DeliveryCode(m) << 8)
  }

  /** A delivery mode that was set reads back. */
  lemma SetThenGetDeliveryMode(e: bv64, m: Apic.DeliveryMode)
    ensures DeliveryField(SetDeliveryMode(e, m)) != 3
    ensures GetDeliveryMode(SetDeliveryMode(e, m)) == m
  {
  }

  // ----- single-bit fields ----------------------------------------------------

  /** `e` with the bits of `mask` set when `on` and cleared otherwise. */
  function WithBit(e: bv64, mask: bv64, on: bool): (r: bv64)
    ensures r & mask == if on then mask else 0
    ensures r & !mask == e & !mask
  {
    (e & !mask) | (if on then mask else 0)
  }

  datatype DestinationMode = Physical | Logical

  /** `set_destination_mode`: bit 11 is set for the logical mode, whose
      discriminant is 1. */
  function SetDestinationMode(e: bv64, m: DestinationMode): (r: bv64)
    ensures (r & DESTINATION_MODE != 0) <==> m.Logical?
    ensures r & !DESTINATION_MODE == e & !DESTINATION_MODE
  {
    WithBit(e, DESTINATION_MODE, m.Logical?)
  }

  /** `get_destination_mode` as written: a set bit 11 reads as physical. */
  function GetDestinationModeAsWritten(e: bv64): (m: DestinationMode)
    ensures m.Physical? <==> e & DESTINATION_MODE != 0
  {
    if e & DESTINATION_MODE != 0 then Physical else Logical
  }

  /** The reading the datasheet and the setter agree on: a set bit 11 means
      logical destination mode. */
  function GetDestinationMode(e: bv64): (m: DestinationMode)
    ensures m.Logical? <==> e & DESTINATION_MODE != 0
  {
    if e & DESTINATION_MODE != 0 then Logical else Physical
  }

  /** As written, setting either destination mode reads back the other. */
  lemma DestinationModeAsWrittenInverts(e: bv64, m: DestinationMode)
    ensures GetDestinationModeAsWritten(SetDestinationMode(e, m)) != m
    ensures GetDestinationMode(SetDestinationMode(e, m)) == m
  {
  }

  /** `is_awaiting_delivery`: the delivery-status bit. */
  predicate IsAwaitingDelivery(e: bv64) { e & AWAITING_DELIVERY != 0 }

  /** The pin polarity as ACPI describes it. */
  datatype Polarity = SameAsBus | ActiveHigh | ActiveLow

  /** `get_pin_polarity`: bit 13 set means active low. */
  function GetPolarity(e: bv64): (p: Polarity)
    ensures !p.SameAsBus?
    ensures p.ActiveLow? <==> e & POLARITY != 0
  {
    if e & POLARITY != 0 then ActiveLow else ActiveHigh
  }

  /** `set_pin_polarity`: bit 13 is set only for active low; the bus
      default is taken to be active high. */
  function SetPolarity(e: bv64, p: Polarity): (r: bv64)
    ensures (r & POLARITY != 0) <==> p.ActiveLow?
    ensures r & !POLARITY == e & !POLARITY
  {
    WithBit(e, POLARITY, p.ActiveLow?)
  }

  /** A polarity that was set reads back, with the bus default reading as
      active high. */
  lemma SetThenGetPolarity(e: bv64, p: Polarity)
    ensures GetPolarity(SetPolarity(e, p)) == if p.SameAsBus? then ActiveHigh else p
  {
  }

  /** The trigger mode as ACPI describes it. */
  datatype TriggerMode = SameAsBus | Edge | Level

  /** `set_trigger_mode`: bit 15 is set only for level triggering, as the
      datasheet defines it. */
  function SetTriggerMode(e: bv64, t: TriggerMode): (r: bv64)
    ensures (r & TRIGGER_MODE != 0) <==> t.Level?
    ensures r & !TRIGGER_MODE == e & !TRIGGER_MODE
  {
    WithBit(e, TRIGGER_MODE, t.Level?)
  }

  /** `get_trigger_mode` as written: a set bit 15 reads as edge. */
  function GetTriggerModeAsWritten(e: bv64): (t: TriggerMode)
    ensures !t.SameAsBus?
    ensures t.Edge? <==> e & TRIGGER_MODE != 0
  {
    if e & TRIGGER_MODE != 0 then Edge else Level
  }

  /** The reading the datasheet and the setter agree on: a set bit 15 means
      level triggered. */
  function GetTriggerMode(e: bv64): (t: TriggerMode)
    ensures !t.SameAsBus?
    ensures t.Level? <==> e & TRIGGER_MODE != 0
  {
    if e & TRIGGER_MODE != 0 then Level else Edge
  }

  /** A trigger mode that was set reads back through the corrected getter
      (the bus default reading as edge), while the getter as written reads
      every explicit mode back as the other one. */
  lemma TriggerModeRoundTrip(e: bv64, t: TriggerMode)
    ensures GetTriggerMode(SetTriggerMode(e, t)) == if t.SameAsBus? then Edge else t
    ensures !t.SameAsBus? ==> GetTriggerModeAsWritten(SetTriggerMode(e, t)) != t
  {
  }

  /** `get_masked`. */
  predicate IsMasked(e: bv64) { e & MASKED != 0 }

  /** `set_masked`: only bit 16 changes. */
  function SetMasked(e: bv64, masked: bool): (r: bv64)
    ensures IsMasked(r) == masked
    ensures r & !MASKED == e & !MASKED
  {
    WithBit(e, MASKED, masked)
  }

  /** `get_destination_id`: bits 56..64. */
  function GetDestinationId(e: bv64): (id: Byte)
    ensures id << 56 == e & 0xFF00_0000_0000_0000
  {
    e >> 56
  }

  /** `set_destination_id`: only bits 56..64 change. */
  function SetDestinationId(e: bv64, id: Byte): (r: bv64)
    ensures GetDestinationId(r) == id
    ensures r & 0x00FF_FFFF_FFFF_FFFF == e & 0x00FF_FFFF_FFFF_FFFF
  {
    (e & 0x00FF_FFFF_FFFF_FFFF) | (id << 56)
  }

  // ----- the register window --------------------------------------------------

  /** `IoApic { id, version, handled_irqs }`: the global interrupts
      `firstIrq..=lastIrq` are this I/O APIC's. */
  datatype IoApic = IoApic(id: u8, version: u8, firstIrq: u32, lastIrq: u32)

  /** `handled_irqs().contains(irq)`, and the register index `0x10 + 2·irq + 1`
      stays a `u32`. */
  predicate Handles(io: IoApic, irq: int)
  {
    io.firstIrq <= irq <= io.lastIrq && 0x10 + irq * 2 + 1 < 0x1_0000_0000
  }

  /** The register holding the low half of an interrupt's redirection
      entry; the high half is the next one. */
  function RedirectionRegister(irq: nat): (reg: nat)
    ensures reg >= 0x10 && reg % 2 == 0 && (reg - 0x10) / 2 == irq
  {
    0x10 + irq * 2
  }

  /** Different interrupts use disjoint register pairs. */
  lemma RedirectionRegistersDisjoint(i: nat, j: nat)
    requires i != j
    ensures RedirectionRegister(i) != RedirectionRegister(j)
    ensures RedirectionRegister(i) != RedirectionRegister(j) + 1
    ensures RedirectionRegister(i) + 1 != RedirectionRegister(j)
  {
  }

  /** The I/O APIC's registers as seen through the select/window pair. */
  type Window = map<nat, Word>

  /** The entry a register pair holds: the high word above the low word. */
  function Join(low: Word, high: Word): (e: bv64)
    ensures e & 0xFFFF_FFFF == low && e >> 32 == high
  {
    (high << 32) | low
  }

  /** The low and high words of an entry. */
  function Split(e: bv64): (r: (Word, Word))
    ensures Join(r.0, r.1) == e
  {
    (e & 0xFFFF_FFFF, e >> 32)
  }

  /** `get_redirection`: an interrupt this I/O APIC does not handle panics. */
  function GetRedirection(io: IoApic, w: Window, irq: nat): (e: bv64)
    requires Handles(io, irq)
    requires RedirectionRegister(irq) in w && RedirectionRegister(irq) + 1 in w
    ensures Split(e) == (w[RedirectionRegister(irq)], w[RedirectionRegister(irq) + 1])
  {
    var base := RedirectionRegister(irq);
    Join(w[base], w[base + 1])
  }

  /** `set_redirection`: the low word, then the high word. */
  function SetRedirection(io: IoApic, w: Window, irq: nat, e: bv64): (r: Window)
    requires Handles(io, irq)
    ensures RedirectionRegister(irq) in r && RedirectionRegister(irq) + 1 in r
    ensures r.Keys == w.Keys + {RedirectionRegister(irq), RedirectionRegister(irq) + 1}
    ensures forall k ::
      k in w && k != RedirectionRegister(irq) && k != RedirectionRegister(irq) + 1 ==> r[k] == w[k]
  {
    var base := RedirectionRegister(irq);
    var (low, high) := Split(e);
    w[base := low][base + 1 := high]
  }

  /** An entry that was written reads back, and writing one interrupt's
      entry leaves every other interrupt's entry as it was. */
  lemma SetThenGetRedirection(io: IoApic, w: Window, irq: nat, other: nat, e: bv64)
    requires Handles(io, irq) && Handles(io, other) && other != irq
    requires RedirectionRegister(other) in w && RedirectionRegister(other) + 1 in w
    ensures GetRedirection(io, SetRedirection(io, w, irq, e), irq) == e
    ensures GetRedirection(io, SetRedirection(io, w, irq, e), other) == GetRedirection(io, w, other)
  {
    RedirectionRegistersDisjoint(irq, other);
  }
}

=== FILE: kernel_slab.dfy ===
/** The kernel's bitmap slab allocator: one page cut into power-of-two
    blocks, a ledger of one bit per block kept in the page's first bytes,
    and the allocator that routes small layouts to slabs. Addresses are
    numbers; the page behind a new slab comes from the backing allocator,
    and its address is a parameter. */
module KernelSlab {
  import opened Wrappers
  import opened Words
  import opened Layouts

  /** The span `slabs_can_handle_allocation` measures layouts against. */
  const SLAB_LENGTH: nat := 0x1000

  /** `page_size()`: the memory behind every slab, one 4 KiB page. */
  const PAGE_SIZE: nat := 0x1000

  /** `u8::BITS`: ledger bits per byte, and the fewest blocks a slab has. */
  const BYTE_BITS: nat := 8

  // ----- Block size and routing -------------------------------------------

  /** The block a layout is served from: its padded size rounded up to a
      power of two. */
  function BlockSize(l: Layout): (r: nat)
    requires l.align > 0
    ensures IsPowerOfTwo(r) && r >= 1
    ensures r >= PadToAlign(l) && r >= l.size
  {
    NextPowerOfTwoLeast(PadToAlign(l));
    PowerOfTwoPositive(NextPowerOfTwo(PadToAlign(l)));
    NextPowerOfTwo(PadToAlign(l))
  }

  /** `slabs_can_handle_allocation`: a span of `size` bytes holds at least
      eight blocks of the layout. */
  function SlabsCanHandle(size: nat, l: Layout): (r: bool)
    requires l.align > 0
    ensures r <==> BYTE_BITS * BlockSize(l) <= size
  {
    DivAtLeast(size, BlockSize(l), BYTE_BITS);
    size / BlockSize(l) >= BYTE_BITS
  }

  // ----- Slab -------------------------------------------------------------

  /** A slab: the page's address, its block size, the ledger (a set bit is
      a block in use) and the count of free blocks. */
  datatype Slab = Slab(base: nat, blockSize: nat, ledger: seq<bool>, remaining: nat)

  /** `len`: the blocks the page divides into, the most whole blocks that
      fit in it. */
  function Len(s: Slab): (r: nat)
    requires s.blockSize > 0
    ensures r * s.blockSize <= PAGE_SIZE < (r + 1) * s.blockSize
  {
    DivAtLeast(PAGE_SIZE, s.blockSize, PAGE_SIZE / s.blockSize);
    DivAtLeast(PAGE_SIZE, s.blockSize, PAGE_SIZE / s.blockSize + 1);
    PAGE_SIZE / s.blockSize
  }

  /** `ledger_bytes`: one bit per block. */
  function LedgerBytes(s: Slab): nat
    requires s.blockSize > 0
  {
    Len(s) / BYTE_BITS
  }

  /** `ledger_bytes_aligned`: where the first block starts, the ledger
      rounded up to a whole block. */
  function LedgerEnd(s: Slab): nat
    requires s.blockSize > 0
  {
    PadToAlign(Layout(LedgerBytes(s), s.blockSize))
  }

  /** The shape `new_in` gives a slab: a page-aligned page of power-of-two
      blocks, at least eight of them, one ledger bit per ledger-byte bit. */
  predicate Shaped(s: Slab)
  {
    s.blockSize > 0 && IsPowerOfTwo(s.blockSize) && BYTE_BITS * s.blockSize <= PAGE_SIZE
    && s.base % PAGE_SIZE == 0 && |s.ledger| == LedgerBytes(s) * BYTE_BITS
  }

  /** The blocks that fit in the page after the ledger. */
  function Usable(s: Slab): nat
    requires s.blockSize > 0
  {
    BlocksAfter(LedgerEnd(s), s.blockSize)
  }

  /** The whole blocks of size b in the page after its first e bytes. */
  function BlocksAfter(e: nat, b: nat): nat
    requires b > 0
  {
    if e <= PAGE_SIZE then (PAGE_SIZE - e) / b else 0
  }

  /** Where block i starts. */
  function BlockStart(s: Slab, i: nat): nat
    requires s.blockSize > 0
  {
    s.base + LedgerEnd(s) + i * s.blockSize
  }

  /** A power-of-two block of at most an eighth of the page divides the
      page into 8·m blocks, with m·b = 512. */
  lemma PageFacts(b: nat)
    requires IsPowerOfTwo(b) && BYTE_BITS * b <= PAGE_SIZE
    ensures var m := PAGE_SIZE / b / BYTE_BITS;
            m >= 1 && m * b == PAGE_SIZE / BYTE_BITS && PAGE_SIZE / b == BYTE_BITS * m
            && PAGE_SIZE % b == 0 && b <= PAGE_SIZE / BYTE_BITS
  {
    EighthOfPage(b);
    PageQuotient(b, 512 / b);
  }

  lemma EighthOfPage(b: nat)
    requires IsPowerOfTwo(b) && b <= 512
    ensures b > 0 && 512 % b == 0
  {
    Pow2IsPowerOfTwo(9);
    assert Pow2(9) == 512 by { Pow2Of12(); Pow2Add(9, 3); }
    PowerOfTwoDivides(b, 512);
  }

  lemma PageQuotient(b: nat, m: nat)
    requires b > 0 && 512 % b == 0 && m == 512 / b
    ensures m >= 1 && m * b == 512 && PAGE_SIZE / b == BYTE_BITS * m
    ensures PAGE_SIZE % b == 0 && PAGE_SIZE / b / BYTE_BITS == m
  {
    DivModUnique(512, b, m, 0);
    assert (BYTE_BITS * m) * b == BYTE_BITS * (m * b);
    DivModUnique(PAGE_SIZE, b, BYTE_BITS * m, 0);
  }

  /** The arithmetic of a shaped slab: the blocks tile the page, the ledger
      has one bit per block and ends on a block boundary inside the page,
      and at least one block but not all of them fit after it. */
  lemma ShapedFacts(s: Slab)
    requires Shaped(s)
    ensures Len(s) * s.blockSize == PAGE_SIZE && |s.ledger| == Len(s)
    ensures LedgerEnd(s) % s.blockSize == 0 && s.blockSize <= LedgerEnd(s)
    ensures LedgerEnd(s) + s.blockSize <= PAGE_SIZE
    ensures s.base % s.blockSize == 0
    ensures 1 <= Usable(s) < Len(s)
    ensures LedgerEnd(s) + Usable(s) * s.blockSize <= PAGE_SIZE
  {
    var b := s.blockSize;
    PageFacts(b);
    var m := LedgerBytes(s);
    var e := LedgerEnd(s);
    assert e % b == 0 && m <= e < m + b;
    MultiplesApart(0, e, b);
    ModOfDivisor(s.base, b, PAGE_SIZE);
    UsableFacts(e, b, Len(s));
  }

  /** The blocks that fit after a ledger ending at e, one block or more
      before the end of the page. */
  lemma UsableFacts(e: nat, b: nat, n: nat)
    requires b > 0 && b <= e && e + b <= PAGE_SIZE && n * b == PAGE_SIZE
    ensures var u := (PAGE_SIZE - e) / b;
            1 <= u < n && e + u * b <= PAGE_SIZE
  {
    var u := (PAGE_SIZE - e) / b;
    DivModUnique(PAGE_SIZE - e, b, u, (PAGE_SIZE - e) % b);
    DivAtLeast(PAGE_SIZE - e, b, 1);
    DivAtLeast(PAGE_SIZE - e, b, n);
  }

  // ----- Ledger -----------------------------------------------------------

  /** The first clear bit at or after i (`iter_zeros().next()`). */
  function FirstFreeFrom(ledger: seq<bool>, i: nat): (r: Option<nat>)
    requires i <= |ledger|
    ensures r.Some? ==> i <= r.value < |ledger| && !ledger[r.value]
    ensures r.Some? ==> forall j :: i <= j < r.value ==> ledger[j]
    ensures r.None? <==> forall j :: i <= j < |ledger| ==> ledger[j]
    decreases |ledger| - i
  {
    if i == |ledger| then None
    else if !ledger[i] then Some(i)
    else FirstFreeFrom(ledger, i + 1)
  }

  function FirstFree(ledger: seq<bool>): (r: Option<nat>)
    ensures r.Some? ==> r.value < |ledger| && !ledger[r.value]
    ensures r.Some? ==> forall j :: 0 <= j < r.value ==> ledger[j]
    ensures r.None? <==> forall j :: 0 <= j < |ledger| ==> ledger[j]
  {
    FirstFreeFrom(ledger, 0)
  }

  /** The clear bits of a ledger. */
  function CountFree(ledger: seq<bool>): (r: nat)
    ensures r <= |ledger|
  {
    if |ledger| == 0 then 0
    else CountFree(ledger[..|ledger| - 1]) + (if ledger[|ledger| - 1] then 0 else 1)
  }

  /** Writing one bit changes the count by that bit alone. */
  lemma {:induction false} CountFreeSet(ledger: seq<bool>, i: nat, v: bool)
    requires i < |ledger|
    ensures CountFree(ledger[i := v]) ==
      CountFree(ledger) - (if ledger[i] then 0 else 1) + (if v then 0 else 1)
    decreases |ledger|
  {
    var n := |ledger|;
    var l2 := ledger[i := v];
    if i < n - 1 {
      assert l2[..n - 1] == ledger[..n - 1][i := v];
      CountFreeSet(ledger[..n - 1], i, v);
    } else {
      assert l2[..n - 1] == ledger[..n - 1];
    }
  }

  /** A ledger with every bit set has nothing free. */
  lemma {:induction false} CountFreeFull(ledger: seq<bool>)
    requires forall j :: 0 <= j < |ledger| ==> ledger[j]
    ensures CountFree(ledger) == 0
    decreases |ledger|
  {
    if |ledger| > 0 {
      CountFreeFull(ledger[..|ledger| - 1]);
    }
  }

  /** The ledger whose bits from u on are set. */
  function Reserved(n: nat, u: nat): (r: seq<bool>)
    ensures |r| == n
    ensures forall i :: 0 <= i < n ==> r[i] == (i >= u)
  {
    seq(n, i => i >= u)
  }

  lemma {:induction false} CountReserved(n: nat, u: nat)
    requires u <= n
    ensures CountFree(Reserved(n, u)) == u
    decreases n
  {
    if n > 0 {
      if u == n {
        assert Reserved(n, u)[..n - 1] == Reserved(n - 1, n - 1);
        CountReserved(n - 1, n - 1);
      } else {
        assert Reserved(n, u)[..n - 1] == Reserved(n - 1, u);
        CountReserved(n - 1, u);
      }
    }
  }

  // ----- new_in -----------------------------------------------------------

  /** What `new_in` needs: a nonzero alignment, and at least eight blocks
      in the page (the assertion in the source); the page it is given is
      taken to be page-aligned. */
  predicate CanCreate(l: Layout, base: nat)
  {
    l.align > 0 && BYTE_BITS * BlockSize(l) <= PAGE_SIZE && base % PAGE_SIZE == 0
  }

  /** `new_in` as written: every block of the page is counted free,
      including the blocks the ledger itself occupies. */
  function NewSlabAsWritten(l: Layout, base: nat): (r: Slab)
    requires CanCreate(l, base)
    ensures Shaped(r) && r.blockSize == BlockSize(l) && r.base == base
    ensures r.remaining == Len(r) == |r.ledger| && CountFree(r.ledger) == r.remaining
  {
    var s := Slab(base, BlockSize(l), Reserved(PAGE_SIZE / BlockSize(l), PAGE_SIZE / BlockSize(l)), 0);
    PageFacts(s.blockSize);
    CountReserved(Len(s), Len(s));
    s.(remaining := Len(s))
  }

  /** The invariant of a slab: shaped, `remaining` is the count of clear
      ledger bits, and the bits of blocks that do not fit after the ledger
      are set, so they are never handed out. */
  predicate Valid(s: Slab)
  {
    Shaped(s) && s.remaining == CountFree(s.ledger)
    && forall i :: Usable(s) <= i < |s.ledger| ==> s.ledger[i]
  }

  /** `new_in`, corrected: only the blocks after the ledger are free. */
  function NewSlab(l: Layout, base: nat): (r: Slab)
    requires CanCreate(l, base)
    ensures Valid(r) && r.blockSize == BlockSize(l) && r.base == base
    ensures r.remaining == Usable(r) >= 1
    ensures forall i :: 0 <= i < Usable(r) ==> !r.ledger[i]
  {
    var shaped := NewSlabAsWritten(l, base);
    ShapedFacts(shaped);
    CountReserved(Len(shaped), Usable(shaped));
    shaped.(ledger := Reserved(Len(shaped), Usable(shaped)), remaining := Usable(shaped))
  }

  // ----- next_item --------------------------------------------------------

  /** `remaining -= 1` does not underflow. */
  predicate CanTake(s: Slab)
  {
    s.remaining > 0 || FirstFree(s.ledger).None?
  }

  /** A block handed out: the slab after, the block's ledger index and its
      address. */
  datatype Taken = Taken(slab: Slab, index: nat, start: nat)

  /** `next_item`: the first free block by the ledger, now marked used. */
  function NextItem(s: Slab): (r: Option<Taken>)
    requires Shaped(s) && CanTake(s)
    ensures r.None? <==> forall j :: 0 <= j < |s.ledger| ==> s.ledger[j]
    ensures r.Some? ==> r.value.index < |s.ledger| && !s.ledger[r.value.index]
    ensures r.Some? ==> forall j :: 0 <= j < r.value.index ==> s.ledger[j]
    ensures r.Some? ==> r.value.slab == s.(ledger := s.ledger[r.value.index := true], remaining := s.remaining - 1)
    ensures r.Some? ==> r.value.start == BlockStart(s, r.value.index)
  {
    match FirstFree(s.ledger)
    case None => None
    case Some(i) =>
      Some(Taken(s.(ledger := s.ledger[i := true], remaining := s.remaining - 1), i, BlockStart(s, i)))
  }

  /** A block is live in a slab: it starts on a block boundary past the
      ledger, lies inside the page, and its ledger bit is set. */
  predicate Live(s: Slab, ptr: nat)
    requires Shaped(s)
  {
    ptr % s.blockSize == 0 && s.base + LedgerEnd(s) <= ptr
    && ptr + s.blockSize <= s.base + PAGE_SIZE
    && ItemIndex(s, ptr) < |s.ledger| && s.ledger[ItemIndex(s, ptr)]
  }

  /** The ledger index of the block at ptr, counted from the first block
      after the ledger. */
  function ItemIndex(s: Slab, ptr: nat): nat
    requires s.blockSize > 0 && s.base + LedgerEnd(s) <= ptr
  {
    (ptr - s.base - LedgerEnd(s)) / s.blockSize
  }

  /** On a valid slab `next_item` finds a block exactly when one is free,
      the block fits inside the page after the ledger, it was not live
      before and is live after, and the slab stays valid. */
  lemma NextItemValid(s: Slab)
    requires Valid(s)
    ensures CanTake(s)
    ensures NextItem(s).Some? <==> s.remaining > 0
    ensures NextItem(s).Some? ==>
      var t := NextItem(s).value;
      Valid(t.slab) && t.index < Usable(s) && !Live(s, t.start) && Live(t.slab, t.start)
      && ItemIndex(s, t.start) == t.index
      && s.base + LedgerEnd(s) <= t.start && t.start + s.blockSize <= s.base + PAGE_SIZE
  {
    ShapedFacts(s);
    match FirstFree(s.ledger)
    case None =>
      CountFreeFull(s.ledger);
    case Some(i) =>
      CountFreeSet(s.ledger, i, true);
      var t := NextItem(s).value;
      BlockFacts(s, i);
  }

  /** Block i of those after the ledger starts on a block boundary, inside
      the page, and its ledger index is i. */
  lemma BlockFacts(s: Slab, i: nat)
    requires Shaped(s) && i < Usable(s)
    ensures var p := BlockStart(s, i);
            p % s.blockSize == 0 && s.base + LedgerEnd(s) <= p
            && p + s.blockSize <= s.base + PAGE_SIZE && ItemIndex(s, p) == i
  {
    var b, e, u := s.blockSize, LedgerEnd(s), Usable(s);
    assert s.base % b == 0 && e % b == 0 && e + u * b <= PAGE_SIZE by {
      ShapedFacts(s);
    }
    BlockArithmetic(s.base, e, b, u, i);
  }

  lemma BlockArithmetic(base: nat, e: nat, b: nat, u: nat, i: nat)
    requires b > 0 && base % b == 0 && e % b == 0 && i < u && e + u * b <= PAGE_SIZE
    ensures var p := base + e + i * b;
            p % b == 0 && p + b <= base + PAGE_SIZE && (p - base - e) / b == i
  {
    MulAwayFromZero(u - i, b);
    assert (u - i) * b == u * b - i * b;
    DivModUnique(i * b, b, i, 0);
    var k := base / b + e / b + i;
    assert base + e + i * b == k * b;
    DivModUnique(base + e + i * b, b, k, 0);
  }

  // ----- next_item as written ---------------------------------------------

  /** `NonZeroU32::new(block_size.trailing_zeros())`: nothing for a block
      of one byte. */
  function AlignBits(b: nat): (r: Option<nat>)
    requires IsPowerOfTwo(b)
    ensures r.None? <==> b == 1
    ensures r.Some? ==> Pow2(r.value) == b
  {
    TrailingZerosOfPowerOfTwo(b);
    if TrailingZeros(b) == 0 then None else Some(TrailingZeros(b))
  }

  /** `next_item` as written: the ledger end is rounded with the block's
      alignment bits, which the source unwraps, so a slab of one-byte
      blocks panics before it hands anything out. */
  function NextItemAsWritten(s: Slab): (r: Option<Taken>)
    requires Shaped(s) && CanTake(s) && AlignBits(s.blockSize).Some?
    ensures r.None? <==> forall j :: 0 <= j < |s.ledger| ==> s.ledger[j]
    ensures r.Some? ==> r.value.index < |s.ledger| && !s.ledger[r.value.index]
    ensures r.Some? ==> r.value.slab == s.(ledger := s.ledger[r.value.index := true], remaining := s.remaining - 1)
    ensures r.Some? ==> r.value.start == BlockStart(s, r.value.index)
  {
    var bits := AlignBits(s.blockSize).value;
    match FirstFree(s.ledger)
    case None => None
    case Some(i) =>
      var alignedLedger := RoundUp(LedgerBytes(s), Pow2(bits));
      Some(Taken(s.(ledger := s.ledger[i := true], remaining := s.remaining - 1), i,
                 s.base + alignedLedger + i * s.blockSize))
  }

  /** A one-byte layout is routed to a slab, and that slab's blocks have no
      alignment bits to unwrap. */
  lemma OneByteLayoutPanics()
    ensures Layouts.Valid(Layout(1, 1))
    ensures SlabsCanHandle(SLAB_LENGTH, Layout(1, 1))
    ensures BlockSize(Layout(1, 1)) == 1 && AlignBits(BlockSize(Layout(1, 1))).None?
  {
    assert PadToAlign(Layout(1, 1)) == 1;
    assert CeilLog2(1) == 0;
  }

  /** The corrected `next_item` serves every block size, one byte
      included: a valid slab with a free block hands one out. */
  lemma OneByteSlabServes(base: nat)
    requires base % PAGE_SIZE == 0
    ensures CanCreate(Layout(1, 1), base)
    ensures NextItem(NewSlab(Layout(1, 1), base)).Some?
  {
    OneByteLayoutPanics();
    NextItemValid(NewSlab(Layout(1, 1), base));
  }

  // ----- The ledger the source's new_in builds -----------------------------

  /** The ledger after one `next_item`: its first clear bit set. */
  function TakeFirst(ledger: seq<bool>): (r: seq<bool>)
    ensures |r| == |ledger|
  {
    match FirstFree(ledger)
    case None => ledger
    case Some(i) => ledger[i := true]
  }

  /** The ledger after k calls of `next_item`. */
  function TakeFirstN(ledger: seq<bool>, k: nat): (r: seq<bool>)
    ensures |r| == |ledger|
  {
    if k == 0 then ledger else TakeFirst(TakeFirstN(ledger, k - 1))
  }

  /** `next_item` leaves exactly the ledger `TakeFirst` describes. */
  lemma NextItemTakesFirst(s: Slab)
    requires Shaped(s) && CanTake(s)
    ensures NextItem(s).Some? ==> NextItem(s).value.slab.ledger == TakeFirst(s.ledger)
    ensures NextItem(s).None? ==> TakeFirst(s.ledger) == s.ledger
  {
  }

  /** The ledger of the first k blocks in use. */
  function Prefix(n: nat, k: nat): (r: seq<bool>)
    ensures |r| == n
  {
    seq(n, i => i < k)
  }

  /** From an empty ledger, blocks are handed out in index order: after k
      takes the first k are in use. */
  lemma {:induction false} TakesInOrder(n: nat, k: nat)
    requires k <= n
    ensures TakeFirstN(Prefix(n, 0), k) == Prefix(n, k)
    decreases k
  {
    if k > 0 {
      TakesInOrder(n, k - 1);
      PrefixStep(n, k - 1);
    }
  }

  /** The first free bit of a prefix ledger is the one after the prefix. */
  lemma PrefixStep(n: nat, k: nat)
    requires k < n
    ensures FirstFree(Prefix(n, k)) == Some(k)
    ensures Prefix(n, k)[k := true] == Prefix(n, k + 1)
  {
    var l := Prefix(n, k);
    assert !l[k];
    assert forall j :: 0 <= j < k ==> l[j];
  }

  /** The source's `new_in` counts every block of the page as free, but
      the ledger fills the first of them: once the other Len − 1 blocks
      are taken, the next item handed out runs past the end of the page,
      where slicing the memory panics. */
  lemma NewSlabAsWrittenOverruns(l: Layout, base: nat)
    requires CanCreate(l, base)
    ensures var s := NewSlabAsWritten(l, base);
            var p := s.(ledger := TakeFirstN(s.ledger, Len(s) - 1), remaining := 1);
            s.remaining == Len(s) > Usable(s) && Shaped(p) && CanTake(p) && NextItem(p).Some?
            && NextItem(p).value.index == Len(s) - 1
            && NextItem(p).value.start + s.blockSize > s.base + PAGE_SIZE
  {
    var s := NewSlabAsWritten(l, base);
    ShapedFacts(s);
    assert s.ledger == Prefix(Len(s), 0);
    TakesInOrder(Len(s), Len(s) - 1);
    PrefixStep(Len(s), Len(s) - 1);
    LastBlockEnd(s.base, LedgerEnd(s), s.blockSize, Len(s));
  }

  lemma LastBlockEnd(base: nat, e: nat, b: nat, n: nat)
    requires n >= 1 && n * b == PAGE_SIZE && e >= 1
    ensures base + e + (n - 1) * b + b > base + PAGE_SIZE
  {
    assert (n - 1) * b + b == n * b;
  }

  // ----- return_item ------------------------------------------------------

  /** The ledger bit of the block at ptr counted from the page start, as
      the source counts it. */
  function PageIndex(s: Slab, ptr: nat): nat
    requires s.blockSize > 0 && s.base <= ptr
  {
    (ptr - s.base) / s.blockSize
  }

  /** What `return_item` asserts: the pointer is block-aligned and inside
      the page; and, in a debug build, that the count stays within `len`. */
  predicate CanReturnAsWritten(s: Slab, ptr: nat)
  {
    Shaped(s) && ptr % s.blockSize == 0 && s.base <= ptr < s.base + PAGE_SIZE
    && s.remaining + 1 <= Len(s)
  }

  /** `return_item` as written: it clears the bit of the block counted from
      the page start, not from the end of the ledger. */
  function ReturnItemAsWritten(s: Slab, ptr: nat): (r: Slab)
    requires CanReturnAsWritten(s, ptr)
    ensures PageIndex(s, ptr) < |s.ledger| && |r.ledger| == |s.ledger|
    ensures !r.ledger[PageIndex(s, ptr)]
    ensures forall j :: 0 <= j < |s.ledger| && j != PageIndex(s, ptr) ==> r.ledger[j] == s.ledger[j]
    ensures r.remaining == s.remaining + 1 && r.base == s.base && r.blockSize == s.blockSize
  {
    ShapedFacts(s);
    DivAtLeast(ptr - s.base, s.blockSize, Len(s));
    s.(ledger := s.ledger[PageIndex(s, ptr) := false], remaining := s.remaining + 1)
  }

  /** Handing a block out and returning it through the source's
      `return_item` leaves that block marked in use for good, and marks
      free the block as many places further on as the ledger is blocks
      long. */
  lemma ReturnItemAsWrittenMissesBlock(s: Slab)
    requires Valid(s) && s.remaining > 0
    ensures NextItem(s).Some?
    ensures var t := NextItem(s).value;
            CanReturnAsWritten(t.slab, t.start) &&
            var r := ReturnItemAsWritten(t.slab, t.start);
            PageIndex(t.slab, t.start) == t.index + LedgerEnd(s) / s.blockSize &&
            LedgerEnd(s) / s.blockSize >= 1 &&
            r.ledger[t.index] && r.remaining == s.remaining
  {
    NextItemValid(s);
    ShapedFacts(s);
    var t := NextItem(s).value;
    BlockFacts(s, t.index);
    OffsetFromPage(s.base, LedgerEnd(s), s.blockSize, t.index);
  }

  /** Counted from the page start, block i after a ledger of e bytes is
      block e / b + i. */
  lemma OffsetFromPage(base: nat, e: nat, b: nat, i: nat)
    requires b > 0 && e % b == 0 && b <= e
    ensures (base + e + i * b - base) / b == e / b + i && e / b >= 1
  {
    DivModUnique(e, b, e / b, 0);
    DivModUnique(e + i * b, b, e / b + i, 0);
    DivAtLeast(e, b, 1);
  }

  /** `return_item`, corrected: the block's index is counted from the end
      of the ledger, where `next_item` started counting. */
  function ReturnItem(s: Slab, ptr: nat): (r: Slab)
    requires Valid(s) && Live(s, ptr)
    ensures Valid(r) && !Live(r, ptr)
    ensures r.ledger == s.ledger[ItemIndex(s, ptr) := false]
    ensures r.remaining == s.remaining + 1 && r.base == s.base && r.blockSize == s.blockSize
  {
    LiveIndex(s, ptr);
    CountFreeSet(s.ledger, ItemIndex(s, ptr), false);
    s.(ledger := s.ledger[ItemIndex(s, ptr) := false], remaining := s.remaining + 1)
  }

  /** A live block is one of the usable blocks, at its index. */
  lemma LiveIndex(s: Slab, ptr: nat)
    requires Shaped(s) && Live(s, ptr)
    ensures ItemIndex(s, ptr) < Usable(s) && BlockStart(s, ItemIndex(s, ptr)) == ptr
  {
    ShapedFacts(s);
    LiveArithmetic(s.base, LedgerEnd(s), s.blockSize, ptr);
  }

  lemma LiveArithmetic(base: nat, e: nat, b: nat, ptr: nat)
    requires b > 0 && base % b == 0 && e % b == 0 && ptr % b == 0
    requires base + e <= ptr && ptr + b <= base + PAGE_SIZE
    ensures var q := (ptr - base - e) / b;
            e <= PAGE_SIZE && q < (PAGE_SIZE - e) / b && base + e + q * b == ptr
  {
    var d := ptr - base - e;
    var q := ptr / b - base / b - e / b;
    DivModUnique(ptr, b, ptr / b, 0);
    DivModUnique(base, b, base / b, 0);
    DivModUnique(e, b, e / b, 0);
    assert d == q * b;
    DivModUnique(d, b, q, 0);
    DivAtLeast(PAGE_SIZE - e, b, q + 1);
  }

  /** Taking a block and returning it restores the slab. */
  lemma NextThenReturn(s: Slab)
    requires Valid(s) && s.remaining > 0
    ensures NextItem(s).Some?
    ensures var t := NextItem(s).value;
            Valid(t.slab) && Live(t.slab, t.start) && ReturnItem(t.slab, t.start) == s
  {
    NextItemValid(s);
    var t := NextItem(s).value;
    assert s.ledger[t.index := true][t.index := false] == s.ledger;
  }

  // ----- check_fits_layout ------------------------------------------------

  /** `check_fits_layout` as written: it compares the block with the
      layout's unpadded size. */
  function CheckFitsLayoutAsWritten(s: Slab, l: Layout): (r: bool)
    ensures r ==> s.blockSize >= l.size && s.blockSize >= l.align && IsPowerOfTwo(s.blockSize)
  {
    NextPowerOfTwoLeast(l.size);
    s.blockSize >= l.align && s.blockSize == NextPowerOfTwo(l.size)
  }

  /** `check_fits_layout`, corrected: the block `new_in` would make for the
      layout. */
  function CheckFitsLayout(s: Slab, l: Layout): (r: bool)
    requires l.align > 0
    ensures r ==> s.blockSize >= l.size && s.blockSize >= l.align
  {
    s.blockSize >= l.align && s.blockSize == BlockSize(l)
  }

  /** A size-4 layout aligned to 16 gets a slab of 16-byte blocks, which
      the source's check never accepts for it: every allocation opens a
      new slab, and deallocating finds no slab and panics. */
  lemma OverAlignedNeverFits(base: nat)
    requires base % PAGE_SIZE == 0
    ensures Layouts.Valid(Layout(4, 16)) && SlabsCanHandle(SLAB_LENGTH, Layout(4, 16))
    ensures CanCreate(Layout(4, 16), base)
    ensures NewSlabAsWritten(Layout(4, 16), base).blockSize == 16
    ensures !CheckFitsLayoutAsWritten(NewSlabAsWritten(Layout(4, 16), base), Layout(4, 16))
  {
    var l := Layout(4, 16);
    assert PadToAlign(l) == 16;
    NextPowerOfTwoFixed(4);
    NextPowerOfTwoFixed(2);
    assert Pow2(4) == 16 && Pow2(2) == 4;
    assert IsPowerOfTwo(16);
  }

  /** With the corrected check, every slab made for a layout of nonzero
      size fits that layout. */
  lemma NewSlabFits(l: Layout, base: nat)
    requires CanCreate(l, base) && Layouts.Valid(l) && l.size > 0
    ensures CheckFitsLayout(NewSlab(l, base), l)
  {
    PadToAlignLeast(l, PadToAlign(l));
    MultiplesApart(0, PadToAlign(l), l.align);
  }

  // ----- SlabAllocator ----------------------------------------------------

  datatype SlabAllocator = SlabAllocator(slabs: seq<Slab>)

  /** Every slab is valid and no two share a page. */
  predicate AllocatorValid(a: SlabAllocator)
  {
    (forall j :: 0 <= j < |a.slabs| ==> Valid(a.slabs[j]))
    && (forall j, k :: 0 <= j < k < |a.slabs| ==> a.slabs[j].base != a.slabs[k].base)
  }

  /** `SlabAllocator::new_in`: no slabs yet. */
  function NewSlabAllocator(): (r: SlabAllocator)
    ensures AllocatorValid(r) && r.slabs == []
  {
    SlabAllocator([])
  }

  /** Where an allocation came from: the backing allocator, or block
      `start` of slab `slab`, `length` bytes long. */
  datatype Allocation = Delegated | Served(slab: nat, start: nat, length: nat)

  datatype Allocated = Allocated(allocator: SlabAllocator, allocation: Allocation)

  /** A slab the allocation search accepts: not empty, and of the
      layout's block. */
  predicate Accepts(s: Slab, l: Layout)
    requires l.align > 0
  {
    s.remaining > 0 && CheckFitsLayout(s, l)
  }

  /** The first slab from j on that accepts the layout. */
  function FindAccepting(slabs: seq<Slab>, l: Layout, j: nat): (r: Option<nat>)
    requires l.align > 0 && j <= |slabs|
    ensures r.Some? ==> j <= r.value < |slabs| && Accepts(slabs[r.value], l)
    ensures r.Some? ==> forall k :: j <= k < r.value ==> !Accepts(slabs[k], l)
    ensures r.None? <==> forall k :: j <= k < |slabs| ==> !Accepts(slabs[k], l)
    decreases |slabs| - j
  {
    if j == |slabs| then None
    else if Accepts(slabs[j], l) then Some(j)
    else FindAccepting(slabs, l, j + 1)
  }

  /** The page the backing allocator gives a new slab is page-aligned and
      not the page of any existing slab. */
  predicate FreshPage(a: SlabAllocator, base: nat)
  {
    base % PAGE_SIZE == 0 && forall j :: 0 <= j < |a.slabs| ==> a.slabs[j].base != base
  }

  /** Serve the layout from slab j, which accepts it: its first free block
      is marked used and handed out. */
  function ServeFrom(slabs: seq<Slab>, j: nat, l: Layout): (r: Allocated)
    requires AllocatorValid(SlabAllocator(slabs)) && Layouts.Valid(l) && l.size > 0
    requires j < |slabs| && Accepts(slabs[j], l)
    ensures NextItem(slabs[j]).Some?
    ensures var t := NextItem(slabs[j]).value;
            r == Allocated(SlabAllocator(slabs[j := t.slab]), Served(j, t.start, BlockSize(l)))
    ensures AllocatorValid(r.allocator)
    ensures Live(r.allocator.slabs[j], r.allocation.start) && !Live(slabs[j], r.allocation.start)
    ensures r.allocation.start % l.align == 0
  {
    NextItemValid(slabs[j]);
    var t := NextItem(slabs[j]).value;
    ServedAligned(slabs[j], l, t.start);
    var after := slabs[j := t.slab];
    assert forall k :: 0 <= k < |slabs| ==> slabs[k].base == after[k].base;
    Allocated(SlabAllocator(after), Served(j, t.start, BlockSize(l)))
  }

  /** The slabs with a new slab on a fresh page appended. */
  function WithNewSlab(a: SlabAllocator, l: Layout, page: nat): (r: seq<Slab>)
    requires AllocatorValid(a) && Layouts.Valid(l) && l.size > 0 && FreshPage(a, page)
    requires SlabsCanHandle(SLAB_LENGTH, l)
    ensures AllocatorValid(SlabAllocator(r)) && r == a.slabs + [NewSlab(l, page)]
    ensures Accepts(r[|a.slabs|], l)
  {
    NewSlabFits(l, page);
    a.slabs + [NewSlab(l, page)]
  }

  /** `allocate`: layouts too large for eight blocks go to the backing
      allocator; the others are served by the first non-empty slab of their
      block size, or by a new slab on `page` when there is none. */
  function Allocate(a: SlabAllocator, l: Layout, page: nat): (r: Allocated)
    requires AllocatorValid(a) && Layouts.Valid(l) && l.size > 0 && FreshPage(a, page)
    ensures AllocatorValid(r.allocator)
    ensures r.allocation.Delegated? <==> !SlabsCanHandle(SLAB_LENGTH, l)
    ensures r.allocation.Delegated? ==> r.allocator == a
    ensures r.allocation.Served? ==>
      var j := r.allocation.slab;
      var slabs := r.allocator.slabs;
      var before := if j < |a.slabs| then a.slabs else a.slabs + [NewSlab(l, page)];
      j < |slabs| == |before| && Live(slabs[j], r.allocation.start) && !Live(before[j], r.allocation.start)
      && r.allocation.length == BlockSize(l) && r.allocation.start % l.align == 0
      && (forall k :: 0 <= k < |before| && k != j ==> slabs[k] == before[k])
      && (match FindAccepting(a.slabs, l, 0)
          case Some(first) => j == first
          case None => j == |a.slabs| && before[j].base == page)
  {
    PadToAlignValid(l);
    if !SlabsCanHandle(SLAB_LENGTH, l) then Allocated(a, Delegated)
    else
      match FindAccepting(a.slabs, l, 0)
      case Some(j) => ServeFrom(a.slabs, j, l)
      case None => ServeFrom(WithNewSlab(a, l, page), |a.slabs|, l)
  }

  /** A block of a slab for the layout is aligned as the layout asks. */
  lemma ServedAligned(s: Slab, l: Layout, ptr: nat)
    requires Shaped(s) && Layouts.Valid(l) && l.size > 0 && s.blockSize == BlockSize(l)
    requires ptr % s.blockSize == 0
    ensures ptr % l.align == 0
  {
    PadToAlignValid(l);
    MultiplesApart(0, PadToAlign(l), l.align);
    PowerOfTwoDivides(l.align, s.blockSize);
    ModOfDivisor(ptr, l.align, s.blockSize);
  }

  /** A slab owns the addresses of its page (`owns_ptr`). */
  predicate Owns(s: Slab, ptr: nat)
  {
    s.base <= ptr < s.base + PAGE_SIZE
  }

  /** The first slab from j on that fits the layout and owns the pointer. */
  function FindOwner(slabs: seq<Slab>, l: Layout, ptr: nat, j: nat): (r: Option<nat>)
    requires l.align > 0 && j <= |slabs|
    ensures r.Some? ==> j <= r.value < |slabs| && CheckFitsLayout(slabs[r.value], l) && Owns(slabs[r.value], ptr)
    ensures r.Some? ==> forall k :: j <= k < r.value ==> !(CheckFitsLayout(slabs[k], l) && Owns(slabs[k], ptr))
    ensures r.None? <==> forall k :: j <= k < |slabs| ==> !(CheckFitsLayout(slabs[k], l) && Owns(slabs[k], ptr))
    decreases |slabs| - j
  {
    if j == |slabs| then None
    else if CheckFitsLayout(slabs[j], l) && Owns(slabs[j], ptr) then Some(j)
    else FindOwner(slabs, l, ptr, j + 1)
  }

  /** What `deallocate` needs: a slab-sized layout's pointer is a live
      block of the first slab that fits the layout and owns it (the
      `expect` and the assertions of `return_item`). */
  predicate CanDeallocate(a: SlabAllocator, ptr: nat, l: Layout)
    requires Layouts.Valid(l)
  {
    PadToAlignValid(l);
    AllocatorValid(a) &&
    (SlabsCanHandle(SLAB_LENGTH, l) ==>
      FindOwner(a.slabs, l, ptr, 0).Some? && Live(a.slabs[FindOwner(a.slabs, l, ptr, 0).value], ptr))
  }

  datatype Freed = ToBacking | ToSlab(allocator: SlabAllocator, slab: nat)

  /** `deallocate`: large layouts go back to the backing allocator; a
      slab-sized block goes back to its slab's ledger. */
  function Deallocate(a: SlabAllocator, ptr: nat, l: Layout): (r: Freed)
    requires Layouts.Valid(l) && CanDeallocate(a, ptr, l)
    ensures r.ToBacking? <==> !SlabsCanHandle(SLAB_LENGTH, l)
    ensures r.ToSlab? ==>
      var j := r.slab;
      AllocatorValid(r.allocator) && j < |a.slabs| && |r.allocator.slabs| == |a.slabs|
      && Live(a.slabs[j], ptr) && !Live(r.allocator.slabs[j], ptr)
      && r.allocator.slabs[j].remaining == a.slabs[j].remaining + 1
      && forall k :: 0 <= k < |a.slabs| && k != j ==> r.allocator.slabs[k] == a.slabs[k]
  {
    PadToAlignValid(l);
    if !SlabsCanHandle(SLAB_LENGTH, l) then ToBacking
    else
      var j := FindOwner(a.slabs, l, ptr, 0).value;
      var after := SlabAllocator(a.slabs[j := ReturnItem(a.slabs[j], ptr)]);
      assert AllocatorValid(after) by {
        assert forall k :: 0 <= k < |a.slabs| ==> a.slabs[k].base == after.slabs[k].base;
      }
      ToSlab(after, j)
  }

  /** Two different pages share no address. */
  lemma PagesDisjoint(p: nat, q: nat, ptr: nat)
    requires p % PAGE_SIZE == 0 && q % PAGE_SIZE == 0 && p != q
    requires p <= ptr < p + PAGE_SIZE
    ensures !(q <= ptr < q + PAGE_SIZE)
  {
    if p < q {
      MultiplesApart(p, q, PAGE_SIZE);
    } else {
      MultiplesApart(q, p, PAGE_SIZE);
    }
  }

  /** Returning the block just served from slab j gives back the slabs as
      they were. */
  lemma ServeThenReturn(slabs: seq<Slab>, j: nat, l: Layout)
    requires AllocatorValid(SlabAllocator(slabs)) && Layouts.Valid(l) && l.size > 0
    requires j < |slabs| && Accepts(slabs[j], l) && SlabsCanHandle(SLAB_LENGTH, l)
    ensures var r := ServeFrom(slabs, j, l);
            CanDeallocate(r.allocator, r.allocation.start, l)
            && Deallocate(r.allocator, r.allocation.start, l) == ToSlab(SlabAllocator(slabs), j)
  {
    var r := ServeFrom(slabs, j, l);
    var after := r.allocator.slabs;
    var ptr := r.allocation.start;
    ServedOwnerFound(slabs, j, l);
    NextThenReturn(slabs[j]);
    assert after[j := ReturnItem(after[j], ptr)] == slabs;
  }

  /** The block just served from slab j is found in slab j: no earlier slab
      owns its address. */
  lemma ServedOwnerFound(slabs: seq<Slab>, j: nat, l: Layout)
    requires AllocatorValid(SlabAllocator(slabs)) && Layouts.Valid(l) && l.size > 0
    requires j < |slabs| && Accepts(slabs[j], l)
    ensures var r := ServeFrom(slabs, j, l);
            FindOwner(r.allocator.slabs, l, r.allocation.start, 0) == Some(j)
  {
    var r := ServeFrom(slabs, j, l);
    var after := r.allocator.slabs;
    var ptr := r.allocation.start;
    NextItemValid(slabs[j]);
    ShapedFacts(after[j]);
    forall k | 0 <= k < j
      ensures !Owns(after[k], ptr)
    {
      PagesDisjoint(after[j].base, after[k].base, ptr);
    }
  }

  /** Freeing a block right after allocating it gives back the slabs as
      they were, with any slab the allocation opened left in place. */
  lemma AllocateThenDeallocate(a: SlabAllocator, l: Layout, page: nat)
    requires AllocatorValid(a) && Layouts.Valid(l) && l.size > 0 && FreshPage(a, page)
    requires SlabsCanHandle(SLAB_LENGTH, l)
    ensures var r := Allocate(a, l, page);
            r.allocation.Served? && CanDeallocate(r.allocator, r.allocation.start, l)
            && Deallocate(r.allocator, r.allocation.start, l)
               == ToSlab(SlabAllocator(if r.allocation.slab < |a.slabs| then a.slabs
                                       else a.slabs + [NewSlab(l, page)]), r.allocation.slab)
  {
    PadToAlignValid(l);
    match FindAccepting(a.slabs, l, 0)
    case Some(j) =>
      ServeThenReturn(a.slabs, j, l);
    case None =>
      ServeThenReturn(WithNewSlab(a, l, page), |a.slabs|, l);
  }

  /** Live blocks never overlap: two different live blocks of the
      allocator's slabs, in the same slab or in two, are disjoint. */
  lemma LiveBlocksDisjoint(a: SlabAllocator, j: nat, p: nat, k: nat, q: nat)
    requires AllocatorValid(a) && j < |a.slabs| && k < |a.slabs|
    requires Live(a.slabs[j], p) && Live(a.slabs[k], q) && (j, p) != (k, q)
    ensures p + a.slabs[j].blockSize <= q || q + a.slabs[k].blockSize <= p
  {
    if j == k {
      if p < q {
        MultiplesApart(p, q, a.slabs[j].blockSize);
      } else {
        MultiplesApart(q, p, a.slabs[j].blockSize);
      }
    } else {
      ShapedFacts(a.slabs[j]);
      ShapedFacts(a.slabs[k]);
      if a.slabs[j].base < a.slabs[k].base {
        MultiplesApart(a.slabs[j].base, a.slabs[k].base, PAGE_SIZE);
      } else {
        MultiplesApart(a.slabs[k].base, a.slabs[j].base, PAGE_SIZE);
      }
    }
  }
}

=== FILE: layout.dfy ===
/** `core::alloc::Layout` as the slab allocators use it: a size and a
    power-of-two alignment, and the size rounded up to the alignment. */
module Layouts {
  import opened Words

  datatype Layout = Layout(size: nat, align: nat)

  /** What `Layout::from_size_align` guarantees: the alignment is a power
      of two and the size rounded up to it does not exceed `isize::MAX`. */
  predicate Valid(l: Layout)
  {
    IsPowerOfTwo(l.align) && RoundUp(l.size, l.align) <= ISIZE_MAX
  }

  function RoundUp(size: nat, align: nat): nat
    requires align > 0
  {
    (size + align - 1) / align * align
  }

  /** `pad_to_align().size()`: the least multiple of the alignment that
      holds the size. */
  function PadToAlign(l: Layout): (r: nat)
    requires l.align > 0
    ensures r % l.align == 0
    ensures l.size <= r < l.size + l.align
  {
    var n := l.size + l.align - 1;
    var q := n / l.align;
    DivModUnique(q * l.align, l.align, q, 0);
    RoundUp(l.size, l.align)
  }

  /** No smaller multiple of the alignment holds the size. */
  lemma PadToAlignLeast(l: Layout, m: nat)
    requires l.align > 0 && m % l.align == 0 && m >= l.size
    ensures PadToAlign(l) <= m
  {
    var r := PadToAlign(l);
    if m < r {
      MultiplesApart(m, r, l.align);
    }
  }

  /** A size that is already a multiple of the alignment is unchanged. */
  lemma PadToAlignExact(l: Layout)
    requires l.align > 0 && l.size % l.align == 0
    ensures PadToAlign(l) == l.size
  {
    PadToAlignLeast(l, l.size);
  }

  lemma PadToAlignValid(l: Layout)
    requires Valid(l)
    ensures l.align >= 1 && PadToAlign(l) <= ISIZE_MAX
  {
    assert l.align >= 1 by { PowerOfTwoPositive(l.align); }
  }
}

=== FILE: lib_paging.dfy ===
/** libkernel's `Page` (a 4 KiB virtual page index), its `Step`
    implementation and `PageIterator`, which walks the pages
    `start .. end`. */
module LibPage {
  import opened Wrappers
  import opened Words

  // ----- Page -----------------------------------------------------------------

  /** `Page::from_addr` (and `from_ptr`): the page of a 4 KiB-aligned
      address; an unaligned one panics. */
  function PageFromAddr(addr: u64): (index: usize)
    requires addr % 0x1000 == 0
    ensures index * 0x1000 == addr
  {
    addr / 0x1000
  }

  /** `Page::containing_addr`: the page holding any address. */
  function ContainingPage(addr: u64): (index: usize)
    ensures index * 0x1000 <= addr < index * 0x1000 + 0x1000
    ensures addr % 0x1000 == 0 ==> index == PageFromAddr(addr)
  {
    addr / 0x1000
  }

  /** `Page::base_addr`: `index * 0x1000`, which must not overflow. */
  function PageBaseAddr(index: usize): (addr: u64)
    requires index * 0x1000 <= U64_MAX
    ensures addr % 0x1000 == 0 && ContainingPage(addr) == index
  {
    DivModUnique(index * 0x1000, 0x1000, index, 0);
    index * 0x1000
  }

  /** `forward_checked`: `index.checked_add(count)`. */
  function ForwardChecked(index: usize, count: usize): (r: Option<usize>)
    ensures r.Some? <==> index + count <= U64_MAX
    ensures r.Some? ==> r.value == index + count
  {
    if index + count <= U64_MAX then Some(index + count) else None
  }

  /** `backward_checked`: `index.checked_sub(count)`. */
  function BackwardChecked(index: usize, count: usize): (r: Option<usize>)
    ensures r.Some? <==> count <= index
    ensures r.Some? ==> r.value == index - count
  {
    if count <= index then Some(index - count) else None
  }

  /** `Step::steps_between` as written: `Some(end - start)`. For
      `end < start` the subtraction underflows; a debug build panics and
      a release build wraps, which is what is modelled here. */
  function StepsBetweenAsWritten(start: usize, end: usize): (r: Option<usize>)
    ensures r.Some?
    ensures start <= end ==> r.value == end - start
  {
    Some((end - start) % 0x1_0000_0000_0000_0000)
  }

  /** `Step::steps_between` as the trait defines it: `None` when the end
      lies before the start. */
  function StepsBetween(start: usize, end: usize): (r: Option<usize>)
    ensures r.Some? <==> start <= end
    ensures r.Some? ==> start + r.value == end
  {
    if start <= end then Some(end - start) else None
  }

  /** The laws of `Step`, which the defined `steps_between` satisfies:
      n steps forward from `a` reach `b`, and n steps backward from `b`
      reach `a`, exactly when `steps_between(a, b)` is n. */
  lemma StepLaws(a: usize, b: usize, n: usize)
    ensures ForwardChecked(a, n) == Some(b) <==> StepsBetween(a, b) == Some(n)
    ensures BackwardChecked(b, n) == Some(a) <==> StepsBetween(a, b) == Some(n)
  {
  }

  /** As written, `steps_between(5, 3)` claims 2^64 − 2 steps, yet no number
      of forward steps leads from page 5 to page 3. */
  lemma StepsBetweenAsWrittenBreaksLaw()
    ensures StepsBetweenAsWritten(5, 3) == Some(0xFFFF_FFFF_FFFF_FFFE)
    ensures ForwardChecked(5, 0xFFFF_FFFF_FFFF_FFFE) != Some(3)
    ensures StepsBetween(5, 3) == None
  {
  }

  // ----- PageIterator ---------------------------------------------------------

  /** `PageIterator { start, current, end }`: `end` is exclusive. */
  datatype PageIterator = PageIterator(start: usize, current: usize, end: usize)
  {
    /** The cursor lies between the start and the end. */
    predicate Valid()
    {
      start <= current <= end
    }
  }

  /** `PageIterator::new`. */
  function NewIterator(start: usize, end: usize): (it: PageIterator)
    ensures it.start == start && it.current == start && it.end == end
    ensures start <= end ==> it.Valid()
  {
    PageIterator(start, start, end)
  }

  /** `Page::to`: the iterator over `count` pages from `index`, if the end
      index does not overflow. */
  function PagesTo(index: usize, count: usize): (r: Option<PageIterator>)
    ensures r.Some? <==> index + count <= U64_MAX
    ensures r.Some? ==> r.value.Valid() && Drain(r.value).0 == seq(count, i requires 0 <= i < count => index + i)
  {
    match ForwardChecked(index, count)
    case None => None
    case Some(end) =>
      var it := NewIterator(index, end);
      assert Drain(it).0 == seq(count, i requires 0 <= i < count => index + i);
      Some(it)
  }

  /** `captured_len`: the pages from the start to the end. */
  function CapturedLen(it: PageIterator): (r: usize)
    requires it.Valid()
    ensures it.start + r == it.end
  {
    it.end - it.start
  }

  /** `reset`: back to the start. */
  function Reset(it: PageIterator): (r: PageIterator)
    requires it.Valid()
    ensures r.Valid() && r.start == it.start && r.end == it.end && r.current == it.start
  {
    it.(current := it.start)
  }

  /** `Iterator::next`: yield the cursor and advance it while it is below
      the end. */
  function Next(it: PageIterator): (r: (Option<usize>, PageIterator))
    requires it.Valid()
    ensures r.0.Some? <==> it.current < it.end
    ensures r.1.Valid() && r.1.start == it.start && r.1.end == it.end
    ensures r.0.Some? ==> r.0.value == it.current && r.1.current == it.current + 1
    ensures r.0.None? ==> r.1 == it
  {
    if it.current < it.end then (Some(it.current), it.(current := it.current + 1))
    else (None, it)
  }

  /** Calling `next` until it returns `None`: the pages yielded, and the
      exhausted iterator. */
  function Drain(it: PageIterator): (r: (seq<usize>, PageIterator))
    requires it.Valid()
    ensures |r.0| == it.end - it.current
    ensures forall i :: 0 <= i < |r.0| ==> r.0[i] == it.current + i
    ensures r.1.Valid() && r.1.start == it.start && r.1.end == it.end
    ensures Next(r.1).0.None?
    decreases it.end - it.current
  {
    match Next(it)
    case (None, _) => ([], it)
    case (Some(p), rest) =>
      var (more, done) := Drain(rest);
      ([p] + more, done)
  }

  /** `ExactSizeIterator::len` as written: `end - start`, the captured
      length, whatever has been yielded already. */
  function LenAsWritten(it: PageIterator): (r: usize)
    requires it.Valid()
    ensures r == CapturedLen(it)
  {
    it.end - it.start
  }

  /** `len` as `ExactSizeIterator` defines it: the pages still to come. */
  function Len(it: PageIterator): (r: usize)
    requires it.Valid()
    ensures r == |Drain(it).0|
    ensures it.current == it.start ==> r == LenAsWritten(it)
  {
    it.end - it.current
  }

  /** After one page of `0 .. 3` has been yielded, two remain, but the
      `len` as written still says three. */
  lemma LenAsWrittenIgnoresProgress()
    ensures var it := Next(NewIterator(0, 3)).1;
      |Drain(it).0| == 2 && LenAsWritten(it) == 3 && Len(it) == 2
  {
  }

  /** After a reset the iterator yields every page of `start .. end` again,
      `captured_len` of them. */
  lemma ResetYieldsCapturedRange(it: PageIterator)
    requires it.Valid()
    ensures |Drain(Reset(it)).0| == CapturedLen(it)
    ensures forall i :: 0 <= i < CapturedLen(it) ==> Drain(Reset(it)).0[i] == it.start + i
  {
  }
}

/** libkernel's `PageTableEntry`: `frame_index * 0x1000` or-ed with the
    `PageAttribute` bits 0..7, 8 and 63. */
module LibPte {
  import opened Wrappers

  type Entry = bv64

  const PRESENT: bv64 := 0x1
  const WRITABLE: bv64 := 0x2
  const UNCACHEABLE: bv64 := 0x10
  const NO_EXECUTE: bv64 := 0x8000_0000_0000_0000

  const CODE: bv64 := 0x1
  const RODATA: bv64 := 0x8000_0000_0000_0001
  const DATA: bv64 := 0x8000_0000_0000_0003
  const MMIO: bv64 := 0x8000_0000_0000_0013
  const FRAMEBUFFER: bv64 := 0x8000_0000_0000_0003

  /** Code is present and executable, read-only data is present and not
      executable, data adds writable, MMIO is uncached data, and a
      framebuffer is mapped as data. */
  lemma AttributeSets()
    ensures CODE == PRESENT
    ensures RODATA == PRESENT | NO_EXECUTE
    ensures DATA == RODATA | WRITABLE
    ensures MMIO == DATA | UNCACHEABLE
    ensures FRAMEBUFFER == DATA
  {
  }

  /** A `PageAttribute` value: only bits of `PageAttribute::all()`
      (0x8000_0000_0000_017F). */
  predicate IsAttributes(a: bv64)
  {
    a & 0x7FFF_FFFF_FFFF_FE80 == 0
  }

  /** `get_attribs`: `from_bits_truncate`. */
  function GetAttribs(e: Entry): (a: bv64)
    ensures IsAttributes(a)
  {
    e & 0x8000_0000_0000_017F
  }

  /** The frame field, `(e & FRAME_INDEX_MASK) / 0x1000`. */
  function FrameField(e: Entry): (index: bv64)
    ensures index < 0x100_0000_0000
  {
    (e & 0x000F_FFFF_FFFF_F000) >> 12
  }

  /** `set`: `(frame_index * 0x1000) | attributes`. The product must not
      overflow, so the index is below 2^52; nothing keeps it below the
      2^40 the frame field holds. */
  function SetEntry(index: bv64, attributes: bv64): (e: Entry)
    requires index < 0x10_0000_0000_0000 && IsAttributes(attributes)
    ensures index < 0x100_0000_0000 ==> FrameField(e) == index && GetAttribs(e) == attributes
  {
    (index << 12) | attributes
  }

  /** An index of 2^51 or more reaches the attribute bits: `set` with the
      index 2^51 and no attributes yields an entry marked no-execute. */
  lemma LargeIndexSetsNoExecute()
    ensures GetAttribs(SetEntry(0x8_0000_0000_0000, 0)) == NO_EXECUTE
  {
  }

  /** `get_frame_index`: the frame field, if the entry is present. */
  function GetFrameIndex(e: Entry): (r: Option<bv64>)
    ensures r.Some? <==> GetAttribs(e) & PRESENT == PRESENT
    ensures r.Some? ==> r.value == FrameField(e)
  {
    if e & 0x1 != 0 then Some((e & 0x000F_FFFF_FFFF_F000) >> 12) else None
  }

  /** An entry `set` with a frame reports that frame exactly when its
      attributes make it present. */
  lemma SetThenGetFrameIndex(index: bv64, attributes: bv64)
    requires index < 0x100_0000_0000 && IsAttributes(attributes)
    ensures GetFrameIndex(SetEntry(index, attributes)) ==
      if attributes & PRESENT == PRESENT then Some(index) else None
  {
  }

  /** `set_frame_index`: keep the attribute bits, drop every other bit, and
      write the new index. */
  function SetFrameIndex(e: Entry, index: bv64): (r: Entry)
    requires index < 0x10_0000_0000_0000
    ensures GetAttribs(r) == GetAttribs(e) || index >= 0x8_0000_0000_0000
    ensures index < 0x100_0000_0000 ==> FrameField(r) == index && GetAttribs(r) == GetAttribs(e)
  {
    (e & 0x8000_0000_0000_017F) | (index << 12)
  }

  /** `take_frame_index`: the frame field, and the entry with that field
      cleared. */
  function TakeFrameIndex(e: Entry): (r: (bv64, Entry))
    ensures r.0 == FrameField(e)
    ensures FrameField(r.1) == 0
    ensures r.1 & 0xFFF0_0000_0000_0FFF == e & 0xFFF0_0000_0000_0FFF
  {
    ((e & 0x000F_FFFF_FFFF_F000) >> 12, e & 0xFFF0_0000_0000_0FFF)
  }

  /** Taking the frame keeps the attributes, and putting it back restores
      an entry with no bits outside the frame and attribute fields. */
  lemma TakeThenRestore(e: Entry)
    requires e & 0x7FF0_0000_0000_0E80 == 0
    ensures GetAttribs(TakeFrameIndex(e).1) == GetAttribs(e)
    ensures SetFrameIndex(TakeFrameIndex(e).1, TakeFrameIndex(e).0) == e
  {
  }

  datatype AttributeModify = Set | Insert | Remove | Toggle

  /** The `bitflags` update for each mode: replace, union, difference and
      symmetric difference. */
  function Modify(attributes: bv64, update: bv64, mode: AttributeModify): (r: bv64)
    requires IsAttributes(attributes) && IsAttributes(update)
    ensures IsAttributes(r)
  {
    match mode
    case Set => update
    case Insert => Union(attributes, update)
    case Remove => Difference(attributes, update)
    case Toggle => SymmetricDifference(attributes, update)
  }

  /** `insert`: every attribute of either operand. */
  function Union(a: bv64, u: bv64): (r: bv64)
    requires IsAttributes(a) && IsAttributes(u)
    ensures IsAttributes(r) && r & u == u && r & a == a
  {
    a | u
  }

  /** `remove`: the attributes of `a` not in `u`. */
  function Difference(a: bv64, u: bv64): (r: bv64)
    requires IsAttributes(a) && IsAttributes(u)
    ensures IsAttributes(r) && r & u == 0 && r & !u == a & !u
  {
    a & !u
  }

  /** `toggle`: flip the attributes of `u`. */
  function SymmetricDifference(a: bv64, u: bv64): (r: bv64)
    requires IsAttributes(a) && IsAttributes(u)
    ensures IsAttributes(r) && r ^ u == a
  {
    a ^ u
  }

  /** The attributes `set_attributes` writes: with NXE unsupported,
      without `NO_EXECUTE`. */
  function Adjust(a: bv64, nxe: bool): (r: bv64)
    requires IsAttributes(a)
    ensures IsAttributes(r)
    ensures !nxe ==> r & NO_EXECUTE == 0
    ensures r & 0x7FFF_FFFF_FFFF_FFFF == a & 0x7FFF_FFFF_FFFF_FFFF
  {
    if nxe then a else a & 0x7FFF_FFFF_FFFF_FFFF
  }

  /** `set_attributes`: update the attribute bits and leave every other
      bit of the entry, the frame field included, as it was. */
  function SetAttributes(e: Entry, update: bv64, mode: AttributeModify, nxe: bool): (r: Entry)
    requires IsAttributes(update)
    ensures FrameField(r) == FrameField(e)
    ensures GetAttribs(r) == Adjust(Modify(GetAttribs(e), update, mode), nxe)
  {
    var attributes := Adjust(Modify(GetAttribs(e), update, mode), nxe);
    WithAttributes(e, attributes)
  }

  /** The entry with its attribute bits replaced. */
  function WithAttributes(e: Entry, attributes: bv64): (r: Entry)
    requires IsAttributes(attributes)
    ensures r & 0x7FFF_FFFF_FFFF_FE80 == e & 0x7FFF_FFFF_FFFF_FE80
    ensures GetAttribs(r) == attributes
    ensures FrameField(r) == FrameField(e)
  {
    (e & 0x7FFF_FFFF_FFFF_FE80) | attributes
  }

  /** A present entry still maps its frame after `set_attributes`, and
      without NXE support the entry written is never marked no-execute. */
  lemma SetAttributesKeepsFrame(e: Entry, update: bv64, mode: AttributeModify, nxe: bool)
    requires IsAttributes(update)
    ensures GetFrameIndex(SetAttributes(e, update, mode, nxe)).Some? ==>
      GetFrameIndex(SetAttributes(e, update, mode, nxe)) == Some(FrameField(e))
    ensures !nxe ==> SetAttributes(e, update, mode, nxe) & NO_EXECUTE == 0
  {
    if !nxe {
      HighBit(SetAttributes(e, update, mode, nxe));
    }
  }

  /** Bit 63 of an entry is bit 63 of its attributes. */
  lemma HighBit(e: Entry)
    ensures e & 0x8000_0000_0000_0000 == GetAttribs(e) & 0x8000_0000_0000_0000
  {
  }
}

=== FILE: libstd.dfy ===
/** Alignment helpers, the `U64_BIT_MASKS` table and the `IndexRing`
    counter of the kernel's standard library. */
module LibStd {
  import opened Words

  // ----- U64_BIT_MASKS --------------------------------------------------

  /** `U64_BIT_MASKS`: entry n is `(1 << (n + 1)) - 1`, except the last,
      which is written as `u64::MAX`. */
  function U64BitMasks(): (r: seq<u64>)
    ensures |r| == 64
  {
    Pow2Of64();
    seq(64, n requires 0 <= n < 64 => if n == 63 then U64_MAX else MaskOf(n + 1))
  }

  /** The mask of the low `bits` bits, 2^bits − 1, for bits < 64. */
  function MaskOf(bits: nat): (r: u64)
    requires bits < 64
  {
    Pow2Of64();
    Pow2Monotone(bits, 64);
    Pow2(bits) - 1
  }

  /** Every entry n keeps exactly the low n + 1 bits: it is 2^(n+1) − 1,
      including the last entry, so each entry is the previous one with one
      more bit set. */
  lemma U64BitMasksAreLowBitMasks()
    ensures forall n: int :: 0 <= n < 64 ==> U64BitMasks()[n] as int + 1 == Pow2(n + 1)
    ensures U64BitMasks()[63] == U64_MAX
    ensures U64BitMasks()[0] == 1
    ensures forall n: int :: 0 <= n < 63 ==> U64BitMasks()[n + 1] == 2 * (U64BitMasks()[n] as int) + 1
  {
    Pow2Of64();
  }

  // ----- align_* --------------------------------------------------------

  /** `align_up`. For a power-of-two alignment the test
      `value & (alignment - 1) == 0` is `value % alignment == 0`, and
      `(value | (alignment - 1)) + 1` is the multiple just above `value`.
      The final `+ 1` is a u64 addition that must not overflow. */
  function AlignUp(value: usize, alignment: usize): (r: usize)
    requires IsPowerOfTwo(alignment)
    requires value % alignment == 0 || value - value % alignment + alignment <= U64_MAX
    ensures r % alignment == 0
    ensures value <= r < value + alignment
    ensures r == value <==> value % alignment == 0
  {
    if value % alignment == 0 then value else AlignUpStep(value, alignment)
  }

  /** `(value | mask) + 1`: the next multiple above an unaligned value. */
  function AlignUpStep(value: usize, alignment: usize): (r: usize)
    requires alignment > 0 && value % alignment != 0
    requires value - value % alignment + alignment <= U64_MAX
    ensures r % alignment == 0
    ensures value < r < value + alignment
  {
    ModAddMultiple(0, value / alignment + 1, alignment);
    value - value % alignment + alignment
  }

  /** `align_up` is the least multiple of the alignment at or above the
      value. */
  lemma AlignUpIsLeast(value: usize, alignment: usize, m: int)
    requires IsPowerOfTwo(alignment)
    requires value % alignment == 0 || value - value % alignment + alignment <= U64_MAX
    requires m % alignment == 0 && m >= value
    ensures AlignUp(value, alignment) <= m
  {
    var r := AlignUp(value, alignment);
    if m < r {
      MultiplesApart(AlignDown(value, alignment), m, alignment);
    }
  }

  /** `align_up_div`: `((value + alignment) - 1) / alignment`. The sum is a
      u64 addition that must not overflow, and the division needs a
      nonzero alignment. */
  function AlignUpDiv(value: usize, alignment: usize): (r: usize)
    requires alignment > 0
    requires value + alignment <= U64_MAX
    ensures r == value / alignment + (if value % alignment == 0 then 0 else 1)
    ensures r * alignment >= value
    ensures (r - 1) * alignment < value || value == 0
  {
    CeilingQuotient(value, alignment);
    (value + alignment - 1) / alignment
  }

  /** (value + a − 1) / a rounds the quotient up. */
  lemma CeilingQuotient(value: nat, a: int)
    requires a > 0
    ensures (value + a - 1) / a == value / a + (if value % a == 0 then 0 else 1)
  {
    if value % a == 0 {
      DivModUnique(value + a - 1, a, value / a, a - 1);
    } else {
      DivModUnique(value + a - 1, a, value / a + 1, value % a - 1);
    }
  }

  /** `align_down`: `value & !(alignment - 1)`, which for a power-of-two
      alignment clears the remainder. */
  function AlignDown(value: usize, alignment: usize): (r: usize)
    requires IsPowerOfTwo(alignment)
    ensures r % alignment == 0
    ensures r <= value < r + alignment
    ensures r == value <==> value % alignment == 0
  {
    PowerOfTwoPositive(alignment);
    RoundDown(value, alignment)
  }

  /** The value with its remainder modulo `a` taken away. */
  function RoundDown(value: nat, a: nat): (r: nat)
    requires a > 0
    ensures r % a == 0
    ensures r <= value < r + a
    ensures r == value <==> value % a == 0
  {
    DivModUnique(value - value % a, a, value / a, 0);
    value - value % a
  }

  /** `align_down` is the greatest multiple of the alignment at or below the
      value. */
  lemma AlignDownIsGreatest(value: usize, alignment: usize, m: int)
    requires IsPowerOfTwo(alignment)
    requires m % alignment == 0 && m <= value
    ensures m <= AlignDown(value, alignment)
  {
    var r := AlignDown(value, alignment);
    if m > r {
      MultiplesApart(r, m, alignment);
    }
  }

  /** `align_down_div`: the floor of value / alignment. */
  function AlignDownDiv(value: usize, alignment: usize): (r: usize)
    requires IsPowerOfTwo(alignment)
    ensures r == value / alignment
    ensures r * alignment <= value < (r + 1) * alignment
  {
    var d := AlignDown(value, alignment);
    DivModUnique(d, alignment, value / alignment, 0);
    d / alignment
  }

  // ----- IndexRing ------------------------------------------------------

  /** `IndexRing`: a counter that runs 0, 1, …, max − 1 and wraps. */
  datatype IndexRing = IndexRing(current: usize, max: usize)
  {
    /** The counter is inside its range. */
    predicate Valid()
    {
      current < max
    }
  }

  /** `IndexRing::new`. */
  function RingNew(max: usize): (r: IndexRing)
    ensures r.current == 0 && r.max == max
    ensures max > 0 ==> r.Valid()
  {
    IndexRing(0, max)
  }

  /** `IndexRing::next_index`: `(current + 1) % max`. The remainder panics
      for max = 0 and the addition overflows at `usize::MAX`. */
  function RingNextIndex(ring: IndexRing): (r: usize)
    requires ring.max > 0 && ring.current < U64_MAX
    ensures r < ring.max
    ensures ring.Valid() ==> r == (if ring.current + 1 == ring.max then 0 else ring.current + 1)
  {
    (ring.current + 1) % ring.max
  }

  /** `IndexRing::increment`. */
  function RingIncrement(ring: IndexRing): (r: IndexRing)
    requires ring.max > 0 && ring.current < U64_MAX
    ensures r.Valid() && r.max == ring.max
    ensures r.current == RingNextIndex(ring)
  {
    ring.(current := RingNextIndex(ring))
  }

  /** `increment` applied n times. */
  function RingAdvance(ring: IndexRing, n: nat): (r: IndexRing)
    requires ring.Valid()
    ensures r.Valid() && r.max == ring.max
    decreases n
  {
    if n == 0 then ring else RingAdvance(RingIncrement(ring), n - 1)
  }

  /** After n increments the index is (start + n) mod max; in particular
      max increments bring the ring back to where it started. */
  lemma {:induction false} RingAdvanceCounts(ring: IndexRing, n: nat)
    requires ring.Valid()
    ensures RingAdvance(ring, n).current == (ring.current + n) % ring.max
    ensures n == ring.max ==> RingAdvance(ring, n) == ring
    decreases n
  {
    if n == 0 {
      DivModUnique(ring.current, ring.max, 0, ring.current);
    } else {
      var next := RingIncrement(ring);
      RingAdvanceCounts(next, n - 1);
      ModSucc(ring.current, ring.max);
      DivModUnique(ring.current, ring.max, 0, ring.current);
      assert (next.current + (n - 1)) % ring.max == (ring.current + n) % ring.max by {
        ModAddMultiple(ring.current + 1, 0, ring.max);
        AddUnderMod(ring.current + 1, n - 1, ring.max);
      }
      if n == ring.max {
        ModAddMultiple(ring.current, 1, ring.max);
      }
    }
  }

  /** The remainder of a sum depends only on the remainder of the first
      addend. */
  lemma AddUnderMod(x: int, k: int, m: int)
    requires m > 0
    ensures (x % m + k) % m == (x + k) % m
  {
    ModAddMultiple(x % m + k, x / m, m);
  }
}

=== FILE: lz_deque.dfy ===
/** `lzalloc`'s `Deque`: a ring buffer over a `RawVec` whose head and
    tail are free-running `usize` counters; an element's slot is its
    counter masked by the capacity, which for the power-of-two capacities
    the deque relies on is the counter modulo the capacity. Slots are
    modelled as in `LzVec`: `None` for a slot never written. Elements of
    zero-sized types are not modelled. */
module LzDeque {
  import opened Wrappers
  import opened Words
  import opened LzRawVec

  /** 2^64, the modulus of `usize` arithmetic. */
  const WORD: int := U64_MAX + 1

  datatype Deque<T> = Deque(buffer: RawVec, memory: seq<Option<T>>, head: usize, tail: usize)
  {
    function Cap(): nat { buffer.capacity }

    /** `len`: the tail counter minus the head counter, wrapping. */
    function Len(): usize { WrappingSub(tail, head) }

    /** The slot of element i: its counter modulo the capacity. */
    function SlotOf(i: int): (r: int)
      requires Cap() > 0
      ensures 0 <= r < Cap()
    {
      (head + i) % Cap()
    }

    /** A non-zero-sized buffer of zero or a power-of-two slots (at most
        `isize::MAX` of them, as the layout implies), holding at most its
        capacity, with the slot of every element written. */
    predicate Valid()
    {
      buffer.elemSize > 0 && LayoutFits(Cap(), buffer.elemSize) && Cap() <= ISIZE_MAX && |memory| == Cap()
      && (Cap() == 0 || IsPowerOfTwo(Cap()))
      && Len() <= Cap()
      && forall i :: 0 <= i < Len() ==> memory[SlotOf(i)].Some?
    }
  }

  /** The elements from front to back: element i lives in the slot of
      counter `head + i`. */
  function Contents<T>(d: Deque<T>): (r: seq<T>)
    requires d.Valid()
    ensures |r| == d.Len()
    ensures forall i :: 0 <= i < d.Len() ==> d.memory[d.SlotOf(i)] == Some(r[i])
  {
    seq(d.Len(), (i: int) requires 0 <= i < d.Len() && d.Valid() => d.memory[d.SlotOf(i)].value)
  }

  /** `is_empty` compares the counters; `is_full` compares the length with
      the capacity. */
  function IsEmpty<T>(d: Deque<T>): (r: bool)
    requires d.Valid()
    ensures r <==> Contents(d) == []
  {
    d.head == d.tail
  }

  function IsFull<T>(d: Deque<T>): (r: bool)
    requires d.Valid()
    ensures r <==> |Contents(d)| == d.Cap()
  {
    d.Len() == d.Cap()
  }

  /** `new_in`. */
  function NewDeque<T>(elemSize: nat): (r: Deque<T>)
    requires elemSize > 0
    ensures r.Valid() && Contents(r) == [] && r.Cap() == 0
  {
    Deque(NewRawVec(elemSize), [], 0, 0)
  }

  // ----- Arithmetic of slots ----------------------------------------------

  /** A power-of-two capacity divides 2^64, so wrapping a counter does not
      move its slot. */
  lemma WordMultiple(c: nat)
    requires c > 0 && IsPowerOfTwo(c) && c <= WORD
    ensures WORD % c == 0
  {
    Pow2Of64();
    Pow2IsPowerOfTwo(64);
    PowerOfTwoDivides(c, WORD);
  }

  lemma ShiftByWord(x: int, c: int)
    requires c > 0 && WORD % c == 0
    ensures (x + WORD) % c == x % c
  {
    var k := WORD / c;
    assert WORD == k * c;
    ModAddMultiple(x, k, c);
  }

  /** The slot i places after the slot of x. */
  lemma SlotAfter(x: int, i: int, c: int)
    requires c > 0 && 0 <= i < c
    ensures x % c + i < c ==> (x + i) % c == x % c + i
    ensures x % c + i >= c ==> (x + i) % c == x % c + i - c
  {
    if x % c + i < c {
      DivModUnique(x + i, c, x / c, x % c + i);
    } else {
      DivModUnique(x + i, c, x / c + 1, x % c + i - c);
    }
  }

  /** Fewer than c counters in a row have distinct slots. */
  lemma SlotsDistinct(x: int, i: int, j: int, c: int)
    requires c > 0 && 0 <= i < j < c
    ensures (x + i) % c != (x + j) % c
  {
    SlotAfter(x, i, c);
    SlotAfter(x, j, c);
  }

  /** The facts every operation needs about a valid deque with room. */
  lemma ValidFacts<T>(d: Deque<T>)
    requires d.Valid() && d.Cap() > 0
    ensures WORD % d.Cap() == 0 && d.Cap() <= ISIZE_MAX
    ensures d.tail % d.Cap() == (d.head + d.Len()) % d.Cap()
  {
    WordMultiple(d.Cap());
    if d.tail < d.head {
      ShiftByWord(d.tail, d.Cap());
    }
  }

  // ----- push_back and pop_front ------------------------------------------

  /** `push_back`: grow when full, then write at the tail's slot and
      advance the tail. The element joins the back. */
  function PushBack<T>(d: Deque<T>, x: T, allocates: bool): (r: Result<Deque<T>, AllocError>)
    requires d.Valid()
    ensures r.Err? <==> IsFull(d) && ReserveOne(d.buffer, d.Cap(), allocates).Err?
    ensures r.Ok? ==> r.value.Valid() && Contents(r.value) == Contents(d) + [x]
  {
    var room := if IsFull(d) then GrowOne(d, allocates) else Ok(d);
    if room.Err? then Err(room.error)
    else
      var e := room.value;
      var w := Deque(e.buffer, e.memory[e.tail % e.Cap() := Some(x)], e.head, WrappingAdd(e.tail, 1));
      PushBackAppends(e, x, w);
      Ok(w)
  }

  lemma PushBackAppends<T>(e: Deque<T>, x: T, w: Deque<T>)
    requires e.Valid() && e.Len() < e.Cap()
    requires w == Deque(e.buffer, e.memory[e.tail % e.Cap() := Some(x)], e.head, WrappingAdd(e.tail, 1))
    ensures w.Valid() && Contents(w) == Contents(e) + [x]
  {
    ValidFacts(e);
    var n := e.Len();
    assert w.Len() == n + 1;
    assert e.tail % e.Cap() == e.SlotOf(n);
    forall i | 0 <= i < n
      ensures w.memory[w.SlotOf(i)] == e.memory[e.SlotOf(i)]
    {
      SlotsDistinct(e.head, i, n, e.Cap());
    }
    assert w.memory[w.SlotOf(n)] == Some(x);
  }

  /** `pop_front`: nothing when empty; otherwise the element at the head's
      slot, and the head advances. The front element leaves. */
  function PopFront<T>(d: Deque<T>): (r: Option<(Deque<T>, T)>)
    requires d.Valid()
    ensures r.None? <==> Contents(d) == []
    ensures r.Some? ==> r.value.0.Valid() && r.value.1 == Contents(d)[0]
    ensures r.Some? ==> Contents(r.value.0) == Contents(d)[1..] && r.value.0.Cap() == d.Cap()
  {
    if IsEmpty(d) then None
    else
      var w := d.(head := WrappingAdd(d.head, 1));
      PopFrontRemoves(d, w);
      Some((w, d.memory[d.SlotOf(0)].value))
  }

  lemma PopFrontRemoves<T>(d: Deque<T>, w: Deque<T>)
    requires d.Valid() && d.Len() > 0 && w == d.(head := WrappingAdd(d.head, 1))
    ensures w.Valid() && Contents(w) == Contents(d)[1..]
  {
    ValidFacts(d);
    assert w.Len() == d.Len() - 1;
    forall i | 0 <= i < w.Len()
      ensures w.SlotOf(i) == d.SlotOf(i + 1)
    {
      if d.head == U64_MAX {
        ShiftByWord(i, d.Cap());
      }
    }
  }

  // ----- push_front -------------------------------------------------------

  /** `push_front` as written: the element is written at the head's slot,
      which holds the front element, and only then is the head moved
      back. */
  function PushFrontAsWritten<T>(d: Deque<T>, x: T, allocates: bool): (r: Result<Deque<T>, AllocError>)
    requires d.Valid()
    ensures r.Err? <==> IsFull(d) && ReserveOne(d.buffer, d.Cap(), allocates).Err?
    ensures r.Ok? ==> r.value.Len() == d.Len() + 1 && r.value.Cap() >= r.value.Len()
  {
    var room := if IsFull(d) then GrowOne(d, allocates) else Ok(d);
    if room.Err? then Err(room.error)
    else
      var e := room.value;
      ValidFacts(e);
      Ok(Deque(e.buffer, e.memory[e.head % e.Cap() := Some(x)], WrappingSub(e.head, 1), e.tail))
  }

  /** The deque holding just 7, in slot 0 of four. */
  function HoldingSeven(): (r: Deque<int>)
    ensures r.Valid() && Contents(r) == [7] && !IsFull(r)
  {
    var d := Deque(RawVec(4, 1), [Some(7), None, None, None], 0, 1);
    assert IsPowerOfTwo(4) by {
      assert IsPowerOfTwo(1);
    }
    assert d.SlotOf(0) == 0;
    assert Contents(d) == [7];
    d
  }

  /** Pushing 8 in front of a deque holding just 7 overwrites the 7 and
      leaves the new front slot unwritten. */
  lemma PushFrontAsWrittenOverwrites()
    ensures PushFrontAsWritten(HoldingSeven(), 8, true).Ok?
    ensures var r := PushFrontAsWritten(HoldingSeven(), 8, true).value;
            r.memory == [Some(8), None, None, None] && r.Len() == 2
            && r.memory[r.SlotOf(0)].None? && !r.Valid()
  {
    var d := HoldingSeven();
    var r := PushFrontAsWritten(d, 8, true).value;
    assert r == Deque(RawVec(4, 1), [Some(8), None, None, None], U64_MAX, 1);
    assert r.SlotOf(0) == 3;
  }

  /** The corrected `push_front`: move the head back first, then write at
      its slot. The element joins the front. */
  function PushFront<T>(d: Deque<T>, x: T, allocates: bool): (r: Result<Deque<T>, AllocError>)
    requires d.Valid()
    ensures r.Err? <==> IsFull(d) && ReserveOne(d.buffer, d.Cap(), allocates).Err?
    ensures r.Ok? ==> r.value.Valid() && Contents(r.value) == [x] + Contents(d)
  {
    var room := if IsFull(d) then GrowOne(d, allocates) else Ok(d);
    if room.Err? then Err(room.error)
    else
      var e := room.value;
      var head := WrappingSub(e.head, 1);
      var w := Deque(e.buffer, e.memory[head % e.Cap() := Some(x)], head, e.tail);
      PushFrontPrepends(e, x, w);
      Ok(w)
  }

  lemma PushFrontPrepends<T>(e: Deque<T>, x: T, w: Deque<T>)
    requires e.Valid() && e.Len() < e.Cap()
    requires w == Deque(e.buffer, e.memory[WrappingSub(e.head, 1) % e.Cap() := Some(x)],
                        WrappingSub(e.head, 1), e.tail)
    ensures w.Valid() && Contents(w) == [x] + Contents(e)
  {
    ValidFacts(e);
    var n := e.Len();
    assert w.Len() == n + 1;
    forall i | 0 <= i < n
      ensures w.SlotOf(i + 1) == e.SlotOf(i) && w.SlotOf(i + 1) != w.SlotOf(0)
    {
      SlotsDistinct(w.head, 0, i + 1, e.Cap());
      if e.head == 0 {
        ShiftByWord(i, e.Cap());
      }
    }
    assert w.memory[w.SlotOf(0)] == Some(x);
    forall i | 0 <= i < w.Len()
      ensures w.memory[w.SlotOf(i)].Some?
    {
      if i > 0 {
        assert w.memory[w.SlotOf(i)] == e.memory[e.SlotOf(i - 1)];
      }
    }
  }

  // ----- grow_one ---------------------------------------------------------

  /** The grown buffer's slots: the old slots in place, followed by
      unwritten ones, with the old slots from `oldHead` up copied to the
      top of the new buffer. */
  function CopiedUp<T>(memory: seq<Option<T>>, newCap: nat, oldHead: nat): (r: seq<Option<T>>)
    requires oldHead < |memory| <= newCap
    ensures |r| == newCap
    ensures forall j :: 0 <= j < oldHead ==> r[j] == memory[j]
    ensures forall j :: |memory| <= j < oldHead + newCap - |memory| ==> r[j].None?
    ensures forall j :: oldHead <= j < |memory| ==> r[j + newCap - |memory|] == memory[j]
  {
    (memory + Uninitialised(newCap - |memory|))[..oldHead + newCap - |memory|] + memory[oldHead..]
  }

  /** The buffer `grow_one` reserves: room for one element more than the
      capacity, rounded by `next_capacity`. */
  function GrowBuffer<T>(d: Deque<T>, allocates: bool): (r: Result<RawVec, AllocError>)
    requires d.Valid()
    ensures r == ReserveOne(d.buffer, d.Cap(), allocates)
    ensures r.Ok? ==> r.value.elemSize == d.buffer.elemSize && LayoutFits(r.value.capacity, r.value.elemSize)
    ensures r.Ok? ==> IsPowerOfTwo(r.value.capacity) && r.value.capacity > d.Cap()
    ensures r.Ok? ==> r.value.capacity == NextCapacity(d.Cap() + 1) && r.value.capacity <= ISIZE_MAX
  {
    var r := ReserveOne(d.buffer, d.Cap(), allocates);
    if r.Ok? then LayoutFitsBelow(r.value.capacity, r.value.elemSize); r else r
  }

  /** `grow_one` as written: reserve one more element than the capacity,
      then (for a non-empty deque whose tail slot is not past its head
      slot) add the added capacity to both counters and copy the slots
      from the head's up to the old capacity to the top of the new
      buffer. */
  function GrowOneAsWritten<T>(d: Deque<T>, allocates: bool): (r: Result<Deque<T>, AllocError>)
    requires d.Valid() && IsFull(d)
    ensures r.Err? <==> ReserveOne(d.buffer, d.Cap(), allocates).Err?
    ensures r.Ok? ==> r.value.Cap() == NextCapacity(d.Cap() + 1) && r.value.Len() == d.Len()
  {
    var grown := GrowBuffer(d, allocates);
    if grown.Err? then Err(grown.error)
    else
      var oldCap := d.Cap();
      var added := grown.value.capacity - oldCap;
      var oldHead := if oldCap == 0 then 0 else d.head % oldCap;
      var oldTail := if oldCap == 0 then 0 else d.tail % oldCap;
      if d.Len() == 0 then Ok(Deque(grown.value, d.memory + Uninitialised(added), d.head, d.tail))
      else if oldTail <= oldHead then
        var head := WrappingAdd(d.head, added);
        var tail := WrappingAdd(d.tail, added);
        assert WrappingSub(tail, head) == d.Len();
        Ok(Deque(grown.value, CopiedUp(d.memory, grown.value.capacity, oldHead), head, tail))
      else Ok(Deque(grown.value, d.memory + Uninitialised(added), d.head, d.tail))
  }

  /** A full deque of capacity 4 whose head counter is 5 and whose
      elements 0, 1, 2, 3 sit in slots 1, 2, 3, 0. */
  function FullFromFive(): (r: Deque<int>)
    ensures r.Valid() && Contents(r) == [0, 1, 2, 3] && IsFull(r)
  {
    var d := Deque(RawVec(4, 1), [Some(3), Some(0), Some(1), Some(2)], 5, 9);
    assert IsPowerOfTwo(4) by {
      assert IsPowerOfTwo(1);
    }
    assert d.SlotOf(0) == 1 && d.SlotOf(1) == 2 && d.SlotOf(2) == 3 && d.SlotOf(3) == 0;
    assert Contents(d) == [0, 1, 2, 3];
    d
  }

  /** Growing that deque moves the counters to 9 and 13, but the fourth
      element (counter 12) was never copied to slot 4, which is left
      unwritten. */
  lemma GrowOneAsWrittenLosesElement()
    ensures GrowOneAsWritten(FullFromFive(), true).Ok?
    ensures var r := GrowOneAsWritten(FullFromFive(), true).value;
            r.Cap() == 8 && r.head == 9 && r.Len() == 4
            && r.memory[r.SlotOf(3)].None? && !r.Valid()
  {
    var d := FullFromFive();
    NextCapacityDoubles(2);
    assert GrowBuffer(d, true) == Ok(RawVec(8, 1));
    var r := GrowOneAsWritten(d, true).value;
    assert r == Deque(RawVec(8, 1), CopiedUp(d.memory, 8, 1), 9, 13);
    assert r.SlotOf(3) == 4;
  }

  /** The corrected `grow_one`: as written, but the head counter is first
      brought back to its slot in the old buffer, so that after the grow
      the head's slot is the copied one. Every element keeps its place in
      the order. */
  function GrowOne<T>(d: Deque<T>, allocates: bool): (r: Result<Deque<T>, AllocError>)
    requires d.Valid() && IsFull(d)
    ensures r.Err? <==> ReserveOne(d.buffer, d.Cap(), allocates).Err?
    ensures r.Ok? ==> r.value.Valid() && Contents(r.value) == Contents(d)
    ensures r.Ok? ==> r.value.Cap() == NextCapacity(d.Cap() + 1) && r.value.Cap() > d.Len()
  {
    var grown := GrowBuffer(d, allocates);
    if grown.Err? then Err(grown.error)
    else
      var oldCap := d.Cap();
      var added := grown.value.capacity - oldCap;
      if oldCap == 0 then Ok(Deque(grown.value, Uninitialised(added), d.head, d.tail))
      else
        var oldHead := d.head % oldCap;
        var w := Deque(grown.value, CopiedUp(d.memory, grown.value.capacity, oldHead),
                       oldHead + added, oldHead + added + oldCap);
        GrowRelocates(d, w);
        Ok(w)
  }

  lemma GrowRelocates<T>(d: Deque<T>, w: Deque<T>)
    requires d.Valid() && IsFull(d) && d.Cap() > 0
    requires w.buffer.elemSize == d.buffer.elemSize && LayoutFits(w.Cap(), w.buffer.elemSize)
    requires IsPowerOfTwo(w.Cap()) && w.Cap() > d.Cap()
    requires w.memory == CopiedUp(d.memory, w.Cap(), d.head % d.Cap())
    requires w.head == d.head % d.Cap() + w.Cap() - d.Cap() && w.tail == w.head + d.Cap()
    ensures w.Valid() && Contents(w) == Contents(d)
  {
    LayoutFitsBelow(w.Cap(), w.buffer.elemSize);
    forall i | 0 <= i < d.Cap()
      ensures w.memory[w.SlotOf(i)] == d.memory[d.SlotOf(i)]
    {
      GrowSlot(d, w, i);
    }
    assert w.Valid();
    assert Contents(w) == Contents(d);
  }

  /** Element i of the full deque sits, after the copy, in the slot of
      counter i of the grown one. */
  lemma GrowSlot<T>(d: Deque<T>, w: Deque<T>, i: nat)
    requires |d.memory| == d.Cap() > 0 && i < d.Cap() < w.Cap()
    requires w.memory == CopiedUp(d.memory, w.Cap(), d.head % d.Cap())
    requires w.head == d.head % d.Cap() + w.Cap() - d.Cap()
    ensures w.memory[w.SlotOf(i)] == d.memory[d.SlotOf(i)]
  {
    var oldCap, newCap := d.Cap(), w.Cap();
    var oh := d.head % oldCap;
    SlotAfter(d.head, i, oldCap);
    if i < oldCap - oh {
      var j := oh + i;
      assert d.SlotOf(i) == j;
      DivModUnique(w.head + i, newCap, 0, j + newCap - oldCap);
      assert w.SlotOf(i) == j + newCap - oldCap;
    } else {
      var j := oh + i - oldCap;
      assert d.SlotOf(i) == j;
      DivModUnique(w.head + i, newCap, 1, j);
      assert w.SlotOf(i) == j;
    }
  }



  /** The length is the count that takes the head counter to the tail
      counter modulo 2^64; when the tail is not behind the head it is the
      plain difference the source computes. */
  lemma LenCountsFromHead<T>(d: Deque<T>)
    ensures (d.head + d.Len()) % WORD == d.tail
    ensures d.head <= d.tail ==> d.Len() == d.tail - d.head
  {
  }

  // ----- with_capacity ----------------------------------------------------

  /** `capacity_index` as written: the counter masked by one less than the
      capacity (saturating at zero). */
  function CapacityMask(value: usize, capacity: usize): (r: bv64)
    ensures r <= value as bv64
    ensures capacity > 0 ==> r <= (capacity - 1) as bv64
  {
    var mask: bv64 := if capacity == 0 then 0 else (capacity - 1) as bv64;
    MaskBelow(value as bv64, mask);
    (value as bv64) & mask
  }

  /** Masking keeps a word at most itself and at most the mask. */
  lemma MaskBelow(x: bv64, m: bv64)
    ensures x & m <= x && x & m <= m
  {
  }

  /** `with_capacity_in` as written: any capacity is accepted. */
  function WithCapacityAsWritten<T>(capacity: usize, elemSize: nat, allocates: bool): (r: Result<Deque<T>, AllocError>)
    requires elemSize > 0
    ensures r.Ok? <==> capacity == 0 || (LayoutFits(capacity, elemSize) && allocates)
    ensures r.Ok? ==> r.value.Cap() == capacity && r.value.Len() == 0
  {
    match AllocateIn(capacity, elemSize, allocates)
    case Ok(buffer) => Ok(Deque(buffer, Uninitialised(buffer.capacity), 0, 0))
    case Err(e) => Err(e)
  }

  /** A capacity of 3 is accepted, but its mask sends the first two
      counters to the same slot, so a second `push_back` overwrites the
      first element. */
  lemma WithCapacityAsWrittenCollides()
    ensures WithCapacityAsWritten<int>(3, 1, true).Ok?
    ensures !WithCapacityAsWritten<int>(3, 1, true).value.Valid()
    ensures CapacityMask(0, 3) == CapacityMask(1, 3) == 0
  {
    assert !IsPowerOfTwo(3);
  }

  /** The corrected `with_capacity_in`: a capacity that is not a power of
      two is rounded up to the next one, the only capacities the mask
      indexes correctly. */
  function WithCapacity<T>(capacity: usize, elemSize: nat, allocates: bool): (r: Result<Deque<T>, AllocError>)
    requires elemSize > 0 && PowerOfTwoFits(capacity)
    ensures r.Ok? <==> capacity == 0 || (LayoutFits(NextPowerOfTwo(capacity), elemSize) && allocates)
    ensures r.Ok? ==> r.value.Valid() && Contents(r.value) == []
    ensures r.Ok? && capacity > 0 ==> r.value.Cap() >= capacity && r.value.Cap() < 2 * capacity
  {
    NextPowerOfTwoLeast(capacity);
    PowerOfTwoBound(capacity);
    var rounded := if capacity == 0 then 0 else NextPowerOfTwo(capacity);
    match AllocateIn(rounded, elemSize, allocates)
    case Ok(buffer) =>
      LayoutFitsBelow(buffer.capacity, elemSize);
      Ok(Deque(buffer, Uninitialised(buffer.capacity), 0, 0))
    case Err(e) => Err(e)
  }

  // ----- First in, first out ----------------------------------------------

  /** `push_back` of each element in turn, stopping at the first
      allocation error. */
  function PushAll<T>(d: Deque<T>, xs: seq<T>, allocates: bool): (r: Result<Deque<T>, AllocError>)
    requires d.Valid()
    ensures r.Ok? ==> r.value.Valid() && Contents(r.value) == Contents(d) + xs
    decreases |xs|
  {
    if xs == [] then Ok(d)
    else
      match PushBack(d, xs[0], allocates)
      case Err(e) => Err(e)
      case Ok(next) =>
        var r := PushAll(next, xs[1..], allocates);
        assert Contents(d) + [xs[0]] + xs[1..] == Contents(d) + xs;
        r
  }

  /** `pop_front` until empty, in the order popped. */
  function Drain<T>(d: Deque<T>): (r: seq<T>)
    requires d.Valid()
    ensures r == Contents(d)
    decreases d.Len()
  {
    match PopFront(d)
    case None => []
    case Some((next, x)) => [x] + Drain(next)
  }

  /** What is pushed at the back comes out of the front in the same order,
      however the buffer grew in between. */
  lemma FirstInFirstOut<T>(elemSize: nat, xs: seq<T>, allocates: bool)
    requires elemSize > 0 && PushAll(NewDeque<T>(elemSize), xs, allocates).Ok?
    ensures Drain(PushAll(NewDeque<T>(elemSize), xs, allocates).value) == xs
  {
  }
}

=== FILE: lz_raw_vec.dfy ===
/** `lzalloc`'s growable buffer: `next_capacity`, and `RawVec`'s
    capacity, allocation and growth rules. The allocator's answer is a
    parameter (`allocates`): whether it hands out the memory asked for. */
module LzRawVec {
  import opened Wrappers
  import opened Words

  // ----- next_capacity ----------------------------------------------------

  /** `next_capacity`: the capacity itself when it is a power of two, the
      next power of two otherwise, and never less than 4. */
  function NextCapacity(c: nat): (r: nat)
    requires PowerOfTwoFits(c)
    ensures IsPowerOfTwo(r) && r >= 4 && r >= c
    ensures r == 4 || r < 2 * c
    ensures r <= 0x8000_0000_0000_0000
  {
    NextPowerOfTwoLeast(c);
    PowerOfTwoBound(c);
    var p := if IsPowerOfTwo(c) then c else NextPowerOfTwo(c);
    if p < 4 then Pow2IsPowerOfTwo(2); 4 else p
  }

  /** Growing a full power-of-two buffer of at least 4 by one element
      doubles it; an empty buffer grows to 4. */
  lemma NextCapacityDoubles(n: nat)
    requires n >= 2 && Pow2(n) < 0x8000_0000_0000_0000
    ensures NextCapacity(Pow2(n) + 1) == 2 * Pow2(n)
    ensures NextCapacity(1) == 4
  {
    var c := Pow2(n) + 1;
    assert NextPowerOfTwo(c) == 2 * Pow2(n) by { CeilLog2After(n); }
    assert !IsPowerOfTwo(c) by { NotPowerOfTwoAfter(n); }
    Pow2Monotone(2, n);
    assert IsPowerOfTwo(1);
  }

  /** One past 2^n needs exponent n + 1. */
  lemma CeilLog2After(n: nat)
    requires n >= 2
    ensures CeilLog2(Pow2(n) + 1) == n + 1
  {
    var c := Pow2(n) + 1;
    NextPowerOfTwoLeast(c);
    var e := CeilLog2(c);
    if e <= n { Pow2Monotone(e, n); }
    if e >= n + 2 { Pow2Monotone(n + 1, e - 1); }
  }


  /** 2^n + 1 is not a power of two for n ≥ 1. */
  lemma NotPowerOfTwoAfter(n: nat)
    requires n >= 1
    ensures !IsPowerOfTwo(Pow2(n) + 1)
  {
    assert Pow2(n) == 2 * Pow2(n - 1);
  }

  // ----- RawVec -----------------------------------------------------------

  /** A buffer of `capacity` elements of `elemSize` bytes; an element size
      of 0 is a zero-sized type. */
  datatype RawVec = RawVec(capacity: usize, elemSize: nat)

  datatype AllocError = AllocFailure

  /** `capacity`: `usize::MAX` for a zero-sized type. */
  function Capacity(v: RawVec): (r: usize)
    ensures v.elemSize == 0 ==> r == U64_MAX
    ensures v.elemSize > 0 ==> r == v.capacity
  {
    if v.elemSize == 0 then U64_MAX else v.capacity
  }

  /** `Layout::array::<T>(n)` succeeds when the array's size fits in an
      `isize`. */
  predicate LayoutFits(n: nat, elemSize: nat) { n * elemSize <= ISIZE_MAX }

  /** `current_memory`: the allocation's size in bytes, if there is one. */
  function CurrentMemory(v: RawVec): (r: Option<nat>)
    ensures r.None? <==> v.elemSize == 0 || v.capacity == 0
    ensures r.Some? ==> r.value == v.capacity * v.elemSize
  {
    if v.elemSize == 0 || v.capacity == 0 then None else Some(v.capacity * v.elemSize)
  }

  /** `new_in`. */
  function NewRawVec(elemSize: nat): (r: RawVec)
    ensures CurrentMemory(r).None? && r.capacity == 0 && r.elemSize == elemSize
  {
    RawVec(0, elemSize)
  }

  /** `allocate_in`: a zero-sized type or a zero capacity allocates
      nothing; otherwise the layout must fit and the allocator must
      answer. (The memory-overflow guard only acts on targets narrower
      than 64 bits.) */
  function AllocateIn(capacity: usize, elemSize: nat, allocates: bool): (r: Result<RawVec, AllocError>)
    ensures r.Ok? ==> r.value.elemSize == elemSize
    ensures (elemSize == 0 || capacity == 0) ==> r == Ok(NewRawVec(elemSize))
    ensures elemSize > 0 && capacity > 0 ==>
              (r.Ok? <==> LayoutFits(capacity, elemSize) && allocates)
    ensures elemSize > 0 && r.Ok? ==> Capacity(r.value) == capacity
  {
    if elemSize == 0 || capacity == 0 then Ok(NewRawVec(elemSize))
    else if !LayoutFits(capacity, elemSize) || !allocates then Err(AllocFailure)
    else Ok(RawVec(capacity, elemSize))
  }

  /** `usize::wrapping_sub`. */
  function WrappingSub(a: usize, b: usize): (r: usize)
    ensures a >= b ==> r == a - b
    ensures a < b ==> r == a - b + U64_MAX + 1
  {
    (a - b) % (U64_MAX + 1)
  }

  /** `usize::wrapping_add`. */
  function WrappingAdd(a: usize, b: usize): (r: usize)
    ensures a + b <= U64_MAX ==> r == a + b
    ensures a + b > U64_MAX ==> r == a + b - U64_MAX - 1
  {
    (a + b) % (U64_MAX + 1)
  }

  /** Wrapping subtraction and addition undo each other. */
  lemma WrappingRoundTrip(a: usize, b: usize)
    ensures WrappingAdd(WrappingSub(a, b), b) == a
    ensures WrappingSub(WrappingAdd(a, b), b) == a
  {
  }

  /** A capacity whose layout fits is below 2^63, so one more element
      keeps the next capacity defined. */
  lemma LayoutFitsBelow(n: nat, elemSize: nat)
    requires elemSize > 0 && LayoutFits(n, elemSize)
    ensures n <= ISIZE_MAX && PowerOfTwoFits(n + 1)
  {
    if n > 0 {
      MulAwayFromZero(elemSize, n);
    }
  }

  /** The slots a fresh or grown allocation adds: never written. */
  function Uninitialised<T>(n: nat): (r: seq<Option<T>>)
    ensures |r| == n && forall i :: 0 <= i < n ==> r[i].None?
  {
    seq(n, _ => None)
  }

  /** `needs_to_grow`: more elements are asked for than the capacity has
      room for after `len`, computed with a wrapping subtraction. */
  function NeedsToGrow(v: RawVec, len: usize, additional: usize): (r: bool)
    ensures len <= Capacity(v) ==> (r <==> len + additional > Capacity(v))
    ensures len > Capacity(v) ==> (r <==> len + additional > Capacity(v) + U64_MAX + 1)
  {
    additional > WrappingSub(Capacity(v), len)
  }

  /** With `len` within the capacity the wrapping subtraction is exact:
      the buffer must grow exactly when `len + additional` exceeds it. */
  lemma NeedsToGrowExactly(v: RawVec, len: usize, additional: usize)
    requires len <= Capacity(v)
    ensures NeedsToGrow(v, len, additional) <==> len + additional > Capacity(v)
  {
  }

  /** The amortised growth path's capacity is well defined: the sum
      overflows (and the source returns an error) or its next power of
      two fits. */
  predicate AmortizedDefined(len: usize, additional: usize)
  {
    len + additional > U64_MAX || PowerOfTwoFits(len + additional)
  }

  /** `grow_amortized`: fails for a zero-sized type, on overflow of
      `len + additional`, when the layout does not fit or when the
      allocator fails; otherwise the capacity becomes
      `next_capacity(len + additional)`. */
  function GrowAmortized(v: RawVec, len: usize, additional: usize, allocates: bool): (r: Result<RawVec, AllocError>)
    requires additional > 0 && AmortizedDefined(len, additional)
    ensures r.Ok? <==> v.elemSize > 0 && len + additional <= U64_MAX
                       && LayoutFits(NextCapacity(len + additional), v.elemSize) && allocates
    ensures r.Ok? ==> r.value == RawVec(NextCapacity(len + additional), v.elemSize)
    ensures r.Ok? ==> Capacity(r.value) >= len + additional && Capacity(r.value) >= 4
  {
    if v.elemSize == 0 || len + additional > U64_MAX then Err(AllocFailure)
    else
      var capacity := NextCapacity(len + additional);
      if !LayoutFits(capacity, v.elemSize) || !allocates then Err(AllocFailure)
      else Ok(RawVec(capacity, v.elemSize))
  }

  /** `grow_exact`: as `grow_amortized`, but to exactly
      `len + additional`. */
  function GrowExact(v: RawVec, len: usize, additional: usize, allocates: bool): (r: Result<RawVec, AllocError>)
    requires additional > 0
    ensures r.Ok? <==> v.elemSize > 0 && len + additional <= U64_MAX
                       && LayoutFits(len + additional, v.elemSize) && allocates
    ensures r.Ok? ==> r.value == RawVec(len + additional, v.elemSize)
  {
    if v.elemSize == 0 || len + additional > U64_MAX then Err(AllocFailure)
    else if !LayoutFits(len + additional, v.elemSize) || !allocates then Err(AllocFailure)
    else Ok(RawVec(len + additional, v.elemSize))
  }

  /** `reserve`: grow (amortised) only when needed. Afterwards there is
      room for `additional` more elements after `len`. */
  function Reserve(v: RawVec, len: usize, additional: usize, allocates: bool): (r: Result<RawVec, AllocError>)
    requires additional > 0 && AmortizedDefined(len, additional)
    requires len <= Capacity(v)
    ensures !NeedsToGrow(v, len, additional) ==> r == Ok(v)
    ensures r.Ok? ==> Capacity(r.value) >= len + additional && r.value.elemSize == v.elemSize
  {
    if NeedsToGrow(v, len, additional) then GrowAmortized(v, len, additional, allocates) else Ok(v)
  }

  /** `reserve_exact`. */
  function ReserveExact(v: RawVec, len: usize, additional: usize, allocates: bool): (r: Result<RawVec, AllocError>)
    requires additional > 0 && len <= Capacity(v)
    ensures !NeedsToGrow(v, len, additional) ==> r == Ok(v)
    ensures NeedsToGrow(v, len, additional) && r.Ok? ==> Capacity(r.value) == len + additional
    ensures r.Ok? ==> Capacity(r.value) >= len + additional && r.value.elemSize == v.elemSize
  {
    if NeedsToGrow(v, len, additional) then GrowExact(v, len, additional, allocates) else Ok(v)
  }

  /** `reserve_one`: always grows, amortised, by one. */
  function ReserveOne(v: RawVec, len: usize, allocates: bool): (r: Result<RawVec, AllocError>)
    requires PowerOfTwoFits(len + 1) || len == U64_MAX
    ensures r == GrowAmortized(v, len, 1, allocates)
    ensures r.Ok? ==> Capacity(r.value) > len && r.value.capacity > len
    ensures r.Ok? ==> r.value.elemSize == v.elemSize && LayoutFits(r.value.capacity, v.elemSize)
  {
    GrowAmortized(v, len, 1, allocates)
  }
}

=== FILE: lz_vec.dfy ===
/** `lzalloc`'s `Vec`: a length over a `RawVec` buffer. The buffer's
    memory is a sequence of slots, `None` for a slot never written; a
    slot keeps whatever was last written to it until it is overwritten,
    so a slot past the length may hold a stale copy. Elements of
    zero-sized types are not modelled. */
module LzVec {
  import opened Wrappers
  import opened Words
  import opened LzRawVec

  datatype VecError = IndexOutOfBounds | AllocError

  datatype Vec<T> = Vec(buffer: RawVec, memory: seq<Option<T>>, len: nat)
  {
    /** A non-zero-sized buffer (of at most `isize::MAX` elements, as the
        layout implies) whose memory has one slot per element of capacity,
        with the first `len` slots initialised. */
    predicate Valid()
    {
      buffer.elemSize > 0 && LayoutFits(buffer.capacity, buffer.elemSize) && buffer.capacity <= ISIZE_MAX
      && |memory| == buffer.capacity && len <= buffer.capacity
      && forall i :: 0 <= i < len ==> memory[i].Some?
    }
  }

  /** `as_slice`: the first `len` slots. */
  function Elements<T>(v: Vec<T>): (r: seq<T>)
    requires v.Valid()
    ensures |r| == v.len
    ensures forall i :: 0 <= i < v.len ==> v.memory[i] == Some(r[i])
  {
    seq(v.len, (i: int) requires 0 <= i < v.len && v.Valid() => v.memory[i].value)
  }

  /** `capacity`, `len` and `is_empty`. */
  function VecCapacity<T>(v: Vec<T>): (r: usize)
    requires v.Valid()
    ensures r == v.buffer.capacity && r >= v.len
  {
    Capacity(v.buffer)
  }

  function IsEmpty<T>(v: Vec<T>): (r: bool)
    requires v.Valid()
    ensures r <==> Elements(v) == []
  {
    v.len == 0
  }

  /** `new_in`: no allocation and no elements. */
  function NewVec<T>(elemSize: nat): (r: Vec<T>)
    requires elemSize > 0
    ensures r.Valid() && Elements(r) == [] && VecCapacity(r) == 0
  {
    Vec(NewRawVec(elemSize), [], 0)
  }

  /** `with_capacity_in`: empty, with the capacity asked for when the
      allocation succeeds. */
  function WithCapacity<T>(capacity: usize, elemSize: nat, allocates: bool): (r: Result<Vec<T>, VecError>)
    requires elemSize > 0
    ensures r.Ok? <==> capacity == 0 || (LayoutFits(capacity, elemSize) && allocates)
    ensures r.Ok? ==> r.value.Valid() && Elements(r.value) == [] && VecCapacity(r.value) == capacity
    ensures r.Err? ==> r.error == AllocError
  {
    match AllocateIn(capacity, elemSize, allocates)
    case Ok(buffer) =>
      LayoutFitsBelow(buffer.capacity, elemSize);
      Ok(Vec(buffer, Uninitialised(buffer.capacity), 0))
    case Err(_) => Err(AllocError)
  }

  /** The vector over a buffer grown to `buffer`: the old slots are copied
      into the start of the new allocation. */
  function Regrown<T>(v: Vec<T>, buffer: RawVec): (r: Vec<T>)
    requires v.Valid() && buffer.elemSize == v.buffer.elemSize
    requires v.buffer.capacity <= buffer.capacity && LayoutFits(buffer.capacity, buffer.elemSize)
    ensures r.Valid() && Elements(r) == Elements(v) && VecCapacity(r) == buffer.capacity
    ensures r.memory[..|v.memory|] == v.memory
  {
    LayoutFitsBelow(buffer.capacity, buffer.elemSize);
    Vec(buffer, v.memory + Uninitialised(buffer.capacity - |v.memory|), v.len)
  }

  /** `reserve`: room for `additional` more elements, or an allocation
      error with the vector unchanged. */
  function Reserve<T>(v: Vec<T>, additional: usize, allocates: bool): (r: Result<Vec<T>, VecError>)
    requires v.Valid() && additional > 0 && AmortizedDefined(v.len, additional)
    ensures r.Ok? ==> r.value.Valid() && Elements(r.value) == Elements(v)
                      && VecCapacity(r.value) >= v.len + additional
    ensures r.Ok? && v.len + additional <= VecCapacity(v) ==> r.value == v
    ensures r.Err? ==> r.error == AllocError
  {
    NeedsToGrowExactly(v.buffer, v.len, additional);
    match LzRawVec.Reserve(v.buffer, v.len, additional, allocates)
    case Ok(buffer) =>
      if buffer == v.buffer then Ok(v) else Ok(Regrown(v, buffer))
    case Err(_) => Err(AllocError)
  }

  /** Room for one more element: the buffer as it is when not full,
      otherwise one grown by `reserve_one`. */
  function MakeRoom<T>(v: Vec<T>, allocates: bool): (r: Result<Vec<T>, VecError>)
    requires v.Valid()
    ensures r.Err? <==> v.len == VecCapacity(v) && ReserveOne(v.buffer, v.len, allocates).Err?
    ensures r.Ok? ==> r.value.Valid() && Elements(r.value) == Elements(v) && VecCapacity(r.value) > v.len
    ensures r.Err? ==> r.error == AllocError
  {
    if v.len < VecCapacity(v) then Ok(v)
    else
      var grown := ReserveOne(v.buffer, v.len, allocates);
      if grown.Ok? then Ok(Regrown(v, grown.value)) else Err(AllocError)
  }

  /** `push`: the element goes after the last one; when the vector is full
      and the buffer cannot grow, an allocation error. */
  function Push<T>(v: Vec<T>, x: T, allocates: bool): (r: Result<Vec<T>, VecError>)
    requires v.Valid()
    ensures r.Err? <==> v.len == VecCapacity(v) && ReserveOne(v.buffer, v.len, allocates).Err?
    ensures r.Ok? ==> r.value.Valid() && Elements(r.value) == Elements(v) + [x]
    ensures r.Err? ==> r.error == AllocError
  {
    match MakeRoom(v, allocates)
    case Err(e) => Err(e)
    case Ok(room) =>
      var w := Vec(room.buffer, room.memory[v.len := Some(x)], v.len + 1);
      assert Elements(w) == Elements(v) + [x] by {
        assert forall i :: 0 <= i < v.len ==> w.memory[i] == room.memory[i];
      }
      Ok(w)
  }

  /** What `insert` leaves: the vector (possibly regrown even when the
      index is then refused) and the result. */
  datatype Inserted<T> = Inserted(vec: Vec<T>, status: Result<(), VecError>)

  /** `insert`: make room first, then refuse an index past the length;
      otherwise shift the tail one slot up and write the element. */
  function Insert<T>(v: Vec<T>, index: usize, x: T, allocates: bool): (r: Inserted<T>)
    requires v.Valid()
    ensures r.vec.Valid()
    ensures r.status == Err(AllocError) <==> v.len == VecCapacity(v) && ReserveOne(v.buffer, v.len, allocates).Err?
    ensures r.status == Err(IndexOutOfBounds) <==> MakeRoom(v, allocates).Ok? && index > v.len
    ensures r.status.Ok? <==> MakeRoom(v, allocates).Ok? && index <= v.len
    ensures r.status.Ok? ==> Elements(r.vec) == Elements(v)[..index] + [x] + Elements(v)[index..]
    ensures r.status.Err? ==> Elements(r.vec) == Elements(v)
  {
    match MakeRoom(v, allocates)
    case Err(e) => Inserted(v, Err(e))
    case Ok(room) =>
      if index > v.len then Inserted(room, Err(IndexOutOfBounds))
      else
        var m := room.memory;
        var w := Vec(room.buffer, m[..index] + [Some(x)] + m[index..v.len] + m[v.len + 1..], v.len + 1);
        InsertShifts(Elements(v), room, w, index, x);
        Inserted(w, Ok(()))
  }

  lemma InsertShifts<T>(before: seq<T>, room: Vec<T>, w: Vec<T>, index: nat, x: T)
    requires room.Valid() && Elements(room) == before && index <= room.len < |room.memory|
    requires w == Vec(room.buffer, room.memory[..index] + [Some(x)] + room.memory[index..room.len]
                                     + room.memory[room.len + 1..], room.len + 1)
    ensures w.Valid() && Elements(w) == before[..index] + [x] + before[index..]
  {
    var m := room.memory;
    assert |w.memory| == |m|;
    forall i | 0 <= i < w.len
      ensures w.memory[i] == Some((before[..index] + [x] + before[index..])[i])
    {
      if i < index {
        assert w.memory[i] == m[i];
      } else if i > index {
        assert w.memory[i] == m[i - 1];
      }
    }
  }

  /** What `remove` gives back: the vector and the removed element. */
  datatype Removed<T> = Removed(vec: Vec<T>, element: T)

  /** `remove`: an index past the last element is refused; otherwise the
      element is read and the tail shifted one slot down. The last slot
      keeps a stale copy. */
  function Remove<T>(v: Vec<T>, index: usize): (r: Result<Removed<T>, VecError>)
    requires v.Valid()
    ensures r.Err? <==> index >= v.len
    ensures r.Err? ==> r.error == IndexOutOfBounds
    ensures r.Ok? ==> r.value.element == Elements(v)[index]
    ensures r.Ok? ==> r.value.vec.Valid() && VecCapacity(r.value.vec) == VecCapacity(v)
    ensures r.Ok? ==> Elements(r.value.vec) == Elements(v)[..index] + Elements(v)[index + 1..]
  {
    if index >= v.len then Err(IndexOutOfBounds)
    else
      var m := v.memory;
      var w := Vec(v.buffer, m[..index] + m[index + 1..v.len] + m[v.len - 1..], v.len - 1);
      RemoveShifts(Elements(v), v, w, index);
      Ok(Removed(w, m[index].value))
  }

  lemma RemoveShifts<T>(before: seq<T>, v: Vec<T>, w: Vec<T>, index: nat)
    requires v.Valid() && Elements(v) == before && index < v.len
    requires w == Vec(v.buffer, v.memory[..index] + v.memory[index + 1..v.len] + v.memory[v.len - 1..], v.len - 1)
    ensures w.Valid() && Elements(w) == before[..index] + before[index + 1..]
  {
    forall i | 0 <= i < w.len
      ensures w.memory[i] == Some((before[..index] + before[index + 1..])[i])
    {
      if i < index {
        assert w.memory[i] == v.memory[i];
      } else {
        assert w.memory[i] == v.memory[i + 1];
      }
    }
  }

  /** What a read of one slot yields: an element, a slot never written, or
      an address past the allocation. */
  datatype Read<T> = Value(value: T) | Unwritten | PastAllocation

  function ReadSlot<T>(v: Vec<T>, index: nat): (r: Read<T>)
    requires v.Valid()
    ensures index >= VecCapacity(v) <==> r.PastAllocation?
    ensures r.Value? ==> v.memory[index] == Some(r.value)
  {
    if index >= |v.memory| then PastAllocation
    else if v.memory[index].Some? then Value(v.memory[index].value) else Unwritten
  }

  /** `pop` as written: the length is decremented first and then the slot
      at the old length is read, one past the last element. */
  function PopAsWritten<T>(v: Vec<T>): (r: Option<(Vec<T>, Read<T>)>)
    requires v.Valid()
    ensures r.None? <==> v.len == 0
    ensures r.Some? ==> r.value.0.Valid() && Elements(r.value.0) == Elements(v)[..v.len - 1]
    ensures r.Some? ==> r.value.1 == ReadSlot(v, v.len)
  {
    if v.len > 0 then
      var w := v.(len := v.len - 1);
      Some((w, ReadSlot(v, v.len)))
    else None
  }

  /** Pushing x onto an empty vector and popping it reads a slot that was
      never written instead of x. */
  lemma PopAsWrittenMissesElement<T>(x: T, elemSize: nat)
    requires 0 < elemSize <= 0x1000
    ensures Push(NewVec<T>(elemSize), x, true).Ok?
    ensures PopAsWritten(Push(NewVec<T>(elemSize), x, true).value).value.1 == Unwritten
  {
    var empty := NewVec<T>(elemSize);
    NextCapacityDoubles(2);
    assert ReserveOne(empty.buffer, 0, true) == Ok(RawVec(4, elemSize));
  }

  /** As written, a pop never reads the element it removes: whatever
      it reads is the slot above it, unwritten unless a stale copy is
      left there. */
  lemma PopAsWrittenReadsAbove<T>(v: Vec<T>)
    requires v.Valid() && v.len > 0
    requires forall i :: v.len <= i < |v.memory| ==> v.memory[i].None?
    ensures !PopAsWritten(v).value.1.Value?
  {
  }

  /** The corrected `pop`: decrement the length and read the slot at the
      new length, the last element. */
  function Pop<T>(v: Vec<T>): (r: Option<(Vec<T>, T)>)
    requires v.Valid()
    ensures r.None? <==> v.len == 0
    ensures r.Some? ==> r.value.0.Valid() && Elements(r.value.0) == Elements(v)[..v.len - 1]
    ensures r.Some? ==> r.value.1 == Elements(v)[v.len - 1]
    ensures r.Some? ==> VecCapacity(r.value.0) == VecCapacity(v)
  {
    if v.len > 0 then
      var w := v.(len := v.len - 1);
      Some((w, v.memory[v.len - 1].value))
    else None
  }

  /** Push and the corrected pop are inverse: popping what was pushed
      gives it back and leaves the elements as they were. */
  lemma PushThenPop<T>(v: Vec<T>, x: T, allocates: bool)
    requires v.Valid() && Push(v, x, allocates).Ok?
    ensures Pop(Push(v, x, allocates).value).Some?
    ensures Pop(Push(v, x, allocates).value).value.1 == x
    ensures Elements(Pop(Push(v, x, allocates).value).value.0) == Elements(v)
  {
    var w := Push(v, x, allocates).value;
    assert Elements(w)[..v.len] == Elements(v);
  }

  /** Insert and remove at the same index are inverse. */
  lemma InsertThenRemove<T>(v: Vec<T>, index: usize, x: T, allocates: bool)
    requires v.Valid() && Insert(v, index, x, allocates).status.Ok?
    ensures Remove(Insert(v, index, x, allocates).vec, index).Ok?
    ensures Remove(Insert(v, index, x, allocates).vec, index).value.element == x
    ensures Elements(Remove(Insert(v, index, x, allocates).vec, index).value.vec) == Elements(v)
  {
    var e := Elements(v);
    var s := e[..index] + [x] + e[index..];
    assert s[..index] + s[index + 1..] == e;
  }
}

=== FILE: nvme_command.dfy ===
/** NVMe submission and completion queue entries (NVM Express Base
    Specification, section 4.2 and 4.6): the command header's bit fields,
    the data pointer, the two configured admin commands, and the fields a
    completion entry carries. */
module NvmeCommand {
  /** Field values kept in 32-bit words: bytes and 16-bit halves. */
  type Byte = x: bv32 | x < 0x100
  type Half = x: bv32 | x < 0x1_0000

  // ----- Submission queue entry ------------------------------------------

  /** A 64-byte submission queue entry. The 128-bit data pointer is kept
      as its low and high 64-bit halves. */
  datatype Command = Command(
    header: bv32,
    namespaceId: bv32,
    dword2: bv32,
    dword3: bv32,
    metadataPtr: bv64,
    dataLow: bv64,
    dataHigh: bv64,
    dword10: bv32,
    dword11: bv32,
    dword12: bv32,
    dword13: bv32,
    dword14: bv32,
    dword15: bv32)

  /** `clear`: every byte zero. */
  const CLEARED: Command := Command(0, 0, 0, 0, 0, 0, 0, 0, 0, 0, 0, 0, 0)

  /** `Abort::OPCODE` and `CompletionCreate::OPCODE`. */
  const ABORT_OPCODE: Byte := 0x08
  const COMPLETION_CREATE_OPCODE: Byte := 0x05

  datatype FusedCommandInfo = Normal | FusedFirst | FusedSecond

  function FuseCode(f: FusedCommandInfo): (r: bv32)
    ensures r < 3
  {
    match f
    case Normal => 0
    case FusedFirst => 1
    case FusedSecond => 2
  }

  /** Bits 0..8 of the header. */
  function Opcode(c: Command): Byte
  {
    c.header & 0xFF
  }

  /** Bits 8..10 of the header. */
  function FuseField(c: Command): bv32
  {
    (c.header >> 8) & 3
  }

  /** Bits 14..16 of the header: how the data pointer is to be read. */
  function PsdtField(c: Command): bv32
  {
    (c.header >> 14) & 3
  }

  /** Bits 16..32 of the header. */
  function CommandId(c: Command): Half
  {
    c.header >> 16
  }

  function SetOpcode(c: Command, opcode: Byte): (r: Command)
    ensures Opcode(r) == opcode
    ensures r.header & !0xFF == c.header & !0xFF
    ensures r == c.(header := r.header)
  {
    c.(header := (c.header & !0xFF) | opcode)
  }

  /** `get_fuse_info`: the reserved value 0b11 is not a fuse operation
      (the source panics on it). */
  function GetFuseInfo(c: Command): (r: FusedCommandInfo)
    requires FuseField(c) != 3
    ensures FuseCode(r) == FuseField(c)
  {
    var f := FuseField(c);
    if f == 0 then Normal else if f == 1 then FusedFirst else FusedSecond
  }

  function SetFuseInfo(c: Command, fuse: FusedCommandInfo): (r: Command)
    ensures FuseField(r) == FuseCode(fuse)
    ensures r.header & !0x300 == c.header & !0x300
    ensures r == c.(header := r.header)
  {
    c.(header := WithFuse(c.header, FuseCode(fuse)))
  }

  /** Reading the fuse operation back gives what was set. */
  lemma FuseRoundTrip(c: Command, fuse: FusedCommandInfo)
    ensures GetFuseInfo(SetFuseInfo(c, fuse)) == fuse
  {
  }

  function WithFuse(header: bv32, code: bv32): (r: bv32)
    requires code < 3
    ensures (r >> 8) & 3 == code
    ensures r & !0x300 == header & !0x300
  {
    (header & !0x300) | (code << 8)
  }

  function SetCommandId(c: Command, id: Half): (r: Command)
    ensures CommandId(r) == id
    ensures r.header & !0xFFFF_0000 == c.header & !0xFFFF_0000
    ensures r == c.(header := r.header)
  {
    c.(header := (c.header & !0xFFFF_0000) | (id << 16))
  }

  function SetMetadataPtr(c: Command, ptr: bv64): (r: Command)
    ensures r.metadataPtr == ptr && r == c.(metadataPtr := ptr)
  {
    c.(metadataPtr := ptr)
  }

  /** Where a command's data lives: two physical region page entries, or
      a scatter-gather list descriptor (given as its two 64-bit halves). */
  datatype DataPointer = Prp(entry1: bv64, entry2: bv64) | Sgl(low: bv64, high: bv64)

  /** `set_data_ptr`: PRP entries go to the low and high halves of the
      pointer with PSDT 0b00; an SGL replaces it whole with PSDT 0b01. No
      other header bit changes. */
  function SetDataPtr(c: Command, ptr: DataPointer): (r: Command)
    ensures ptr.Prp? ==> r.dataLow == ptr.entry1 && r.dataHigh == ptr.entry2 && PsdtField(r) == 0
    ensures ptr.Sgl? ==> r.dataLow == ptr.low && r.dataHigh == ptr.high && PsdtField(r) == 1
    ensures r.header & !0xC000 == c.header & !0xC000
    ensures r == c.(header := r.header, dataLow := r.dataLow, dataHigh := r.dataHigh)
  {
    match ptr
    case Prp(e1, e2) =>
      c.(dataLow := e1, dataHigh := e2, header := c.header & !0xC000)
    case Sgl(low, high) =>
      c.(dataLow := low, dataHigh := high, header := (c.header & !0xC000) | 0x4000)
  }

  // ----- Abort ------------------------------------------------------------

  /** The Abort command's dword 10 as the controller reads it: the
      submission queue in bits 0..16 and the command in bits 16..32
      (NVM Express Base Specification, Abort command, Command Dword 10). */
  function AbortedQueue(c: Command): Half
  {
    c.dword10 & 0xFFFF
  }

  function AbortedCommand(c: Command): Half
  {
    c.dword10 >> 16
  }

  /** `Command<Abort>::configure` as written: clear, then place the
      command id in the low half and the queue id in the high half. */
  function AbortConfigureAsWritten(commandId: Half, queueId: Half): (r: Command)
    ensures r == CLEARED.(dword10 := r.dword10)
    ensures r.dword10 & 0xFFFF == commandId
    ensures r.dword10 >> 16 == queueId
  {
    CLEARED.(dword10 := commandId | (queueId << 16))
  }

  /** The layout the controller reads: the queue id low, the command id
      high. */
  function AbortConfigure(commandId: Half, queueId: Half): (r: Command)
    ensures r == CLEARED.(dword10 := r.dword10)
    ensures AbortedCommand(r) == commandId
    ensures AbortedQueue(r) == queueId
  {
    CLEARED.(dword10 := queueId | (commandId << 16))
  }

  /** As written, asking to abort command 5 of queue 1 asks the
      controller to abort command 1 of queue 5. */
  lemma AbortAsWrittenSwapsIds()
    ensures AbortedCommand(AbortConfigureAsWritten(5, 1)) == 1
    ensures AbortedQueue(AbortConfigureAsWritten(5, 1)) == 5
  {
  }

  // ----- Create I/O Completion Queue --------------------------------------

  function CreateQueueId(c: Command): Half { c.dword10 & 0xFFFF }
  function CreateQueueSize(c: Command): Half { c.dword10 >> 16 }
  function PhysicallyContiguous(c: Command): bool { c.dword11 & 1 != 0 }
  function InterruptsEnabled(c: Command): bool { c.dword11 & 2 != 0 }
  function InterruptVector(c: Command): Half { c.dword11 >> 16 }

  /** Dword 11 of the create command: PC in bit 0, IEN in bit 1, IV in
      bits 16..32, bits 2..16 kept. */
  function CreateDword11(previous: bv32, contiguous: bool, interrupts: bool, vector: Half): (r: bv32)
    ensures (r & 1 != 0) == contiguous && (r & 2 != 0) == interrupts
    ensures r >> 16 == vector
    ensures r & 0xFFFC == previous & 0xFFFC
  {
    CreateFlags(previous, contiguous, interrupts) | VectorField(vector)
  }

  function VectorField(vector: Half): (r: bv32)
    ensures r & 0xFFFF == 0 && r >> 16 == vector
  {
    vector << 16
  }

  function CreateFlags(previous: bv32, contiguous: bool, interrupts: bool): (r: bv32)
    ensures (r & 1 != 0) == contiguous && (r & 2 != 0) == interrupts
    ensures r >> 16 == 0
    ensures r & 0xFFFC == previous & 0xFFFC
  {
    (previous & 0xFFFC) | PcBit(contiguous) | IenBit(interrupts)
  }

  function PcBit(contiguous: bool): (r: bv32)
    ensures r & 0xFFFF_FFFE == 0 && (r & 1 != 0) == contiguous
  {
    if contiguous then 1 else 0
  }

  function IenBit(interrupts: bool): (r: bv32)
    ensures r & 0xFFFF_FFFD == 0 && (r & 2 != 0) == interrupts
  {
    if interrupts then 2 else 0
  }

  /** `Command<CompletionCreate>::configure`: the queue's memory as the
      first PRP entry (the second zero), QID and QSIZE in dword 10, PC,
      IEN and IV in dword 11. The rest of the command is left as it was. */
  function CompletionCreateConfigure(c: Command, queueId: Half, queueSize: Half, prp: bv64,
                                     contiguous: bool, interrupts: bool, vector: Half): (r: Command)
    ensures r.dataLow == prp && r.dataHigh == 0 && PsdtField(r) == 0
    ensures CreateQueueId(r) == queueId && CreateQueueSize(r) == queueSize
    ensures PhysicallyContiguous(r) == contiguous && InterruptsEnabled(r) == interrupts
    ensures InterruptVector(r) == vector
    ensures r == c.(header := r.header, dataLow := prp, dataHigh := 0, dword10 := r.dword10, dword11 := r.dword11)
  {
    var withData := SetDataPtr(c, Prp(prp, 0));
    withData.(dword10 := queueId | (queueSize << 16),
              dword11 := CreateDword11(c.dword11, contiguous, interrupts, vector))
  }

  // ----- Completion queue entry -------------------------------------------

  /** A 16-byte completion queue entry. */
  datatype Completion = Completion(dw0: bv32, dw1: bv32, dw2: bv32, dw3: bv32)

  function SubmissionQueueId(e: Completion): Half { e.dw2 >> 16 }
  function CompletionCommandId(e: Completion): Half { e.dw3 & 0xFFFF }
  function PhaseTag(e: Completion): bool { e.dw3 & 0x1_0000 != 0 }

  /** `CompletionStatus`, the whole of dword 3. */
  function Dnr(status: bv32): bool { status & 0x8000_0000 != 0 }
  function More(status: bv32): bool { status & 0x4000_0000 != 0 }
  function StatusCodeType(status: bv32): bv32 { (status >> 25) & 7 }
  function StatusCodeField(status: bv32): Byte { (status >> 17) & 0xFF }

  /** The generic command statuses the kernel names: 0x00 (successful
      completion) to 0x14 (atomic write unit exceeded). */
  type GenericStatus = s: bv32 | s <= 0x14

  const SUCCESSFUL_COMPLETION: GenericStatus := 0x00

  datatype StatusCode = Generic(status: GenericStatus)

  /** `status_code`: only the generic status type is decoded, and only
      the named codes within it; anything else panics in the source. */
  function GetStatusCode(status: bv32): (r: StatusCode)
    requires StatusCodeType(status) == 0 && StatusCodeField(status) <= 0x14
    ensures r.status == StatusCodeField(status)
  {
    Generic(StatusCodeField(status))
  }

  /** Dword 3 as a controller builds it from its fields: command id,
      phase tag, status code, status code type, more, do-not-retry. */
  function CompletionDword3(commandId: bv32, phase: bool, code: bv32, codeType: bv32, more: bool, dnr: bool): bv32
  {
    commandId | (if phase then 0x1_0000 else 0) | (code << 17) | (codeType << 25)
      | (if more then 0x4000_0000 else 0) | (if dnr then 0x8000_0000 else 0)
  }

  /** The readers lose nothing but bits 28..30 (the retry delay, which
      the kernel does not read): building dword 3 from what they return
      gives dword 3 back. */
  lemma CompletionReadsBack(e: Completion)
    ensures CompletionDword3(CompletionCommandId(e), PhaseTag(e), StatusCodeField(e.dw3),
                             StatusCodeType(e.dw3), More(e.dw3), Dnr(e.dw3)) == e.dw3 & 0xCFFF_FFFF
  {
    Dword3Reassembles(e.dw3);
  }

  lemma Dword3Reassembles(w: bv32)
    ensures CompletionDword3(w & 0xFFFF, w & 0x1_0000 != 0, (w >> 17) & 0xFF, (w >> 25) & 7,
                             w & 0x4000_0000 != 0, w & 0x8000_0000 != 0) == w & 0xCFFF_FFFF
  {
  }
}

=== FILE: nvme_controller.dfy ===
/** The NVMe controller's registers as the driver reads and writes them:
    the command sets the capabilities advertise, the version word, the
    controller configuration (CC) fields, the admin queue attributes, the
    interrupt mask and the choice of a free command identifier. */
module NvmeController {
  /** Field values kept in 32-bit words. */
  type Byte = x: bv32 | x < 0x100
  type Half = x: bv32 | x < 0x1_0000
  type Nibble = x: bv32 | x < 0x10

  // ----- CAP.CSS ----------------------------------------------------------

  datatype CommandSet = Nvm | Io | Admin

  /** The CC.CSS code of each command set. */
  function CommandSetCode(s: CommandSet): (r: bv32)
    ensures r < 8
  {
    match s
    case Nvm => 0
    case Io => 6
    case Admin => 7
  }

  /** `CommandSetsSupported::from_bits_truncate(CAP[37..45])`: of the eight
      bits only NVM (bit 0), IO (bit 6) and ADMIN (bit 7) are kept. */
  function SupportedSets(cap: bv64): (r: bv64)
    ensures r & !0xC1 == 0
  {
    (cap >> 37) & 0xC1
  }

  /** The flag of each command set in the supported-sets byte. */
  function SupportedFlag(s: CommandSet): bv64
  {
    match s
    case Nvm => 1
    case Io => 0x40
    case Admin => 0x80
  }

  /** `into_command_set`: ADMIN before IO before NVM; with none of the
      three set the source panics. */
  function IntoCommandSet(css: bv64): (r: CommandSet)
    requires css & 0xC1 != 0
    ensures css & SupportedFlag(r) != 0
    ensures r == Admin <==> css & 0x80 != 0
    ensures r == Io <==> css & 0x80 == 0 && css & 0x40 != 0
    ensures r == Nvm <==> css & 0xC0 == 0
  {
    if css & 0x80 != 0 then Admin
    else if css & 0x40 != 0 then Io
    else Nvm
  }

  /** The set chosen is the highest-ranked one advertised: no set ranked
      above it is supported. */
  lemma IntoCommandSetIsHighest(css: bv64, s: CommandSet)
    requires css & 0xC1 != 0
    requires css & SupportedFlag(s) != 0
    ensures Rank(s) <= Rank(IntoCommandSet(css))
  {
  }

  function Rank(s: CommandSet): nat
  {
    match s
    case Nvm => 0
    case Io => 1
    case Admin => 2
  }

  // ----- VS ---------------------------------------------------------------

  /** `Version::major`, `minor` and `tertiary`. */
  function Major(v: bv32): Half { v >> 16 }
  function Minor(v: bv32): Byte { (v >> 8) & 0xFF }
  function Tertiary(v: bv32): Byte { v & 0xFF }

  /** The version word a controller reports for a version number. */
  function VersionWord(major: Half, minor: Byte, tertiary: Byte): bv32
  {
    (major << 16) | (minor << 8) | tertiary
  }

  /** The three readers cover the whole word and lose nothing. */
  lemma VersionReassembles(v: bv32)
    ensures VersionWord(Major(v), Minor(v), Tertiary(v)) == v
  {
  }

  /** Each reader returns the part it was given. */
  lemma VersionReadsBack(major: Half, minor: Byte, tertiary: Byte)
    ensures Major(VersionWord(major, minor, tertiary)) == major
    ensures Minor(VersionWord(major, minor, tertiary)) == minor
    ensures Tertiary(VersionWord(major, minor, tertiary)) == tertiary
  {
  }

  // ----- CC ---------------------------------------------------------------

  datatype Arbitration = RoundRobin | WeightedRoundRobin | VendorSpecific
  datatype Shutdown = NoNotification | NormalShutdown | AbruptShutdown

  function ArbitrationCode(a: Arbitration): (r: bv32)
    ensures r < 8
  {
    match a
    case RoundRobin => 0
    case WeightedRoundRobin => 1
    case VendorSpecific => 7
  }

  function ShutdownCode(s: Shutdown): (r: bv32)
    ensures r < 3
  {
    match s
    case NoNotification => 0
    case NormalShutdown => 1
    case AbruptShutdown => 2
  }

  function Enabled(cc: bv32): bool { cc & 1 != 0 }
  function CssField(cc: bv32): bv32 { (cc >> 4) & 7 }
  function MpsField(cc: bv32): Nibble { (cc >> 7) & 0xF }
  function AmsField(cc: bv32): bv32 { (cc >> 11) & 7 }
  function ShnField(cc: bv32): bv32 { (cc >> 14) & 3 }
  function IosqesField(cc: bv32): Nibble { (cc >> 16) & 0xF }
  function IocqesField(cc: bv32): Nibble { (cc >> 20) & 0xF }

  /** `set_en`. */
  function SetEnabled(cc: bv32, enabled: bool): (r: bv32)
    ensures Enabled(r) == enabled
    ensures r & !1 == cc & !1
  {
    (cc & !1) | (if enabled then 1 else 0)
  }

  /** `get_css`: a code other than 0b000, 0b110 and 0b111 is reserved and
      the source panics on it. */
  function GetCss(cc: bv32): (r: CommandSet)
    requires CssField(cc) == 0 || CssField(cc) == 6 || CssField(cc) == 7
    ensures CommandSetCode(r) == CssField(cc)
  {
    var f := CssField(cc);
    if f == 0 then Nvm else if f == 6 then Io else Admin
  }

  /** `set_css` writes bits 4..7 and nothing else. */
  function SetCss(cc: bv32, s: CommandSet): (r: bv32)
    ensures CssField(r) == CommandSetCode(s)
    ensures r & !0x70 == cc & !0x70
  {
    WithCss(cc, CommandSetCode(s))
  }

  function WithCss(cc: bv32, code: bv32): (r: bv32)
    requires code < 8
    ensures (r >> 4) & 7 == code
    ensures r & !0x70 == cc & !0x70
  {
    (cc & !0x70) | (code << 4)
  }

  lemma CssRoundTrip(cc: bv32, s: CommandSet)
    ensures GetCss(SetCss(cc, s)) == s
  {
  }

  /** `set_mps`: the page size must fit in four bits and may only change
      while the controller is disabled (both are assertions in the
      source). */
  function SetMps(cc: bv32, mps: Nibble): (r: bv32)
    requires !Enabled(cc)
    ensures MpsField(r) == mps
    ensures r & !0x780 == cc & !0x780
  {
    (cc & !0x780) | (mps << 7)
  }

  /** `get_ams`: codes other than 0b000, 0b001 and 0b111 panic. */
  function GetAms(cc: bv32): (r: Arbitration)
    requires AmsField(cc) == 0 || AmsField(cc) == 1 || AmsField(cc) == 7
    ensures ArbitrationCode(r) == AmsField(cc)
  {
    var f := AmsField(cc);
    if f == 0 then RoundRobin else if f == 1 then WeightedRoundRobin else VendorSpecific
  }

  function SetAms(cc: bv32, a: Arbitration): (r: bv32)
    ensures AmsField(r) == ArbitrationCode(a)
    ensures r & !0x3800 == cc & !0x3800
  {
    WithAms(cc, ArbitrationCode(a))
  }

  function WithAms(cc: bv32, code: bv32): (r: bv32)
    requires code < 8
    ensures (r >> 11) & 7 == code
    ensures r & !0x3800 == cc & !0x3800
  {
    (cc & !0x3800) | (code << 11)
  }

  lemma AmsRoundTrip(cc: bv32, a: Arbitration)
    ensures GetAms(SetAms(cc, a)) == a
  {
  }

  /** `get_shn`: the code 0b11 is reserved and panics. */
  function GetShn(cc: bv32): (r: Shutdown)
    requires ShnField(cc) != 3
    ensures ShutdownCode(r) == ShnField(cc)
  {
    var f := ShnField(cc);
    if f == 0 then NoNotification else if f == 1 then NormalShutdown else AbruptShutdown
  }

  function SetShn(cc: bv32, s: Shutdown): (r: bv32)
    ensures ShnField(r) == ShutdownCode(s)
    ensures r & !0xC000 == cc & !0xC000
  {
    WithShn(cc, ShutdownCode(s))
  }

  function WithShn(cc: bv32, code: bv32): (r: bv32)
    requires code < 4
    ensures (r >> 14) & 3 == code
    ensures r & !0xC000 == cc & !0xC000
  {
    (cc & !0xC000) | (code << 14)
  }

  lemma ShnRoundTrip(cc: bv32, s: Shutdown)
    ensures GetShn(SetShn(cc, s)) == s
  {
  }

  /** `set_iosqes` and `set_iocqes`: the value must fit in the four-bit
      field (the bit-field write asserts it). */
  function SetIosqes(cc: bv32, size: Nibble): (r: bv32)
    ensures IosqesField(r) == size
    ensures r & !0xF_0000 == cc & !0xF_0000
  {
    (cc & !0xF_0000) | (size << 16)
  }

  function SetIocqes(cc: bv32, size: Nibble): (r: bv32)
    ensures IocqesField(r) == size
    ensures r & !0xF0_0000 == cc & !0xF0_0000
  {
    (cc & !0xF0_0000) | (size << 20)
  }

  /** The bits the driver's configuration touches: EN, CSS, MPS, AMS,
      IOSQES and IOCQES. */
  const CONFIGURED_BITS: bv32 := 0xFF_3FF1

  /** The configuration `from_device_and_configure` programs after the
      reset: the command set chosen from CAP.CSS, round robin arbitration,
      4 KiB pages (MPS 0), 64-byte submission entries (2^6) and 16-byte
      completion entries (2^4). The reset has cleared EN, so the page size
      may be written. Afterwards the controller is still disabled and
      reads back the chosen command set. */
  function ConfigureCc(cc: bv32, cap: bv64): (r: bv32)
    requires SupportedSets(cap) != 0
    ensures !Enabled(r)
    ensures CssField(r) == CommandSetCode(IntoCommandSet(SupportedSets(cap)))
    ensures GetCss(r) == IntoCommandSet(SupportedSets(cap))
  {
    var code := CommandSetCode(IntoCommandSet(SupportedSets(cap)));
    ConfiguredWord(cc, code);
    var withCss := SetCss(SetEnabled(cc, false), IntoCommandSet(SupportedSets(cap)));
    SetIocqes(SetIosqes(SetMps(SetAms(withCss, RoundRobin), 0), 6), 4)
  }

  /** After the configuration every other field holds what the driver
      chose, and no bit of CC outside the configured fields has changed. */
  lemma ConfigureCcSets(cc: bv32, cap: bv64)
    requires SupportedSets(cap) != 0
    ensures AmsField(ConfigureCc(cc, cap)) == 0 && MpsField(ConfigureCc(cc, cap)) == 0
    ensures IosqesField(ConfigureCc(cc, cap)) == 6 && IocqesField(ConfigureCc(cc, cap)) == 4
    ensures ConfigureCc(cc, cap) & !CONFIGURED_BITS == cc & !CONFIGURED_BITS
  {
    var code := CommandSetCode(IntoCommandSet(SupportedSets(cap)));
    ConfiguredWord(cc, code);
  }

  /** The configured word in closed form: the configured bits replaced,
      the rest kept. */
  lemma ConfiguredWord(cc: bv32, code: bv32)
    requires code < 8
    ensures SetIocqes(SetIosqes(SetMps(SetAms(WithCss(SetEnabled(cc, false), code), RoundRobin), 0), 6), 4)
            == (cc & !CONFIGURED_BITS) | (code << 4) | 0x46_0000
  {
  }

  // ----- CSTS -------------------------------------------------------------

  datatype ShutdownStatus = NormalOperation | ShutdownOccurring | ShutdownComplete

  function Ready(csts: bv32): bool { csts & 1 != 0 }
  function FatalStatus(csts: bv32): bool { csts & 2 != 0 }
  function ShstField(csts: bv32): bv32 { (csts >> 2) & 3 }

  /** `get_shst`: the code 0b11 is reserved and panics. */
  function GetShst(csts: bv32): (r: ShutdownStatus)
    requires ShstField(csts) != 3
    ensures r.NormalOperation? <==> ShstField(csts) == 0
    ensures r.ShutdownOccurring? <==> ShstField(csts) == 1
    ensures r.ShutdownComplete? <==> ShstField(csts) == 2
  {
    var f := ShstField(csts);
    if f == 0 then NormalOperation else if f == 1 then ShutdownOccurring else ShutdownComplete
  }

  // ----- INTMS / INTMC ----------------------------------------------------

  /** `mask_vector` and `unmask_vector`: set bit `index` of the register
      read back, for an index below 32 (asserted in the source). */
  function SetVectorBit(register: bv32, index: bv32): (r: bv32)
    requires index < 32
    ensures r & Bit(index) != 0
    ensures r & !Bit(index) == register & !Bit(index)
  {
    register | Bit(index)
  }

  function Bit(index: bv32): bv32
    requires index < 32
  {
    1 << index
  }

  // ----- AQA --------------------------------------------------------------

  /** The admin queue sizes the controller reads from AQA: ASQS in bits
      0..12 and ACQS in bits 16..28, each one less than the number of
      entries (NVM Express Base Specification, Admin Queue Attributes). */
  function AdminSubmissionEntries(aqa: bv32): bv32 { (aqa & 0xFFF) + 1 }
  function AdminCompletionEntries(aqa: bv32): bv32 { ((aqa >> 16) & 0xFFF) + 1 }

  /** The admin queues hold between 2 and 4096 entries. */
  type AdminEntries = n: bv32 | 2 <= n <= 0x1000 witness 2

  /** AQA as `from_device_and_configure` writes it: the entry counts
      themselves. */
  function AdminQueueAttributesAsWritten(subEntries: Half, comEntries: Half): (r: bv32)
    ensures r & 0xFFFF == subEntries && r >> 16 == comEntries
  {
    (comEntries << 16) | subEntries
  }

  /** AQA with the zero-based sizes the controller expects. */
  function AdminQueueAttributes(subEntries: AdminEntries, comEntries: AdminEntries): (r: bv32)
    ensures AdminSubmissionEntries(r) == subEntries
    ensures AdminCompletionEntries(r) == comEntries
  {
    ((comEntries - 1) << 16) | (subEntries - 1)
  }

  /** As written, the driver's four-entry admin queues are announced to
      the controller as five-entry queues, while the driver wraps its own
      indices at four. */
  lemma AdminQueueAttributesAsWrittenOversizes()
    ensures AdminSubmissionEntries(AdminQueueAttributesAsWritten(4, 4)) == 5
    ensures AdminCompletionEntries(AdminQueueAttributesAsWritten(4, 4)) == 5
  {
  }

  // ----- Command identifiers ----------------------------------------------

  /** The first id `next_command_id` tries past the last: `u16::MAX` is
      never handed out. */
  const COMMAND_ID_LIMIT: int := 0xFFFF

  /** `next_command_id`: the smallest id below `u16::MAX` that no pending
      command holds. The source panics when every such id is taken. */
  method NextCommandId(pending: set<int>) returns (id: int)
    requires exists free :: 0 <= free < COMMAND_ID_LIMIT && free !in pending
    ensures 0 <= id < COMMAND_ID_LIMIT
    ensures id !in pending
    ensures forall taken :: 0 <= taken < id ==> taken in pending
  {
    id := 0;
    while id < COMMAND_ID_LIMIT && id in pending
      invariant 0 <= id <= COMMAND_ID_LIMIT
      invariant forall taken :: 0 <= taken < id ==> taken in pending
      decreases COMMAND_ID_LIMIT - id
    {
      id := id + 1;
    }
  }
}

=== FILE: nvme_queue.dfy ===
/** NVMe submission and completion queues as the driver keeps them: the
    doorbell register each queue rings, the ring index into the entries,
    and the phase tag that tells new completion entries from old ones
    (NVM Express Base Specification, section 3.1.3 for the doorbells and
    section 4.6 for the completion queue's phase tag). */
module NvmeQueue {
  import opened Wrappers
  import opened Words
  import opened LibStd
  import NvmeCommand

  // ----- Doorbells --------------------------------------------------------

  /** The two queue types; the type multiplier in the doorbell formula is
      0 for submission and 1 for completion queues. */
  datatype QueueType = Submission | Completion

  function TypeMultiplier(t: QueueType): nat
  {
    match t
    case Submission => 0
    case Completion => 1
  }

  /** `4 << dstrd`: the distance between consecutive doorbells. */
  function DoorbellStride(dstrd: nat): (r: nat)
    ensures r >= 4
  {
    4 * Pow2(dstrd)
  }

  /** `calc_doorbell_offset`: 0x1000 + (2·qid + t)·(4 << dstrd). CAP.DSTRD
      is a four-bit field, so the stride is at most 2^17 and the sum fits
      in a `usize`. */
  function DoorbellOffset(queueId: u16, t: QueueType, dstrd: nat): (r: nat)
    requires dstrd < 16
    ensures r >= 0x1000 && (r - 0x1000) % DoorbellStride(dstrd) == 0
    ensures (r - 0x1000) / DoorbellStride(dstrd) == 2 * queueId + TypeMultiplier(t)
  {
    var slot := 2 * queueId + TypeMultiplier(t);
    DivModUnique(slot * DoorbellStride(dstrd), DoorbellStride(dstrd), slot, 0);
    0x1000 + slot * DoorbellStride(dstrd)
  }

  /** The queue a doorbell offset belongs to, if any: the partner of
      `DoorbellOffset`. */
  function DoorbellOwner(offset: nat, dstrd: nat): (r: Option<(u16, QueueType)>)
    requires dstrd < 16
    ensures r.Some? ==> DoorbellOffset(r.value.0, r.value.1, dstrd) == offset
  {
    var stride := DoorbellStride(dstrd);
    if offset < 0x1000 || (offset - 0x1000) % stride != 0 || (offset - 0x1000) / stride >= 0x2_0000 then None
    else
      var slot := (offset - 0x1000) / stride;
      var t := if slot % 2 == 0 then Submission else Completion;
      var owner := (slot / 2, t);
      assert 2 * owner.0 + TypeMultiplier(t) == slot;
      var _ := DoorbellOffset(owner.0, t, dstrd);
      Some(owner)
  }

  /** Every queue's doorbell leads back to that queue. */
  lemma DoorbellRoundTrip(queueId: u16, t: QueueType, dstrd: nat)
    requires dstrd < 16
    ensures DoorbellOwner(DoorbellOffset(queueId, t, dstrd), dstrd) == Some((queueId, t))
  {
    var slot := 2 * queueId + TypeMultiplier(t);
    DivModUnique(slot, 2, queueId, TypeMultiplier(t));
  }

  /** Two different queues' doorbells are at least a stride apart, so the
      4-byte registers never overlap. */
  lemma DoorbellsDistinct(q1: u16, t1: QueueType, q2: u16, t2: QueueType, dstrd: nat)
    requires dstrd < 16
    requires (q1, t1) != (q2, t2)
    ensures DoorbellOffset(q1, t1, dstrd) + DoorbellStride(dstrd) <= DoorbellOffset(q2, t2, dstrd)
         || DoorbellOffset(q2, t2, dstrd) + DoorbellStride(dstrd) <= DoorbellOffset(q1, t1, dstrd)
  {
    var a := DoorbellOffset(q1, t1, dstrd) - 0x1000;
    var b := DoorbellOffset(q2, t2, dstrd) - 0x1000;
    DoorbellRoundTrip(q1, t1, dstrd);
    DoorbellRoundTrip(q2, t2, dstrd);
    if a < b {
      MultiplesApart(a, b, DoorbellStride(dstrd));
    } else {
      MultiplesApart(b, a, DoorbellStride(dstrd));
    }
  }

  // ----- Queues -----------------------------------------------------------

  /** `Queue<T>`: the entries, the ring index into them and the phase tag
      (which submission queues do not use). */
  datatype Queue<E> = Queue(entries: seq<E>, ring: IndexRing, phaseTag: bool)
  {
    predicate Valid()
    {
      ring.Valid() && |entries| == ring.max
    }
  }

  /** `Queue::new`: `count` entries holding whatever the memory held, the
      index at 0 and the phase tag set. An empty queue would make the
      first index step divide by zero. */
  function NewQueue<E>(count: u16, memory: seq<E>): (r: Queue<E>)
    requires count > 0 && |memory| == count
    ensures r.Valid() && r.ring.current == 0 && r.ring.max == count
    ensures r.phaseTag && r.entries == memory
  {
    Queue(memory, RingNew(count), true)
  }

  // ----- Submission queue -------------------------------------------------

  /** A submission slot: `None` while the memory is uninitialised. */
  type SubmissionQueue = Queue<Option<NvmeCommand.Command>>

  /** `submit_command`: write the command at the current index, then step
      the index. */
  function SubmitCommand(q: SubmissionQueue, command: NvmeCommand.Command): (r: SubmissionQueue)
    requires q.Valid()
    ensures r.Valid() && r.ring.max == q.ring.max && r.phaseTag == q.phaseTag
    ensures r.ring.current == (q.ring.current + 1) % q.ring.max
    ensures r.entries == q.entries[q.ring.current := Some(command)]
  {
    Queue(q.entries[q.ring.current := Some(command)], RingIncrement(q.ring), q.phaseTag)
  }

  /** Several `submit_command` calls in a row. */
  function SubmitAll(q: SubmissionQueue, commands: seq<NvmeCommand.Command>): (r: SubmissionQueue)
    requires q.Valid()
    ensures r.Valid() && r.ring.max == q.ring.max
    decreases |commands|
  {
    if commands == [] then q else SubmitAll(SubmitCommand(q, commands[0]), commands[1..])
  }

  /** After n submissions the index is n slots on, wrapping at the end. */
  lemma {:induction false} SubmitAllIndex(q: SubmissionQueue, commands: seq<NvmeCommand.Command>)
    requires q.Valid()
    ensures SubmitAll(q, commands).ring.current == (q.ring.current + |commands|) % q.ring.max
    decreases |commands|
  {
    var m := q.ring.max;
    var c := q.ring.current;
    DivModUnique(c, m, 0, c);
    if commands != [] {
      SubmitAllIndex(SubmitCommand(q, commands[0]), commands[1..]);
      AddUnderMod(c + 1, |commands| - 1, m);
    }
  }

  /** Submissions leave alone every slot more than their number of steps
      ahead of the index. */
  lemma {:induction false} SubmitAllKeeps(q: SubmissionQueue, commands: seq<NvmeCommand.Command>)
    requires q.Valid()
    ensures forall s :: 0 <= s < q.ring.max && (s - q.ring.current) % q.ring.max >= |commands| ==>
              SubmitAll(q, commands).entries[s] == q.entries[s]
    decreases |commands|
  {
    if commands != [] {
      var next := SubmitCommand(q, commands[0]);
      SubmitAllKeeps(next, commands[1..]);
      forall s | 0 <= s < q.ring.max && (s - q.ring.current) % q.ring.max >= |commands|
        ensures SubmitAll(q, commands).entries[s] == q.entries[s]
      {
        SlotDistanceStep(s, q.ring.current, q.ring.max);
      }
    }
  }

  /** Up to a queue's worth of submissions land in consecutive slots from
      the current index on, wrapping at the end. */
  lemma {:induction false} SubmitAllPlaces(q: SubmissionQueue, commands: seq<NvmeCommand.Command>)
    requires q.Valid() && |commands| <= q.ring.max
    ensures forall i :: 0 <= i < |commands| ==>
              SubmitAll(q, commands).entries[(q.ring.current + i) % q.ring.max] == Some(commands[i])
    decreases |commands|
  {
    var m := q.ring.max;
    var c := q.ring.current;
    if commands != [] {
      var next := SubmitCommand(q, commands[0]);
      var rest := commands[1..];
      SubmitAllPlaces(next, rest);
      SubmitAllKeeps(next, rest);
      SlotBehind(c, m);
      DivModUnique(c, m, 0, c);
      forall i | 0 <= i < |commands|
        ensures SubmitAll(q, commands).entries[(c + i) % m] == Some(commands[i])
      {
        if i > 0 {
          AddUnderMod(c + 1, i - 1, m);
          assert (next.ring.current + (i - 1)) % m == (c + i) % m;
        }
      }
    }
  }

  /** The slot just written is m − 1 steps behind the next index. */
  lemma SlotBehind(c: int, m: int)
    requires 0 <= c < m
    ensures (c - (c + 1) % m) % m == m - 1
  {
    if c + 1 == m {
      DivModUnique(m, m, 1, 0);
      DivModUnique(c, m, 0, c);
    } else {
      DivModUnique(c + 1, m, 0, c + 1);
      DivModUnique(-1, m, -1, m - 1);
    }
  }

  /** A slot d ≥ 1 steps ahead of c is d − 1 steps ahead of c's successor. */
  lemma SlotDistanceStep(s: int, c: int, m: int)
    requires 0 <= s < m && 0 <= c < m && (s - c) % m >= 1
    ensures s != c
    ensures (s - (c + 1) % m) % m == (s - c) % m - 1
  {
    Distance(s, c, m);
    if c + 1 == m {
      DivModUnique(c + 1, m, 1, 0);
      Distance(s, 0, m);
    } else {
      DivModUnique(c + 1, m, 0, c + 1);
      Distance(s, c + 1, m);
    }
  }

  /** How many steps slot s lies ahead of slot c on a ring of m. */
  lemma Distance(s: int, c: int, m: int)
    requires 0 <= s < m && 0 <= c < m
    ensures (s - c) % m == if s >= c then s - c else s - c + m
  {
    if s >= c {
      DivModUnique(s - c, m, 0, s - c);
    } else {
      DivModUnique(s - c, m, -1, s - c + m);
    }
  }

  // ----- Completion queue -------------------------------------------------

  type CompletionQueue = Queue<NvmeCommand.Completion>

  /** One poll of a completion queue: the queue after it, the entry it
      returned, and the value written to the head doorbell, if any. */
  datatype Poll = Poll(queue: CompletionQueue, result: Option<NvmeCommand.Completion>, doorbell: Option<nat>)

  /** `next_cmd_result` as written: an entry is new when its phase tag
      differs from the queue's; the doorbell is given the index of the
      entry just taken, the index steps without ever inverting the phase
      tag. */
  function NextCmdResultAsWritten(q: CompletionQueue): (r: Poll)
    requires q.Valid()
    ensures r.queue.Valid() && r.queue.phaseTag == q.phaseTag && r.queue.entries == q.entries
    ensures r.result.Some? <==> NvmeCommand.PhaseTag(q.entries[q.ring.current]) != q.phaseTag
    ensures r.result.Some? ==> (r.result.value == q.entries[q.ring.current]
                                && r.doorbell == Some(q.ring.current)
                                && r.queue.ring == RingIncrement(q.ring))
    ensures r.result.None? ==> r == Poll(q, None, None)
  {
    var entry := q.entries[q.ring.current];
    if NvmeCommand.PhaseTag(entry) != q.phaseTag then
      Poll(q.(ring := RingIncrement(q.ring)), Some(entry), Some(q.ring.current))
    else
      Poll(q, None, None)
  }

  /** `increment_with_phase_inversion`: step the index and invert the
      phase tag exactly when the index wraps to 0. */
  function IncrementWithPhaseInversion(q: CompletionQueue): (r: CompletionQueue)
    requires q.Valid()
    ensures r.Valid() && r.entries == q.entries && r.ring == RingIncrement(q.ring)
    ensures r.phaseTag != q.phaseTag <==> q.ring.current == q.ring.max - 1
  {
    var stepped := q.(ring := RingIncrement(q.ring));
    if stepped.ring.current == 0 then stepped.(phaseTag := !q.phaseTag) else stepped
  }

  /** A completion queue as the controller expects the host to keep it:
      the phase tag starts clear, matching zeroed memory. */
  function NewCompletionQueue(count: u16, memory: seq<NvmeCommand.Completion>): (r: CompletionQueue)
    requires count > 0 && |memory| == count
    ensures r.Valid() && r.ring.current == 0 && r.ring.max == count
    ensures !r.phaseTag && r.entries == memory
  {
    NewQueue(count, memory).(phaseTag := false)
  }

  /** A poll that inverts the phase tag on wrap-around and gives the
      doorbell the new head, the slot after the entry just taken. */
  function NextCompletion(q: CompletionQueue): (r: Poll)
    requires q.Valid()
    ensures r.queue.Valid() && r.queue.entries == q.entries
    ensures r.result.Some? <==> NvmeCommand.PhaseTag(q.entries[q.ring.current]) != q.phaseTag
    ensures r.result.Some? ==> (r.result.value == q.entries[q.ring.current]
                                && r.queue == IncrementWithPhaseInversion(q)
                                && r.doorbell == Some(r.queue.ring.current))
    ensures r.result.None? ==> r == Poll(q, None, None)
  {
    var entry := q.entries[q.ring.current];
    if NvmeCommand.PhaseTag(entry) != q.phaseTag then
      var next := IncrementWithPhaseInversion(q);
      Poll(next, Some(entry), Some(next.ring.current))
    else
      Poll(q, None, None)
  }

  // ----- The controller's side --------------------------------------------

  /** How many times the controller has written slot `slot` after posting
      `posted` completions, one slot after another from slot 0. */
  function WriteCount(posted: nat, count: nat, slot: nat): nat
    requires count > 0
  {
    posted / count + (if slot < posted % count then 1 else 0)
  }

  /** The phase tags the controller leaves after `posted` completions:
      memory starts zeroed, and each pass over the queue writes the
      inverse of the previous pass's tag (1 on the first pass). */
  predicate PostedBy(entries: seq<NvmeCommand.Completion>, posted: nat)
  {
    |entries| > 0 &&
    forall s :: 0 <= s < |entries| ==>
      NvmeCommand.PhaseTag(entries[s]) == (WriteCount(posted, |entries|, s) % 2 == 1)
  }

  /** The host's queue agrees with having consumed `consumed` entries:
      the index is that many slots on, and the phase tag is the tag of
      the pass the index is on, inverted. */
  predicate Tracks(q: CompletionQueue, consumed: nat)
  {
    q.Valid() && q.ring.current == consumed % q.ring.max && q.phaseTag == (consumed / q.ring.max % 2 == 1)
  }

  /** A fresh queue tracks zero consumed entries. */
  lemma NewCompletionQueueTracks(count: u16, memory: seq<NvmeCommand.Completion>)
    requires count > 0 && |memory| == count
    ensures Tracks(NewCompletionQueue(count, memory), 0)
  {
  }

  /** While at most a queue's worth of completions is outstanding, a poll
      returns an entry exactly when the controller has posted one the
      host has not consumed, returns the oldest such entry, keeps
      tracking, and tells the controller the new head. */
  lemma {:induction false} NextCompletionFollowsController(q: CompletionQueue, consumed: nat, posted: nat)
    requires Tracks(q, consumed) && PostedBy(q.entries, posted)
    requires consumed <= posted <= consumed + q.ring.max
    ensures NextCompletion(q).result.Some? <==> posted > consumed
    ensures posted > consumed ==> NextCompletion(q).result == Some(q.entries[consumed % q.ring.max])
    ensures posted > consumed ==> Tracks(NextCompletion(q).queue, consumed + 1)
    ensures posted > consumed ==> NextCompletion(q).doorbell == Some((consumed + 1) % q.ring.max)
    ensures posted == consumed ==> NextCompletion(q).queue == q
  {
    var m := q.ring.max;
    var s := consumed % m;
    var k := consumed / m;
    var d := posted - consumed;
    assert k * m + s + d == posted;
    WriteCountAt(k, s, m, d);
    assert NvmeCommand.PhaseTag(q.entries[s]) == ((k + (if d > 0 then 1 else 0)) % 2 == 1);
    if posted > consumed {
      StepTracks(q, consumed);
    }
  }

  /** Stepping the index with phase inversion keeps tracking, one entry
      further on. */
  lemma StepTracks(q: CompletionQueue, consumed: nat)
    requires Tracks(q, consumed)
    ensures Tracks(IncrementWithPhaseInversion(q), consumed + 1)
  {
    var m := q.ring.max;
    var s := consumed % m;
    var k := consumed / m;
    if s + 1 == m {
      DivModUnique(consumed + 1, m, k + 1, 0);
    } else {
      DivModUnique(consumed + 1, m, k, s + 1);
    }
  }

  /** Slot s of pass k, after the controller has gone d ≤ count entries
      past it, has been written k times, plus once more if d > 0. */
  lemma WriteCountAt(k: nat, s: nat, count: nat, d: nat)
    requires s < count && d <= count
    ensures WriteCount(k * count + s + d, count, s) == k + (if d > 0 then 1 else 0)
  {
    var posted := k * count + s + d;
    if s + d < count {
      DivModUnique(posted, count, k, s + d);
    } else {
      DivModUnique(posted, count, k + 1, s + d - count);
      if d == count {
        assert s + d - count == s;
      }
    }
  }

  /** As written, a fresh queue over zeroed memory reports a completion
      before the controller has posted any. */
  lemma NextCmdResultAsWrittenReportsNothingPosted(count: u16, memory: seq<NvmeCommand.Completion>)
    requires count > 0 && |memory| == count && PostedBy(memory, 0)
    ensures NextCmdResultAsWritten(NewQueue(count, memory)).result.Some?
  {
    assert WriteCount(0, count, 0) == 0;
  }

  /** As written, the controller's first completion goes unseen: its
      phase tag matches the queue's. */
  lemma NextCmdResultAsWrittenMissesFirst(count: u16, memory: seq<NvmeCommand.Completion>)
    requires count > 1 && |memory| == count && PostedBy(memory, 1)
    ensures NextCmdResultAsWritten(NewQueue(count, memory)).result.None?
  {
    DivModUnique(1, count as int, 0, 1);
    assert WriteCount(1, count, 0) == 1;
  }

  /** As written, the head doorbell is given the slot just consumed, so
      the controller is told that entry is still unread. */
  lemma NextCmdResultAsWrittenDoorbellLags(q: CompletionQueue)
    requires q.Valid() && q.ring.max > 1
    requires NvmeCommand.PhaseTag(q.entries[q.ring.current]) != q.phaseTag
    ensures NextCmdResultAsWritten(q).doorbell == Some(q.ring.current)
    ensures NextCompletion(q).doorbell == Some((q.ring.current + 1) % q.ring.max)
    ensures NextCmdResultAsWritten(q).doorbell != NextCompletion(q).doorbell
  {
  }
}

=== FILE: paging.dfy ===
/** The kernel's `PageDepth`: a paging level, 0 for a 4 KiB page up to the
    number of paging levels (4, or 5 with LA57). Each level covers 512
    times the memory of the level below it, and a virtual address is cut
    into one 9-bit table index per level above a 12-bit page offset (the
    x86-64 4-level and 5-level paging of the Intel SDM, Vol. 3A,
    section 4.5). */
module PagingDepth {
  import opened Wrappers
  import opened Words

  /** The paging levels: 5 when the processor has LA57, otherwise 4. */
  function MaxLevels(la57: bool): (r: nat)
    ensures r == 4 || r == 5
  {
    if la57 then 5 else 4
  }

  /** `PageDepth::new`: a depth between `min` (0) and `max`. */
  function NewDepth(depth: int, la57: bool): (r: Option<nat>)
    ensures r.Some? <==> 0 <= depth <= MaxLevels(la57)
    ensures r.Some? ==> r.value == depth
  {
    if 0 <= depth <= MaxLevels(la57) then Some(depth) else None
  }

  /** `PageDepth::align`: `page_size << (table_index_shift * depth)`, the
      bytes one entry at this depth maps. The shift is at most 45, so
      `checked_shl` never fails and no bit is shifted out. */
  function Align(depth: nat): (r: u64)
    requires depth <= 5
    ensures r == Pow2(12 + 9 * depth)
    ensures r % 0x1000 == 0
    ensures depth >= 1 ==> r == Align(depth - 1) * 512
  {
    AlignFacts(depth);
    0x1000 * Pow2(9 * depth)
  }

  /** 0x1000 · 2^(9 · depth) is 2^(12 + 9 · depth), fits in 64 bits, and is
      512 times the value one level down. */
  lemma AlignFacts(depth: nat)
    requires depth <= 5
    ensures 0x1000 * Pow2(9 * depth) == Pow2(12 + 9 * depth) <= U64_MAX
    ensures (0x1000 * Pow2(9 * depth)) % 0x1000 == 0
    ensures depth >= 1 ==> 0x1000 * Pow2(9 * depth) == 0x1000 * Pow2(9 * (depth - 1)) * 512
  {
    Pow2Add(12, 9 * depth);
    Pow2Of64();
    Pow2Monotone(12 + 9 * depth, 63);
    assert Pow2(64) == 2 * Pow2(63);
    Pow2Add(4, 8);
    Pow2Add(4, 4);
    assert Pow2(4) == 16;
    if depth >= 1 {
      Pow2Add(9 * (depth - 1), 9);
      Pow2Add(4, 5);
      assert Pow2(5) == 32;
      assert Pow2(9) == 512;
      assert Pow2(9 * depth) == Pow2(9 * (depth - 1)) * 512;
    }
    DivModUnique(0x1000 * Pow2(9 * depth), 0x1000, Pow2(9 * depth), 0);
  }

  /** `PageDepth::index_of`: no index at depth 0; otherwise the 9 bits of
      the address `(address >> 9 (depth - 1) >> 12) & 0x1FF`. */
  function IndexOf(depth: nat, address: u64): (r: Option<nat>)
    requires depth <= 5
    ensures r.Some? <==> depth >= 1
    ensures r.Some? ==> r.value < 512 && r.value == (address / Align(depth - 1)) % 512
  {
    if depth == 0 then None
    else
      var shifted := address / Pow2(9 * (depth - 1));
      DivDiv(address, Pow2(9 * (depth - 1)), 0x1000);
      Some((shifted / 0x1000) % 512)
  }

  /** Dividing twice divides by the product. */
  lemma DivDiv(x: nat, a: nat, b: nat)
    requires a > 0 && b > 0
    ensures x / a / b == x / (a * b)
  {
    var q := x / a / b;
    var r := (x / a) % b * a + x % a;
    assert x == q * (a * b) + r;
    assert r < a * b by {
      assert (x / a) % b <= b - 1;
      assert (x / a) % b * a <= (b - 1) * a;
    }
    DivModUnique(x, a * b, q, r);
  }

  /** The remainder by a product splits into the remainder by the first
      factor and the next digit. */
  lemma ModMul(x: nat, a: nat, b: nat)
    requires a > 0 && b > 0
    ensures x % (a * b) == x % a + (x / a) % b * a
  {
    DivDiv(x, a, b);
    var q := x / a / b;
    assert x / a == q * b + (x / a) % b;
    assert x == q * (a * b) + ((x / a) % b * a + x % a);
    assert (x / a) % b * a + x % a < a * b by {
      assert (x / a) % b * a <= (b - 1) * a;
    }
    DivModUnique(x, a * b, q, (x / a) % b * a + x % a);
  }

  /** The page offset plus every level's table index, each scaled by the
      span of the level below: what a walk down to `depth` reads. */
  function Reassemble(address: u64, depth: nat): nat
    requires depth <= 5
  {
    if depth == 0 then address % 0x1000
    else Reassemble(address, depth - 1) + IndexOf(depth, address).value * Align(depth - 1)
  }

  /** The table indices of the levels up to `depth` and the page offset
      are exactly the low 12 + 9 · depth bits of the address, so a
      four-level walk loses nothing of a 48-bit address. */
  lemma {:induction false} ReassembleIsLowBits(address: u64, depth: nat)
    requires depth <= 5
    ensures Reassemble(address, depth) == address % Align(depth)
    ensures address < Align(depth) ==> Reassemble(address, depth) == address
  {
    if depth > 0 {
      ReassembleIsLowBits(address, depth - 1);
      ModMul(address, Align(depth - 1), 512);
    }
    if address < Align(depth) {
      DivModUnique(address, Align(depth), 0, address);
    }
  }

  // ----- Step -----------------------------------------------------------------

  /** `Step::steps_between(start, end)`: the depth counts down, so the
      number of steps is `start - end` when `end <= start`. */
  function StepsBetween(start: nat, end: nat): (r: Option<nat>)
    ensures r.Some? <==> end <= start
    ensures r.Some? ==> end + r.value == start
  {
    if end <= start then Some(start - end) else None
  }

  /** `Step::forward_checked`: `count` levels down; `None` if the count
      does not fit a `u32` or the depth would go below 0. */
  function ForwardChecked(start: nat, count: usize, la57: bool): (r: Option<nat>)
    requires start <= MaxLevels(la57)
    ensures r.Some? <==> count <= start
    ensures r.Some? ==> r.value == start - count
  {
    if count > 0xFFFF_FFFF then None
    else if start < count then None
    else NewDepth(start - count, la57)
  }

  /** `Step::backward_checked`: `count` levels up; `None` past `max`. */
  function BackwardChecked(start: nat, count: usize, la57: bool): (r: Option<nat>)
    requires start <= MaxLevels(la57)
    ensures r.Some? <==> start + count <= MaxLevels(la57)
    ensures r.Some? ==> r.value == start + count
  {
    if count > 0xFFFF_FFFF then None
    else if start + count > 0xFFFF_FFFF then None
    else NewDepth(start + count, la57)
  }

  /** The laws of `Step`: stepping forward n times from `a` reaches `b`
      exactly when `steps_between(a, b)` is n, and stepping backward
      inverts it. */
  lemma StepLaws(a: nat, b: nat, n: usize, la57: bool)
    requires a <= MaxLevels(la57) && b <= MaxLevels(la57)
    ensures ForwardChecked(a, n, la57) == Some(b) <==> StepsBetween(a, b) == Some(n)
    ensures BackwardChecked(b, n, la57) == Some(a) <==> StepsBetween(a, b) == Some(n)
  {
  }

  /** `PageDepth::next`: `Step::forward(self, 1)`, which panics at depth 0. */
  function Next(depth: nat, la57: bool): (r: nat)
    requires 1 <= depth <= MaxLevels(la57)
    ensures Some(r) == ForwardChecked(depth, 1, la57)
    ensures r < depth
  {
    depth - 1
  }
}

/** The kernel's x86-64 `PageTableEntry`: the frame index in bits 12..52
    and the `TableEntryFlags` in bits 0..10 and 63. */
module KernelPte {
  type Entry = bv64

  const PRESENT: bv64 := 0x1
  const WRITABLE: bv64 := 0x2
  const USER: bv64 := 0x4
  const UNCACHEABLE: bv64 := 0x10
  const HUGE: bv64 := 0x80
  const DEMAND: bv64 := 0x200
  const NO_EXECUTE: bv64 := 0x8000_0000_0000_0000

  const RO: bv64 := 0x8000_0000_0000_0001
  const RW: bv64 := 0x8000_0000_0000_0003
  const RX: bv64 := 0x1
  const PTE: bv64 := 0x7
  const MMIO: bv64 := 0x8000_0000_0000_0013

  /** The composite permissions: read-only is present and not
      executable, read-write adds writable, read-execute drops the
      no-execute bit, the table-pointer entry is present, writable and
      user, and MMIO is read-write uncached. */
  lemma PermissionSets()
    ensures RO == PRESENT | NO_EXECUTE
    ensures RW == RO | WRITABLE
    ensures RX == RO & !NO_EXECUTE
    ensures PTE == PRESENT | WRITABLE | USER
    ensures MMIO == RW | UNCACHEABLE
    ensures RO & PRESENT == PRESENT && RW & PRESENT == PRESENT && RX & PRESENT == PRESENT && MMIO & PRESENT == PRESENT
  {
  }

  /** A `TableEntryFlags` value holds only the defined bits 0..10 and 63. */
  predicate IsFlags(a: bv64)
  {
    a & 0x7FFF_FFFF_FFFF_FC00 == 0
  }

  /** An `Address<Frame>`: 4 KiB aligned and below 2^52. */
  predicate IsFrameAddress(f: bv64)
  {
    f & 0xFFF0_0000_0000_0FFF == 0
  }

  /** `get_attributes`: `TableEntryFlags::from_bits_truncate`. */
  function GetAttributes(e: Entry): (a: bv64)
    ensures IsFlags(a)
  {
    e & 0x8000_0000_0000_03FF
  }

  /** `get_frame`: bits 12..52 shifted back into place (`new_truncate`
      keeps such an address as it is). */
  function GetFrame(e: Entry): (f: bv64)
    ensures IsFrameAddress(f)
  {
    ((e >> 12) & 0xFF_FFFF_FFFF) << 12
  }

  /** `PageTableEntry::new`: the flags with the frame index written into
      bits 12..52. */
  function NewEntry(frame: bv64, attributes: bv64): (e: Entry)
    requires IsFrameAddress(frame) && IsFlags(attributes)
    ensures GetFrame(e) == frame
    ensures GetAttributes(e) == attributes
  {
    (attributes & 0xFFF0_0000_0000_0FFF) | (((frame >> 12) & 0xFF_FFFF_FFFF) << 12)
  }

  /** `set_frame`: a new entry with the old attributes. */
  function SetFrame(e: Entry, frame: bv64): (r: Entry)
    requires IsFrameAddress(frame)
    ensures GetFrame(r) == frame && GetAttributes(r) == GetAttributes(e)
  {
    NewEntry(frame, GetAttributes(e))
  }

  datatype FlagsModify = Set | Insert | Remove | Toggle

  /** The `bitflags` update for each mode: replace, union, difference and
      symmetric difference. */
  function Modify(attributes: bv64, update: bv64, mode: FlagsModify): (r: bv64)
    requires IsFlags(attributes) && IsFlags(update)
    ensures IsFlags(r)
  {
    match mode
    case Set => update
    case Insert => Union(attributes, update)
    case Remove => Difference(attributes, update)
    case Toggle => SymmetricDifference(attributes, update)
  }

  /** `insert`: every flag of either operand. */
  function Union(a: bv64, u: bv64): (r: bv64)
    requires IsFlags(a) && IsFlags(u)
    ensures IsFlags(r) && r & u == u && r & a == a
  {
    a | u
  }

  /** `remove`: the flags of `a` not in `u`. */
  function Difference(a: bv64, u: bv64): (r: bv64)
    requires IsFlags(a) && IsFlags(u)
    ensures IsFlags(r) && r & u == 0 && r & !u == a & !u
  {
    a & !u
  }

  /** `toggle`: flip the flags of `u`; flipping again undoes it. */
  function SymmetricDifference(a: bv64, u: bv64): (r: bv64)
    requires IsFlags(a) && IsFlags(u)
    ensures IsFlags(r) && r ^ u == a
  {
    a ^ u
  }

  /** `remove(NO_EXECUTE)`. */
  function ClearNoExecute(a: bv64): (r: bv64)
    requires IsFlags(a)
    ensures IsFlags(r) && r & 0x8000_0000_0000_0000 == 0
    ensures r & 0x7FFF_FFFF_FFFF_FFFF == a & 0x7FFF_FFFF_FFFF_FFFF
    ensures a & 0x8000_0000_0000_0000 == 0 ==> r == a
  {
    a & 0x7FFF_FFFF_FFFF_FFFF
  }

  /** `set_attributes`: update the flags, clear `NO_EXECUTE` when the
      processor has not enabled NXE, and rebuild the entry around its
      frame. */
  function SetAttributes(e: Entry, update: bv64, mode: FlagsModify, nxe: bool): (r: Entry)
    requires IsFlags(update)
    ensures GetFrame(r) == GetFrame(e)
    ensures nxe ==> GetAttributes(r) == Modify(GetAttributes(e), update, mode)
    ensures !nxe ==> GetAttributes(r) == ClearNoExecute(Modify(GetAttributes(e), update, mode))
  {
    NewEntry(GetFrame(e), Adjust(Modify(GetAttributes(e), update, mode), nxe))
  }

  /** Without NXE no entry `set_attributes` writes has the no-execute bit. */
  lemma NoExecuteNeedsNxe(e: Entry, update: bv64, mode: FlagsModify)
    requires IsFlags(update)
    ensures SetAttributes(e, update, mode, false) & NO_EXECUTE == 0
  {
    var r := SetAttributes(e, update, mode, false);
    HighBitIsAttribute(r);
  }

  /** Bit 63 of an entry is bit 63 of its flags. */
  lemma HighBitIsAttribute(e: Entry)
    ensures e & 0x8000_0000_0000_0000 == GetAttributes(e) & 0x8000_0000_0000_0000
  {
  }

  /** An entry with no bits outside the frame and flag fields. */
  predicate IsNormal(e: Entry)
  {
    e & 0x7FF0_0000_0000_0C00 == 0
  }

  /** A normal entry is rebuilt unchanged from its frame and flags. */
  lemma NormalRebuilds(e: Entry)
    requires IsNormal(e)
    ensures NewEntry(GetFrame(e), GetAttributes(e)) == e
  {
  }

  /** Toggling the same flags twice gives a normal entry back, as long as
      the no-execute bit is not cleared behind the caller's back. */
  lemma ToggleTwice(e: Entry, update: bv64, nxe: bool)
    requires IsNormal(e) && IsFlags(update)
    requires nxe || (e & NO_EXECUTE == 0 && update & NO_EXECUTE == 0)
    ensures SetAttributes(SetAttributes(e, update, Toggle, nxe), update, Toggle, nxe) == e
  {
    var a := GetAttributes(e);
    NormalRebuilds(e);
    if !nxe {
      HighBitIsAttribute(e);
    }
    TwoToggles(a, update, nxe);
    RebuildTwice(e, update, Toggle, Toggle, nxe);
  }

  /** Two updates of an entry act on its flags alone. */
  lemma RebuildTwice(e: Entry, update: bv64, first: FlagsModify, second: FlagsModify, nxe: bool)
    requires IsFlags(update)
    ensures var once := Adjust(Modify(GetAttributes(e), update, first), nxe);
      SetAttributes(SetAttributes(e, update, first, nxe), update, second, nxe)
        == NewEntry(GetFrame(e), Adjust(Modify(once, update, second), nxe))
  {
  }

  /** The flags `set_attributes` writes: with NXE off, without bit 63. */
  function Adjust(a: bv64, nxe: bool): (r: bv64)
    requires IsFlags(a)
    ensures IsFlags(r)
  {
    if nxe then a else ClearNoExecute(a)
  }

  /** Toggling twice restores a flag set. */
  lemma TwoToggles(a: bv64, u: bv64, nxe: bool)
    requires IsFlags(a) && IsFlags(u)
    requires nxe || (a & 0x8000_0000_0000_0000 == 0 && u & 0x8000_0000_0000_0000 == 0)
    ensures Adjust(Modify(Adjust(Modify(a, u, Toggle), nxe), u, Toggle), nxe) == a
  {
    var t := SymmetricDifference(a, u);
    assert Modify(a, u, Toggle) == t;
    if !nxe {
      NoExecuteStaysClear(a, u);
      assert Adjust(t, nxe) == t;
    }
    assert Modify(t, u, Toggle) == SymmetricDifference(t, u);
    XorTwice(a, u);
    if !nxe {
      assert Adjust(a, nxe) == a;
    }
  }

  /** Exclusive or with the same value twice is the identity. */
  lemma XorTwice(a: bv64, u: bv64)
    requires IsFlags(a) && IsFlags(u)
    ensures SymmetricDifference(SymmetricDifference(a, u), u) == a
  {
  }

  /** Inserting flags an entry lacked and then removing them gives a
      normal entry back, under the same condition on the no-execute bit. */
  lemma InsertThenRemove(e: Entry, update: bv64, nxe: bool)
    requires IsNormal(e) && IsFlags(update) && GetAttributes(e) & update == 0
    requires nxe || (e & NO_EXECUTE == 0 && update & NO_EXECUTE == 0)
    ensures SetAttributes(SetAttributes(e, update, Insert, nxe), update, Remove, nxe) == e
  {
    var a := GetAttributes(e);
    NormalRebuilds(e);
    if !nxe {
      HighBitIsAttribute(e);
    }
    InsertRemove(a, update, nxe);
    RebuildTwice(e, update, Insert, Remove, nxe);
  }

  /** Removing what was inserted into a disjoint flag set restores it. */
  lemma InsertRemove(a: bv64, u: bv64, nxe: bool)
    requires IsFlags(a) && IsFlags(u) && a & u == 0
    requires nxe || (a & 0x8000_0000_0000_0000 == 0 && u & 0x8000_0000_0000_0000 == 0)
    ensures Adjust(Modify(Adjust(Modify(a, u, Insert), nxe), u, Remove), nxe) == a
  {
    var i := Union(a, u);
    DisjointUnionUndone(a, u);
    if !nxe {
      NoExecuteStaysClear(a, u);
      DifferenceKeepsClear(i, u);
    }
  }

  /** A difference keeps a clear no-execute bit clear. */
  lemma DifferenceKeepsClear(a: bv64, u: bv64)
    requires IsFlags(a) && IsFlags(u) && a & 0x8000_0000_0000_0000 == 0
    ensures Difference(a, u) & 0x8000_0000_0000_0000 == 0
  {
  }

  /** Flag sets without the no-execute bit keep it clear under toggle and
      union. */
  lemma NoExecuteStaysClear(a: bv64, u: bv64)
    requires IsFlags(a) && IsFlags(u)
    requires a & 0x8000_0000_0000_0000 == 0 && u & 0x8000_0000_0000_0000 == 0
    ensures SymmetricDifference(a, u) & 0x8000_0000_0000_0000 == 0
    ensures Union(a, u) & 0x8000_0000_0000_0000 == 0
  {
  }

  /** Removing what was added to a disjoint set restores it. */
  lemma DisjointUnionUndone(a: bv64, u: bv64)
    requires IsFlags(a) && IsFlags(u) && a & u == 0
    ensures Difference(Union(a, u), u) == a
  {
  }

  /** `is_present` tests bit 0 and `is_huge` bit 7. */
  predicate IsPresent(e: Entry)
  {
    GetAttributes(e) & PRESENT == PRESENT
  }

  predicate IsHuge(e: Entry)
  {
    GetAttributes(e) & HUGE == HUGE
  }

  /** Presence and size are read from the flags alone: a new entry is
      present exactly when its flags contain `PRESENT`, whatever the
      frame. */
  lemma PresenceFollowsFlags(frame: bv64, attributes: bv64)
    requires IsFrameAddress(frame) && IsFlags(attributes)
    ensures IsPresent(NewEntry(frame, attributes)) <==> attributes & 0x1 != 0
    ensures IsHuge(NewEntry(frame, attributes)) <==> attributes & 0x80 != 0
  {
  }
}

=== FILE: pci.dfy ===
/** PCI class codes (PCI Code and ID Assignment Specification, section 1):
    the (class, subclass, programming interface) triple from the third row
    of a configuration header, decoded into the kernel's class tree. */
module PciClass {
  import opened Wrappers

  datatype Unclassified = NonVgaCompatible | VgaCompatible

  datatype IdeController =
    | IsaOnly
    | PciNativeOnly
    | IsaSupportingPciNative
    | PciNativeSupportingIsa
    | IsaBusMastering
    | PciNativeBusMastering
    | IsaFullSupport
    | PciFullSupport

  datatype MassStorageController =
    | Scsi
    | Ide(ide: IdeController)
    | Floppy
    | Ipi
    | Raid
    | AtaSingleStep
    | AtaContinuous
    | SataVendorSpecific
    | SataAhci
    | Sas
    | Other

  datatype DisplayController = Vga | Xga | NonVga3D | Other

  datatype Pci2PciBridge =
    | NormalDecode
    | SubtractiveDecode
    | SemiTransparentPrimaryBus
    | SemiTransparentSecondaryBus

  datatype RacewayBridge = TransparentMode | EndpointMode

  datatype Bridge =
    | Host
    | Isa
    | Eisa
    | Mca
    | Pci2Pci(p2p: Pci2PciBridge)
    | Pcmcia
    | NuBus
    | CardBus
    | Raceway(raceway: RacewayBridge)
    | InfiniBand2Pci
    | Other

  datatype Class =
    | UnclassifiedDevice(u: Unclassified)
    | MassStorage(m: MassStorageController)
    | Display(d: DisplayController)
    | BridgeDevice(b: Bridge)
    | Unknown(baseClass: bv8, subclass: bv8, progIf: bv8)

  /** The triple a class stands for: the inverse of `Parse`. An `Unknown`
      class stands for the bytes it carries. */
  function Code(k: Class): (bv8, bv8, bv8)
  {
    match k
    case UnclassifiedDevice(u) =>
      (match u
       case NonVgaCompatible => (0x00, 0x00, 0x00)
       case VgaCompatible => (0x00, 0x01, 0x00))
    case MassStorage(m) =>
      (match m
       case Scsi => (0x01, 0x00, 0x00)
       case Ide(ide) => (0x01, 0x01, IdeProgIf(ide))
       case Floppy => (0x01, 0x02, 0x00)
       case Ipi => (0x01, 0x03, 0x00)
       case Raid => (0x01, 0x04, 0x00)
       case AtaSingleStep => (0x01, 0x05, 0x20)
       case AtaContinuous => (0x01, 0x05, 0x30)
       case SataVendorSpecific => (0x01, 0x06, 0x00)
       case SataAhci => (0x01, 0x06, 0x01)
       case Sas => (0x01, 0x07, 0x00)
       case Other => (0x01, 0x80, 0x00))
    case Display(d) =>
      (match d
       case Vga => (0x03, 0x00, 0x00)
       case Xga => (0x03, 0x01, 0x00)
       case NonVga3D => (0x03, 0x02, 0x00)
       case Other => (0x03, 0x80, 0x00))
    case BridgeDevice(b) =>
      (match b
       case Host => (0x06, 0x00, 0x00)
       case Isa => (0x06, 0x01, 0x00)
       case Eisa => (0x06, 0x02, 0x00)
       case Mca => (0x06, 0x03, 0x00)
       case Pci2Pci(NormalDecode) => (0x06, 0x04, 0x00)
       case Pci2Pci(SubtractiveDecode) => (0x06, 0x04, 0x01)
       case Pci2Pci(SemiTransparentPrimaryBus) => (0x06, 0x09, 0x40)
       case Pci2Pci(SemiTransparentSecondaryBus) => (0x06, 0x09, 0x80)
       case Pcmcia => (0x06, 0x05, 0x00)
       case NuBus => (0x06, 0x06, 0x00)
       case CardBus => (0x06, 0x07, 0x00)
       case Raceway(TransparentMode) => (0x06, 0x08, 0x00)
       case Raceway(EndpointMode) => (0x06, 0x08, 0x01)
       case InfiniBand2Pci => (0x06, 0x09, 0x00)
       case Other => (0x06, 0x80, 0x00))
    case Unknown(c, s, p) => (c, s, p)
  }

  /** The programming interface byte of each IDE controller flavour. */
  function IdeProgIf(ide: IdeController): bv8
  {
    match ide
    case IsaOnly => 0x00
    case PciNativeOnly => 0x05
    case IsaSupportingPciNative => 0x0A
    case PciNativeSupportingIsa => 0x0F
    case IsaBusMastering => 0x80
    case PciNativeBusMastering => 0x85
    case IsaFullSupport => 0x8A
    case PciFullSupport => 0x8F
  }

  function ParseIde(p: bv8): (r: Option<IdeController>)
    ensures r.Some? ==> IdeProgIf(r.value) == p
    ensures r.None? ==> forall ide: IdeController :: IdeProgIf(ide) != p
  {
    if p == 0x00 then Some(IsaOnly)
    else if p == 0x05 then Some(PciNativeOnly)
    else if p == 0x0A then Some(IsaSupportingPciNative)
    else if p == 0x0F then Some(PciNativeSupportingIsa)
    else if p == 0x80 then Some(IsaBusMastering)
    else if p == 0x85 then Some(PciNativeBusMastering)
    else if p == 0x8A then Some(IsaFullSupport)
    else if p == 0x8F then Some(PciFullSupport)
    else None
  }

  /** `Class::parse`: total over all triples. Decoding loses nothing: the
      result stands for exactly the bytes it was parsed from, and a triple
      outside the table comes back as `Unknown` with the same bytes. */
  function Parse(c: bv8, s: bv8, p: bv8): (r: Class)
    ensures Code(r) == (c, s, p)
  {
    if c == 0x00 && p == 0x00 && s == 0x00 then UnclassifiedDevice(NonVgaCompatible)
    else if c == 0x00 && p == 0x00 && s == 0x01 then UnclassifiedDevice(VgaCompatible)
    else if c == 0x01 then ParseMassStorage(s, p)
    else if c == 0x03 && p == 0x00 && s == 0x00 then Display(Vga)
    else if c == 0x03 && p == 0x00 && s == 0x01 then Display(Xga)
    else if c == 0x03 && p == 0x00 && s == 0x02 then Display(NonVga3D)
    else if c == 0x03 && p == 0x00 && s == 0x80 then Display(DisplayController.Other)
    else if c == 0x06 then ParseBridge(s, p)
    else Unknown(c, s, p)
  }

  function ParseMassStorage(s: bv8, p: bv8): (r: Class)
    ensures Code(r) == (0x01, s, p)
  {
    if s == 0x01 then
      match ParseIde(p)
      case Some(ide) => MassStorage(Ide(ide))
      case None => Unknown(0x01, s, p)
    else if s == 0x00 && p == 0x00 then MassStorage(Scsi)
    else if s == 0x02 && p == 0x00 then MassStorage(Floppy)
    else if s == 0x03 && p == 0x00 then MassStorage(Ipi)
    else if s == 0x04 && p == 0x00 then MassStorage(Raid)
    else if s == 0x05 && p == 0x20 then MassStorage(AtaSingleStep)
    else if s == 0x05 && p == 0x30 then MassStorage(AtaContinuous)
    else if s == 0x06 && p == 0x00 then MassStorage(SataVendorSpecific)
    else if s == 0x06 && p == 0x01 then MassStorage(SataAhci)
    else if s == 0x07 && p == 0x00 then MassStorage(Sas)
    else if s == 0x80 && p == 0x00 then MassStorage(MassStorageController.Other)
    else Unknown(0x01, s, p)
  }

  function ParseBridge(s: bv8, p: bv8): (r: Class)
    ensures Code(r) == (0x06, s, p)
  {
    if s == 0x00 && p == 0x00 then BridgeDevice(Host)
    else if s == 0x01 && p == 0x00 then BridgeDevice(Isa)
    else if s == 0x02 && p == 0x00 then BridgeDevice(Eisa)
    else if s == 0x03 && p == 0x00 then BridgeDevice(Mca)
    else if s == 0x04 && p == 0x00 then BridgeDevice(Pci2Pci(NormalDecode))
    else if s == 0x04 && p == 0x01 then BridgeDevice(Pci2Pci(SubtractiveDecode))
    else if s == 0x09 && p == 0x40 then BridgeDevice(Pci2Pci(SemiTransparentPrimaryBus))
    else if s == 0x09 && p == 0x80 then BridgeDevice(Pci2Pci(SemiTransparentSecondaryBus))
    else if s == 0x05 && p == 0x00 then BridgeDevice(Pcmcia)
    else if s == 0x06 && p == 0x00 then BridgeDevice(NuBus)
    else if s == 0x07 && p == 0x00 then BridgeDevice(CardBus)
    else if s == 0x08 && p == 0x00 then BridgeDevice(Raceway(TransparentMode))
    else if s == 0x08 && p == 0x01 then BridgeDevice(Raceway(EndpointMode))
    else if s == 0x09 && p == 0x00 then BridgeDevice(InfiniBand2Pci)
    else if s == 0x80 && p == 0x00 then BridgeDevice(Bridge.Other)
    else Unknown(0x06, s, p)
  }

  /** The triples the class table names. */
  ghost predicate IsKnown(c: bv8, s: bv8, p: bv8)
  {
    exists k: Class :: !k.Unknown? && Code(k) == (c, s, p)
  }

  /** Every named class is what its own bytes parse back to: `Parse` and
      `Code` are inverse on the named classes, so no two named classes
      share a triple. */
  lemma {:induction false} ParseCode(k: Class)
    requires !k.Unknown?
    ensures Parse(Code(k).0, Code(k).1, Code(k).2) == k
  {
    match k {
      case UnclassifiedDevice(_) =>
      case MassStorage(m) => MassStorageCode(m);
      case Display(_) =>
      case BridgeDevice(b) => BridgeCode(b);
    }
  }

  lemma MassStorageCode(m: MassStorageController)
    ensures ParseMassStorage(Code(MassStorage(m)).1, Code(MassStorage(m)).2) == MassStorage(m)
  {
    if m.Ide? {
      assert ParseIde(IdeProgIf(m.ide)) == Some(m.ide);
    }
  }

  lemma BridgeCode(b: Bridge)
    ensures ParseBridge(Code(BridgeDevice(b)).1, Code(BridgeDevice(b)).2) == BridgeDevice(b)
  {
  }

  /** A triple parses to `Unknown` exactly when the table names no class
      for it. */
  lemma ParseUnknownExactly(c: bv8, s: bv8, p: bv8)
    ensures Parse(c, s, p).Unknown? <==> !IsKnown(c, s, p)
  {
    var r := Parse(c, s, p);
    if IsKnown(c, s, p) {
      var k: Class :| !k.Unknown? && Code(k) == (c, s, p);
      ParseCode(k);
    } else if !r.Unknown? {
      assert Code(r) == (c, s, p);
    }
  }

  /** Parsing is injective: two triples that parse alike are the same
      triple. In particular the eight IDE programming interfaces give
      eight different controllers. */
  lemma ParseInjective(c: bv8, s: bv8, p: bv8, c': bv8, s': bv8, p': bv8)
    requires Parse(c, s, p) == Parse(c', s', p')
    ensures c == c' && s == s' && p == p'
  {
    assert Code(Parse(c, s, p)) == Code(Parse(c', s', p'));
  }

  /** Named rows of the table: (1,6,1) is an AHCI controller, and subclass
      9 of the bridges is InfiniBand for interface 0 but a semi-transparent
      PCI-to-PCI bridge for 0x40 and 0x80. */
  lemma ParseNamedRows()
    ensures Parse(0x01, 0x06, 0x01) == MassStorage(SataAhci)
    ensures Parse(0x06, 0x09, 0x00) == BridgeDevice(InfiniBand2Pci)
    ensures Parse(0x06, 0x09, 0x40) == BridgeDevice(Pci2Pci(SemiTransparentPrimaryBus))
    ensures Parse(0x06, 0x09, 0x80) == BridgeDevice(Pci2Pci(SemiTransparentSecondaryBus))
    ensures forall p: bv8 :: Parse(0x01, 0x01, p).Unknown? <==> p !in {0x00, 0x05, 0x0A, 0x0F, 0x80, 0x85, 0x8A, 0x8F}
  {
  }
}

/** A PCI function's configuration header (PCI Local Bus Specification 3.0,
    section 6.1) and the kernel's reads of it: the status register's
    DEVSEL timing, the header-type dispatch and the decoding of base
    address registers (section 6.2.5.1), including the all-ones size
    probe. The header is sixteen 32-bit rows; each row's hardware decides
    which bits software may write and what the read-only bits hold. */
module PciDevice {
  import opened Wrappers
  import PciClass

  datatype Error =
    | InvalidKind(raw: bv8)
    | UnsupportedKind(raw: bv8)
    | InvalidBarSpace(value: bv8)
    | BarIndexOverflow(index: nat)

  // ----- Status register ------------------------------------------------

  datatype DevselTiming = Fast | Medium | Slow

  /** Bits 9..11 of the status register. */
  function DevselField(status: bv16): bv16
  {
    (status >> 9) & 3
  }

  /** The field value each timing is encoded as. */
  function DevselCode(t: DevselTiming): bv16
  {
    match t
    case Fast => 0
    case Medium => 1
    case Slow => 2
  }

  /** `Status::devsel_timing`; the reserved encoding 0b11 is unreachable
      (the source panics on it). */
  function DevselTimingOf(status: bv16): (r: DevselTiming)
    requires DevselField(status) != 3
    ensures DevselCode(r) == DevselField(status)
  {
    var f := DevselField(status);
    if f == 0 then Fast else if f == 1 then Medium else Slow
  }

  /** A status image with the given timing and every other bit kept. */
  function WithDevsel(status: bv16, t: DevselTiming): (r: bv16)
    ensures DevselField(r) == DevselCode(t)
    ensures r & 0xF9FF == status & 0xF9FF
  {
    (status & 0xF9FF) | (DevselCode(t) << 9)
  }

  /** Decoding reads back the timing a status image was built with. */
  lemma DevselRoundTrip(status: bv16, t: DevselTiming)
    ensures DevselTimingOf(WithDevsel(status, t)) == t
  {
  }

  // ----- Header kinds ---------------------------------------------------

  datatype Kind = Standard | Pci2Pci | Pci2CardBus

  /** `Kind::REGISTER_COUNT`: how many base address registers a header of
      each kind is given. */
  function RegisterCount(k: Kind): nat
  {
    match k
    case Standard => 6
    case Pci2Pci => 2
    case Pci2CardBus => 8
  }

  /** `get_header_type`: the low seven bits of the header-type byte. */
  function HeaderType(b: bv8): bv8
  {
    b & 0x7F
  }

  /** `get_multi_function`: bit 7 of the header-type byte. */
  function MultiFunction(b: bv8): bool
  {
    b & 0x80 != 0
  }

  /** The header-type byte is exactly its type and its multi-function
      flag. */
  lemma HeaderByteSplits(b: bv8)
    ensures b == HeaderType(b) | (if MultiFunction(b) then 0x80 else 0)
  {
  }

  /** `device::new`: dispatch on the header type. Types 0 and 1 are
      driven, type 2 (CardBus) is refused as unsupported, and any other
      value is invalid and reported with the seven bits that were read. */
  function NewDevice(b: bv8): (r: Result<Kind, Error>)
    ensures r == Ok(Standard) <==> HeaderType(b) == 0
    ensures r == Ok(Pci2Pci) <==> HeaderType(b) == 1
    ensures r.Ok? ==> r.value != Pci2CardBus
    ensures r == Err(UnsupportedKind(2)) <==> HeaderType(b) == 2
    ensures (r.Err? && r.error.InvalidKind?) <==> HeaderType(b) > 2
    ensures r.Err? ==> r.error.raw == HeaderType(b)
  {
    var t := HeaderType(b);
    if t == 0 then Ok(Standard)
    else if t == 1 then Ok(Pci2Pci)
    else if t == 2 then Err(UnsupportedKind(2))
    else Err(InvalidKind(t))
  }

  /** The multi-function flag plays no part in the dispatch. */
  lemma NewDeviceIgnoresMultiFunction(b: bv8)
    ensures NewDevice(b | 0x80) == NewDevice(b & 0x7F)
  {
  }

  // ----- Configuration space --------------------------------------------

  /** What a row's hardware does with a write: only `writable` bits take
      the written value; the others always read as `fixed`. */
  datatype RowHardware = RowHardware(writable: bv32, fixed: bv32)

  /** The header as sixteen rows: each row's hardware and the value most
      recently written to it. */
  datatype Config = Config(hardware: seq<RowHardware>, written: seq<bv32>)

  type Header = c: Config | |c.hardware| == 16 && |c.written| == 16
    witness Config(seq(16, _ => RowHardware(0, 0)), seq(16, _ => 0))

  /** The value a row reads as after `v` was written to it. */
  function Latch(hw: RowHardware, v: bv32): (r: bv32)
    ensures r & hw.writable == v & hw.writable
    ensures r & !hw.writable == hw.fixed & !hw.writable
  {
    (v & hw.writable) | (hw.fixed & !hw.writable)
  }

  /** Writing back what was read changes nothing. */
  lemma LatchIdempotent(hw: RowHardware, v: bv32)
    ensures Latch(hw, Latch(hw, v)) == Latch(hw, v)
  {
  }

  function ReadRow(h: Header, row: nat): bv32
    requires row < 16
  {
    Latch(h.hardware[row], h.written[row])
  }

  function WriteRow(h: Header, row: nat, v: bv32): (r: Header)
    requires row < 16
    ensures ReadRow(r, row) == Latch(h.hardware[row], v)
    ensures forall i :: 0 <= i < 16 && i != row ==> ReadRow(r, i) == ReadRow(h, i)
    ensures r.hardware == h.hardware
  {
    h.(written := h.written[row := v])
  }

  /** Two headers every row of which reads alike. */
  predicate ReadsAlike(h: Header, h': Header)
  {
    forall i :: 0 <= i < 16 ==> ReadRow(h, i) == ReadRow(h', i)
  }

  /** `get_class`: bytes 3, 2 and 1 of the third row are the class,
      subclass and programming interface. */
  function GetClass(h: Header): (r: PciClass.Class)
    ensures PciClass.Code(r) == (((ReadRow(h, 2) >> 24) & 0xFF) as bv8,
                                 ((ReadRow(h, 2) >> 16) & 0xFF) as bv8,
                                 ((ReadRow(h, 2) >> 8) & 0xFF) as bv8)
  {
    var row := ReadRow(h, 2);
    PciClass.Parse(((row >> 24) & 0xFF) as bv8, ((row >> 16) & 0xFF) as bv8, ((row >> 8) & 0xFF) as bv8)
  }

  /** Byte 14 of the header, which `new` reads for the header type. */
  function HeaderTypeByte(h: Header): bv8
  {
    ((ReadRow(h, 3) >> 16) & 0xFF) as bv8
  }

  // ----- Base address registers -----------------------------------------

  datatype Bar =
    | MemorySpace32(address: bv64, size32: bv32, prefetch: bool)
    | MemorySpace64(address: bv64, size64: bv64, prefetch: bool)
    | IoSpace(port: bv32, ioSize: bv32)

  /** Which decoding of memory BARs is meant: the kernel's as written, or
      the one section 6.2.5.1 of the PCI Local Bus Specification
      describes. The two agree on I/O BARs, on the errors and on the probe
      writes. */
  datatype Decoding = AsWritten | Corrected

  /** Bits 1..3 of a memory BAR: 0 is a 32-bit BAR, 2 a 64-bit one, 1 and
      3 are not valid. */
  function BarSpace(bar: bv32): bv8
  {
    ((bar >> 1) & 3) as bv8
  }

  /** The size a 32-bit BAR answers the all-ones probe with: invert the
      address bits read back and add one (wrapping). */
  function ProbeSize32(readback: bv32): (r: bv32)
    ensures (readback & 0xFFFF_FFF0) + r == 0
    ensures r & 0xF == 0
  {
    !(readback & 0xFFFF_FFF0) + 1
  }

  /** The 64-bit probe as written: the two read-backs are joined and one
      is added, but nothing is inverted. */
  function ProbeSize64AsWritten(low: bv32, high: bv32): (r: bv64)
    ensures r == Address64(low, high) + 1
    ensures r & 0xF == 1
  {
    (((high as bv64) << 32) | ((low & 0xFFFF_FFF0) as bv64)) + 1
  }

  /** The 64-bit probe as section 6.2.5.1 of the PCI Local Bus
      Specification describes it: the joined read-back negated in two's
      complement. */
  function ProbeSize64(low: bv32, high: bv32): bv64
  {
    Negate64(Address64(low, high))
  }

  /** Inverting and adding one is two's-complement negation. */
  function Negate64(x: bv64): (y: bv64)
    ensures x + y == 0
  {
    !x + 1
  }

  /** The corrected 64-bit size is the two's-complement negation of the
      joined read-back's address bits, as for a 32-bit BAR. */
  lemma ProbeSize64Negates(low: bv32, high: bv32)
    ensures ProbeSize64(low, high) == -Address64(low, high)
  {
  }

  /** The base of a 64-bit memory BAR: the high row above the low row's
      address bits. */
  function Address64(bar: bv32, high: bv32): (r: bv64)
    ensures r & 0xF == 0
  {
    ((high as bv64) << 32) | ((bar & 0xFFFF_FFF0) as bv64)
  }

  /** A 32-bit memory BAR. As written, the address is the whole register,
      flag bits included. */
  function Memory32(d: Decoding, bar: bv32, readback: bv32): (r: Bar)
    ensures r.MemorySpace32? && r.size32 == ProbeSize32(readback)
    ensures r.prefetch <==> bar & 8 != 0
  {
    match d
    case AsWritten => MemorySpace32(bar as bv64, ProbeSize32(readback), bar & 8 != 0)
    case Corrected => MemorySpace32((bar & 0xFFFF_FFF0) as bv64, ProbeSize32(readback), bar & 8 != 0)
  }

  /** A 64-bit memory BAR. As written, the prefetchable flag is read from
      the address after its low four bits were cleared. */
  function Memory64(d: Decoding, bar: bv32, high: bv32, low: bv32, highBack: bv32): (r: Bar)
    ensures r.MemorySpace64? && r.address == Address64(bar, high)
  {
    match d
    case AsWritten =>
      MemorySpace64(Address64(bar, high), ProbeSize64AsWritten(low, highBack), Address64(bar, high) & 8 != 0)
    case Corrected =>
      MemorySpace64(Address64(bar, high), ProbeSize64(low, highBack), bar & 8 != 0)
  }

  /** `Address::new(..).unwrap()` on a 64-bit BAR's base: a physical
      address has at most 52 bits, so the high row must be below 2^20. */
  predicate AddressFits(kind: Kind, h: Header, index: nat)
  {
    index < RegisterCount(kind) && ReadRow(h, 4 + index) & 7 == 4 ==> ReadRow(h, 5 + index) < 0x10_0000
  }

  /** Size one row: write all ones, read back, write the old value
      again. Every row reads as before afterwards. */
  function Probe(h: Header, row: nat): (r: (bv32, Header))
    requires row < 16
    ensures r.0 == Latch(h.hardware[row], 0xFFFF_FFFF)
    ensures ReadsAlike(r.1, h) && r.1.hardware == h.hardware
  {
    var bar := ReadRow(h, row);
    var probed := WriteRow(h, row, 0xFFFF_FFFF);
    var readback := ReadRow(probed, row);
    LatchIdempotent(h.hardware[row], h.written[row]);
    (readback, WriteRow(probed, row, bar))
  }

  /** Size a pair of rows, both written with all ones before either is
      read back. */
  function ProbePair(h: Header, row: nat): (r: (bv32, bv32, Header))
    requires row + 1 < 16
    ensures r.0 == Latch(h.hardware[row], 0xFFFF_FFFF)
    ensures r.1 == Latch(h.hardware[row + 1], 0xFFFF_FFFF)
    ensures ReadsAlike(r.2, h) && r.2.hardware == h.hardware
  {
    var bar := ReadRow(h, row);
    var high := ReadRow(h, row + 1);
    var probed := WriteRow(WriteRow(h, row, 0xFFFF_FFFF), row + 1, 0xFFFF_FFFF);
    LatchIdempotent(h.hardware[row], h.written[row]);
    LatchIdempotent(h.hardware[row + 1], h.written[row + 1]);
    (ReadRow(probed, row), ReadRow(probed, row + 1), WriteRow(WriteRow(probed, row, bar), row + 1, high))
  }

  /** The BAR kept in `row`, decoded; the header comes back reading as it
      did. */
  function DecodeBar(d: Decoding, h: Header, row: nat): (r: (Result<Bar, Error>, Header))
    requires row + 1 < 16
    requires ReadRow(h, row) & 7 == 4 ==> ReadRow(h, row + 1) < 0x10_0000
    ensures ReadsAlike(r.1, h) && r.1.hardware == h.hardware
    ensures ReadRow(h, row) & 1 != 0 ==> r.0 == Ok(IoSpace(ReadRow(h, row) & 0xFFFF_FFFC, 0))
    ensures r.0.Err? <==> ReadRow(h, row) & 1 == 0 && ReadRow(h, row) & 2 != 0
    ensures r.0.Err? ==> r.0.error == InvalidBarSpace(BarSpace(ReadRow(h, row)))
    ensures ReadRow(h, row) & 7 == 0 ==> r.0.Ok? && r.0.value.MemorySpace32?
    ensures ReadRow(h, row) & 7 == 4 ==> r.0.Ok? && r.0.value.MemorySpace64?
  {
    var bar := ReadRow(h, row);
    if bar & 1 != 0 then (Ok(IoSpace(bar & 0xFFFF_FFFC, 0)), h)
    else if bar & 6 == 0 then
      var (readback, restored) := Probe(h, row);
      (Ok(Memory32(d, bar, readback)), restored)
    else if bar & 6 == 4 then
      var (low, highBack, restored) := ProbePair(h, row);
      (Ok(Memory64(d, bar, ReadRow(h, row + 1), low, highBack)), restored)
    else (Err(InvalidBarSpace(BarSpace(bar))), h)
  }

  /** `get_bar`: the BAR at `index`, or an error when the header has no
      such register. */
  function GetBar(d: Decoding, kind: Kind, h: Header, index: nat): (r: (Result<Bar, Error>, Header))
    requires AddressFits(kind, h, index)
    ensures ReadsAlike(r.1, h) && r.1.hardware == h.hardware
    ensures r.0 == Err(BarIndexOverflow(index)) <==> index >= RegisterCount(kind)
    ensures index < RegisterCount(kind) ==> r == DecodeBar(d, h, 4 + index)
  {
    if index >= RegisterCount(kind) then (Err(BarIndexOverflow(index)), h)
    else DecodeBar(d, h, 4 + index)
  }

  // ----- BAR queries ------------------------------------------------------

  /** `Bar::is_unused`: a memory BAR with base 0, or an I/O BAR whose
      address bits 2..32 are all zero. */
  function IsUnused(b: Bar): (r: bool)
    ensures !b.IoSpace? ==> (r <==> GetAddress(b) == 0)
    ensures b.IoSpace? ==> (r <==> GetAddress(b) < 4)
  {
    match b
    case MemorySpace32(address, _, _) => address == 0
    case MemorySpace64(address, _, _) => address == 0
    case IoSpace(port, _) => port & 0xFFFF_FFFC == 0
  }

  /** `Bar::get_size`, widened to a usize. */
  function GetSize(b: Bar): (r: bv64)
    ensures b.MemorySpace64? ==> r == b.size64
    ensures b.MemorySpace32? ==> r < 0x1_0000_0000 && r as bv32 == b.size32
    ensures b.IoSpace? ==> r < 0x1_0000_0000 && r as bv32 == b.ioSize
  {
    match b
    case MemorySpace32(_, size, _) => size as bv64
    case MemorySpace64(_, size, _) => size
    case IoSpace(_, size) => size as bv64
  }

  /** `Bar::get_address`, widened to a usize. */
  function GetAddress(b: Bar): (r: bv64)
    ensures !b.IoSpace? ==> r == b.address
    ensures b.IoSpace? ==> r < 0x1_0000_0000 && r as bv32 == b.port
  {
    match b
    case MemorySpace32(address, _, _) => address
    case MemorySpace64(address, _, _) => address
    case IoSpace(port, _) => port as bv64
  }

  // ----- What the decoding means ----------------------------------------

  /** A row whose hardware is a 32-bit memory BAR decoding `size` bytes
      (a power of two, at least 16): the bits below the size are read-only
      zero except the prefetchable flag, bit 3. */
  predicate Decodes32(hw: RowHardware, size: bv32)
  {
    && size >= 16
    && size & (size - 1) == 0
    && hw.writable == !(size - 1)
    && hw.fixed & 0xFFFF_FFF7 == 0
  }

  /** A pair of rows whose hardware is a 64-bit memory BAR decoding `size`
      bytes: the low row's type bits read 0b10, the read-only high bits
      read zero. */
  predicate Decodes64(low: RowHardware, high: RowHardware, size: bv64)
  {
    && size >= 16
    && size & (size - 1) == 0
    && low.writable == (!(size - 1) & 0xFFFF_FFFF) as bv32
    && high.writable == (!(size - 1) >> 32) as bv32
    && low.fixed & 0xFFFF_FFF7 == 4
    && high.fixed == 0
  }

  lemma Probe32Sizes(hw: RowHardware, size: bv32, v: bv32)
    requires Decodes32(hw, size)
    ensures ProbeSize32(Latch(hw, 0xFFFF_FFFF)) == size
    ensures Latch(hw, v) & 7 == 0
    ensures Latch(hw, v) & 0xFFFF_FFF0 & (size - 1) == 0
    ensures (Latch(hw, v) & 8 != 0) == (hw.fixed & 8 != 0)
  {
  }

  /** The probe of a 32-bit memory BAR yields the size its hardware
      decodes, and the corrected base is aligned to that size. The prefetch
      flag is the hardware's. */
  lemma {:induction false} Bar32Sized(d: Decoding, kind: Kind, h: Header, index: nat, size: bv32)
    requires index < RegisterCount(kind)
    requires Decodes32(h.hardware[4 + index], size)
    ensures AddressFits(kind, h, index)
    ensures var b := GetBar(d, kind, h, index).0;
            && b.Ok? && b.value.MemorySpace32?
            && GetSize(b.value) == size as bv64
            && (b.value.prefetch <==> h.hardware[4 + index].fixed & 8 != 0)
            && (d == Corrected ==> b.value.address & (size - 1) as bv64 == 0)
  {
    var row := 4 + index;
    Probe32Sizes(h.hardware[row], size, h.written[row]);
    var bar := ReadRow(h, row);
    assert (bar & 0xFFFF_FFF0) as bv64 & (size - 1) as bv64 == (bar & 0xFFFF_FFF0 & (size - 1)) as bv64;
  }

  lemma Probe64Sizes(low: RowHardware, high: RowHardware, size: bv64, v: bv32, w: bv32)
    requires Decodes64(low, high, size)
    ensures ProbeSize64(Latch(low, 0xFFFF_FFFF), Latch(high, 0xFFFF_FFFF)) == size
    ensures ProbeSize64AsWritten(Latch(low, 0xFFFF_FFFF), Latch(high, 0xFFFF_FFFF)) == !(size - 1) + 1
    ensures Latch(low, v) & 7 == 4
    ensures Address64(Latch(low, v), Latch(high, w)) & (size - 1) == 0
    ensures (Latch(low, v) & 8 != 0) == (low.fixed & 8 != 0)
  {
  }

  /** The probe of a 64-bit memory BAR yields the size its hardware
      decodes, and its base is aligned to that size. */
  lemma {:induction false} Bar64Sized(kind: Kind, h: Header, index: nat, size: bv64)
    requires index < RegisterCount(kind)
    requires Decodes64(h.hardware[4 + index], h.hardware[5 + index], size)
    requires AddressFits(kind, h, index)
    ensures var b := GetBar(Corrected, kind, h, index).0;
            && b.Ok? && b.value.MemorySpace64?
            && GetSize(b.value) == size
            && GetAddress(b.value) & (size - 1) == 0
            && (b.value.prefetch <==> h.hardware[4 + index].fixed & 8 != 0)
  {
    var row := 4 + index;
    Probe64Sizes(h.hardware[row], h.hardware[row + 1], size, h.written[row], h.written[row + 1]);
  }

  /** A decoded BAR is unused exactly when no address bits are set: for
      an I/O BAR bits 2..32, for a 32-bit memory BAR bits 4..32, for a
      64-bit one those and the whole high row. */
  lemma UnusedMeansNoAddress(kind: Kind, h: Header, index: nat)
    requires index < RegisterCount(kind)
    requires AddressFits(kind, h, index)
    requires GetBar(Corrected, kind, h, index).0.Ok?
    ensures var bar := ReadRow(h, 4 + index);
            IsUnused(GetBar(Corrected, kind, h, index).0.value) <==>
              if bar & 1 != 0 then bar & 0xFFFF_FFFC == 0
              else if bar & 7 == 0 then bar & 0xFFFF_FFF0 == 0
              else bar & 0xFFFF_FFF0 == 0 && ReadRow(h, 5 + index) == 0
  {
  }

  // ----- As written -------------------------------------------------------

  /** As written, a prefetchable 32-bit BAR at 0xFEB0_0000 is reported at
      0xFEB0_0008, misaligned for its 1 MiB window, and an unassigned
      prefetchable BAR (register value 8) counts as in use. */
  lemma Memory32AsWrittenKeepsFlags()
    ensures Memory32(AsWritten, 0xFEB0_0008, 0xFFF0_0008).address == 0xFEB0_0008
    ensures Memory32(Corrected, 0xFEB0_0008, 0xFFF0_0008).address == 0xFEB0_0000
    ensures Memory32(AsWritten, 0xFEB0_0008, 0xFFF0_0008).size32 == 0x10_0000
    ensures !IsUnused(Memory32(AsWritten, 0x8, 0xFFF0_0008))
    ensures IsUnused(Memory32(Corrected, 0x8, 0xFFF0_0008))
  {
  }

  /** As written, a 64-bit BAR's size is the read-back plus one, never
      inverted: a 1 MiB BAR reports 0xFFFF_FFFF_FFF0_0001 bytes. And its
      prefetchable flag is read from an address whose low four bits were
      cleared, so it is always false. */
  lemma Memory64AsWrittenMissizes(bar: bv32, high: bv32, low: bv32, highBack: bv32)
    ensures !Memory64(AsWritten, bar, high, low, highBack).prefetch
    ensures Memory64(Corrected, bar, high, low, highBack).prefetch <==> bar & 8 != 0
    ensures Memory64(AsWritten, 0x8, 0, 0xFFF0_000C, 0xFFFF_FFFF).size64 == 0xFFFF_FFFF_FFF0_0001
    ensures Memory64(Corrected, 0x8, 0, 0xFFF0_000C, 0xFFFF_FFFF).size64 == 0x10_0000
  {
  }
}

=== FILE: pic.dfy ===
/** The chained pair of 8259 programmable interrupt controllers: the
    interrupt names and line masks, which controller handles an interrupt,
    the end-of-interrupt routing and the initialisation sequence. Bytes
    written to the controllers are 8-bit bit-vectors; port I/O is modelled
    as the list of (port, byte) writes an operation issues. */
module Pic8259 {
  import opened Wrappers

  const CMD_INIT: bv8 := 0x11
  const CMD_END_OF_INTERRUPT: bv8 := 0x20
  const MODE_8086: bv8 := 0x01

  const MASTER_COMMAND: int := 0x20
  const MASTER_DATA: int := 0x21
  const SLAVE_COMMAND: int := 0xA0
  const SLAVE_DATA: int := 0xA1
  const IO_WAIT: int := 0x80

  // ----- interrupt names and lines --------------------------------------------

  datatype InterruptOffset =
    | Timer | Keyboard | Com2 | Com1 | Lpt2 | FloppyDisk | SpuriousMaster | Rtc
    | Peripheral0 | Peripheral1 | Peripheral2 | Ps2Mouse | Fpu | PrimaryAta | SpuriousSlave

  /** The discriminant of each name. */
  function Discriminant(o: InterruptOffset): (d: bv8)
    ensures d <= 14
  {
    match o
    case Timer => 0 case Keyboard => 1 case Com2 => 2 case Com1 => 3 case Lpt2 => 4
    case FloppyDisk => 5 case SpuriousMaster => 6 case Rtc => 7 case Peripheral0 => 8
    case Peripheral1 => 9 case Peripheral2 => 10 case Ps2Mouse => 11 case Fpu => 12
    case PrimaryAta => 13 case SpuriousSlave => 14
  }

  /** `InterruptOffset::from_u8`: discriminants 0 through 14 name an
      interrupt; any other byte is handed back. */
  function FromU8(v: bv8): (r: Result<InterruptOffset, bv8>)
    ensures r.Ok? <==> v <= 14
    ensures r.Ok? ==> Discriminant(r.value) == v
    ensures r.Err? ==> r.error == v
  {
    if v == 0 then Ok(Timer) else if v == 1 then Ok(Keyboard) else if v == 2 then Ok(Com2)
    else if v == 3 then Ok(Com1) else if v == 4 then Ok(Lpt2) else if v == 5 then Ok(FloppyDisk)
    else if v == 6 then Ok(SpuriousMaster) else if v == 7 then Ok(Rtc)
    else if v == 8 then Ok(Peripheral0) else if v == 9 then Ok(Peripheral1)
    else if v == 10 then Ok(Peripheral2) else if v == 11 then Ok(Ps2Mouse)
    else if v == 12 then Ok(Fpu) else if v == 13 then Ok(PrimaryAta)
    else if v == 14 then Ok(SpuriousSlave) else Err(v)
  }

  /** Every name survives the trip through its discriminant. */
  lemma FromU8RoundTrip(o: InterruptOffset)
    ensures FromU8(Discriminant(o)) == Ok(o)
  {
  }

  /** The `InterruptLines` bit of each interrupt: its IRQ line, with line 2
      left to the cascade. */
  function IrqLine(o: InterruptOffset): (line: bv8)
    ensures line <= 15 && line != 2
  {
    match o
    case Timer => 0 case Keyboard => 1 case Com2 => 3 case Com1 => 4 case Lpt2 => 5
    case FloppyDisk => 6 case SpuriousMaster => 7 case Rtc => 8 case Peripheral0 => 9
    case Peripheral1 => 10 case Peripheral2 => 11 case Ps2Mouse => 12 case Fpu => 13
    case PrimaryAta => 14 case SpuriousSlave => 15
  }

  /** `InterruptLines::low` and `high`: the two bytes of the line mask. */
  function Low(lines: bv16): (r: bv8)
    ensures r as bv16 == lines & 0xFF
  {
    (lines & 0xFF) as bv8
  }

  function High(lines: bv16): (r: bv8)
    ensures (r as bv16) << 8 == lines & 0xFF00
  {
    (lines >> 8) as bv8
  }

  /** The two bytes put back together give the lines. */
  lemma LowHighJoin(lines: bv16)
    ensures ((High(lines) as bv16) << 8) | (Low(lines) as bv16) == lines
  {
  }

  // ----- the controllers --------------------------------------------------------

  /** One controller: the vector its line 0 is delivered at. */
  datatype Pic = Pic(offset: bv8)

  /** `Pics([master, slave])`. */
  datatype Pics = Pics(master: Pic, slave: Pic)

  /** `Pics::new`: the slave's lines follow the master's. The `base + 8`
      must not overflow a byte. */
  function NewPics(base: bv8): (p: Pics)
    requires base <= 247
    ensures p.master.offset == base && p.slave.offset as int == base as int + 8
  {
    Pics(Pic(base), Pic(base + 8))
  }

  /** `PIC::handles_interrupt` as written: the interrupt's discriminant lies
      in `offset..offset + 8`. The `offset + 8` must not overflow. Since
      the discriminants run from 0 to 14, a controller placed at vector 15
      or above claims nothing, and one at vector 0 claims the real-time
      clock, on line 8, with the master's lines. */
  function PicHandlesAsWritten(p: Pic, o: InterruptOffset): (r: bool)
    requires p.offset <= 247
    ensures r ==> p.offset <= 14
    ensures p.offset == 0 ==> (r <==> IrqLine(o) < 8 || o == Rtc)
  {
    p.offset <= Discriminant(o) < p.offset + 8
  }

  /** Whether a controller owns an interrupt, `Pics::handles_interrupt` as
      written. */
  function HandlesAsWritten(ps: Pics, o: InterruptOffset): (r: bool)
    requires ps.master.offset <= 247 && ps.slave.offset <= 247
    ensures ps.master.offset > 14 && ps.slave.offset > 14 ==> !r
  {
    PicHandlesAsWritten(ps.master, o) || PicHandlesAsWritten(ps.slave, o)
  }

  /** A routing result: the command-port writes issued, and whether the
      interrupt was one of the pair's. */
  datatype Eoi = Eoi(result: Result<(), InterruptOffset>, writes: seq<(int, bv8)>)

  /** `Pics::end_of_interrupt` as written: interrupts neither controller
      handles are refused; otherwise the slave is told first when it
      handles the interrupt, and the master always. */
  function EndOfInterruptAsWritten(ps: Pics, o: InterruptOffset): (r: Eoi)
    requires ps.master.offset <= 247 && ps.slave.offset <= 247
    ensures r.result.Err? <==> !HandlesAsWritten(ps, o)
    ensures r.result.Err? ==> r.result.error == o && r.writes == []
    ensures r.result.Ok? ==> |r.writes| >= 1 && r.writes[|r.writes| - 1] == (MASTER_COMMAND, CMD_END_OF_INTERRUPT)
    ensures r.result.Ok? ==> (|r.writes| == 2 <==> PicHandlesAsWritten(ps.slave, o))
  {
    if !HandlesAsWritten(ps, o) then Eoi(Err(o), [])
    else
      var slave := if PicHandlesAsWritten(ps.slave, o) then [(SLAVE_COMMAND, CMD_END_OF_INTERRUPT)] else [];
      Eoi(Ok(()), slave + [(MASTER_COMMAND, CMD_END_OF_INTERRUPT)])
  }

  /** The routing the hardware needs: the vector of an interrupt is the
      master's offset plus its IRQ line, every interrupt is the pair's, and
      the slave owns lines 8 through 15. */
  function EndOfInterrupt(ps: Pics, o: InterruptOffset): (r: Eoi)
    ensures r.result.Ok?
    ensures |r.writes| >= 1 && r.writes[|r.writes| - 1] == (MASTER_COMMAND, CMD_END_OF_INTERRUPT)
    ensures |r.writes| == 2 <==> IrqLine(o) >= 8
    ensures |r.writes| == 2 ==> r.writes[0] == (SLAVE_COMMAND, CMD_END_OF_INTERRUPT)
  {
    var slave := if IrqLine(o) >= 8 then [(SLAVE_COMMAND, CMD_END_OF_INTERRUPT)] else [];
    Eoi(Ok(()), slave + [(MASTER_COMMAND, CMD_END_OF_INTERRUPT)])
  }

  /** As written, the discriminants from `Com2` on are one below the IRQ
      line, so with the pair at vector 0 the real-time clock (line 8, a
      slave line) is acknowledged on the master alone; and with the pair at
      the first free vector, 32, no interrupt is recognised at all. */
  lemma EndOfInterruptAsWrittenMisroutes(o: InterruptOffset)
    ensures Discriminant(Rtc) == 7 && IrqLine(Rtc) == 8
    ensures |EndOfInterruptAsWritten(NewPics(0), Rtc).writes| == 1
    ensures |EndOfInterrupt(NewPics(0), Rtc).writes| == 2
    ensures EndOfInterruptAsWritten(NewPics(32), o).result.Err?
  {
  }

  // ----- initialisation -----------------------------------------------------------

  /** The master's mask byte written by `init`: the lines not enabled, with
      the cascade line always unmasked. */
  function MasterMask(enabled: bv16): (m: bv8)
    ensures m & 0x04 == 0
    ensures m & 0xFB == !Low(enabled) & 0xFB
  {
    !Low(enabled) & !0x04
  }

  /** The slave's mask byte: the lines not enabled. */
  function SlaveMask(enabled: bv16): (m: bv8)
    ensures m ^ High(enabled) == 0xFF
  {
    !High(enabled)
  }

  /** The writes `init` issues, each followed by a write to the wait port
      except the last: the initialisation command to both controllers,
      then each controller's offset, cascade wiring, 8086 mode and mask,
      alternating master and slave. */
  function InitWrites(ps: Pics, enabled: bv16): (w: seq<(int, bv8)>)
    ensures |w| == 19
  {
    [ (MASTER_COMMAND, CMD_INIT), (IO_WAIT, 0), (SLAVE_COMMAND, CMD_INIT), (IO_WAIT, 0),
      (MASTER_DATA, ps.master.offset), (IO_WAIT, 0), (SLAVE_DATA, ps.slave.offset), (IO_WAIT, 0),
      (MASTER_DATA, 0x04), (IO_WAIT, 0), (SLAVE_DATA, 0x02), (IO_WAIT, 0),
      (MASTER_DATA, MODE_8086), (IO_WAIT, 0), (SLAVE_DATA, MODE_8086), (IO_WAIT, 0),
      (MASTER_DATA, MasterMask(enabled)), (IO_WAIT, 0), (SLAVE_DATA, SlaveMask(enabled)) ]
  }

  /** `init` sends each controller the 8086 initialisation words in order:
      the init command on its command port, then its offset, its cascade
      wiring (the slave on master line 2, the slave's identity 2), the mode
      and its mask on its data port, master before slave at every stage,
      with a write to the wait port after every write but the last. */
  lemma InitSequence(ps: Pics, enabled: bv16)
    ensures var w := InitWrites(ps, enabled);
      forall i | 0 <= i < |w| :: w[i].0 == IO_WAIT <==> i % 2 == 1
    ensures var w := InitWrites(ps, enabled);
      forall i | 0 <= i < |w| :: w[i].0 == MASTER_COMMAND || w[i].0 == SLAVE_COMMAND <==> i < 4 && i % 2 == 0
    ensures var w := InitWrites(ps, enabled);
      w[0] == (MASTER_COMMAND, CMD_INIT) && w[2] == (SLAVE_COMMAND, CMD_INIT)
    ensures var w := InitWrites(ps, enabled);
      w[4] == (MASTER_DATA, ps.master.offset) && w[8] == (MASTER_DATA, 0x04)
      && w[12] == (MASTER_DATA, MODE_8086) && w[16] == (MASTER_DATA, MasterMask(enabled))
    ensures var w := InitWrites(ps, enabled);
      w[6] == (SLAVE_DATA, ps.slave.offset) && w[10] == (SLAVE_DATA, 0x02)
      && w[14] == (SLAVE_DATA, MODE_8086) && w[18] == (SLAVE_DATA, SlaveMask(enabled))
  {
  }

  /** The master line `n` (0..8, as a mask bit) stays unmasked after `init`
      exactly when it is enabled or is the cascade line; a slave line stays
      unmasked exactly when it is enabled. */
  lemma InitMasks(enabled: bv16, bit: bv8)
    requires bit == 0x01 || bit == 0x02 || bit == 0x04 || bit == 0x08
      || bit == 0x10 || bit == 0x20 || bit == 0x40 || bit == 0x80
    ensures (MasterMask(enabled) & bit == 0) <==> (Low(enabled) & bit != 0 || bit == 0x04)
    ensures (SlaveMask(enabled) & bit == 0) <==> (High(enabled) & bit != 0)
  {
  }
}

=== FILE: pmm.dfy ===
/** The kernel's `FrameData` byte: one byte per physical frame holding the
    frame type (bits 0..4), a peek bit (6) and a lock bit (7). Each atomic
    update of the byte is shown to act on exactly one field of what
    `FrameData::data` reads out of it. */
module PmmFrameData {
  type Byte = bv8

  datatype FrameType = Unusable | Generic | Reserved | BootReclaim | AcpiReclaim

  /** `FrameType::as_u8`. */
  function AsU8(t: FrameType): (c: Byte)
    ensures c < 5
  {
    match t
    case Unusable => 0
    case Generic => 1
    case Reserved => 2
    case BootReclaim => 3
    case AcpiReclaim => 4
  }

  /** `FrameType::from_u8`; codes above 4 reach `unimplemented!`. */
  function FromU8(c: Byte): (t: FrameType)
    requires c < 5
    ensures AsU8(t) == c
  {
    if c == 0 then Unusable else if c == 1 then Generic else if c == 2 then Reserved
    else if c == 3 then BootReclaim else AcpiReclaim
  }

  /** `as_u8` is injective: `from_u8` gives every type back. */
  lemma FrameTypeRoundTrip(t: FrameType)
    ensures FromU8(AsU8(t)) == t
  {
  }

  // ----- fields of the byte -------------------------------------------------

  /** `LOCKED_BIT` (1 << 7). */
  predicate IsLocked(b: Byte)
  {
    b & 0x80 != 0
  }

  /** `PEEKED_BIT` (1 << 6). */
  predicate IsPeeked(b: Byte)
  {
    b & 0x40 != 0
  }

  /** `get_bits(TYPE_RANGE)`, the low four bits. */
  function TypeBits(b: Byte): Byte
  {
    b & 0x0F
  }

  /** What `FrameData::data` returns: the lock bit and the frame type. */
  datatype FrameData = FrameData(locked: bool, kind: FrameType)

  /** `FrameData::data` on a byte whose type bits decode. */
  function Data(b: Byte): (d: FrameData)
    requires TypeBits(b) < 5
    ensures d.locked == IsLocked(b) && AsU8(d.kind) == TypeBits(b)
  {
    FrameData(IsLocked(b), FromU8(TypeBits(b)))
  }

  /** Two bytes that agree on the type bits and the lock bit read alike. */
  lemma DataAgrees(a: Byte, b: Byte)
    requires TypeBits(a) < 5 && TypeBits(a) == TypeBits(b)
    ensures Data(a).kind == Data(b).kind
  {
  }

  // ----- updates ------------------------------------------------------------

  /** `lock`: `fetch_or(LOCKED_BIT)`. */
  function LockByte(b: Byte): (r: Byte)
    ensures r & 0x7F == b & 0x7F
    ensures r & 0x80 == 0x80
  {
    b | 0x80
  }

  /** `free`: `fetch_xor(LOCKED_BIT)`, which flips the lock bit. */
  function FreeByte(b: Byte): (r: Byte)
    ensures r & 0x7F == b & 0x7F
    ensures r & 0x80 == (b & 0x80) ^ 0x80
  {
    b ^ 0x80
  }

  /** `try_peek`: `fetch_or(PEEKED_BIT)`; it succeeds when the bit was
      clear. */
  function TryPeekByte(b: Byte): (r: (bool, Byte))
    ensures r.1 & 0xBF == b & 0xBF
    ensures r.1 & 0x40 == 0x40
    ensures r.0 == !IsPeeked(b)
  {
    (b & 0x40 == 0, b | 0x40)
  }

  /** `unpeek`: `fetch_and(!PEEKED_BIT)`. */
  function UnpeekByte(b: Byte): (r: Byte)
    ensures r & 0xBF == b & 0xBF
    ensures r & 0x40 == 0
  {
    b & 0xBF
  }

  /** `set_type`: `set_bits(TYPE_RANGE, new_type.as_u8())`. */
  function SetTypeByte(b: Byte, t: FrameType): (r: Byte)
    ensures r & 0xF0 == b & 0xF0
    ensures r & 0x0F == AsU8(t)
  {
    (b & 0xF0) | AsU8(t)
  }

  // ----- what each update does to the fields --------------------------------

  /** Locking sets the lock bit and keeps the type and the peek bit. */
  lemma LockByteLocks(b: Byte)
    requires TypeBits(b) < 5
    ensures TypeBits(LockByte(b)) == TypeBits(b)
    ensures Data(LockByte(b)) == Data(b).(locked := true)
    ensures IsPeeked(LockByte(b)) == IsPeeked(b)
  {
    var r := LockByte(b);
    assert r & 0x0F == b & 0x0F && r & 0x40 == b & 0x40 by {
      LowBits(r, b);
    }
    DataAgrees(b, r);
  }

  /** Freeing a locked byte clears the lock bit and keeps the type and the
      peek bit. */
  lemma FreeByteFrees(b: Byte)
    requires TypeBits(b) < 5 && IsLocked(b)
    ensures TypeBits(FreeByte(b)) == TypeBits(b)
    ensures Data(FreeByte(b)) == Data(b).(locked := false)
    ensures IsPeeked(FreeByte(b)) == IsPeeked(b)
  {
    var r := FreeByte(b);
    assert r & 0x0F == b & 0x0F && r & 0x40 == b & 0x40 by {
      LowBits(r, b);
    }
    DataAgrees(b, r);
  }

  /** The exclusive or locks an unlocked byte: `free` on a frame that is
      not locked would lock it, which is why `free_frame` reads the lock
      bit first. */
  lemma FreeByteToggles(b: Byte)
    ensures IsLocked(FreeByte(b)) == !IsLocked(b)
  {
  }

  /** Retyping writes the type and keeps the lock and peek bits. */
  lemma SetTypeByteRetypes(b: Byte, t: FrameType)
    ensures TypeBits(SetTypeByte(b, t)) == AsU8(t)
    ensures Data(SetTypeByte(b, t)) == FrameData(IsLocked(b), t)
    ensures IsPeeked(SetTypeByte(b, t)) == IsPeeked(b)
  {
    var r := SetTypeByte(b, t);
    assert r & 0x80 == b & 0x80 && r & 0x40 == b & 0x40 by {
      HighBits(r, b);
    }
    FrameTypeRoundTrip(t);
  }

  /** Peeking and unpeeking leave what `data` reads unchanged. */
  lemma PeekKeepsData(b: Byte)
    requires TypeBits(b) < 5
    ensures TypeBits(TryPeekByte(b).1) == TypeBits(b) && Data(TryPeekByte(b).1) == Data(b)
    ensures TypeBits(UnpeekByte(b)) == TypeBits(b) && Data(UnpeekByte(b)) == Data(b)
    ensures IsPeeked(TryPeekByte(b).1) && !IsPeeked(UnpeekByte(b))
  {
    var p := TryPeekByte(b).1;
    var u := UnpeekByte(b);
    assert p & 0x0F == b & 0x0F && p & 0x80 == b & 0x80 by {
      OutsidePeekBit(p, b);
    }
    assert u & 0x0F == b & 0x0F && u & 0x80 == b & 0x80 by {
      OutsidePeekBit(u, b);
    }
    DataAgrees(b, p);
    DataAgrees(b, u);
  }

  /** Locking then freeing gives the byte back, and so does peeking then
      unpeeking an unpeeked byte. */
  lemma LockFreeRoundTrip(b: Byte)
    ensures !IsLocked(b) ==> FreeByte(LockByte(b)) == b
    ensures !IsPeeked(b) ==> UnpeekByte(TryPeekByte(b).1) == b
  {
  }

  /** Agreement on the low seven bits gives agreement on the type and peek
      bits. */
  lemma LowBits(r: Byte, b: Byte)
    requires r & 0x7F == b & 0x7F
    ensures r & 0x0F == b & 0x0F && r & 0x40 == b & 0x40
  {
  }

  /** Agreement on the high nibble gives agreement on the lock and peek
      bits. */
  lemma HighBits(r: Byte, b: Byte)
    requires r & 0xF0 == b & 0xF0
    ensures r & 0x80 == b & 0x80 && r & 0x40 == b & 0x40
  {
  }

  /** Agreement outside the peek bit gives agreement on the type and lock
      bits. */
  lemma OutsidePeekBit(r: Byte, b: Byte)
    requires r & 0xBF == b & 0xBF
    ensures r & 0x0F == b & 0x0F && r & 0x80 == b & 0x80
  {
  }
}

/** `PhysicalMemoryManager`: a table of `FrameData`, one per 4 KiB frame,
    read here through what `data` returns. The peek bit is the spin lock
    that makes each read-and-update atomic; with the updates taken as
    atomic no frame is left peeked, so the table is modelled as the
    sequence of decoded `FrameData` values. */
module Pmm {
  import opened Wrappers
  import opened Words
  import opened PmmFrameData
  import Addr
  import LibStd

  datatype PmmError = NoneFree | InvalidAlignment | OutOfBounds | NotFree | NotLocked | Unknown

  type Table = seq<FrameData>

  /** `total_memory`: every entry stands for 4 KiB. */
  function TotalMemory(table: Table): (r: nat)
    ensures r % 0x1000 == 0 && r / 0x1000 == |table|
  {
    |table| * 0x1000
  }

  /** A frame `next_frame` and `next_frames` may hand out: unlocked and of
      type `Generic`. */
  predicate IsFree(f: FrameData)
  {
    !f.locked && f.kind == Generic
  }

  /** Frames `base .. base + count` lie in the table and are all free. */
  predicate FreeRun(table: Table, base: nat, count: nat)
  {
    base + count <= |table| && forall k :: base <= k < base + count ==> IsFree(table[k])
  }

  /** The table with frames `base .. base + count` locked. */
  function LockRange(table: Table, base: nat, count: nat): (r: Table)
    requires base + count <= |table|
    ensures |r| == |table|
    ensures forall k :: 0 <= k < |r| ==> r[k].kind == table[k].kind
    ensures forall k :: base <= k < base + count ==> r[k].locked
    ensures forall k :: 0 <= k < |r| && !(base <= k < base + count) ==> r[k] == table[k]
  {
    seq(|table|, k requires 0 <= k < |table| =>
      if base <= k < base + count then table[k].(locked := true) else table[k])
  }

  // ----- next_frame -----------------------------------------------------------

  /** The `find_map` of `next_frame`: the lowest free frame at or above
      `from`. */
  function FirstFree(table: Table, from: nat): (r: Option<nat>)
    requires from <= |table|
    ensures r.Some? ==> from <= r.value < |table| && IsFree(table[r.value])
    ensures r.Some? ==> forall k :: from <= k < r.value ==> !IsFree(table[k])
    ensures r.None? ==> forall k :: from <= k < |table| ==> !IsFree(table[k])
    decreases |table| - from
  {
    if from == |table| then None
    else if IsFree(table[from]) then Some(from)
    else FirstFree(table, from + 1)
  }

  /** `next_frame`: lock the lowest free frame and return its address. The
      frame is locked before `Address::<Frame>::from_u64` checks the
      address, so a frame whose address is past the 52-bit physical range
      is locked and still reported as `NoneFree`. The product
      `index * 0x1000` is a `usize` multiplication that must not
      overflow. */
  function NextFrame(table: Table): (r: (Table, Result<u64, PmmError>))
    requires |table| * 0x1000 <= U64_MAX + 1
    ensures r.1.Err? ==> r.1.error == NoneFree
    ensures r.1.Ok? ==> Addr.FrameFromU64(r.1.value).Some?
    ensures r.1.Ok? ==> var i := r.1.value / 0x1000;
      i < |table| && IsFree(table[i]) && r.0 == table[i := table[i].(locked := true)]
    ensures r.1.Ok? ==> forall k :: 0 <= k < r.1.value / 0x1000 ==> !IsFree(table[k])
    ensures (forall k :: 0 <= k < |table| ==> !IsFree(table[k])) ==> r == (table, Err(NoneFree))
  {
    match FirstFree(table, 0)
    case None => (table, Err(NoneFree))
    case Some(i) =>
      var locked := table[i := table[i].(locked := true)];
      match Addr.FrameFromU64(i * 0x1000)
      case Some(a) => (locked, Ok(a))
      case None => (locked, Err(NoneFree))
  }

  // ----- next_frames ----------------------------------------------------------

  /** Every frame of the table has an `Address<Frame>`: frame indices stay
      below 2^40, so their addresses stay inside the 52-bit physical range. */
  predicate FitsPhysical(table: Table)
  {
    |table| <= 0x100_0000_0000
  }

  /** The alignment `next_frames` searches with, in frames:
      `max(alignment / 0x1000, 1)`. */
  function AlignFrames(alignment: nat): (a: nat)
    ensures a >= 1
    ensures alignment >= 0x1000 ==> a == alignment / 0x1000
  {
    if alignment / 0x1000 > 1 then alignment / 0x1000 else 1
  }

  /** How far a search moves past a window whose last blocked frame is at
      `j`: as written the code advances by `((j + 1) + (a - 1)) / a`, the
      number of alignment units needed to pass frame `j`; the aligned
      search advances by that many units times the alignment. */
  datatype Skip = AsWritten | Aligned

  function Advance(skip: Skip, j: nat, a: nat): (n: nat)
    requires a >= 1
    ensures n >= 1
    ensures skip == Aligned ==> n % a == 0 && j < n <= j + a
  {
    CeilStep(j + 1, a);
    var q := ((j + 1) + (a - 1)) / a;
    if skip == AsWritten then q else q * a
  }

  /** The rounded-up quotient q = (v + a − 1) / a is positive, and q · a
      is the least multiple of a at or above v. */
  lemma CeilStep(v: nat, a: nat)
    requires v >= 1 && a >= 1
    ensures (v + a - 1) / a >= 1
    ensures v <= (v + a - 1) / a * a < v + a
    ensures ((v + a - 1) / a * a) % a == 0
  {
    var q0, r0 := v / a, v % a;
    DivModUnique(v, a, q0, r0);
    LibStd.CeilingQuotient(v, a);
    var q := (v + a - 1) / a;
    if r0 == 0 {
      assert q * a == q0 * a;
    } else {
      assert q * a == q0 * a + a;
    }
    ModAddMultiple(0, q, a);
  }

  /** The `rfind` over a window: the last frame of `base .. base + n` that
      is locked or not `Generic`, as an offset into the window. */
  function LastBlocked(table: Table, base: nat, n: nat): (r: Option<nat>)
    requires base + n <= |table|
    ensures r.Some? ==> r.value < n && !IsFree(table[base + r.value])
    ensures r.Some? ==> forall k :: base + r.value < k < base + n ==> IsFree(table[k])
    ensures r.None? ==> forall k :: base <= k < base + n ==> IsFree(table[k])
    decreases n
  {
    if n == 0 then None
    else if !IsFree(table[base + n - 1]) then Some(n - 1)
    else LastBlocked(table, base, n - 1)
  }

  /** The search loop of `next_frames` over `sub_table = table[start..]`:
      stop with `NoneFree` when fewer than `count` frames remain, take the
      window when it is all free, and otherwise move past its last blocked
      frame. */
  function FindWindow(table: Table, count: nat, a: nat, skip: Skip, start: nat): (r: Option<nat>)
    requires count >= 1 && a >= 1
    ensures r.Some? ==> start <= r.value && FreeRun(table, r.value, count)
    decreases |table| - start
  {
    if start + count > |table| then None
    else match LastBlocked(table, start, count)
      case None => Some(start)
      case Some(j) => FindWindow(table, count, a, skip, start + Advance(skip, j, a))
  }

  /** `start_index.wrapping_mul(0x1000)`. */
  function WrappingFrameAddress(index: nat): (r: u64)
    ensures index < 0x100_0000_0000 ==> r == index * 0x1000 && r / 0x1000 == index
    ensures index < 0x100_0000_0000 ==> Addr.FrameFromU64(r).Some?
  {
    if index < 0x100_0000_0000 then
      DivModUnique(index * 0x1000, 0x1_0000_0000_0000_0000, 0, index * 0x1000);
      DivModUnique(index * 0x1000, 0x1000, index, 0);
      (index * 0x1000) % 0x1_0000_0000_0000_0000
    else
      (index * 0x1000) % 0x1_0000_0000_0000_0000
  }

  /** A sum of multiples of a is a multiple of a. */
  lemma SumOfMultiples(x: nat, y: nat, a: nat)
    requires a >= 1 && x % a == 0 && y % a == 0
    ensures (x + y) % a == 0
  {
    DivModUnique(x + y, a, x / a + y / a, 0);
  }

  /** `next_frames`: find a run of `count` free frames, lock it, and return
      the address of its first frame. The start address is computed with
      wrapping arithmetic and checked by `Address::<Frame>::from_u64`. */
  function NextFrames(table: Table, count: usize, alignment: usize, skip: Skip): (r: (Table, Result<u64, PmmError>))
    requires count >= 1 && alignment >= 1
    ensures r.1 == Err(InvalidAlignment) <==> !IsPowerOfTwo(alignment)
    ensures r.1.Err? ==> r.1.error in {InvalidAlignment, NoneFree, Unknown}
    ensures r.1.Err? && r.1.error != Unknown ==> r.0 == table
    ensures r.1.Ok? ==> Addr.FrameFromU64(r.1.value).Some?
    ensures FitsPhysical(table) ==> r.1 != Err(Unknown)
    ensures FitsPhysical(table) && r.1.Ok? ==>
      var i := r.1.value / 0x1000;
      FreeRun(table, i, count) && r.0 == LockRange(table, i, count)
  {
    if !IsPowerOfTwo(alignment) then (table, Err(InvalidAlignment))
    else match FindWindow(table, count, AlignFrames(alignment), skip, 0)
      case None => (table, Err(NoneFree))
      case Some(start) =>
        (LockRange(table, start, count),
         match Addr.FrameFromU64(WrappingFrameAddress(start))
         case Some(a) => Ok(a)
         case None => Err(Unknown))
  }

  /** The aligned search starts every window on a multiple of the
      alignment and passes over no aligned window that is free: it returns
      the lowest one, and finds none only when there is none. */
  lemma {:induction false} FindWindowAligned(table: Table, count: nat, a: nat, start: nat)
    requires count >= 1 && a >= 1 && start % a == 0
    ensures var r := FindWindow(table, count, a, Aligned, start);
      r.Some? ==> r.value % a == 0 && forall b :: start <= b < r.value && b % a == 0 ==> !FreeRun(table, b, count)
    ensures FindWindow(table, count, a, Aligned, start).None? ==>
      forall b :: start <= b && b % a == 0 ==> !FreeRun(table, b, count)
    decreases |table| - start
  {
    if start + count > |table| {
    } else {
      match LastBlocked(table, start, count)
      case None =>
      case Some(j) =>
        var next := start + Advance(Aligned, j, a);
        SumOfMultiples(start, Advance(Aligned, j, a), a);
        FindWindowAligned(table, count, a, next);
        SkippedBlocked(table, count, a, start, start + j, next);
    }
  }

  /** Every aligned window starting from `start` up to the next multiple
      of the alignment past the blocked frame `blocked` contains it. */
  lemma SkippedBlocked(table: Table, count: nat, a: nat, start: nat, blocked: nat, next: nat)
    requires a >= 1 && start <= blocked < start + count && blocked < |table| && !IsFree(table[blocked])
    requires next % a == 0 && blocked < next <= blocked + a
    ensures forall b :: start <= b < next && b % a == 0 ==> !FreeRun(table, b, count)
  {
    forall b | start <= b < next && b % a == 0
      ensures !FreeRun(table, b, count)
    {
      if b > blocked {
        MultiplesApart(b, next, a);
      }
      assert b <= blocked < b + count;
    }
  }

  /** With every frame addressable and a power-of-two alignment, the
      aligned `next_frames` returns the lowest free run that starts on a
      multiple of the alignment, and `NoneFree` only when no such run
      exists. An alignment of at least one frame is met in bytes. */
  lemma NextFramesAligned(table: Table, count: usize, alignment: usize)
    requires count >= 1 && alignment >= 1
    requires FitsPhysical(table) && IsPowerOfTwo(alignment)
    ensures var r := NextFrames(table, count, alignment, Aligned);
      r.1.Ok? ==> (r.1.value / 0x1000) % AlignFrames(alignment) == 0
    ensures var r := NextFrames(table, count, alignment, Aligned);
      r.1.Ok? ==> forall b :: 0 <= b < r.1.value / 0x1000 && b % AlignFrames(alignment) == 0 ==> !FreeRun(table, b, count)
    ensures var r := NextFrames(table, count, alignment, Aligned);
      r.1.Ok? && alignment >= 0x1000 ==> r.1.value % alignment == 0
    ensures var r := NextFrames(table, count, alignment, Aligned);
      r.1.Err? ==> r.1.error == NoneFree && forall b :: 0 <= b && b % AlignFrames(alignment) == 0 ==> !FreeRun(table, b, count)
  {
    var a := AlignFrames(alignment);
    FindWindowAligned(table, count, a, 0);
    var w := FindWindow(table, count, a, Aligned, 0);
    if w.Some? {
      var start := w.value;
      var address := WrappingFrameAddress(start);
      assert NextFrames(table, count, alignment, Aligned).1 == Ok(address);
      if alignment >= 0x1000 {
        PowerOfTwoIsFrameMultiple(alignment);
        FrameMultiple(start, a, alignment);
      }
    }
  }

  /** A multiple of a frames, counted in bytes, is a multiple of a · 0x1000
      bytes. */
  lemma FrameMultiple(start: nat, a: nat, alignment: nat)
    requires a >= 1 && start % a == 0 && alignment == a * 0x1000
    ensures (start * 0x1000) % alignment == 0
  {
    var k := start / a;
    assert start == k * a;
    assert start * 0x1000 == k * alignment;
    DivModUnique(start * 0x1000, alignment, k, 0);
  }

  /** A power of two of at least 0x1000 is a multiple of 0x1000. */
  lemma PowerOfTwoIsFrameMultiple(x: nat)
    requires IsPowerOfTwo(x) && x >= 0x1000
    ensures x % 0x1000 == 0
  {
    Pow2Add(4, 4);
    Pow2Add(4, 8);
    assert Pow2(4) == 16;
    PowerOfTwoDivisible(x, 12);
  }

  /** A power of two at or above 2^k is a multiple of 2^k. */
  lemma {:induction false} PowerOfTwoDivisible(x: nat, k: nat)
    requires IsPowerOfTwo(x) && x >= Pow2(k)
    ensures x % Pow2(k) == 0
    decreases k
  {
    if k > 0 {
      var h := x / 2;
      PowerOfTwoDivisible(h, k - 1);
      var m := h / Pow2(k - 1);
      assert x == m * Pow2(k);
      DivModUnique(x, Pow2(k), m, 0);
    }
  }

  /** The alignment is a quotient, not an aligned index: with frame 0
      locked and frames 1 and 2 free, a request for one frame aligned to
      0x2000 is answered with 0x1000 as written, and with 0x2000 by the
      aligned search. */
  lemma NextFramesMisaligned()
    ensures var table := [FrameData(true, Generic), FrameData(false, Generic), FrameData(false, Generic)];
      NextFrames(table, 1, 0x2000, AsWritten).1 == Ok(0x1000) && 0x1000 % 0x2000 != 0
    ensures var table := [FrameData(true, Generic), FrameData(false, Generic), FrameData(false, Generic)];
      NextFrames(table, 1, 0x2000, Aligned).1 == Ok(0x2000)
  {
    var table := [FrameData(true, Generic), FrameData(false, Generic), FrameData(false, Generic)];
    assert IsPowerOfTwo(0x2000);
    assert AlignFrames(0x2000) == 2;
    assert LastBlocked(table, 0, 1) == Some(0);
    assert LastBlocked(table, 1, 1) == None;
    assert LastBlocked(table, 2, 1) == None;
    assert Advance(AsWritten, 0, 2) == 1;
    assert Advance(Aligned, 0, 2) == 2;
    assert FindWindow(table, 1, 2, AsWritten, 0) == Some(1);
    assert FindWindow(table, 1, 2, Aligned, 0) == Some(2);
  }

  // ----- lock_frame, lock_frames, free_frame ----------------------------------

  /** `lock_frame`: lock one frame, whatever its type. */
  function LockFrame(table: Table, frame: u64): (r: (Table, Result<(), PmmError>))
    requires Addr.FrameFromU64(frame).Some?
    ensures r.1 == Err(OutOfBounds) <==> frame / 0x1000 >= |table|
    ensures r.1 == Err(NotFree) <==> frame / 0x1000 < |table| && table[frame / 0x1000].locked
    ensures r.1.Err? ==> r.0 == table
    ensures r.1.Ok? ==> |r.0| == |table| && r.0[frame / 0x1000] == table[frame / 0x1000].(locked := true)
    ensures r.1.Ok? ==> forall k :: 0 <= k < |table| && k != frame / 0x1000 ==> r.0[k] == table[k]
  {
    var i := Addr.FrameIndex(frame);
    if i >= |table| then (table, Err(OutOfBounds))
    else if table[i].locked then (table, Err(NotFree))
    else (table[i := table[i].(locked := true)], Ok(()))
  }

  /** No frame of `base .. base + count` is locked. */
  predicate AllUnlocked(table: Table, base: nat, count: nat)
    requires base + count <= |table|
  {
    forall k :: base <= k < base + count ==> !table[k].locked
  }

  /** `lock_frames`: lock every frame of the run or none of them. The sum
      `base.index() + count` is a `usize` addition that must not
      overflow. */
  function LockFrames(table: Table, base: u64, count: usize): (r: (Table, Result<(), PmmError>))
    requires Addr.FrameFromU64(base).Some?
    requires base / 0x1000 + count <= U64_MAX
    ensures r.1 == Err(OutOfBounds) <==> base / 0x1000 + count > |table|
    ensures r.1 == Err(NotFree) <==>
      base / 0x1000 + count <= |table| && exists k :: base / 0x1000 <= k < base / 0x1000 + count && table[k].locked
    ensures r.1.Err? ==> r.0 == table
    ensures r.1.Ok? ==> r.0 == LockRange(table, base / 0x1000, count)
  {
    var start := Addr.FrameIndex(base);
    if start + count > |table| then (table, Err(OutOfBounds))
    else if AllUnlocked(table, start, count) then (LockRange(table, start, count), Ok(()))
    else (table, Err(NotFree))
  }

  /** `free_frame`: unlock one locked frame. */
  function FreeFrame(table: Table, frame: u64): (r: (Table, Result<(), PmmError>))
    requires Addr.FrameFromU64(frame).Some?
    ensures r.1 == Err(OutOfBounds) <==> frame / 0x1000 >= |table|
    ensures r.1 == Err(NotLocked) <==> frame / 0x1000 < |table| && !table[frame / 0x1000].locked
    ensures r.1.Err? ==> r.0 == table
    ensures r.1.Ok? ==> |r.0| == |table| && r.0[frame / 0x1000] == table[frame / 0x1000].(locked := false)
    ensures r.1.Ok? ==> forall k :: 0 <= k < |table| && k != frame / 0x1000 ==> r.0[k] == table[k]
  {
    var i := Addr.FrameIndex(frame);
    if i >= |table| then (table, Err(OutOfBounds))
    else if table[i].locked then (table[i := table[i].(locked := false)], Ok(()))
    else (table, Err(NotLocked))
  }

  // ----- how the operations fit together --------------------------------------

  /** Freeing a frame that `lock_frame` just locked restores the table. */
  lemma LockThenFree(table: Table, frame: u64)
    requires Addr.FrameFromU64(frame).Some?
    requires LockFrame(table, frame).1.Ok?
    ensures FreeFrame(LockFrame(table, frame).0, frame) == (table, Ok(()))
  {
    var i := frame / 0x1000;
    var locked := LockFrame(table, frame).0;
    assert locked[i := locked[i].(locked := false)] == table;
  }

  /** Freeing the frame `next_frame` handed out restores the table. */
  lemma NextFrameThenFree(table: Table)
    requires |table| * 0x1000 <= U64_MAX + 1
    requires NextFrame(table).1.Ok?
    ensures FreeFrame(NextFrame(table).0, NextFrame(table).1.value) == (table, Ok(()))
  {
    var r := NextFrame(table);
    var i := r.1.value / 0x1000;
    assert r.0[i := r.0[i].(locked := false)] == table;
  }

  /** A successful `next_frames` does what `lock_frames` does on the run it
      found, and a frame of that run can be locked by no one else. */
  lemma NextFramesIsLockFrames(table: Table, count: usize, alignment: usize, skip: Skip, k: nat)
    requires count >= 1 && alignment >= 1 && FitsPhysical(table)
    requires NextFrames(table, count, alignment, skip).1.Ok?
    ensures var r := NextFrames(table, count, alignment, skip);
      LockFrames(table, r.1.value, count) == (r.0, Ok(()))
    ensures var r := NextFrames(table, count, alignment, skip);
      k < count ==> LockFrame(r.0, r.1.value + k * 0x1000).1 == Err(NotFree)
  {
    var r := NextFrames(table, count, alignment, skip);
    var i := r.1.value / 0x1000;
    assert AllUnlocked(table, i, count);
    if k < count {
      var f := r.1.value + k * 0x1000;
      DivModUnique(r.1.value, 0x1000, i, 0);
      DivModUnique(f, 0x1000, i + k, 0);
    }
  }
}

=== FILE: scheduler.dfy ===
/** The per-core round-robin scheduler: task priorities, the queue with
    its running priority sum, and the switch to the next task. A task's
    saved registers and page-table root are one opaque context `C`; the
    task taken from the global queue (when its lock is free and it is not
    empty) is a parameter of the switch. */
module Scheduler {
  import opened Wrappers
  import opened Words

  // ----- TaskPriority -----------------------------------------------------

  const MIN_PRIORITY: nat := 1
  const MAX_PRIORITY: nat := 16

  /** The milliseconds of run time one unit of priority buys. */
  const PRIO_TIME_SLICE_MULTIPLIER: nat := 10

  type Priority = p: int | MIN_PRIORITY <= p <= MAX_PRIORITY witness MIN_PRIORITY

  /** `TaskPriority::new`: a priority only inside 1..=16. */
  function NewPriority(priority: u8): (r: Option<Priority>)
    ensures r.Some? <==> MIN_PRIORITY <= priority <= MAX_PRIORITY
    ensures r.Some? ==> r.value == priority
  {
    if MIN_PRIORITY <= priority <= MAX_PRIORITY then Some(priority) else None
  }

  // ----- Task and Scheduler -----------------------------------------------

  datatype Task<C> = Task(id: u64, priority: Priority, context: C)

  datatype Scheduler<C> = Scheduler(
    enabled: bool,
    totalPriority: u64,
    tasks: seq<Task<C>>,
    idle: Task<C>,
    current: Option<Task<C>>)

  /** The sum of the priorities of a run of tasks. */
  function PrioritySum<C>(tasks: seq<Task<C>>): nat
  {
    if |tasks| == 0 then 0 else PrioritySum(tasks[..|tasks| - 1]) + tasks[|tasks| - 1].priority
  }

  /** The invariant `push_task` and `pop_task` keep: the running total is
      the sum over the queue. */
  predicate Valid<C>(s: Scheduler<C>)
  {
    s.totalPriority == PrioritySum(s.tasks)
  }

  /** `Scheduler::new`: an empty queue, no current task. */
  function NewScheduler<C>(enabled: bool, idle: Task<C>): (r: Scheduler<C>)
    ensures Valid(r) && r.tasks == [] && r.current.None?
    ensures r.enabled == enabled && r.idle == idle
  {
    Scheduler(enabled, 0, [], idle, None)
  }

  function Enable<C>(s: Scheduler<C>): (r: Scheduler<C>)
    ensures r.enabled && r == s.(enabled := true)
  {
    s.(enabled := true)
  }

  function Disable<C>(s: Scheduler<C>): (r: Scheduler<C>)
    ensures !r.enabled && r == s.(enabled := false)
  {
    s.(enabled := false)
  }

  // ----- Queue operations -------------------------------------------------

  /** The `u64` addition in `push_task` does not overflow (it panics in a
      debug build when it would). */
  predicate CanPush<C>(s: Scheduler<C>, t: Task<C>)
  {
    s.totalPriority + t.priority <= U64_MAX
  }

  /** `push_task`: the task joins the back and its priority the total. */
  function PushTask<C>(s: Scheduler<C>, t: Task<C>): (r: Scheduler<C>)
    requires CanPush(s, t)
    ensures r.tasks == s.tasks + [t]
    ensures Valid(s) ==> Valid(r)
    ensures r.enabled == s.enabled && r.idle == s.idle && r.current == s.current
  {
    assert (s.tasks + [t])[..|s.tasks|] == s.tasks;
    s.(totalPriority := s.totalPriority + t.priority, tasks := s.tasks + [t])
  }

  /** The `u64` subtraction in `pop_task` does not underflow. */
  predicate CanPop<C>(s: Scheduler<C>)
  {
    !s.enabled || |s.tasks| == 0 || s.totalPriority >= s.tasks[0].priority
  }

  datatype Popped<C> = Popped(scheduler: Scheduler<C>, task: Option<Task<C>>)

  /** `pop_task`: nothing while disabled; otherwise the front task, whose
      priority leaves the total. */
  function PopTask<C>(s: Scheduler<C>): (r: Popped<C>)
    requires CanPop(s)
    ensures r.task.Some? <==> s.enabled && |s.tasks| > 0
    ensures r.task.Some? ==> r.task.value == s.tasks[0] && r.scheduler.tasks == s.tasks[1..]
    ensures r.task.None? ==> r.scheduler == s
    ensures Valid(s) ==> Valid(r.scheduler)
    ensures r.scheduler.enabled == s.enabled && r.scheduler.idle == s.idle
    ensures r.scheduler.current == s.current
  {
    if s.enabled && |s.tasks| > 0 then
      FrontPriority(s.tasks);
      var t := s.tasks[0];
      Popped(s.(totalPriority := s.totalPriority - t.priority, tasks := s.tasks[1..]), Some(t))
    else
      Popped(s, None)
  }

  /** The sum splits into the front task and the rest. */
  lemma {:induction false} FrontPriority<C>(tasks: seq<Task<C>>)
    ensures |tasks| > 0 ==> PrioritySum(tasks) == tasks[0].priority + PrioritySum(tasks[1..])
    decreases |tasks|
  {
    if |tasks| > 1 {
      var init := tasks[..|tasks| - 1];
      FrontPriority(init);
      assert init[1..] == tasks[1..][..|tasks[1..]| - 1];
    }
  }

  /** Every task weighs between the least and the greatest priority. */
  lemma {:induction false} PrioritySumBounds<C>(tasks: seq<Task<C>>)
    ensures MIN_PRIORITY * |tasks| <= PrioritySum(tasks) <= MAX_PRIORITY * |tasks|
    decreases |tasks|
  {
    if |tasks| > 0 {
      PrioritySumBounds(tasks[..|tasks| - 1]);
    }
  }

  /** `get_avg_prio`: the total divided by the queue length, rounding
      down, and 0 for an empty queue. On a valid scheduler the average is a
      priority. */
  function AveragePriority<C>(s: Scheduler<C>): (r: nat)
    ensures |s.tasks| == 0 ==> r == 0
    ensures |s.tasks| > 0 ==> r * |s.tasks| <= s.totalPriority < (r + 1) * |s.tasks|
    ensures Valid(s) && |s.tasks| > 0 ==> MIN_PRIORITY <= r <= MAX_PRIORITY
  {
    if |s.tasks| == 0 then 0
    else
      PrioritySumBounds(s.tasks);
      Average(s.totalPriority, |s.tasks|)
  }

  /** The total over n tasks divided by n, rounding down; a total between
      n and 16n averages to a priority. */
  function Average(total: nat, n: nat): (q: nat)
    requires n > 0
    ensures q * n <= total < (q + 1) * n
    ensures MIN_PRIORITY * n <= total <= MAX_PRIORITY * n ==> MIN_PRIORITY <= q <= MAX_PRIORITY
  {
    DivModUnique(total, n, total / n, total % n);
    total / n
  }

  // ----- next_task --------------------------------------------------------

  function PriorityOf<C>(t: Option<Task<C>>): nat
  {
    if t.Some? then t.value.priority else 0
  }

  /** Both pushes `next_task` can make fit in the `u64` total. */
  predicate CanSwitch<C>(s: Scheduler<C>, arrival: Option<Task<C>>)
  {
    Valid(s) && s.totalPriority + PriorityOf(arrival) + PriorityOf(s.current) <= U64_MAX
  }

  /** What `next_task` leaves behind: the scheduler, the context the
      interrupt returns into and the time slice in milliseconds. */
  datatype Switch<C> = Switch(scheduler: Scheduler<C>, context: C, sliceMs: nat)

  /** `next_task`: take the arrival from the global queue, requeue the
      interrupted task with the context it was interrupted in, then run the
      front task for ten milliseconds per unit of priority, or the idle
      task for ten milliseconds when nothing can be popped. */
  function NextTask<C>(s: Scheduler<C>, interrupted: C, arrival: Option<Task<C>>): (r: Switch<C>)
    requires CanSwitch(s, arrival)
    ensures Valid(r.scheduler)
    ensures PRIO_TIME_SLICE_MULTIPLIER <= r.sliceMs <= MAX_PRIORITY * PRIO_TIME_SLICE_MULTIPLIER
    ensures r.scheduler.current.Some? ==>
      r.context == r.scheduler.current.value.context &&
      r.sliceMs == r.scheduler.current.value.priority * PRIO_TIME_SLICE_MULTIPLIER
    ensures r.scheduler.current.None? ==> r.context == s.idle.context && r.sliceMs == PRIO_TIME_SLICE_MULTIPLIER
    ensures r.scheduler.enabled == s.enabled && r.scheduler.idle == s.idle
  {
    var s1 := if arrival.Some? then PushTask(s, arrival.value) else s;
    var s2 := if s.current.Some? then PushTask(s1.(current := None), s.current.value.(context := interrupted))
              else s1;
    FrontPriority(s2.tasks);
    var p := PopTask(s2);
    if p.task.Some? then
      var next := p.task.value;
      Switch(p.scheduler.(current := Some(next)), next.context, next.priority * PRIO_TIME_SLICE_MULTIPLIER)
    else
      Switch(p.scheduler, s.idle.context, PRIO_TIME_SLICE_MULTIPLIER)
  }

  function OptionSeq<T>(o: Option<T>): seq<T>
  {
    if o.Some? then [o.value] else []
  }

  /** The queue `next_task` pops from: the old queue, then the arrival,
      then the interrupted task with its saved context. */
  function Requeued<C>(s: Scheduler<C>, interrupted: C, arrival: Option<Task<C>>): seq<Task<C>>
  {
    s.tasks + OptionSeq(arrival)
      + (if s.current.Some? then [s.current.value.(context := interrupted)] else [])
  }

  /** `next_task` is first-in first-out: an enabled scheduler runs the
      front of the requeued line and keeps the rest in order; a disabled
      one (or one with nothing queued) keeps the whole line and runs the
      idle task. */
  lemma NextTaskRotates<C>(s: Scheduler<C>, interrupted: C, arrival: Option<Task<C>>)
    requires CanSwitch(s, arrival)
    ensures var line := Requeued(s, interrupted, arrival);
            var r := NextTask(s, interrupted, arrival).scheduler;
            if s.enabled && |line| > 0 then r.current == Some(line[0]) && r.tasks == line[1..]
            else r.current.None? && r.tasks == line
  {
  }

  // ----- Round robin ------------------------------------------------------

  /** The tasks in the order they will run: the current one, then the
      queue. */
  function Cycle<C>(s: Scheduler<C>): seq<Task<C>>
  {
    OptionSeq(s.current) + s.tasks
  }

  function Ids<C>(tasks: seq<Task<C>>): (r: seq<u64>)
    ensures |r| == |tasks|
    ensures forall i :: 0 <= i < |tasks| ==> r[i] == tasks[i].id
  {
    seq(|tasks|, i requires 0 <= i < |tasks| => tasks[i].id)
  }

  function RotateLeft<T>(xs: seq<T>, k: nat): (r: seq<T>)
    requires k <= |xs|
  {
    xs[k..] + xs[..k]
  }

  /** One switch on an enabled scheduler with no arrival moves the running
      task to the back of the cycle and runs the next one. */
  lemma SwitchRotatesCycle<C>(s: Scheduler<C>, interrupted: C)
    requires CanSwitch(s, None) && s.enabled && s.current.Some?
    ensures var r := NextTask(s, interrupted, None).scheduler;
            r.current.Some? && Ids(Cycle(r)) == RotateLeft(Ids(Cycle(s)), 1)
  {
    NextTaskRotates(s, interrupted, None);
    var r := NextTask(s, interrupted, None).scheduler;
    var line := Requeued(s, interrupted, None);
    assert line == s.tasks + [s.current.value.(context := interrupted)];
    assert Cycle(r) == line;
    assert Ids(Cycle(r)) == RotateLeft(Ids(Cycle(s)), 1);
  }

  /** `n` switches with the same interrupted context and no arrivals. */
  function Switches<C>(s: Scheduler<C>, interrupted: C, n: nat): (r: Scheduler<C>)
    requires CanSwitch(s, None)
    ensures CanSwitch(r, None)
    ensures r.totalPriority + PriorityOf(r.current) == s.totalPriority + PriorityOf(s.current)
    ensures r.enabled == s.enabled && r.idle == s.idle
    decreases n
  {
    if n == 0 then s
    else
      SwitchKeepsTotal(s, interrupted);
      Switches(NextTask(s, interrupted, None).scheduler, interrupted, n - 1)
  }

  /** Round robin: on an enabled scheduler that is running a task, k
      switches without arrivals rotate the cycle by k. */
  lemma {:induction false} RoundRobin<C>(s: Scheduler<C>, interrupted: C, k: nat)
    requires CanSwitch(s, None) && s.enabled && s.current.Some?
    requires k <= |Cycle(s)|
    ensures Switches(s, interrupted, k).current.Some?
    ensures Ids(Cycle(Switches(s, interrupted, k))) == RotateLeft(Ids(Cycle(s)), k)
    decreases k
  {
    if k > 0 {
      var s1 := SwitchSteps(s, interrupted, k);
      RoundRobin(s1, interrupted, k - 1);
      var xs := Ids(Cycle(s));
      var zs := Ids(Cycle(Switches(s1, interrupted, k - 1)));
      assert zs == RotateLeft(RotateLeft(xs, 1), k - 1);
      RotateTwice(xs, k - 1);
    } else {
      var xs := Ids(Cycle(s));
      assert Switches(s, interrupted, 0) == s;
      assert RotateLeft(xs, 0) == xs;
    }
  }

  /** One switch, then the remaining k - 1. */
  lemma SwitchSteps<C>(s: Scheduler<C>, interrupted: C, k: nat) returns (s1: Scheduler<C>)
    requires CanSwitch(s, None) && s.enabled && s.current.Some? && k > 0
    ensures CanSwitch(s1, None) && s1.enabled && s1.current.Some? && |Cycle(s1)| == |Cycle(s)|
    ensures Ids(Cycle(s1)) == RotateLeft(Ids(Cycle(s)), 1)
    ensures Switches(s, interrupted, k) == Switches(s1, interrupted, k - 1)
  {
    s1 := NextTask(s, interrupted, None).scheduler;
    SwitchKeepsTotal(s, interrupted);
    SwitchRotatesCycle(s, interrupted);
  }

  /** Within one pass every task of the cycle runs, in queue order: after
      k switches the k-th task of the cycle is the current one. */
  lemma EveryTaskRuns<C>(s: Scheduler<C>, interrupted: C, k: nat)
    requires CanSwitch(s, None) && s.enabled && s.current.Some?
    requires k < |Cycle(s)|
    ensures Switches(s, interrupted, k).current.Some?
    ensures Switches(s, interrupted, k).current.value.id == Cycle(s)[k].id
  {
    RoundRobin(s, interrupted, k);
    var r := Switches(s, interrupted, k);
    assert Cycle(r)[0] == r.current.value;
    assert Ids(Cycle(r))[0] == RotateLeft(Ids(Cycle(s)), k)[0];
  }

  /** Rotating by one and then by k is rotating by k + 1. */
  lemma RotateTwice<T>(xs: seq<T>, k: nat)
    requires k + 1 <= |xs|
    ensures RotateLeft(RotateLeft(xs, 1), k) == RotateLeft(xs, k + 1)
  {
    var ys := RotateLeft(xs, 1);
    assert ys[k..] == xs[k + 1..] + xs[..1];
    assert ys[..k] == xs[1..k + 1];
    assert xs[..k + 1] == xs[..1] + xs[1..k + 1];
  }

  /** Without an arrival the total priority over the cycle is conserved,
      so the `u64` bound keeps holding. */
  lemma SwitchKeepsTotal<C>(s: Scheduler<C>, interrupted: C)
    requires CanSwitch(s, None)
    ensures var r := NextTask(s, interrupted, None).scheduler;
            CanSwitch(r, None) &&
            r.totalPriority + PriorityOf(r.current) == s.totalPriority + PriorityOf(s.current)
  {
    var r := NextTask(s, interrupted, None).scheduler;
    var requeued := if s.current.Some? then Some(s.current.value.(context := interrupted)) else None;
    var line := Requeued(s, interrupted, None);
    NextTaskRotates(s, interrupted, None);
    assert line == s.tasks + OptionSeq(requeued);
    SumAppend(s.tasks, OptionSeq(requeued));
    if s.current.Some? {
      assert PrioritySum(OptionSeq(requeued)) == s.current.value.priority by {
        assert OptionSeq(requeued)[..0] == [];
      }
    }
    if s.enabled && |line| > 0 {
      FrontPriority(line);
    }
  }

  lemma {:induction false} SumAppend<C>(a: seq<Task<C>>, b: seq<Task<C>>)
    ensures PrioritySum(a + b) == PrioritySum(a) + PrioritySum(b)
    decreases |b|
  {
    if |b| > 0 {
      var b' := b[..|b| - 1];
      assert (a + b)[..|a + b| - 1] == a + b';
      assert (a + b)[|a + b| - 1] == b[|b| - 1];
      SumAppend(a, b');
    } else {
      assert a + b == a;
    }
  }
}

=== FILE: shared_slab.dfy ===
/** The shared free-list slab allocator: each slab cuts a 16 KiB span into
    items of one layout and keeps the free ones on a list; the allocator
    picks a slab by layout and hands large layouts to a backing allocator.
    Addresses are numbers, and what the backing allocator answers (the
    span's address, whether it grants memory at all) is a parameter. */
module SharedSlab {
  import opened Wrappers
  import opened Words
  import opened Layouts

  /** The bytes behind every slab. */
  const SLAB_LENGTH: nat := 0x4000

  /** `NonNull<[u8]>`: an item's address and length. */
  datatype Item = Item(start: nat, len: nat)

  /** A slab: its layout, how many items it was cut into, the free list
      (popped and pushed at its end) and the address of its span. */
  datatype Slab = Slab(layout: Layout, capacity: nat, items: seq<Item>, memory: nat)

  datatype AllocError = AllocError

  // ----- Carving ----------------------------------------------------------

  /** The items of a layout that fit in the span. */
  function CapacityFor(l: Layout): nat
    requires l.align > 0 && l.size > 0
  {
    SLAB_LENGTH / PadToAlign(l)
  }

  /** Item k of a span at base: it starts k padded sizes in and is as long
      as the layout's size. */
  function Carved(l: Layout, base: nat, k: nat): Item
    requires l.align > 0
  {
    Item(base + k * PadToAlign(l), l.size)
  }

  /** An item is one the slab was cut into. */
  predicate IsCarved(s: Slab, it: Item)
    requires s.layout.align > 0 && s.layout.size > 0
  {
    var p := PadToAlign(s.layout);
    it.len == s.layout.size && s.memory <= it.start
    && (it.start - s.memory) % p == 0 && (it.start - s.memory) / p < s.capacity
  }

  /** The invariant of a slab: it was cut as `new_in` cuts it, and its free
      list holds distinct items of it, no more than it was cut into. */
  predicate Valid(s: Slab)
  {
    Layouts.Valid(s.layout) && s.layout.size > 0 && s.memory % s.layout.align == 0
    && s.capacity == CapacityFor(s.layout) && |s.items| <= s.capacity
    && (forall i :: 0 <= i < |s.items| ==> IsCarved(s, s.items[i]))
    && (forall i, j :: 0 <= i < j < |s.items| ==> s.items[i] != s.items[j])
  }

  /** `new_in`: the span is cut into `SLAB_LENGTH / padded size` items,
      all free, listed in address order. It fails when the backing
      allocator does not grant the span or the list. */
  function NewSlab(l: Layout, base: nat, allocates: bool): (r: Result<Slab, AllocError>)
    requires Layouts.Valid(l) && l.size > 0 && base % l.align == 0
    ensures r.Ok? <==> allocates
    ensures r.Ok? ==> Valid(r.value) && r.value.layout == l && r.value.memory == base
    ensures r.Ok? ==> |r.value.items| == r.value.capacity
                      && r.value.capacity * PadToAlign(l) <= SLAB_LENGTH
                      && SLAB_LENGTH < (r.value.capacity + 1) * PadToAlign(l)
    ensures r.Ok? ==> forall k :: 0 <= k < r.value.capacity ==> r.value.items[k] == Carved(l, base, k)
  {
    if !allocates then Err(AllocError)
    else
      PadToAlignValid(l);
      var p := PadToAlign(l);
      var n := CapacityFor(l);
      var s := Slab(l, n, seq(n, k requires 0 <= k < n => Carved(l, base, k)), base);
      DivAtLeast(SLAB_LENGTH, p, n);
      DivAtLeast(SLAB_LENGTH, p, n + 1);
      forall i | 0 <= i < n
        ensures IsCarved(s, s.items[i])
      {
        ModAddMultiple(0, i, p);
      }
      forall i, j | 0 <= i < j < n
        ensures s.items[i] != s.items[j]
      {
        StrideGrows(base, p, i, j);
      }
      Ok(s)
  }

  lemma StrideGrows(base: nat, p: nat, i: nat, j: nat)
    requires p > 0 && i < j
    ensures base + i * p < base + j * p
  {
    MulAwayFromZero(j - i, p);
    assert j * p == i * p + (j - i) * p;
  }

  /** Where a carved item lies: `k` padded sizes into the span, aligned
      as the layout asks, and inside the span. */
  lemma CarvedFacts(s: Slab, it: Item)
    requires Valid(s) && IsCarved(s, it)
    ensures it.start == s.memory + IndexOf(s, it) * PadToAlign(s.layout)
    ensures it.start % s.layout.align == 0
            && it.start + it.len <= s.memory + SLAB_LENGTH
  {
    PadToAlignValid(s.layout);
    var p := PadToAlign(s.layout);
    var k := (it.start - s.memory) / p;
    DivModUnique(it.start - s.memory, p, k, 0);
    assert it.start - s.memory == k * p;
    DivAtLeast(SLAB_LENGTH, p, k + 1);
    assert (k + 1) * p == k * p + p;
    StrideAligned(s.memory, k, p, s.layout.align);
  }

  lemma StrideAligned(m: nat, k: nat, p: nat, a: nat)
    requires a > 0 && m % a == 0 && p % a == 0
    ensures (m + k * p) % a == 0
  {
    var c := p / a;
    DivModUnique(p, a, c, 0);
    assert k * p == (k * c) * a;
    ModAddMultiple(m, k * c, a);
  }

  /** Two different carved items of a slab do not overlap. */
  lemma CarvedDisjoint(s: Slab, x: Item, y: Item)
    requires Valid(s) && IsCarved(s, x) && IsCarved(s, y) && x != y
    ensures x.start + x.len <= y.start || y.start + y.len <= x.start
  {
    PadToAlignValid(s.layout);
    var p := PadToAlign(s.layout);
    CarvedFacts(s, x);
    CarvedFacts(s, y);
    var i := (x.start - s.memory) / p;
    var j := (y.start - s.memory) / p;
    if i < j {
      StrideApart(s.memory, p, i, j, s.layout.size);
    } else if j < i {
      StrideApart(s.memory, p, j, i, s.layout.size);
    }
  }

  lemma StrideApart(m: nat, p: nat, i: nat, j: nat, size: nat)
    requires size <= p && i < j
    ensures m + i * p + size <= m + j * p
  {
    assert j * p == i * p + (j - i) * p;
    if p > 0 {
      MulAwayFromZero(j - i, p);
    }
  }

  // ----- take_item and return_item ----------------------------------------

  /** `remaining`: the free items. */
  function Remaining(s: Slab): nat
  {
    |s.items|
  }

  datatype Took = Took(slab: Slab, item: Item)

  /** `take_item`: pop the free list. */
  function TakeItem(s: Slab): (r: Option<Took>)
    ensures r.None? <==> Remaining(s) == 0
    ensures r.Some? ==> Remaining(r.value.slab) == Remaining(s) - 1
    ensures r.Some? ==> r.value.item in s.items && multiset(r.value.slab.items) + multiset{r.value.item} == multiset(s.items)
    ensures r.Some? ==> r.value.slab.(items := s.items) == s
  {
    if |s.items| == 0 then None
    else
      var n := |s.items| - 1;
      assert s.items == s.items[..n] + [s.items[n]];
      Some(Took(s.(items := s.items[..n]), s.items[n]))
  }

  /** A popped item of a valid slab is carved, leaves the free list and
      leaves the slab valid. */
  lemma TakeItemValid(s: Slab)
    requires Valid(s) && Remaining(s) > 0
    ensures TakeItem(s).Some?
    ensures var t := TakeItem(s).value;
            Valid(t.slab) && IsCarved(s, t.item) && t.item !in t.slab.items
  {
    var t := TakeItem(s).value;
    assert t.item == s.items[|s.items| - 1];
  }

  /** `usize::next_multiple_of`, for a positive divisor. */
  function NextMultipleOf(x: nat, a: nat): (r: nat)
    requires a > 0
    ensures r == x <==> x % a == 0
  {
    NextMultipleExact(x, a);
    PadToAlign(Layout(x, a))
  }

  lemma NextMultipleExact(x: nat, a: nat)
    requires a > 0
    ensures PadToAlign(Layout(x, a)) == x <==> x % a == 0
  {
    if x % a == 0 {
      PadToAlignExact(Layout(x, a));
    }
  }

  /** The address lies in the slab's span. */
  predicate InSpan(s: Slab, ptr: nat)
  {
    s.memory <= ptr < s.memory + SLAB_LENGTH
  }

  /** `return_item`: a layout-aligned address inside the span goes back on
      the free list as an item of the layout's size; anything else is an
      error. The list was built to hold `capacity` items, so a push beyond
      that asks the backing allocator, whose answer is `grows`. */
  function ReturnItem(s: Slab, ptr: nat, grows: bool): (r: Result<Slab, AllocError>)
    requires s.layout.align > 0
    ensures r.Ok? <==> InSpan(s, ptr) && ptr % s.layout.align == 0 && (Remaining(s) < s.capacity || grows)
    ensures r.Ok? ==> Remaining(r.value) == Remaining(s) + 1
                      && r.value.items[Remaining(s)] == Item(ptr, s.layout.size)
                      && r.value.items[..Remaining(s)] == s.items
                      && r.value.(items := s.items) == s
  {
    if InSpan(s, ptr) && NextMultipleOf(ptr, s.layout.align) == ptr then
      if Remaining(s) < s.capacity || grows then Ok(s.(items := s.items + [Item(ptr, s.layout.size)]))
      else Err(AllocError)
    else Err(AllocError)
  }

  /** Giving back an item that was handed out and is not free keeps the
      slab valid. */
  lemma ReturnItemValid(s: Slab, ptr: nat, grows: bool)
    requires Valid(s) && IsCarved(s, Item(ptr, s.layout.size)) && Item(ptr, s.layout.size) !in s.items
    requires Remaining(s) < s.capacity
    ensures ReturnItem(s, ptr, grows).Ok? && Valid(ReturnItem(s, ptr, grows).value)
  {
    CarvedFacts(s, Item(ptr, s.layout.size));
  }

  /** Popping an item and pushing its address back restores the slab. */
  lemma TakeThenReturn(s: Slab, grows: bool)
    requires Valid(s) && Remaining(s) > 0
    ensures TakeItem(s).Some?
    ensures var t := TakeItem(s).value;
            ReturnItem(t.slab, t.item.start, grows) == Ok(s)
  {
    TakeItemValid(s);
    var t := TakeItem(s).value;
    CarvedFacts(s, t.item);
    assert t.slab.items + [t.item] == s.items;
  }

  // ----- Counting free items ----------------------------------------------

  /** Which item of the slab, counting from the start of the span. */
  function IndexOf(s: Slab, it: Item): nat
    requires s.layout.align > 0 && s.layout.size > 0 && s.memory <= it.start
  {
    (it.start - s.memory) / PadToAlign(s.layout)
  }

  /** The indices below n. */
  function Below(n: nat): (r: set<nat>)
    ensures forall k: nat :: k in r <==> k < n
  {
    if n == 0 then {} else Below(n - 1) + {n - 1}
  }

  lemma {:induction false} BelowSize(n: nat)
    ensures |Below(n)| == n
  {
    if n > 0 {
      BelowSize(n - 1);
    }
  }

  /** A sequence of distinct members of S is no longer than S. */
  lemma {:induction false} DistinctWithin(xs: seq<nat>, S: set<nat>)
    requires forall i :: 0 <= i < |xs| ==> xs[i] in S
    requires forall i, j :: 0 <= i < j < |xs| ==> xs[i] != xs[j]
    ensures |xs| <= |S|
  {
    if |xs| > 0 {
      var rest := xs[1..];
      forall i | 0 <= i < |rest|
        ensures rest[i] in S - {xs[0]}
      {
        assert rest[i] == xs[i + 1];
      }
      forall i, j | 0 <= i < j < |rest|
        ensures rest[i] != rest[j]
      {
        assert rest[i] == xs[i + 1] && rest[j] == xs[j + 1];
      }
      DistinctWithin(rest, S - {xs[0]});
    }
  }

  /** Carved items with the same index are the same item. */
  lemma IndexDetermines(s: Slab, x: Item, y: Item)
    requires Valid(s) && IsCarved(s, x) && IsCarved(s, y) && IndexOf(s, x) == IndexOf(s, y)
    ensures x == y
  {
    CarvedFacts(s, x);
    CarvedFacts(s, y);
    assert x.start == y.start;
  }

  /** A carved item that is not free leaves room on the free list: the
      list holds distinct carved items, and there are only `capacity`. */
  lemma HandedLeavesRoom(s: Slab, it: Item)
    requires Valid(s) && IsCarved(s, it) && it !in s.items
    ensures Remaining(s) < s.capacity
  {
    var n := |s.items|;
    var xs := seq(n, i requires 0 <= i < n => IndexOf(s, s.items[i]));
    var S := Below(s.capacity) - {IndexOf(s, it)};
    forall i | 0 <= i < n
      ensures xs[i] in S
    {
      if xs[i] == IndexOf(s, it) {
        IndexDetermines(s, s.items[i], it);
      }
    }
    forall i, j | 0 <= i < j < n
      ensures xs[i] != xs[j]
    {
      if xs[i] == xs[j] {
        IndexDetermines(s, s.items[i], s.items[j]);
      }
    }
    DistinctWithin(xs, S);
    BelowSize(s.capacity);
  }

  // ----- SlabAllocator ----------------------------------------------------

  /** The slabs, and `max_size`: the largest padded size served from them. */
  datatype SlabAllocator = SlabAllocator(slabs: seq<Slab>, maxSize: nat)

  /** Two spans share no byte. */
  predicate Apart(m: nat, n: nat)
  {
    m + SLAB_LENGTH <= n || n + SLAB_LENGTH <= m
  }

  /** Every slab is valid and no two spans overlap. */
  predicate SlabsValid(slabs: seq<Slab>)
  {
    (forall j :: 0 <= j < |slabs| ==> Valid(slabs[j]))
    && (forall j, k :: 0 <= j < k < |slabs| ==> Apart(slabs[j].memory, slabs[k].memory))
  }

  /** `new_in`: no slabs, and `max_size = 1 << max_size_shift`; a shift of
      64 or more overflows. */
  function NewSlabAllocator(shift: nat): (r: SlabAllocator)
    requires shift < 64
    ensures SlabsValid(r.slabs) && r.slabs == []
    ensures IsPowerOfTwo(r.maxSize) && r.maxSize == Pow2(shift) && r.maxSize <= Pow2(63)
  {
    Pow2IsPowerOfTwo(shift);
    Pow2Monotone(shift, 63);
    SlabAllocator([], Pow2(shift))
  }

  /** The span the backing allocator grants a new slab: aligned as the
      layout asks and apart from every existing span. */
  predicate FreshSpan(slabs: seq<Slab>, base: nat, l: Layout)
    requires l.align > 0
  {
    base % l.align == 0 && forall j :: 0 <= j < |slabs| ==> Apart(slabs[j].memory, base)
  }

  /** A slab `allocate` may take from: it has a free item and the very
      same layout. */
  predicate Reusable(s: Slab, l: Layout)
  {
    Remaining(s) > 0 && s.layout == l
  }

  /** The first reusable slab from j on. */
  function FindReusable(slabs: seq<Slab>, l: Layout, j: nat): (r: Option<nat>)
    requires j <= |slabs|
    ensures r.Some? ==> j <= r.value < |slabs| && Reusable(slabs[r.value], l)
    ensures r.Some? ==> forall k :: j <= k < r.value ==> !Reusable(slabs[k], l)
    ensures r.None? <==> forall k :: j <= k < |slabs| ==> !Reusable(slabs[k], l)
    decreases |slabs| - j
  {
    if j == |slabs| then None
    else if Reusable(slabs[j], l) then Some(j)
    else FindReusable(slabs, l, j + 1)
  }

  /** Where an allocation came from: the backing allocator, or an item of
      slab `slab`. */
  datatype Allocation = Delegated | Served(slab: nat, item: Item)

  datatype Allocated = Allocated(allocator: SlabAllocator, allocation: Allocation)

  /** Pop a free item of slab j. */
  function TakeFrom(a: SlabAllocator, j: nat): (r: Allocated)
    requires SlabsValid(a.slabs) && j < |a.slabs| && Remaining(a.slabs[j]) > 0
    ensures TakeItem(a.slabs[j]).Some?
    ensures var t := TakeItem(a.slabs[j]).value;
            r == Allocated(a.(slabs := a.slabs[j := t.slab]), Served(j, t.item))
    ensures SlabsValid(r.allocator.slabs)
    ensures var it := r.allocation.item;
            IsCarved(a.slabs[j], it) && it in a.slabs[j].items && it !in r.allocator.slabs[j].items
  {
    TakeItemValid(a.slabs[j]);
    var t := TakeItem(a.slabs[j]).value;
    var after := a.slabs[j := t.slab];
    assert forall k :: 0 <= k < |after| ==> after[k].memory == a.slabs[k].memory;
    Allocated(a.(slabs := after), Served(j, t.item))
  }

  /** Where `allocate` sends a layout. */
  datatype Route = Refuse | Backing | ToSlabs

  /** `allocate`'s routing as written: a zero padded size is refused,
      one above `max_size` goes to the backing allocator. */
  function RouteAsWritten(maxSize: nat, l: Layout): (r: Route)
    requires l.align > 0
    ensures r == Refuse <==> l.size == 0
    ensures r == Backing <==> l.size > 0 && PadToAlign(l) > maxSize
  {
    PadToAlignZero(l);
    if PadToAlign(l) == 0 then Refuse
    else if PadToAlign(l) > maxSize then Backing
    else ToSlabs
  }

  /** The routing, corrected: a padded size above the span also goes to
      the backing allocator, since a slab for it would hold no item. */
  function RouteOf(maxSize: nat, l: Layout): (r: Route)
    requires l.align > 0
    ensures r == Refuse <==> l.size == 0
    ensures r == Backing <==> l.size > 0 && (PadToAlign(l) > maxSize || PadToAlign(l) > SLAB_LENGTH)
    ensures r == ToSlabs ==> CapacityFor(l) >= 1
  {
    PadToAlignZero(l);
    if PadToAlign(l) == 0 then Refuse
    else if PadToAlign(l) > maxSize || PadToAlign(l) > SLAB_LENGTH then Backing
    else
      DivAtLeast(SLAB_LENGTH, PadToAlign(l), 1);
      ToSlabs
  }

  lemma PadToAlignZero(l: Layout)
    requires l.align > 0
    ensures PadToAlign(l) == 0 <==> l.size == 0
  {
    if l.size == 0 {
      PadToAlignExact(l);
    }
  }

  /** The slabs an allocation is taken from: the existing ones, or those
      with a new slab on the fresh span when none is reusable. */
  function Source(a: SlabAllocator, l: Layout, base: nat): seq<Slab>
    requires Layouts.Valid(l) && l.size > 0 && base % l.align == 0
  {
    match FindReusable(a.slabs, l, 0)
    case Some(_) => a.slabs
    case None => a.slabs + [NewSlab(l, base, true).value]
  }

  /** What serving a layout from the slabs gives: an item of the layout's
      size, aligned as the layout asks and inside its slab's span, taken
      off the free list of the first reusable slab (or of a new slab on
      the fresh span), every other slab unchanged. */
  predicate ServedFrom(a: SlabAllocator, l: Layout, base: nat, r: Allocated)
    requires Layouts.Valid(l) && l.size > 0 && base % l.align == 0
  {
    var before := Source(a, l, base);
    r.allocation.Served? && r.allocator.maxSize == a.maxSize
    && var j := r.allocation.slab;
    var it := r.allocation.item;
    var slabs := r.allocator.slabs;
    j < |slabs| == |before| && SlabsValid(slabs) && SlabsValid(before) && slabs[j].layout == l
    && (match FindReusable(a.slabs, l, 0)
        case Some(first) => j == first
        case None => j == |a.slabs| && slabs[j].memory == base)
    && it.len == l.size && it.start % l.align == 0
    && InSpan(slabs[j], it.start) && it.start + it.len <= slabs[j].memory + SLAB_LENGTH
    && IsCarved(before[j], it) && it in before[j].items && it !in slabs[j].items
    && slabs[j] == TakeItem(before[j]).value.slab
    && Remaining(slabs[j]) == Remaining(before[j]) - 1
    && (forall k :: 0 <= k < |before| && k != j ==> slabs[k] == before[k])
  }

  /** The slab path of `allocate`: take from the first reusable slab, or
      push a new slab on the fresh span and take from it. The new slab
      must hold an item, or the final unwrap panics. */
  function SlabPath(a: SlabAllocator, l: Layout, base: nat, allocates: bool): (r: Result<Allocated, AllocError>)
    requires SlabsValid(a.slabs) && Layouts.Valid(l) && l.size > 0 && FreshSpan(a.slabs, base, l)
    requires allocates ==> CapacityFor(l) >= 1
    ensures r.Err? <==> FindReusable(a.slabs, l, 0).None? && !allocates
    ensures r.Ok? ==> ServedFrom(a, l, base, r.value)
  {
    PadToAlignValid(l);
    var before := Source(a, l, base);
    match FindReusable(a.slabs, l, 0)
    case Some(j) =>
      var r := TakeFrom(a, j);
      CarvedFacts(before[j], r.allocation.item);
      Ok(r)
    case None =>
      if !allocates then Err(AllocError)
      else
        var r := TakeFrom(a.(slabs := WithNewSlab(a.slabs, l, base)), |a.slabs|);
        CarvedFacts(before[|a.slabs|], r.allocation.item);
        Ok(r)
  }

  /** The slabs with a new slab on the fresh span appended. */
  function WithNewSlab(slabs: seq<Slab>, l: Layout, base: nat): (r: seq<Slab>)
    requires SlabsValid(slabs) && Layouts.Valid(l) && l.size > 0 && FreshSpan(slabs, base, l)
    requires CapacityFor(l) >= 1
    ensures SlabsValid(r) && r == slabs + [NewSlab(l, base, true).value]
    ensures Remaining(r[|slabs|]) >= 1 && r[|slabs|].memory == base && r[|slabs|].layout == l
  {
    slabs + [NewSlab(l, base, true).value]
  }

  /** What the final `unwrap` of `allocate` as written needs: when a new
      slab is made for a layout, it holds an item. */
  predicate CanAllocateAsWritten(a: SlabAllocator, l: Layout, allocates: bool)
    requires l.align > 0
  {
    RouteAsWritten(a.maxSize, l) == ToSlabs && allocates ==> CapacityFor(l) >= 1
  }

  /** `allocate` as written. `backingGrants` is whether the backing
      allocator answers a request passed on to it. */
  function AllocateAsWritten(a: SlabAllocator, l: Layout, base: nat, allocates: bool, backingGrants: bool): (r: Result<Allocated, AllocError>)
    requires SlabsValid(a.slabs) && Layouts.Valid(l) && FreshSpan(a.slabs, base, l)
    requires CanAllocateAsWritten(a, l, allocates)
    ensures r.Err? <==> l.size == 0
                        || (RouteAsWritten(a.maxSize, l) == Backing && !backingGrants)
                        || (RouteAsWritten(a.maxSize, l) == ToSlabs && FindReusable(a.slabs, l, 0).None? && !allocates)
    ensures r.Ok? && r.value.allocation.Delegated? <==> RouteAsWritten(a.maxSize, l) == Backing && backingGrants
    ensures r.Ok? && r.value.allocation.Delegated? ==> r.value.allocator == a
    ensures r.Ok? && r.value.allocation.Served? ==> ServedFrom(a, l, base, r.value)
  {
    PadToAlignValid(l);
    match RouteAsWritten(a.maxSize, l)
    case Refuse => Err(AllocError)
    case Backing => if backingGrants then Ok(Allocated(a, Delegated)) else Err(AllocError)
    case ToSlabs => SlabPath(a, l, base, allocates)
  }

  /** With `max_size` 2^15, a layout of 32 KiB is routed to the slabs, but
      a slab for it holds no item, so `allocate` as written panics on its
      unwrap; the corrected routing hands the layout to the backing
      allocator. */
  lemma LargeSlabLayoutPanics(base: nat)
    ensures var a := NewSlabAllocator(15);
            var l := Layout(0x8000, 1);
            Layouts.Valid(l) && FreshSpan(a.slabs, base, l)
            && RouteAsWritten(a.maxSize, l) == ToSlabs && CapacityFor(l) == 0
            && NewSlab(l, base, true).Ok? && TakeItem(NewSlab(l, base, true).value).None?
            && !CanAllocateAsWritten(a, l, true)
            && RouteOf(a.maxSize, l) == Backing
  {
    var l := Layout(0x8000, 1);
    assert Pow2(15) == 0x8000 by { Pow2Add(12, 3); Pow2Of12(); }
    assert IsPowerOfTwo(1);
    PadToAlignExact(l);
  }

  /** `allocate`, corrected: a zero size is refused, a padded size above
      `max_size` or the span goes to the backing allocator, and the rest
      is served by the first slab of the same layout with a free item, or
      by a new slab on the fresh span. */
  function Allocate(a: SlabAllocator, l: Layout, base: nat, allocates: bool, backingGrants: bool): (r: Result<Allocated, AllocError>)
    requires SlabsValid(a.slabs) && Layouts.Valid(l) && FreshSpan(a.slabs, base, l)
    ensures r.Err? <==> l.size == 0
                        || (RouteOf(a.maxSize, l) == Backing && !backingGrants)
                        || (RouteOf(a.maxSize, l) == ToSlabs && FindReusable(a.slabs, l, 0).None? && !allocates)
    ensures r.Ok? ==> SlabsValid(r.value.allocator.slabs) && r.value.allocator.maxSize == a.maxSize
    ensures r.Ok? && r.value.allocation.Delegated? <==> RouteOf(a.maxSize, l) == Backing && backingGrants
    ensures r.Ok? && r.value.allocation.Delegated? ==> r.value.allocator == a
    ensures r.Ok? && r.value.allocation.Served? ==> ServedFrom(a, l, base, r.value)
  {
    PadToAlignValid(l);
    match RouteOf(a.maxSize, l)
    case Refuse => Err(AllocError)
    case Backing => if backingGrants then Ok(Allocated(a, Delegated)) else Err(AllocError)
    case ToSlabs => SlabPath(a, l, base, allocates)
  }

  /** `deallocate` looks for a slab with room on its free list, the same
      layout, and a span and alignment that accept the address. */
  predicate Accepts(s: Slab, l: Layout, ptr: nat)
    requires s.layout.align > 0
  {
    Remaining(s) < s.capacity && s.layout == l && InSpan(s, ptr) && ptr % s.layout.align == 0
  }

  /** The first accepting slab from j on. */
  function FindAccepting(slabs: seq<Slab>, l: Layout, ptr: nat, j: nat): (r: Option<nat>)
    requires SlabsValid(slabs) && j <= |slabs|
    ensures r.Some? ==> j <= r.value < |slabs| && Accepts(slabs[r.value], l, ptr)
    ensures r.None? <==> forall k :: j <= k < |slabs| ==> !Accepts(slabs[k], l, ptr)
    decreases |slabs| - j
  {
    if j == |slabs| then None
    else if Accepts(slabs[j], l, ptr) then Some(j)
    else FindAccepting(slabs, l, ptr, j + 1)
  }

  /** An item of slab j of the layout that is handed out: carved, and not
      on the free list. */
  predicate HandedOut(slabs: seq<Slab>, j: nat, ptr: nat, l: Layout)
    requires SlabsValid(slabs)
  {
    j < |slabs| && slabs[j].layout == l && IsCarved(slabs[j], Item(ptr, l.size))
    && Item(ptr, l.size) !in slabs[j].items
  }

  /** What `deallocate` needs of its caller: a slab-routed address is an
      item handed out by the first slab that accepts it, so the search's
      `unwrap` succeeds. */
  predicate CanDeallocate(a: SlabAllocator, ptr: nat, l: Layout)
  {
    SlabsValid(a.slabs) && Layouts.Valid(l)
    && (PadToAlignValid(l);
        RouteOf(a.maxSize, l) != Backing ==>
          FindAccepting(a.slabs, l, ptr, 0).Some?
          && HandedOut(a.slabs, FindAccepting(a.slabs, l, ptr, 0).value, ptr, l))
  }

  datatype Freed = ToBacking | ToSlab(allocator: SlabAllocator, slab: nat)

  /** `deallocate`, with the routing of the corrected `allocate`: large
      layouts go back to the backing allocator, the rest back on the free
      list of the slab that accepts the address. */
  function Deallocate(a: SlabAllocator, ptr: nat, l: Layout): (r: Freed)
    requires CanDeallocate(a, ptr, l)
    ensures r.ToBacking? <==> RouteOf(a.maxSize, l) == Backing
    ensures r.ToSlab? ==>
      var j := r.slab;
      var slabs := r.allocator.slabs;
      SlabsValid(slabs) && r.allocator.maxSize == a.maxSize
      && j < |slabs| == |a.slabs| && HandedOut(a.slabs, j, ptr, l)
      && slabs[j].items == a.slabs[j].items + [Item(ptr, l.size)]
      && Remaining(slabs[j]) == Remaining(a.slabs[j]) + 1
      && (forall k :: 0 <= k < |a.slabs| && k != j ==> slabs[k] == a.slabs[k])
  {
    PadToAlignValid(l);
    if RouteOf(a.maxSize, l) == Backing then ToBacking
    else
      var j := FindAccepting(a.slabs, l, ptr, 0).value;
      ReturnItemValid(a.slabs[j], ptr, false);
      var after := a.slabs[j := ReturnItem(a.slabs[j], ptr, false).value];
      assert forall k :: 0 <= k < |after| ==> after[k].memory == a.slabs[k].memory;
      ToSlab(a.(slabs := after), j)
  }

  /** A handed-out item is found by the search: its slab has room, and no
      earlier slab's span holds the address. */
  lemma HandedOutIsAccepted(slabs: seq<Slab>, j: nat, ptr: nat, l: Layout)
    requires SlabsValid(slabs) && HandedOut(slabs, j, ptr, l)
    ensures FindAccepting(slabs, l, ptr, 0) == Some(j)
  {
    var it := Item(ptr, l.size);
    HandedLeavesRoom(slabs[j], it);
    CarvedFacts(slabs[j], it);
    assert Accepts(slabs[j], l, ptr);
    forall k | 0 <= k < |slabs| && k != j
      ensures !InSpan(slabs[k], ptr)
    {
      if k < j {
        assert Apart(slabs[k].memory, slabs[j].memory);
      } else {
        assert Apart(slabs[j].memory, slabs[k].memory);
      }
    }
    FindAcceptingUnique(slabs, l, ptr, j, 0);
  }

  lemma {:induction false} FindAcceptingUnique(slabs: seq<Slab>, l: Layout, ptr: nat, j: nat, i: nat)
    requires SlabsValid(slabs) && i <= j < |slabs| && Accepts(slabs[j], l, ptr)
    requires forall k :: 0 <= k < |slabs| && k != j ==> !InSpan(slabs[k], ptr)
    ensures FindAccepting(slabs, l, ptr, i) == Some(j)
    decreases j - i
  {
    if i < j {
      FindAcceptingUnique(slabs, l, ptr, j, i + 1);
    }
  }

  /** Giving back the item just taken from slab j restores the slabs. */
  lemma TakeThenGiveBack(a: SlabAllocator, j: nat, l: Layout)
    requires SlabsValid(a.slabs) && Layouts.Valid(l) && j < |a.slabs| && Reusable(a.slabs[j], l)
    requires RouteOf(a.maxSize, l) == ToSlabs
    ensures var r := TakeFrom(a, j);
            CanDeallocate(r.allocator, r.allocation.item.start, l)
            && Deallocate(r.allocator, r.allocation.item.start, l) == ToSlab(a, j)
  {
    var r := TakeFrom(a, j);
    var it := r.allocation.item;
    var slabs := r.allocator.slabs;
    CarvedFacts(a.slabs[j], it);
    assert IsCarved(slabs[j], it);
    HandedOutIsAccepted(slabs, j, it.start, l);
    TakeThenReturn(a.slabs[j], false);
    assert slabs[j := ReturnItem(slabs[j], it.start, false).value] == a.slabs;
  }

  /** Freeing an item right after allocating it gives back the slabs as
      they were, with any slab the allocation opened left in place. */
  lemma AllocateThenDeallocate(a: SlabAllocator, l: Layout, base: nat, allocates: bool, backingGrants: bool)
    requires SlabsValid(a.slabs) && Layouts.Valid(l) && FreshSpan(a.slabs, base, l)
    requires Allocate(a, l, base, allocates, backingGrants).Ok? && Allocate(a, l, base, allocates, backingGrants).value.allocation.Served?
    ensures l.size > 0
    ensures var r := Allocate(a, l, base, allocates, backingGrants).value;
            CanDeallocate(r.allocator, r.allocation.item.start, l)
            && Deallocate(r.allocator, r.allocation.item.start, l)
               == ToSlab(SlabAllocator(Source(a, l, base), a.maxSize), r.allocation.slab)
  {
    PadToAlignValid(l);
    match FindReusable(a.slabs, l, 0)
    case Some(j) =>
      TakeThenGiveBack(a, j, l);
    case None =>
      TakeThenGiveBack(a.(slabs := WithNewSlab(a.slabs, l, base)), |a.slabs|, l);
  }
}

=== FILE: task.dfy ===
/** Task loading: the permissions an ELF segment is mapped with, and the
    stack constants below the lowest load address. */
module Task {
  import opened KernelPte

  /** `libsys::MIBIBYTE` and `page_size()` (libsys is not part of this
      model; they are 1 MiB and 4 KiB). */
  const MIBIBYTE: nat := 0x10_0000
  const PAGE_SIZE: nat := 0x1000

  /** The user stack sits right above the null page, one mebibyte less a
      page long, and code is loaded above it. */
  const STACK_SIZE: nat := MIBIBYTE - PAGE_SIZE
  const STACK_PAGES: nat := STACK_SIZE / PAGE_SIZE
  const STACK_START: nat := PAGE_SIZE
  const MIN_LOAD_OFFSET: nat := STACK_START + STACK_SIZE

  /** The stack is a whole number of pages, starts after the null page,
      and ends exactly at the lowest load address, one mebibyte. */
  lemma StackLayout()
    ensures STACK_SIZE > 0 && STACK_PAGES > 0 && STACK_PAGES * PAGE_SIZE == STACK_SIZE
    ensures STACK_START > 0 && STACK_START % PAGE_SIZE == 0
    ensures MIN_LOAD_OFFSET == MIBIBYTE && MIN_LOAD_OFFSET % PAGE_SIZE == 0
  {
  }

  /** The bits `segment_to_mmap_permissions` reads from the word it is
      given (`segment_ty`): execute is bit 0, write is bit 1. They are the
      execute and write bits of an ELF `p_flags` word. */
  const PT_FLAG_EXEC_BIT: bv32 := 0x1
  const PT_FLAG_WRITE_BIT: bv32 := 0x2

  datatype MmapPermissions = ReadExecute | ReadWrite | ReadOnly

  /** A segment both writable and executable is refused with a panic. */
  predicate NotWriteExecute(segmentTy: bv32)
  {
    segmentTy & PT_FLAG_WRITE_BIT == 0 || segmentTy & PT_FLAG_EXEC_BIT == 0
  }

  /** `segment_to_mmap_permissions`. */
  function SegmentPermissions(segmentTy: bv32): (r: MmapPermissions)
    requires NotWriteExecute(segmentTy)
    ensures r == ReadWrite <==> segmentTy & PT_FLAG_WRITE_BIT != 0
    ensures r == ReadExecute <==> segmentTy & PT_FLAG_EXEC_BIT != 0
    ensures r == ReadOnly <==> segmentTy & (PT_FLAG_WRITE_BIT | PT_FLAG_EXEC_BIT) == 0
  {
    var write := segmentTy & PT_FLAG_WRITE_BIT != 0;
    var exec := segmentTy & PT_FLAG_EXEC_BIT != 0;
    if write then ReadWrite else if exec then ReadExecute else ReadOnly
  }

  /** `From<MmapPermissions> for TableEntryFlags`. */
  function PermissionFlags(p: MmapPermissions): (r: bv64)
    ensures r & PRESENT != 0
    ensures r & WRITABLE != 0 <==> p == ReadWrite
    ensures r & NO_EXECUTE == 0 <==> p == ReadExecute
  {
    match p
    case ReadExecute => RX
    case ReadWrite => RW
    case ReadOnly => RO
  }

  /** The page attributes chosen for a word are writable exactly when its
      write bit is set, executable exactly when its execute bit is set, and
      never both. */
  lemma SegmentPagesFollowFlags(segmentTy: bv32)
    requires NotWriteExecute(segmentTy)
    ensures var f := PermissionFlags(SegmentPermissions(segmentTy));
            (f & WRITABLE != 0 <==> segmentTy & PT_FLAG_WRITE_BIT != 0)
            && (f & NO_EXECUTE == 0 <==> segmentTy & PT_FLAG_EXEC_BIT != 0)
            && (f & WRITABLE == 0 || f & NO_EXECUTE != 0)
  {
  }

  /** `PT_LOAD`, the program header type of a loadable segment, and the
      read bit of `p_flags`, as the System V ABI's ELF format defines them. */
  const PT_LOAD: bv32 := 1
  const PF_R: bv32 := 0x4

  /** The two program header fields the attributes of a demand-mapped page
      can depend on. */
  datatype Segment = Segment(pType: bv32, pFlags: bv32)

  /** The attributes `demand_map` gives the faulting page of a loadable
      segment, as written: it hands the segment's type word to
      `segment_to_mmap_permissions`, so every page comes out user-accessible
      read-execute, whatever the segment's flags. */
  function DemandMapAttributesAsWritten(seg: Segment): (r: bv64)
    requires seg.pType == PT_LOAD
    ensures r == PRESENT | USER | RX
    ensures r & WRITABLE == 0 && r & NO_EXECUTE == 0
  {
    PRESENT | USER | PermissionFlags(SegmentPermissions(seg.pType))
  }

  /** Corrected: the attributes follow the segment's flag word, as the
      kernel's own image is mapped. The page is present and user-accessible,
      writable exactly when the segment is and executable exactly when the
      segment is. */
  function DemandMapAttributes(seg: Segment): (r: bv64)
    requires NotWriteExecute(seg.pFlags)
    ensures r & PRESENT != 0 && r & USER != 0
    ensures r & WRITABLE != 0 <==> seg.pFlags & PT_FLAG_WRITE_BIT != 0
    ensures r & NO_EXECUTE == 0 <==> seg.pFlags & PT_FLAG_EXEC_BIT != 0
  {
    PRESENT | USER | PermissionFlags(SegmentPermissions(seg.pFlags))
  }

  /** As written, a loadable read-write data segment is demand-mapped
      read-only and executable; its flag word asks for writable and
      non-executable pages. */
  lemma DemandMapAsWrittenIgnoresFlags()
    ensures var data := Segment(PT_LOAD, PF_R | PT_FLAG_WRITE_BIT);
            DemandMapAttributesAsWritten(data) & WRITABLE == 0
            && DemandMapAttributesAsWritten(data) & NO_EXECUTE == 0
            && DemandMapAttributes(data) & WRITABLE != 0
            && DemandMapAttributes(data) & NO_EXECUTE != 0
  {
  }
}

=== FILE: uart.dfy ===
/** The 16550-style serial port driver: its register encodings (line
    control, FIFO control, the divisor latch), the register-offset
    addressing of port-mapped and memory-mapped UARTs, and the
    initialisation sequence, played against a model of the UART's
    registers. Register values are 8-bit bit-vectors. */
module Uart {
  import opened Wrappers
  import opened Words

  // ----- addresses --------------------------------------------------------------

  datatype UartAddress = Io(port: u16) | Mmio(ptr: usize)

  const COM1: UartAddress := Io(0x3F8)
  const COM2: UartAddress := Io(0x2F8)
  const COM3: UartAddress := Io(0x3E8)
  const COM4: UartAddress := Io(0x2E8)

  /** The register offsets the driver reads. */
  datatype ReadOffset = RData0 | RData1 | RInterruptIdent | RLineControl | RModemControl | RLineStatus | RModemStatus

  /** The register offsets the driver writes. */
  datatype WriteOffset = WData0 | WData1 | WFifoControl | WLineControl | WModemControl

  function ReadOffsetValue(o: ReadOffset): (r: nat)
    ensures r <= 6
  {
    match o
    case RData0 => 0 case RData1 => 1 case RInterruptIdent => 2 case RLineControl => 3
    case RModemControl => 4 case RLineStatus => 5 case RModemStatus => 6
  }

  function WriteOffsetValue(o: WriteOffset): (r: nat)
    ensures r <= 4
  {
    match o
    case WData0 => 0 case WData1 => 1 case WFifoControl => 2 case WLineControl => 3
    case WModemControl => 4
  }

  /** Where a register access goes. */
  datatype Target = Port(port: int) | Memory(addr: int)

  /** `read` / `write` as written: a memory-mapped access adds the offset
      to the base, but a port access uses the base port whatever the
      offset. */
  function RegisterTargetAsWritten(a: UartAddress, offset: nat): (l: Target)
    ensures a.Io? ==> l == Port(a.port)
    ensures a.Mmio? ==> l == Memory(a.ptr + offset)
  {
    match a
    case Io(port) => Port(port)
    case Mmio(ptr) => Memory(ptr + offset)
  }

  /** The addressing a 16550 needs: both kinds of access add the register
      offset to the base. */
  function RegisterTarget(a: UartAddress, offset: nat): (l: Target)
    ensures l.Port? <==> a.Io?
    ensures l.Port? ==> l.port - a.port == offset
    ensures l.Memory? ==> l.addr - a.ptr == offset
  {
    match a
    case Io(port) => Port(port + offset)
    case Mmio(ptr) => Memory(ptr + offset)
  }

  /** As written, every register of a port-mapped UART is reached at its
      data port: on COM1 the line-control write lands on port 0x3F8, where
      the corrected addressing reaches 0x3FB; distinct registers reach
      distinct ports once corrected. */
  lemma PortOffsetIgnored(o: WriteOffset, p: WriteOffset)
    ensures RegisterTargetAsWritten(COM1, WriteOffsetValue(WLineControl)) == Port(0x3F8)
    ensures RegisterTarget(COM1, WriteOffsetValue(WLineControl)) == Port(0x3FB)
    ensures RegisterTargetAsWritten(COM1, WriteOffsetValue(o)) == RegisterTargetAsWritten(COM1, WriteOffsetValue(p))
    ensures o != p ==> RegisterTarget(COM1, WriteOffsetValue(o)) != RegisterTarget(COM1, WriteOffsetValue(p))
  {
  }

  // ----- line control -----------------------------------------------------------

  datatype DataBits = Five | Six | Seven | Eight
  datatype ParityMode = NoParity | Odd | Even | High | Low
  datatype FifoSize = Four | EightBytes | Fourteen

  function DataBitsCode(b: DataBits): (r: bv8)
    ensures r <= 3
  {
    match b
    case Five => 0 case Six => 1 case Seven => 2 case Eight => 3
  }

  function ParityCode(p: ParityMode): (r: bv8)
    ensures r <= 7 && r != 2 && r != 4 && r != 6
  {
    match p
    case NoParity => 0 case Odd => 1 case Even => 3 case High => 5 case Low => 7
  }

  function FifoSizeCode(s: FifoSize): (r: bv8)
    ensures 1 <= r <= 3
  {
    match s
    case Four => 1 case EightBytes => 2 case Fourteen => 3
  }

  /** `LineControl { bits, parity, extra_stop, break_signal }`. */
  datatype LineControl = LineControl(bits: DataBits, parity: ParityMode, extraStop: bool, breakSignal: bool)

  /** `LineControl::empty`. */
  const EMPTY: LineControl := LineControl(Five, NoParity, false, false)

  /** The fields of a line-control register image. */
  function DataBitsField(raw: bv8): bv8 { raw & 3 }
  function ParityField(raw: bv8): bv8 { (raw >> 3) & 7 }
  predicate ExtraStopBit(raw: bv8) { raw & 0x04 != 0 }
  predicate BreakBit(raw: bv8) { raw & 0x40 != 0 }
  predicate DlabBit(raw: bv8) { raw & 0x80 != 0 }

  /** `LineControl::as_u8`: data bits in bits 0..2, the extra stop bit at
      2, parity in 3..6, break at 6; bit 7 (the divisor latch access bit)
      is clear. */
  function LineControlByte(lc: LineControl): (r: bv8)
    ensures DataBitsField(r) == DataBitsCode(lc.bits) && ParityField(r) == ParityCode(lc.parity)
    ensures ExtraStopBit(r) == lc.extraStop && BreakBit(r) == lc.breakSignal
    ensures !DlabBit(r)
  {
    DataBitsCode(lc.bits) | (if lc.extraStop then 0x04 else 0) | (ParityCode(lc.parity) << 3)
    | (if lc.breakSignal then 0x40 else 0)
  }

  /** The parity codes `read_line_control` decodes; any other code reaches
      `unimplemented!`. */
  predicate DecodableParity(raw: bv8)
  {
    var p := ParityField(raw);
    p == 0 || p == 1 || p == 3 || p == 5 || p == 7
  }

  function DataBitsFrom(raw: bv8): (b: DataBits)
    ensures DataBitsCode(b) == DataBitsField(raw)
  {
    var c := DataBitsField(raw);
    if c == 0 then Five else if c == 1 then Six else if c == 2 then Seven else Eight
  }

  /** The parity decoding as written: code 0b111 decodes to `High`. */
  function ParityFromAsWritten(raw: bv8): (p: ParityMode)
    requires DecodableParity(raw)
    ensures ParityField(raw) != 7 ==> ParityCode(p) == ParityField(raw)
    ensures ParityField(raw) == 7 ==> p == High
  {
    var c := ParityField(raw);
    if c == 0 then NoParity else if c == 1 then Odd else if c == 3 then Even else High
  }

  /** The decoding that inverts `as_u8`: code 0b111 is `Low`. */
  function ParityFrom(raw: bv8): (p: ParityMode)
    requires DecodableParity(raw)
    ensures ParityCode(p) == ParityField(raw)
  {
    var c := ParityField(raw);
    if c == 0 then NoParity else if c == 1 then Odd else if c == 3 then Even
    else if c == 5 then High else Low
  }

  /** `read_line_control` as written. */
  function DecodeLineControlAsWritten(raw: bv8): (lc: LineControl)
    requires DecodableParity(raw)
    ensures lc.bits == DataBitsFrom(raw) && lc.parity == ParityFromAsWritten(raw)
    ensures lc.extraStop == ExtraStopBit(raw) && lc.breakSignal == BreakBit(raw)
  {
    LineControl(DataBitsFrom(raw), ParityFromAsWritten(raw), ExtraStopBit(raw), BreakBit(raw))
  }

  /** `read_line_control` with the corrected parity decoding. */
  function DecodeLineControl(raw: bv8): (lc: LineControl)
    requires DecodableParity(raw)
    ensures LineControlByte(lc) == raw & 0x7F
  {
    var lc := LineControl(DataBitsFrom(raw), ParityFrom(raw), ExtraStopBit(raw), BreakBit(raw));
    LineControlFields(LineControlByte(lc), raw);
    lc
  }

  /** Two line-control images with the same fields agree below bit 7. */
  lemma LineControlFields(x: bv8, raw: bv8)
    requires !DlabBit(x) && DataBitsField(x) == DataBitsField(raw) && ParityField(x) == ParityField(raw)
    requires ExtraStopBit(x) == ExtraStopBit(raw) && BreakBit(x) == BreakBit(raw)
    ensures x == raw & 0x7F
  {
  }

  /** Encoding then decoding gives every line control back; the decoding as
      written turns low parity into high parity and keeps everything else. */
  lemma LineControlRoundTrip(lc: LineControl)
    ensures DecodableParity(LineControlByte(lc))
    ensures DecodeLineControl(LineControlByte(lc)) == lc
    ensures DecodeLineControlAsWritten(LineControlByte(lc))
      == if lc.parity.Low? then lc.(parity := High) else lc
  {
    var raw := LineControlByte(lc);
    assert DecodeLineControl(raw).parity == lc.parity;
    assert DecodeLineControl(raw).bits == lc.bits;
  }

  // ----- other registers ----------------------------------------------------------

  /** `enable_fifo`: bit 0 always set, the clear and DMA flags in bits 1..4,
      the trigger size in bits 6..8. */
  function FifoControlByte(clearRx: bool, clearTx: bool, dma: bool, size: FifoSize): (r: bv8)
    ensures r & 1 == 1 && r & 0x30 == 0
    ensures (r & 0x02 != 0) == clearRx && (r & 0x04 != 0) == clearTx && (r & 0x08 != 0) == dma
    ensures r >> 6 == FifoSizeCode(size)
  {
    1 | (if clearRx then 0x02 else 0) | (if clearTx then 0x04 else 0) | (if dma then 0x08 else 0)
    | (FifoSizeCode(size) << 6)
  }

  /** `from_bits_truncate` for the modem-control and interrupt-enable
      flags, which define five and six bits. */
  function ModemControlFlags(raw: bv8): (r: bv8)
    ensures r <= 0x1F && r | (raw & 0xE0) == raw
  {
    raw & 0x1F
  }

  function InterruptEnableFlags(raw: bv8): (r: bv8)
    ensures r <= 0x3F && r | (raw & 0xC0) == raw
  {
    raw & 0x3F
  }

  const TERMINAL_READY: bv8 := 0x01
  const REQUEST_TO_SEND: bv8 := 0x02
  const AUXILIARY_OUTPUT_1: bv8 := 0x04
  const AUXILIARY_OUTPUT_2: bv8 := 0x08
  const LOOPBACK_MODE: bv8 := 0x10
  const TRANSMIT_EMPTY: bv8 := 0x02

  // ----- baud rates and the divisor latch -------------------------------------

  datatype Baud = B115200 | B57600 | B38400 | B19200 | B9600 | B4800 | B2400 | B1200 | B300 | B50

  /** The divisor of each rate. */
  function BaudDivisor(b: Baud): (d: bv16)
    ensures d != 0
  {
    match b
    case B115200 => 1 case B57600 => 2 case B38400 => 3 case B19200 => 6 case B9600 => 12
    case B4800 => 24 case B2400 => 48 case B1200 => 96 case B300 => 384 case B50 => 2304
  }

  /** The rate each variant names, in bits per second: the UART's 115200
      Hz base clock divided by the variant's divisor. */
  function BaudRate(b: Baud): (r: nat)
    ensures r * BaudDivisor(b) as int == 115200
  {
    match b
    case B115200 => 115200 case B57600 => 57600 case B38400 => 38400 case B19200 => 19200
    case B9600 => 9600 case B4800 => 4800 case B2400 => 2400 case B1200 => 1200
    case B300 => 300 case B50 => 50
  }

  /** `get_baud`: the rate whose divisor the latch holds, or `None` where
      the source reaches `unimplemented!`. */
  function BaudFromDivisor(d: bv16): (r: Option<Baud>)
    ensures r.Some? ==> BaudDivisor(r.value) == d
    ensures (exists b :: BaudDivisor(b) == d) ==> r.Some?
  {
    if d == 1 then Some(B115200) else if d == 2 then Some(B57600)
    else if d == 3 then Some(B38400) else if d == 6 then Some(B19200)
    else if d == 12 then Some(B9600) else if d == 24 then Some(B4800)
    else if d == 48 then Some(B2400) else if d == 96 then Some(B1200)
    else if d == 384 then Some(B300) else if d == 2304 then Some(B50)
    else None
  }

  /** `write_divisor_latch`: the low byte for Data0, the high byte for
      Data1. */
  function DivisorBytes(v: bv16): (r: (bv8, bv8))
    ensures LatchValue(r.0, r.1) == v
  {
    ((v & 0xFF) as bv8, (v >> 8) as bv8)
  }

  /** `read_divisor_latch`: Data1 above Data0. */
  function LatchValue(low: bv8, high: bv8): bv16
  {
    ((high as bv16) << 8) | (low as bv16)
  }

  /** Reading the two latch bytes back and splitting them again gives the
      same bytes. */
  lemma LatchRoundTrip(low: bv8, high: bv8)
    ensures DivisorBytes(LatchValue(low, high)) == (low, high)
  {
  }

  // ----- the UART's registers ---------------------------------------------------

  /** The registers of a 16550 as this driver sees them. `received` is what
      a read of Data0 returns; `interruptIdent`, `lineStatus` and
      `modemStatus` are set by the device and only read here. */
  datatype Device = Device(
    lineControl: bv8, divisorLow: bv8, divisorHigh: bv8, interruptEnable: bv8,
    fifoControl: bv8, modemControl: bv8, received: bv8,
    interruptIdent: bv8, lineStatus: bv8, modemStatus: bv8)

  /** A register write at an offset. With the divisor latch access bit set,
      offsets 0 and 1 reach the divisor latch; otherwise offset 0 transmits
      (and, in loopback mode, the byte comes straight back) and offset 1 is
      the interrupt-enable register. */
  function Write(d: Device, o: WriteOffset, v: bv8): (r: Device)
    ensures r.lineControl == (if o.WLineControl? then v else d.lineControl)
    ensures r.modemControl == (if o.WModemControl? then v else d.modemControl)
    ensures r.fifoControl == (if o.WFifoControl? then v else d.fifoControl)
    ensures r.interruptEnable == (if o.WData1? && !DlabBit(d.lineControl) then v else d.interruptEnable)
  {
    match o
    case WData0 =>
      if DlabBit(d.lineControl) then d.(divisorLow := v)
      else if d.modemControl & LOOPBACK_MODE != 0 then d.(received := v)
      else d
    case WData1 =>
      if DlabBit(d.lineControl) then d.(divisorHigh := v) else d.(interruptEnable := v)
    case WFifoControl => d.(fifoControl := v)
    case WLineControl => d.(lineControl := v)
    case WModemControl => d.(modemControl := v)
  }

  /** A register read at an offset. */
  function Read(d: Device, o: ReadOffset): bv8
  {
    match o
    case RData0 => if DlabBit(d.lineControl) then d.divisorLow else d.received
    case RData1 => if DlabBit(d.lineControl) then d.divisorHigh else d.interruptEnable
    case RInterruptIdent => d.interruptIdent
    case RLineControl => d.lineControl
    case RModemControl => d.modemControl
    case RLineStatus => d.lineStatus
    case RModemStatus => d.modemStatus
  }

  /** `configure_mode`: rewrite line control with the latch access bit set.
      The current line control must decode (`read_line_control`). */
  function ConfigureMode(d: Device): (r: Device)
    requires DecodableParity(d.lineControl)
    ensures DlabBit(r.lineControl) && r.lineControl & 0x7F == d.lineControl & 0x7F
    ensures r == d.(lineControl := r.lineControl)
  {
    var lc := DecodeLineControl(Read(d, RLineControl));
    Write(d, WLineControl, LineControlByte(lc) | 0x80)
  }

  /** `data_mode`: rewrite line control from its decoding, which clears the
      latch access bit. */
  function DataMode(d: Device): (r: Device)
    requires DecodableParity(d.lineControl)
    ensures !DlabBit(r.lineControl) && r.lineControl == d.lineControl & 0x7F
    ensures r == d.(lineControl := r.lineControl)
  {
    Write(d, WLineControl, LineControlByte(DecodeLineControl(Read(d, RLineControl))))
  }

  /** `data_mode` as written, through the decoding as written. */
  function DataModeAsWritten(d: Device): (r: Device)
    requires DecodableParity(d.lineControl)
    ensures !DlabBit(r.lineControl)
    ensures r == d.(lineControl := r.lineControl)
  {
    Write(d, WLineControl, LineControlByte(DecodeLineControlAsWritten(Read(d, RLineControl))))
  }

  /** A round trip through the configuration mode keeps the line control;
      as written, a line configured for low parity comes back with high
      parity. */
  lemma ModeSwitchKeepsLineControl(d: Device, lc: LineControl)
    requires d.lineControl == LineControlByte(lc)
    ensures DecodableParity(ConfigureMode(d).lineControl)
    ensures DataMode(ConfigureMode(d)) == d
    ensures lc.parity.Low? ==>
      DecodeLineControl(DataModeAsWritten(ConfigureMode(d)).lineControl).parity == High
  {
    LineControlRoundTrip(lc);
    var c := ConfigureMode(d);
    assert ParityField(c.lineControl) == ParityField(d.lineControl);
    if lc.parity.Low? {
      var w := DecodeLineControlAsWritten(c.lineControl);
      assert w.parity == High;
      LineControlRoundTrip(w);
    }
  }

  /** `set_baud` (in configuration mode): both latch bytes. */
  function SetBaud(d: Device, b: Baud): (r: Device)
    requires DlabBit(d.lineControl)
    ensures LatchValue(Read(r, RData0), Read(r, RData1)) == BaudDivisor(b)
    ensures BaudFromDivisor(LatchValue(Read(r, RData0), Read(r, RData1))) == Some(b)
    ensures r.lineControl == d.lineControl && r.interruptEnable == d.interruptEnable
  {
    var (low, high) := DivisorBytes(BaudDivisor(b));
    Write(Write(d, WData0, low), WData1, high)
  }

  /** `init_uart` on a device whose line control the driver can decode:
      reset line control and interrupts, program the divisor for the rate,
      select 8 data bits without parity, enable the FIFOs, run the loopback
      self-test, then enable the modem lines and the transmit interrupt.
      The result is `None` where the self-test's `assert_eq!` would fail. */
  function InitUart(d: Device, b: Baud): (r: Option<Device>)
    ensures r.Some?
    ensures r.Some? ==>
      r.value.lineControl == 0x03 && DecodeLineControl(r.value.lineControl) == LineControl(Eight, NoParity, false, false)
    ensures r.Some? ==> LatchValue(r.value.divisorLow, r.value.divisorHigh) == BaudDivisor(b)
    ensures r.Some? ==> r.value.fifoControl == 0xC7 && r.value.modemControl == 0x0F
    ensures r.Some? ==> r.value.interruptEnable == TRANSMIT_EMPTY
  {
    var d1 := Write(d, WLineControl, LineControlByte(EMPTY));
    var d2 := Write(d1, WData1, 0);
    var d3 := ConfigureMode(d2);
    var d4 := SetBaud(d3, b);
    var d5 := DataMode(d4);
    var d6 := Write(d5, WLineControl, LineControlByte(LineControl(Eight, NoParity, false, false)));
    var d7 := Write(d6, WFifoControl, FifoControlByte(true, true, false, Fourteen));
    var d8 := Write(d7, WModemControl, REQUEST_TO_SEND | AUXILIARY_OUTPUT_1 | AUXILIARY_OUTPUT_2 | LOOPBACK_MODE);
    var d9 := Write(d8, WData0, 0x1F);
    if Read(d9, RData0) != 0x1F then None
    else
      var d10 := Write(d9, WModemControl, TERMINAL_READY | REQUEST_TO_SEND | AUXILIARY_OUTPUT_1 | AUXILIARY_OUTPUT_2);
      var d11 := Write(d10, WData1, TRANSMIT_EMPTY);
      assert LatchValue(d11.divisorLow, d11.divisorHigh) == LatchValue(Read(d4, RData0), Read(d4, RData1));
      LineControlRoundTrip(LineControl(Eight, NoParity, false, false));
      Some(d11)
  }
}

=== FILE: words.dfy ===
/** Machine-word ranges shared by the model. Addresses, indices and counts
    are unbounded integers kept inside these ranges; register images that
    are only ever masked and shifted are bit-vectors instead. */
module Words {
  type u8 = x: int | 0 <= x < 0x100
  type u16 = x: int | 0 <= x < 0x1_0000
  type u32 = x: int | 0 <= x < 0x1_0000_0000
  type u64 = x: int | 0 <= x < 0x1_0000_0000_0000_0000

  /** `usize` on the 64-bit targets the kernel runs on. */
  type usize = u64

  const U64_MAX: int := 0xFFFF_FFFF_FFFF_FFFF

  /** `isize::MAX`: the largest size a `Layout` accepts. */
  const ISIZE_MAX: int := 0x7FFF_FFFF_FFFF_FFFF

  /** 2 to the power `n`. */
  function Pow2(n: nat): (r: nat)
    ensures r >= 1
  {
    if n == 0 then 1 else 2 * Pow2(n - 1)
  }

  /** Powers of two, as `usize::is_power_of_two` tests them. */
  predicate IsPowerOfTwo(x: int)
    decreases if x > 0 then x else 0
  {
    x == 1 || (x > 1 && x % 2 == 0 && IsPowerOfTwo(x / 2))
  }

  /** Every 2^n is a power of two. */
  lemma {:induction false} Pow2IsPowerOfTwo(n: nat)
    ensures IsPowerOfTwo(Pow2(n))
  {
    if n > 0 {
      Pow2IsPowerOfTwo(n - 1);
    }
  }

  /** Exponents add: 2^(a+b) = 2^a · 2^b. */
  lemma {:induction false} Pow2Add(a: nat, b: nat)
    ensures Pow2(a + b) == Pow2(a) * Pow2(b)
  {
    if a > 0 {
      Pow2Add(a - 1, b);
    }
  }

  /** 2^64, the size of the u64 range. */
  lemma Pow2Of64()
    ensures Pow2(64) == 0x1_0000_0000_0000_0000
  {
    Pow2Of16();
    Pow2Add(16, 16);
    Pow2Add(32, 32);
  }

  /** 2^16. */
  lemma Pow2Of16()
    ensures Pow2(16) == 0x1_0000
  {
    assert Pow2(2) == 4;
    Pow2Add(2, 2);
    Pow2Add(4, 4);
    Pow2Add(8, 8);
  }

  /** 2^n grows with n. */
  lemma {:induction false} Pow2Monotone(a: nat, b: nat)
    requires a <= b
    ensures Pow2(a) <= Pow2(b)
  {
    if a < b {
      Pow2Monotone(a, b - 1);
    }
  }

  /** Quotient and remainder are determined by x = q·a + r with 0 ≤ r < a. */
  lemma DivModUnique(x: int, a: int, q: int, r: int)
    requires a > 0 && 0 <= r < a && x == q * a + r
    ensures x / a == q && x % a == r
  {
    var d := q - x / a;
    assert d * a == x % a - r;
    MulAwayFromZero(d, a);
  }

  /** A nonzero multiple of a positive a is at least a away from zero. */
  lemma MulAwayFromZero(d: int, a: int)
    requires a > 0
    ensures d >= 1 ==> d * a >= a
    ensures d <= -1 ==> d * a <= -a
  {
    if d >= 1 {
      assert d * a == (d - 1) * a + a;
    } else if d <= -1 {
      assert d * a == (d + 1) * a - a;
    }
  }

  /** Adding k multiples of a leaves the remainder and adds k to the quotient. */
  lemma ModAddMultiple(x: int, k: int, a: int)
    requires a > 0
    ensures (x + k * a) % a == x % a
    ensures (x + k * a) / a == x / a + k
  {
    DivModUnique(x + k * a, a, x / a + k, x % a);
  }

  /** Counting modulo m one step at a time agrees with counting and then
      reducing. */
  lemma ModSucc(x: int, m: int)
    requires m > 0
    ensures (x % m + 1) % m == (x + 1) % m
  {
    ModAddMultiple(x % m + 1, x / m, m);
  }

  /** Two distinct multiples of a lie at least a apart. */
  lemma MultiplesApart(x: int, y: int, a: int)
    requires a > 0 && x % a == 0 && y % a == 0 && x < y
    ensures x + a <= y
  {
    var d := y / a - x / a;
    assert y - x == d * a;
    MulAwayFromZero(d, a);
  }

  // ----- next_power_of_two -----------------------------------------------

  /** The exponent of the least power of two that is at least c. */
  function CeilLog2(c: nat): nat
    decreases c
  {
    if c <= 1 then 0 else 1 + CeilLog2((c + 1) / 2)
  }

  /** `usize::next_power_of_two`: the least power of two at least c (1 for
      0 and 1). */
  function NextPowerOfTwo(c: nat): (r: nat)
  {
    Pow2(CeilLog2(c))
  }

  /** The result is a power of two, at least c, and the least such: half
      of it is below c. */
  lemma {:induction false} NextPowerOfTwoLeast(c: nat)
    ensures IsPowerOfTwo(NextPowerOfTwo(c))
    ensures NextPowerOfTwo(c) >= c
    ensures CeilLog2(c) == 0 || Pow2(CeilLog2(c) - 1) < c
    decreases c
  {
    Pow2IsPowerOfTwo(CeilLog2(c));
    if c > 1 {
      var m := (c + 1) / 2;
      NextPowerOfTwoLeast(m);
    }
  }

  /** A power of two is its own next power of two. */
  lemma {:induction false} NextPowerOfTwoFixed(n: nat)
    ensures NextPowerOfTwo(Pow2(n)) == Pow2(n)
  {
    if n > 0 {
      NextPowerOfTwoFixed(n - 1);
      assert (Pow2(n) + 1) / 2 == Pow2(n - 1);
    }
  }

  /** Below 2^63 the next power of two fits in a `usize`; above it the
      source's `next_power_of_two` overflows. */
  predicate PowerOfTwoFits(c: nat) { c <= 0x8000_0000_0000_0000 }

  /** The next power of two of c is below 2c (for c ≥ 1) and at most 2^63
      when c is. */
  lemma PowerOfTwoBound(c: nat)
    requires PowerOfTwoFits(c)
    ensures c >= 1 ==> NextPowerOfTwo(c) < 2 * c
    ensures NextPowerOfTwo(c) <= 0x8000_0000_0000_0000
  {
    NextPowerOfTwoLeast(c);
    Pow2Of63();
    var e := CeilLog2(c);
    if e > 0 {
      assert Pow2(e) == 2 * Pow2(e - 1);
      if e - 1 >= 63 {
        Pow2Monotone(63, e - 1);
      }
      Pow2Monotone(e, 63);
    }
  }

  lemma Pow2Of63()
    ensures Pow2(63) == 0x8000_0000_0000_0000
  {
    Pow2Of64();
  }

  // ----- Powers of two as numbers ------------------------------------------

  /** One power of two divides every larger one. */
  lemma {:induction false} PowerOfTwoDivides(a: int, b: int)
    requires IsPowerOfTwo(a) && IsPowerOfTwo(b) && a <= b
    ensures b % a == 0
    decreases b
  {
    if a > 1 {
      PowerOfTwoDivides(a / 2, b / 2);
      var q := (b / 2) / (a / 2);
      assert b / 2 == q * (a / 2);
      assert b == q * a;
      DivModUnique(b, a, q, 0);
    }
  }

  lemma PowerOfTwoPositive(x: int)
    requires IsPowerOfTwo(x)
    ensures x >= 1
  {
  }

  /** 2^12, the 4 KiB page. */
  lemma Pow2Of12()
    ensures Pow2(12) == 0x1000
  {
    assert Pow2(2) == 4;
    Pow2Add(2, 2);
    Pow2Add(4, 4);
    Pow2Add(4, 8);
  }

  /** For b > 0, a / b reaches k exactly when k·b fits in a. */
  lemma DivAtLeast(a: nat, b: nat, k: nat)
    requires b > 0
    ensures a / b >= k <==> k * b <= a
  {
    var q := a / b;
    DivModUnique(a, b, q, a % b);
    if q >= k {
      MulAwayFromZero(q - k, b);
      assert q * b == k * b + (q - k) * b;
    } else {
      MulAwayFromZero(k - q, b);
      assert k * b == q * b + (k - q) * b;
    }
  }

  /** trailing_zeros: how many times 2 divides a positive x. */
  function TrailingZeros(x: nat): nat
    decreases x
  {
    if x == 0 || x % 2 == 1 then 0 else 1 + TrailingZeros(x / 2)
  }

  /** A power of two is 2 to its trailing-zero count. */
  lemma {:induction false} TrailingZerosOfPowerOfTwo(x: nat)
    requires IsPowerOfTwo(x)
    ensures Pow2(TrailingZeros(x)) == x
    ensures TrailingZeros(x) == 0 <==> x == 1
    decreases x
  {
    if x > 1 {
      TrailingZerosOfPowerOfTwo(x / 2);
    }
  }

  /** A multiple of b is a multiple of every divisor of b. */
  lemma ModOfDivisor(x: nat, a: nat, b: nat)
    requires a > 0 && b > 0 && x % b == 0 && b % a == 0
    ensures x % a == 0
  {
    var k := x / b;
    var q := b / a;
    DivModUnique(b, a, q, 0);
    DivModUnique(x, b, k, 0);
    assert x == (k * q) * a;
    DivModUnique(x, a, k * q, 0);
  }
}

=== FILE: wrappers.dfy ===
/** Failure-compatible return types shared by every module of the model.
    `Option` stands for Rust's `Option`, `Result` for `Result<T, E>`. */
module Wrappers {

  datatype Option<+T> = None | Some(value: T) {
    predicate IsFailure() {
      None?
    }

    function PropagateFailure<U>(): Option<U>
      requires None?
    {
      None
    }

    function Extract(): T
      requires Some?
    {
      value
    }
  }

  datatype Result<+T, +E> = Ok(value: T) | Err(error: E) {
    predicate IsFailure() {
      Err?
    }

    function PropagateFailure<U>(): Result<U, E>
      requires Err?
    {
      Err(error)
    }

    function Extract(): T
      requires Ok?
    {
      value
    }
  }
}
